=== FILE: README.md ===
# Tametsi solvers in Dafny

This project models the two solving engines of a solver for Tametsi, a
minesweeper-like puzzle game, and proves properties of them.

**The region/rule engine of `visualizer.js`.** A *region* says how many
mines a set of cells holds: exactly, at most, at least, "n or n+2", and so
on. Revealed numbered cells and the column/colour hints yield regions. A
table of rules, packed as numbers, is decoded at start-up. Whenever a
region is taken off the priority queue, every rule searches the live
regions for a match. A matching rule then checks the cell counts of the
buckets that the matched regions carve out. If the counts fit, it derives
a new region, or it queues an action: reveal or flag cells, hide regions
or trash them. Revealing or flagging a cell takes it out of every region
that holds it.

The modules follow the program's structure:
- `Kinds`: the region kinds and what each admits.
- `Slots`: the packed rule slots.
- `Assignments`: enumeration of variable assignments.
- `WorkQueue`: the priority queue.
- `EngineState`, `RegionStore`, `CellActions` and `QueueEffects`: cells, regions and their bookkeeping.
- `RuleTable`: loading the rules.
- `RuleSearch`: matching region patterns.
- `SquareCounts`: the bucket check.
- `RuleApply`: applying a rule.
- `Executor`: one step of the engine.

JavaScript objects that are shared by reference are modelled as an arena of
regions indexed by handle. Queue items hold handles, so a region queued
twice sees later changes just as the object would.

**The inequality solver of `TametsiSolver_withPoset.py`.** An inequality
bounds the number of mines among a set of cells. The solver stores
inequalities keyed by cell set (`CellSetDict`), crosses overlapping ones
into finer ones, picks out the trivial ones (all mines or none), and
reduces the rest by the cells these decide. Each revealed safe cell
contributes the exact count of its unresolved neighbours. The modules are:
- `Inequalities`: `CellInequality`: set_bounds, trivial and cross.
- `IneqStore`: the keyed store.
- `Poset`: the store side of `InequalityPoset`: add, remove, find_trivial and reduce.
- `Puzzle`: make_new_inequalities.

`Wrappers` and `SeqUtil` are shared helpers.

Two places in the code do something other than what they evidently mean to
do (see Findings): the variable fixing condition of the square-count check
(`visualizer.js:1017`) and the merge in `add`
(`TametsiSolver_withPoset.py:198-215`). The operations that reach them take a
flag `asWritten`. With `true` they run the code as written; with `false`
they run the corrected behaviour. Every contract and lemma about these
operations holds for both values. So every property below is proved of
the code as written, and it also holds once the code is corrected.

The central properties are soundness properties:
- Every step of the rule engine keeps the board safe (`Executor.StepKeepsSafe`):
  - no mine is revealed;
  - no safe cell is flagged;
  - every shown count stays accurate;
  - every queued mark stays right.
- The rule search proposes only matches, and every match of patterns without variables (`RuleSearch.SearchSound`, `RuleSearch.SearchComplete`).
- Each inequality operation keeps every inequality true of the actual mine placement, and its work on the stores never raises on true input. The graph of `InequalityPoset` is not modelled, and its part of `remove` can raise on true input (see "## Left out"):
  - crossing (`Inequalities.CrossSound`);
  - adding (`Poset.AddSound`);
  - one round of find_trivial and reduce (`Poset.ReduceSound`);
  - generating inequalities from the board (`Puzzle.MakeNewSound`).

## Model

| member | source | states |
|---|---|---|
| Kinds.KindAt | visualizer.js:384-416 | the kind table names indices 0 to 11 (the constraint kinds) and 100, 101 (the two action kinds) and nothing else; an index names an action kind iff it is at least 100 |
| Kinds.IndexOfKind | visualizer.js:401-416 | every kind has a table position below 256 that names it again |
| Kinds.KindTableInjective | visualizer.js:401-416 | the table lists no kind twice: each named index is the position of its kind |
| Kinds.AdmitsShift | visualizer.js:621-624 | moving a constraint's value and its count by the same amount (a resolved mine leaving a region) keeps the constraint's truth |
| Kinds.CheckSquareCount | visualizer.js:1044-1076 | a bucket of n cells passes a pattern iff n is admitted by the pattern's kind and value (WILD always, EXACT n = v, NOT n ≠ v, AT_MOST, AT_LEAST, the "or plus" alternatives, OR_PLUS_2_MULTIPLE n ≥ v with even difference); a NaN value behaves as JavaScript comparisons with NaN do; action kinds raise |
| Kinds.Admits | visualizer.js:1044-1076 | which counts a constraint kind and value admit; `Kinds.CheckSquareCount` states that the square-count comparison passes exactly when `Admits` holds, and `Kinds.AdmitsShift` that a resolved mine leaving a region keeps it |
| Kinds.NatToString | visualizer.js:476-477 | a number's decimal text is non-empty and made of digits |
| Kinds.NatToStringRoundTrip | visualizer.js:476-477 | reading the decimal text back gives the number |
| Kinds.LabelSpellsCounts | visualizer.js:474-499 | for EXACT and the "or plus" kinds the label is the slash-separated list of counts |
| Kinds.LabelCountsAreAdmitted | visualizer.js:474-499 | the counts a label spells out are exactly those the region's kind and value admit |
| Kinds.Label | visualizer.js:474-499 | the label `setRegionLabel` writes; its contract is carried by `Kinds.LabelSpellsCounts` (the slash-separated counts) and `Kinds.LabelCountsAreAdmitted` (exactly the counts the kind and value admit) |
| Slots.ToInt32 | visualizer.js:747-754 | the 32-bit conversion JavaScript's bitwise operators apply lands in the signed 32-bit range and agrees with the number modulo 2^32 |
| Slots.VarsFrom | visualizer.js:739-746 | the inner loop lists, ascending, exactly the set bits from position i to 5 |
| Slots.VarsOfMask | visualizer.js:739-746 | `varBitmasks[mask]` lists, ascending, exactly the set bits 0 to 5 of the mask |
| Slots.DecodeSlot | visualizer.js:747-754 | decoding succeeds iff the kind byte names a table kind and the mask byte is below 64; the value is the low byte, the kind the table's entry and the variables the ascending set bits of the mask byte |
| Slots.FieldsReadLow24Bits | visualizer.js:747-754 | the three fields read only the low 24 bits, so the 32-bit wrap never changes a decoded slot |
| Slots.VarsOfMaskOfVars | visualizer.js:739-746 | the list of a packed ascending variable list is the list again |
| Slots.MaskOfVarsOfMask | visualizer.js:739-746 | packing the variable list of a mask below 64 gives the mask back |
| Slots.EncodeSlot | visualizer.js:747-754 | packing a slot (value byte, kind position, mask) gives a number below 2^24 |
| Slots.DecodeEncode | visualizer.js:747-754 | packing then decoding recovers the slot (value below 256, table kind, variables below 6) |
| Slots.DecodeFields | visualizer.js:747-754 | a number whose fields read v, a kind's position and a mask below 64 decodes to that slot |
| Slots.EncodeDecode | visualizer.js:747-754 | decoding then packing recovers any number below 2^24 that decodes |
| Assignments.Unbound | visualizer.js:818-827 | the pattern variables left to bind are exactly those the existing assignment leaves unbound |
| Assignments.SumsToSound | visualizer.js:829-842 | every assignment `withAllSumsTo` yields extends the input by exactly the remaining variables, bound to naturals summing to the remainder |
| Assignments.LoopSound | visualizer.js:836-840 | the same for the `for` loop from any start value |
| Assignments.SumsToComplete | visualizer.js:829-842 | every such extension is produced |
| Assignments.SumsToExact | visualizer.js:829-842 | both directions: a result iff an extension by naturals summing to the remainder |
| Assignments.Loop | visualizer.js:836-840 | the `for` loop of `withAllSumsTo`; its contract is `Assignments.LoopSound` |
| Assignments.WithAllSumsTo | visualizer.js:829-842 | `withAllSumsTo`; its contract is `Assignments.SumsToExact`: a result iff an extension by naturals summing to the remainder |
| Assignments.SumThreeOverTwo | visualizer.js:829-842 | sum 3 over two unbound variables yields (0,3), (1,2), (2,1), (3,0) in that order |
| Assignments.OneVariable | visualizer.js:829-842 | with one variable left and a non-negative remainder, the only result binds it to the remainder |
| Assignments.EnumerateExact | visualizer.js:813-848 | a result iff it extends one existing assignment (the single empty one when none is passed) by the unbound pattern variables, with naturals, so that pattern value plus variables equals the matched value |
| Assignments.ForOneExact | visualizer.js:817-845 | the same for the results of one existing assignment |
| Assignments.ForOne | visualizer.js:817-845 | the bindings one existing assignment yields; its contract is `Assignments.ForOneExact` |
| Assignments.Enumerate | visualizer.js:813-848 | the enumeration of bindings for one pattern; its contract is `Assignments.EnumerateExact` |
| Assignments.EnumerateEmpty | visualizer.js:830-832 | nothing is produced when the remainder is negative, or non-zero with every variable already bound |
| WorkQueue.Push | visualizer.js:652-664 | pushing adds exactly one waiting item and keeps the front priority unless the new one is higher |
| WorkQueue.PushKeepsValid | visualizer.js:652-664 | sub-queues stay sorted by strictly descending priority and none is empty |
| WorkQueue.Enqueue | visualizer.js:652-664 | an item without a priority raises; otherwise the item is pushed at its priority |
| WorkQueue.Dequeue | visualizer.js:666-671 | on a well-shaped queue dequeue yields nothing iff the queue has no sub-queue, takes exactly one item and keeps the shape |
| WorkQueue.PushFifo | visualizer.js:652-664 | the pushed item goes to the back of its priority's items; other priorities are unchanged |
| WorkQueue.DequeueOldestOfHighest | visualizer.js:666-671 | dequeue returns the oldest item of the highest waiting priority and removes exactly that item |
| WorkQueue.EmptyIffNoItems | visualizer.js:666-671 | dequeue yields undefined exactly when no item waits |
| EngineState.WellFormedArenaGrows | visualizer.js:673-674 | growing the region store and editing region fields keeps every cell, hint and region reference resolvable |
| RegionStore.MineCount | visualizer.js:621-624 | the mines of a region's cell list number at most its length |
| RegionStore.KeepUnresolved | visualizer.js:621-624 | the filter keeps exactly the cells that are neither flagged nor revealed |
| RegionStore.StripCountsMines | visualizer.js:621-624 | with correct flags, the kept cells hold exactly the mines the filter did not subtract |
| RegionStore.StripKeepsTruth | visualizer.js:621-624 | stripping resolved cells keeps a true region true when every flag is on a mine |
| RegionStore.Strip | visualizer.js:621-624 | the filter dropping resolved cells and subtracting flags; its contract is `RegionStore.StripCountsMines` and `RegionStore.StripKeepsTruth` |
| RegionStore.InList | visualizer.js:805-807 | `inRegionList` holds iff some listed region has the same value, kind and length and contains every cell of the new one |
| RegionStore.IsExistingRegion | visualizer.js:802-810 | true iff some live or trashed region matches that clause |
| RegionStore.Repeat | visualizer.js:641-645 | n copies of a back-reference, as a multiset |
| RegionStore.AddRefs | visualizer.js:641-645 | every cell gains one back-reference to the region per occurrence in its cell list; nothing else changes |
| RegionStore.RemoveRefs | visualizer.js:790-795 | trashing touches only back-references |
| RegionStore.RemoveCopiesCount | visualizer.js:790-795 | n removals take out n references to the region (or all there are) and no other |
| RegionStore.RemoveRefsCounts | visualizer.js:790-795 | after trashing, a cell holds one reference fewer to the region per occurrence of it in the region (down to none) and keeps its others |
| RegionStore.RegisterRegion | visualizer.js:616-649 | an already registered region is accepted untouched; otherwise it takes the next id and is stripped, its value reset to 0 when negative, and it is accepted iff cells remain, the value is non-negative and no equal region exists; accepted regions become live; nothing else changes |
| RegionStore.RegisteredRegionIsClean | visualizer.js:616-649 | an accepted region has cells, a non-negative value, no resolved cell, and each cell refers back to it |
| RegionStore.RegisterKeepsTruth | visualizer.js:616-649 | registration keeps a true region true when every flag is on a mine |
| RegionStore.RegisterTwiceOneCopy | visualizer.js:635 | of two equal unregistered regions at most one is accepted |
| RegionStore.StripSameMarks | visualizer.js:621-624 | stripping reads only the flagged, revealed and mine marks |
| RegionStore.TrashRegion | visualizer.js:788-800 | the region is appended to the trashed list, one copy leaves the live list, only back-references change |
| RegionStore.TrashLeavesLive | visualizer.js:797-799 | a trashed region is no longer live when the live list has no repeats |
| RegionStore.HideRegion | visualizer.js:775-786 | a live displayed region whose cells all refer to it loses its drawing and becomes invisible (reported true); anything else is unchanged (false); a missing back-reference raises |
| RegionStore.HideIdempotent | visualizer.js:775-786 | hiding twice changes nothing the second time |
| RegionStore.DropEmpty | visualizer.js:510-518 | an emptied region leaves the live list, which must hold it (raises otherwise) |
| RegionStore.Shrink | visualizer.js:520-550 | a region keeping cells moves its value by the adjustment; a negative value trashes it, otherwise it is queued again at its priority |
| RegionStore.ResolveIn | visualizer.js:504-550 | one iteration raises iff the cell is missing from the region, or the region empties while not live; otherwise it drops one cell |
| RegionStore.ResolveInKeeps | visualizer.js:504-550 | one iteration keeps the store well formed, changes only that region and back-references, and adds no live region |
| RegionStore.ReshapeWellFormed | visualizer.js:505-507 | shrinking a region's cell list keeps every reference resolvable |
| RegionStore.TrashWellFormed | visualizer.js:788-800 | trashing keeps every reference resolvable |
| RegionStore.PushRegionWellFormed | visualizer.js:550 | re-queueing a region keeps every reference resolvable |
| RegionStore.ResolveAll | visualizer.js:501-554 | the loop walks the cell's live list of back-references, as `for (const r of node.regions)` does, so the entry after one that `trash_region` splices out is passed over; the loop keeps the store well formed, touches only back-references among the cells and adds no live region |
| RegionStore.ResolveAllFrame | visualizer.js:504 | regions not listed among the cell's back-references are left alone |
| RegionStore.UpdateFrame | visualizer.js:501-554 | regions the cell does not refer to are left alone |
| RegionStore.UpdateRegionsToRemove | visualizer.js:501-554 | afterwards the cell has no back-references, the store is well formed, no mark changes and no live region is added |
| RegionStore.TruthfulSameMines | visualizer.js:501-554 | a region's truth depends only on where the mines are |
| RegionStore.LiveTruthfulAfter | visualizer.js:501-554 | a step that only drops live entries and changes one region keeps all live regions true if that one is |
| RegionStore.RemoveResolvedKeepsTruth | visualizer.js:501-521 | taking a resolved cell out of a true region and lowering the value by its mine keeps it true |
| RegionStore.TakenOut | visualizer.js:512-513 | taking the one copy of a region out of a repeat-free list leaves none |
| RegionStore.DropEmptyGone | visualizer.js:510-518 | an emptied region is no longer live |
| RegionStore.ShrinkHeadTruth | visualizer.js:520-550 | a shrunk region still live is true |
| RegionStore.ResolveInHeadTruth | visualizer.js:504-550 | after one iteration the region, if still live, is true |
| RegionStore.ResolveInKeepsTruth | visualizer.js:504-550 | one iteration keeps every live region true |
| RegionStore.ResolveAllKeepsTruth | visualizer.js:504-551 | the whole loop keeps every live region true |
| RegionStore.DoubleListedPassedOver | visualizer.js:501-554 | a cell listed twice in a region of value 0, with the region listed twice in its back-references, is resolved once: the first iteration trashes the region and splices its first entry, so the loop passes over the second entry and the region keeps one copy of the cell |
| RegionStore.ResolveInRefs | visualizer.js:504-550 | one iteration leaves the cell's back-references no longer, with no new entry, which bounds the loop over the live list |
| RegionStore.RemoveCopiesShrinks | visualizer.js:788-793 | removing back-references to a trashed region never lengthens the list nor adds an entry |
| RegionStore.UpdateKeepsTruth | visualizer.js:501-554 | resolving a revealed cell, or a flagged one when every flag is on a mine, keeps every live region true (value unchanged for a safe reveal, one less otherwise) |
| RegionStore.Adjustment | visualizer.js:502 | the value adjustment of updateRegionsToRemove: 0 for a revealed safe cell, −1 for any other; `RegionStore.UpdateKeepsTruth` states that either keeps every live region true |
| CellActions.FlagCount | visualizer.js:42-62 | the flagged entries of a list number at most its length |
| CellActions.ResolvedMinesAreFlags | visualizer.js:621-624 | with correct flags and no revealed mine, the mines the filter subtracts are exactly the flags |
| CellActions.CountRegion | visualizer.js:676-718 | a shown count gives no region iff every listed cell is resolved; otherwise a fresh EXACT region at priority 3 over exactly the covered cells |
| CellActions.RegionForHint | visualizer.js:699-718 | generateRegionForHint; its contract is `CellActions.CountRegion` and `CellActions.GeneratedRegionsTruthful` |
| CellActions.RegionForNode | visualizer.js:676-697 | generateRegionForNode; its contract is `CellActions.CountRegion` and `CellActions.GeneratedRegionsTruthful` |
| CellActions.CountRegionTruthful | visualizer.js:676-718 | with an accurate count (mines minus flags), correct flags and no revealed mine, that region is true |
| CellActions.GeneratedRegionsTruthful | visualizer.js:676-718 | every region a revealed numbered cell or a hint yields is true under accurate counts |
| CellActions.AddRegion | visualizer.js:652-664 | a new region object is created and the queue gains exactly one item; nothing else changes |
| CellActions.AddRegionWellFormed | visualizer.js:676-718 | queueing a new region over known cells keeps every reference resolvable |
| CellActions.AddIfSomeGenerates | visualizer.js:676-718 | generating a true region only grows the store by that true unregistered region |
| CellActions.AddIfSome | visualizer.js:683-696 | registering a generated region when there is one; its contract is `CellActions.AddIfSomeGenerates` |
| CellActions.GenerateHintsSound | visualizer.js:726-727 | the hint loop only adds true unregistered regions |
| CellActions.GenerateCellsSound | visualizer.js:729-733 | the cell loop only adds true unregistered regions |
| CellActions.GenerateHintsWellFormed | visualizer.js:726-727 | the hint loop keeps every reference resolvable |
| CellActions.GenerateCellsWellFormed | visualizer.js:729-733 | the cell loop keeps every reference resolvable |
| CellActions.GenerateCells | visualizer.js:729-733 | the cell loop of initializeRegions; its contract is `CellActions.GenerateCellsSound` and `CellActions.GenerateCellsWellFormed` |
| CellActions.GenerateHints | visualizer.js:726-727 | the hint loop of initializeRegions; its contract is `CellActions.GenerateHintsSound` and `CellActions.GenerateHintsWellFormed` |
| CellActions.AscendingIds | visualizer.js:729 | `Object.values(nodes)` visits every cell once, in ascending id order |
| CellActions.InitializeRegions | visualizer.js:720-736 | start-up empties both region lists, keeps the cells and hints and only appends regions |
| CellActions.InitializeRegionsSound | visualizer.js:720-736 | with accurate counts, correct flags and no revealed mine, every region start-up queues is an EXACT true region, and the queue holds one item per new region |
| CellActions.BumpNeighbours | visualizer.js:42-47 | each cell's flagged count moves by one per edge from the flagged cell, up or down; nothing else changes |
| CellActions.BumpHints | visualizer.js:50-62 | each hint listing the cell counts one flag more or fewer; the others are unchanged |
| CellActions.Bump | visualizer.js:42-62 | the counting part of setFlagged; its contract is `CellActions.BumpNeighbours`, `CellActions.BumpHints` and `CellActions.SetFlaggedFlips` |
| CellActions.SetFlagged | visualizer.js:28-63 | the step keeps every reference resolvable; it can only raise when a new flag is put on an unresolved cell |
| CellActions.SetFlaggedSteps | visualizer.js:28-63 | a changed flag is marked, a new flag is resolved in every region, then the neighbours and hints are counted |
| CellActions.SetFlaggedMarks | visualizer.js:28-31 | only the flag of the cell changes, to the requested state unless the cell is revealed |
| CellActions.FlipCells | visualizer.js:28-47 | after the flip, resolving and neighbour counting, only the cell's flag and the counts moved |
| CellActions.SetRevealed | visualizer.js:12-26 | the step keeps every reference resolvable; it can only raise when an unresolved cell is newly revealed |
| CellActions.SetRevealedSteps | visualizer.js:12-26 | a changed mark is set; a newly revealed cell queues its number's region and is then resolved in every region |
| CellActions.SetRevealedMarks | visualizer.js:12-15 | only the revealed mark of the cell changes, to the requested state unless the cell is flagged; no count changes |
| CellActions.Mark | visualizer.js:12-31 | setting the revealed or flagged mark of one cell; its contract is `CellActions.SetRevealedMarks` and `CellActions.SetFlaggedMarks` |
| CellActions.SetRevealedOnlyRefs | visualizer.js:12-21 | a reveal changes nothing of the cells but back-references and leaves the hints alone |
| CellActions.RevealCells | visualizer.js:12-21 | the cell map after a reveal differs only in that mark and back-references |
| CellActions.SetFlaggedIdempotent | visualizer.js:29-30 | flagging twice does nothing the second time |
| CellActions.SetRevealedIdempotent | visualizer.js:13-14 | revealing twice does nothing the second time |
| CellActions.SetFlaggedKeepsExclusive | visualizer.js:29-30 | no cell ends up both flagged and revealed |
| CellActions.SetRevealedKeepsExclusive | visualizer.js:13-14 | no cell ends up both flagged and revealed |
| CellActions.FlagsCorrectAcross | visualizer.js:28-31 | flags stay on mines when only the flagged cell changed and it holds a mine |
| CellActions.AddKeepsLiveTruth | visualizer.js:652-664 | queueing a new region leaves the live regions true |
| CellActions.SetFlaggedKeepsTruth | visualizer.js:28-63 | flagging a mine keeps the flags right and every live region true |
| CellActions.SetRevealedKeepsTruth | visualizer.js:12-26 | revealing keeps the flags right and every live region true |
| CellActions.FlagCountFlip | visualizer.js:42-62 | flipping a flag moves a list's flag count by the cell's occurrences in it |
| CellActions.CellCountStep | visualizer.js:42-47 | one neighbour's shown counts stay accurate after the flag flip |
| CellActions.HintCountStep | visualizer.js:50-62 | one hint's counts stay accurate after the flag flip |
| CellActions.SameCountsKeepAccuracy | visualizer.js:12-26 | accurate counts stay accurate when no flag or mine changes |
| CellActions.FlipKeepsAccuracy | visualizer.js:42-62 | accurate counts stay accurate after a flip and the neighbour and hint bumps, given symmetric edges |
| CellActions.SetFlaggedFlips | visualizer.js:28-63 | a changed flag flips exactly that flag, bumps the neighbours by their edges and the hints listing the cell |
| CellActions.SetFlaggedKeepsCounts | visualizer.js:42-62 | every shown count stays accurate across setFlagged |
| CellActions.SetRevealedKeepsCounts | visualizer.js:12-26 | every shown count stays accurate across setRevealed |
| CellActions.RevealQueuesTruth | visualizer.js:12-26 | revealing a safe cell under accurate counts queues only true regions and reveals no mine |
| CellActions.RevealArena | visualizer.js:17-20 | revealing a safe cell adds at most one region, and it is true |
| CellActions.SafeRevealKeepsNoMines | visualizer.js:12-15 | revealing a safe cell reveals no mine |
| CellActions.RevealedRegionTruthful | visualizer.js:676-697 | the region of a newly revealed safe cell is true under accurate counts |
| QueueEffects.PushRegionAdds | visualizer.js:652-664 | pushing a region item adds only region items and keeps the queue's shape |
| QueueEffects.ResolveInAdds | visualizer.js:550 | one resolution iteration only adds region items |
| QueueEffects.ResolveAllAdds | visualizer.js:504-551 | the resolution loop only adds region items |
| QueueEffects.UpdateAdds | visualizer.js:501-554 | updateRegionsToRemove only adds region items |
| QueueEffects.SetRevealedAdds | visualizer.js:12-26 | setRevealed queues only region items |
| QueueEffects.SetFlaggedAdds | visualizer.js:28-63 | setFlagged queues only region items |
| QueueEffects.GenerateHintsAdds | visualizer.js:726-727 | the hint loop queues only region items |
| QueueEffects.GenerateCellsAdds | visualizer.js:729-733 | the cell loop queues only region items |
| QueueEffects.InitialQueue | visualizer.js:720-736 | after start-up the queue is well shaped and holds region items only |
| RuleTable.DecodeAll | visualizer.js:757-759 | a slot list decodes iff every slot does, entry by entry and in order |
| RuleTable.VarsOf | visualizer.js:764 | the square-count variables are exactly those some square-count slot names |
| RuleTable.IncreasingDistinct | visualizer.js:740-746 | a variable list built in ascending bit order names no variable twice |
| RuleTable.DecodedVarsOk | visualizer.js:740-753 | every decoded slot names its variables once each, in ascending order |
| RuleTable.LoadRule | visualizer.js:756-767 | a rule loads iff it has square counts and all its slots decode; the loaded rule holds exactly the decoded slots, and actions get priority 3 while the others keep the table's |
| RuleTable.Unpaused | visualizer.js:768 | the filter keeps exactly the unpaused entries |
| RuleTable.LoadRules | visualizer.js:756-768 | the table loads iff every entry is loadable, and yields one rule per unpaused entry |
| RuleTable.LoadRulesKeepsUnpaused | visualizer.js:756-768 | the loaded rules are the unpaused entries, each loaded, in table order |
| RuleTable.LoadRulesStep | visualizer.js:756-768 | one entry of the map-then-filter: the head is loaded and kept unless paused |
| RuleTable.LoadedRulesOk | visualizer.js:740-767 | every loaded rule is well formed |
| RuleSearch.SumOverAgree | visualizer.js:813-848 | bindings that agree on a pattern's variables give it the same total |
| RuleSearch.EnumerateKeepsFit | visualizer.js:962-973 | narrowing the bindings keeps every earlier fit and makes the newly matched pattern fit |
| RuleSearch.GrownSound | visualizer.js:954-976 | appending a plainly fitting new live region keeps a proposal sound |
| RuleSearch.NarrowedSound | visualizer.js:962-973 | appending a region matched through variables, with the bindings narrowed, keeps a proposal sound |
| RuleSearch.ExtendBySound | visualizer.js:950-977 | every extension one candidate region gives is sound and one region longer |
| RuleSearch.CandidatesSound | visualizer.js:951-978 | the loop over the live regions gives only sound proposals one region longer |
| RuleSearch.ExtendAllSound | visualizer.js:950-979 | the loop over the prefixes gives only sound proposals one region longer |
| RuleSearch.LayerSound | visualizer.js:948-981 | after `j` patterns every proposal is sound with `j` regions |
| RuleSearch.SearchSound | visualizer.js:948-981 | every proposal matches each pattern with a distinct live region under every binding it keeps, and contains the triggering region |
| RuleSearch.CandidatesContain | visualizer.js:951 | a candidate's extension appears in the loop over the live regions |
| RuleSearch.ExtendAllContains | visualizer.js:950 | an extension of one prefix appears in the loop over all prefixes |
| RuleSearch.ExtendByGrows | visualizer.js:954-976 | a new region that fits plainly and passes the trigger check extends the prefix |
| RuleSearch.ExtendAll | visualizer.js:950-979 | the loop over the prefixes; its contract is `RuleSearch.ExtendAllSound` and `RuleSearch.ExtendAllContains` |
| RuleSearch.Candidates | visualizer.js:951-978 | the loop over the live regions; its contract is `RuleSearch.CandidatesSound` and `RuleSearch.CandidatesContain` |
| RuleSearch.ExtendBy | visualizer.js:954-976 | the extensions one candidate region gives; its contract is `RuleSearch.ExtendBySound` and `RuleSearch.ExtendByGrows` |
| RuleSearch.LastNotBefore | visualizer.js:954 | in a tuple without repeats an entry is not among those before it |
| RuleSearch.LastOrBefore | visualizer.js:956-958 | an element of a tuple is its last entry or among the earlier ones |
| RuleSearch.GrownInNextLayer | visualizer.js:950-981 | a proposal grown by a fitting live region is in the next layer |
| RuleSearch.LayerComplete | visualizer.js:948-981 | every fitting prefix of a fitting tuple is proposed at its layer |
| RuleSearch.Layer | visualizer.js:948-981 | the proposals after `j` patterns; its contract is `RuleSearch.LayerSound` and `RuleSearch.LayerComplete` |
| RuleSearch.SearchComplete | visualizer.js:948-981 | every tuple of distinct live regions that contains the trigger and fits variable-free patterns is proposed |
| RuleSearch.Search | visualizer.js:948-981 | the proposal search; its contract is `RuleSearch.SearchSound` (only matches) and `RuleSearch.SearchComplete` (every match of patterns without variables) |
| RuleApply.PickRegions | visualizer.js:1087-1092 | a visibility rule changes exactly the matched regions whose position the bitmap selects |
| RuleApply.PickNodes | visualizer.js:1101-1106 | the cells a rule applies to are exactly those of the buckets the bitmap selects |
| RuleApply.Selected | visualizer.js:1087-1106 | `apply_region_bitmap & (1 << i)` with 32-bit operands; `RuleApply.PickRegions` and `RuleApply.PickNodes` state that exactly the selected positions are taken |
| RuleApply.PickNodesDistinct | visualizer.js:1101-1106 | disjoint duplicate-free buckets give a cell list naming each cell once |
| RuleApply.Checked | visualizer.js:1006-1080 | the filter callback run with the fixing condition as written (or corrected): a proposal it accepts keeps its regions and has one bucket per square count, and every square count admits its bucket's size under the accepted bindings |
| RuleApply.FilterProposals | visualizer.js:1006-1080 | the filter raises iff some check raises, and otherwise keeps exactly the proposals that pass; this holds for the check as written and as corrected |
| RuleApply.CheckedAcceptedOk | visualizer.js:1006-1080 | a passing proposal has one bucket per square count, holding only cells of its regions, under either fixing condition |
| RuleApply.AppliedNodesDistinct | visualizer.js:1101-1106 | the cells a rule applies to are named once each |
| RuleApply.GrownTrans | visualizer.js:1083-1137 | leaving cells, hints, lists and counter alone and only growing the arena composes |
| RuleApply.PushWellFormed | visualizer.js:1094-1116 | queueing an item naming known cells and regions keeps every reference resolvable |
| RuleApply.PushKeepsMarks | visualizer.js:1111-1121 | queueing a right mark keeps every queued mark right |
| RuleApply.PushKeeps | visualizer.js:1094-1116 | queueing an action keeps the engine well formed, the marks right and the queue well shaped |
| RuleApply.AddRegionKeeps | visualizer.js:1134 | queueing a derived region over known cells keeps the same invariants |
| RuleApply.PickRegionsKnown | visualizer.js:1087-1092 | the regions a visibility rule selects are regions of the arena |
| RuleApply.GrownKeepsAccepted | visualizer.js:1083 | an accepted proposal stays usable after earlier proposals were applied |
| RuleApply.PatternValueBound | visualizer.js:1123 | the derived value is a number exactly when every variable of the apply pattern is bound |
| RuleApply.PickNodesKnown | visualizer.js:1101-1106 | the cells a rule applies to are known cells |
| RuleApply.ApplyProposal | visualizer.js:1084-1136 | one proposal raises iff a non-visibility rule selects cells and either a mark names a cell of the wrong kind or the derived value is not a number; otherwise the engine stays well formed, only grows, and keeps marks right |
| RuleApply.ActionQueued | visualizer.js:1086-1121 | an action rule adds exactly its one item to the back of the action queue (no mark when nothing is selected) and leaves the arena alone |
| RuleApply.DerivedQueued | visualizer.js:1101-1134 | a constraint rule adds a region iff it selects cells and no equal region is live or trashed; that region holds the selected cells, the rule's kind, priority and derived value, and is queued at its priority; otherwise nothing changes |
| RuleApply.Derived | visualizer.js:1122-1131 | the region a constraint rule builds; its contract is `RuleApply.DerivedQueued` |
| RuleApply.ApplyAccepted | visualizer.js:1083-1137 | the application loop keeps the engine well formed, only grows it, keeps marks right and the queue well shaped |
| RuleApply.SearchRegionsIn | visualizer.js:948-981 | every proposal of the search names regions of the arena |
| RuleApply.ApplyRule | visualizer.js:947-1138 | one rule (search, filter, apply) keeps the same invariants, with the fixing condition as written or corrected |
| RuleApply.ProposalsNeedLive | visualizer.js:956-958 | a rule with region patterns proposes only when the triggering region is live |
| RuleApply.ApplyRegionRules | visualizer.js:946-1139 | running every rule in turn keeps the engine well formed, only grows it, keeps marks right and the queue well shaped, with the fixing condition as written or corrected |
| SquareCounts.NodeSets | visualizer.js:993 | each matched region's set holds exactly its cells, once each |
| SquareCounts.UnionAll | visualizer.js:994 | the union holds exactly the cells some region holds, once each |
| SquareCounts.MaskOf | visualizer.js:996-999 | a cell's bitmask is below two to the number of regions |
| SquareCounts.MaskDetermines | visualizer.js:996-999 | two cells get the same bitmask iff every region holds both or neither |
| SquareCounts.MaskPositive | visualizer.js:996-999 | a cell some region holds has a non-zero bitmask |
| SquareCounts.WithMask | visualizer.js:1000 | the cells with a given bitmask, in order |
| SquareCounts.WithMaskDistinct | visualizer.js:995-1001 | those cells are named once each |
| SquareCounts.Distribute | visualizer.js:995-1001 | pushing onto the bucket a bitmask indexes succeeds iff every bitmask is below the bucket count |
| SquareCounts.DistributeBuckets | visualizer.js:995-1001 | bucket `m` gains exactly the cells of bitmask `m`, in order |
| SquareCounts.BucketStep | visualizer.js:1000 | one push seen from one bucket |
| SquareCounts.Empties | visualizer.js:989-991 | the buckets start empty, one per square count |
| SquareCounts.SelectNodes | visualizer.js:987-1003 | selectNodes raises on a proposal without regions, and otherwise succeeds iff every bitmask names a bucket, giving one bucket per square count |
| SquareCounts.SelectNodesBuckets | visualizer.js:987-1003 | bucket `m` holds the cells of bitmask `m` in union order |
| SquareCounts.BucketMembers | visualizer.js:987-1003 | a cell is in bucket `m` iff some matched region holds it and its bitmask is `m`; no bucket repeats a cell |
| SquareCounts.BucketZeroEmpty | visualizer.js:995-1001 | bucket 0 stays empty |
| SquareCounts.SameBucket | visualizer.js:995-1001 | two cells share a bucket iff the same matched regions hold them |
| SquareCounts.BucketsCover | visualizer.js:995-1001 | every cell of the matched regions lands in exactly one bucket |
| SquareCounts.SubsetOfKeysOnlyWhenEmpty | visualizer.js:1017 | a set of numbers is a subset of the string keys only when it is empty |
| SquareCounts.FixVars | visualizer.js:1019-1034 | the fixing loop never turns a non-empty binding list into an empty one it accepts |
| SquareCounts.Settle | visualizer.js:1009-1042 | a proposal without bindings whose square counts name no variable is checked without bindings |
| SquareCounts.FixVarsBinds | visualizer.js:1019-1034 | each remaining binding extends an input binding and binds every variable of every exact count it passed |
| SquareCounts.SettleBindsExactCounts | visualizer.js:1009-1042 | with the intended condition every variable of every exact square count is bound when counts are compared |
| SquareCounts.PatternValue | visualizer.js:1047 | a pattern's value raises iff it has variables and the proposal no bindings; it is a number iff every variable is bound |
| SquareCounts.CheckCounts | visualizer.js:1044-1077 | the checking loop passes iff every square count admits its bucket's size |
| SquareCounts.CheckProposal | visualizer.js:1006-1080 | an accepted proposal keeps its regions, has selectNodes' buckets and the settled bindings, and every square count admits its bucket's size |
| SquareCounts.ExampleBuckets | visualizer.js:987-1003 | the example region's single cell lands in bucket 1 |
| SquareCounts.ExampleEnumeration | visualizer.js:1026-1030 | matching one cell against "`a` cells" binds `a` to 1 |
| SquareCounts.ExampleSettle | visualizer.js:1017 | as written the example keeps the empty binding; as intended it binds `a` to 1 |
| SquareCounts.ExampleCounts | visualizer.js:1044-1052 | under the empty binding the exact count fails; under `a` = 1 it holds |
| SquareCounts.AsWrittenLeavesCountUnbound | visualizer.js:1017 | as written the example proposal is rejected; with the intended condition it is accepted |
| Executor.DequeueAdds | visualizer.js:666-671 | the item taken comes from the queue, and the rest of the queue holds nothing new |
| Executor.MarksAcross | visualizer.js:862-902 | queued marks stay right while the queue only gains regions and no mine moves |
| Executor.DequeueKeeps | visualizer.js:862 | the item taken names known cells and regions, and the engine without it stays well formed |
| Executor.DequeueSafe | visualizer.js:862 | taking an item off keeps the board safe, and a mark taken off is right |
| Executor.HideWellFormed | visualizer.js:775-786 | hiding a region keeps every reference resolvable |
| Executor.HideAll | visualizer.js:866-871 | the hide action changes only the arena, hides every live displayed target, shows nothing new, counts iff some live target was displayed, and changes nothing when it does not count |
| Executor.TrashAll | visualizer.js:788-800 | the trash action appends the targets to the trashed list and moves no mark, region or queue item |
| Executor.TrashAllWellFormed | visualizer.js:788-800 | trashing keeps every reference resolvable |
| Executor.SameMarksTrans | visualizer.js:788-800 | leaving the marks alone composes |
| Executor.TrashAllLive | visualizer.js:796-797 | each target leaves the live list once per time it is named |
| Executor.TrashAllLeavesLive | visualizer.js:796-797 | with no region live twice, no target stays live |
| Executor.MarkOne | visualizer.js:879-891 | revealing a mine or flagging a safe cell stops the run with the message visualizer.js throws; otherwise only that cell's marks change and the queue only gains regions |
| Executor.NoMinesAcross | visualizer.js:879-884 | a reveal that passed the check reveals no mine |
| Executor.MarkOneSafe | visualizer.js:879-891 | a mark that passes the check keeps the board safe |
| Executor.MarkOneMarks | visualizer.js:879-891 | a passing mark leaves the cell marked as asked and keeps flags on mines and mines hidden |
| Executor.MarkAll | visualizer.js:877-894 | a mark action that runs through named no cell of the wrong kind, moves no mine and only queues regions |
| Executor.MarkAllKeepsOthers | visualizer.js:877-894 | the mark action touches the marks of its own cells only |
| Executor.MarkAllSafe | visualizer.js:877-894 | a mark action that runs through keeps the board safe |
| Executor.MarkAllMarks | visualizer.js:877-894 | and leaves every one of its cells marked as asked |
| Executor.RegisterWellFormed | visualizer.js:616-649 | registering a region keeps every reference resolvable |
| Executor.RegisterSafe | visualizer.js:616-649 | registration keeps the board safe |
| Executor.Step | visualizer.js:860-906 | on an empty queue the step does nothing; otherwise it keeps the engine well formed and the queue well shaped, and a step that runs out of items leaves the queue empty; this holds for the engine as written and as corrected |
| Executor.HideSafe | visualizer.js:866-871 | the hide action keeps the board safe |
| Executor.TrashSafe | visualizer.js:872-873 | the trash action keeps the board safe |
| Executor.StepKeepsSafe | visualizer.js:860-906 | every step keeps the board safe: no mine revealed, no safe cell flagged, every count accurate, every queued mark right; this holds for the engine as written and as corrected |
| Inequalities.SetBounds | TametsiSolver_withPoset.py:120-126 | the constructor succeeds iff 0 <= lo <= hi, with the negative-bounds error checked first, and keeps the cells and bounds |
| Inequalities.SetBoundsOwn | TametsiSolver_withPoset.py:120-126 | setting an inequality's own bounds gives it back |
| Inequalities.SetBoundsMet | TametsiSolver_withPoset.py:120-126 | bounds a placement of mines meets can always be set |
| Inequalities.TrivialDecides | TametsiSolver_withPoset.py:128-130 | a trivial inequality decides its cells: all safe when lo is 0, all mines otherwise |
| Inequalities.NonTrivialUndecided | TametsiSolver_withPoset.py:128-130 | a satisfiable non-trivial inequality decides no cell either way |
| Inequalities.Trivial | TametsiSolver_withPoset.py:128-130 | the `trivial` property; its contract is `Inequalities.TrivialDecides` and `Inequalities.NonTrivialUndecided` |
| Inequalities.Rest | TametsiSolver_withPoset.py:150-164 | a remainder is produced iff the input has cells outside the shared part, over exactly those cells |
| Inequalities.Cross | TametsiSolver_withPoset.py:132-166 | equal cell sets give nothing, disjoint ones the two inputs; otherwise one to three parts, the first over the shared cells |
| Inequalities.CrossPartition | TametsiSolver_withPoset.py:142-166 | the parts of an overlapping cross are non-empty, pairwise disjoint, each inside an input, cover both inputs, and have upper bounds within their size |
| Inequalities.RestFits | TametsiSolver_withPoset.py:150-164 | a remainder is valid over the cells outside the overlap, with its upper bound within its size |
| Inequalities.PartsSplit | TametsiSolver_withPoset.py:148-164 | shared part and remainders partition the two cell sets |
| Inequalities.CrossSound | TametsiSolver_withPoset.py:132-166 | a placement meeting both inputs meets every output, so the cross never raises on them |
| Inequalities.MinesSplit | TametsiSolver_withPoset.py:143-146 | the mines of an inequality split between the shared cells and the rest |
| Inequalities.SharedMet | TametsiSolver_withPoset.py:143-146 | the shared part meets the bounds cross gives it |
| Inequalities.RestMet | TametsiSolver_withPoset.py:150-164 | a remainder meets its bound whenever the shared part meets its own |
| IneqStore.Find | TametsiSolver_withPoset.py:64-94 | the lookup finds an entry for the key iff the key is stored |
| IneqStore.FindUnique | TametsiSolver_withPoset.py:31-33 | in a keyed store the entry for a key is the only one |
| IneqStore.Lookup | TametsiSolver_withPoset.py:97 | `get` returns a stored entry with the key iff the key is stored |
| IneqStore.AddIneq | TametsiSolver_withPoset.py:64-68 | a new key is appended; a known key keeps its place and takes the new bounds; the store stays keyed and valid |
| IneqStore.AddIneqLookup | TametsiSolver_withPoset.py:64-68 | afterwards the key holds the added inequality and every other key what it held |
| IneqStore.AddIneqTwice | TametsiSolver_withPoset.py:64-68 | adding the same inequality twice is adding it once |
| IneqStore.GetIneq | TametsiSolver_withPoset.py:70-78 | raises iff strict and the key is missing; otherwise returns the lookup |
| IneqStore.HasIneq | TametsiSolver_withPoset.py:96-103 | true iff exact and the stored entry has the same bounds; None iff inexact and the key is stored; otherwise false |
| IneqStore.HasIneqInexactFalsy | TametsiSolver_withPoset.py:96-103 | the inexact form is never true |
| IneqStore.RemoveIneq | TametsiSolver_withPoset.py:80-94 | raises iff strict and the inequality is None or its key missing; otherwise a missing one changes nothing and a present key is popped, returning the stored entry and leaving the other keys |
| IneqStore.RemoveAtKeys | TametsiSolver_withPoset.py:88 | popping an entry removes exactly its key and keeps the store keyed and valid |
| IneqStore.RemoveIneqLookup | TametsiSolver_withPoset.py:80-94 | after removal the key is gone and every other key keeps its entry |
| IneqStore.AddThenRemove | TametsiSolver_withPoset.py:64-94 | removing an inequality just added under a new key gives the store back, together with the inequality |
| Poset.ConsistentLookup | TametsiSolver_withPoset.py:70-78 | a store a placement meets gives inequalities it meets |
| Poset.AddAsWritten | TametsiSolver_withPoset.py:196-216 | `add` as written never raises, keeps both stores keyed and valid, makes the keys grow by exactly the added cells, and leaves the added inequality, with its own bounds, as the entry for its cells |
| Poset.AddAsWrittenStores | TametsiSolver_withPoset.py:196-216 | as written, a known identical inequality is returned untouched and anything else is stored as given, never merged |
| Poset.AddAsWrittenLoosens | TametsiSolver_withPoset.py:198-215 | as written, adding a looser bound for a known cell set loses the tighter one; the corrected add keeps it |
| Poset.Merge | TametsiSolver_withPoset.py:208-213 | the merged bounds are met by exactly the placements meeting both, and exist whenever some placement meets both |
| Poset.Add | TametsiSolver_withPoset.py:196-216 | adding keeps both stores keyed and valid and makes the keys grow by exactly the added cells |
| Poset.AddLookup | TametsiSolver_withPoset.py:196-216 | after adding, the entry for the added cells is met by exactly the placements meeting the old entry and the added one; other entries are unchanged |
| Poset.AddSound | TametsiSolver_withPoset.py:196-216 | with the corrected merge, adding a met inequality to a met store never raises and keeps it met |
| Poset.AddVariant | TametsiSolver_withPoset.py:196-216 | `add` as written or as corrected keeps both stores keyed and valid and makes the keys grow by exactly the added cells |
| Poset.AddVariantSound | TametsiSolver_withPoset.py:196-216 | `add` as written or as corrected, given a met inequality and a met store, never raises and keeps the store met |
| Poset.StoreAddSound | TametsiSolver_withPoset.py:64-68 | storing a met inequality in a met store keeps it met |
| Poset.Remove | TametsiSolver_withPoset.py:307-312 | removal drops exactly the key, keeps the rest of the store and the counter |
| Poset.RemoveSound | TametsiSolver_withPoset.py:307-312 | removal keeps a met store met |
| Poset.InsertBySize | TametsiSolver_withPoset.py:370 | insertion adds exactly the new entry |
| Poset.InsertBySizeSorted | TametsiSolver_withPoset.py:370 | insertion keeps the list ordered by decreasing size |
| Poset.SortBySize | TametsiSolver_withPoset.py:370 | sorting is a permutation |
| Poset.SortBySizeSorted | TametsiSolver_withPoset.py:370 | the sort orders by decreasing size |
| Poset.ChooseKeeps | TametsiSolver_withPoset.py:370-376 | the loop only appends, and only entries it is given |
| Poset.CoveredKept | TametsiSolver_withPoset.py:372-374 | what an earlier choice covers stays covered |
| Poset.ChooseCovers | TametsiSolver_withPoset.py:370-376 | every trivial entry the loop passes ends up inside a chosen one |
| Poset.ChooseOk | TametsiSolver_withPoset.py:370-376 | the chosen entries stay trivial, ordered by size and none inside an earlier one |
| Poset.Choose | TametsiSolver_withPoset.py:370-376 | the loop of find_trivial; its contract is `Poset.ChooseOk`, `Poset.ChooseCovers` and `Poset.ChooseKeeps` |
| Poset.ChooseStep | TametsiSolver_withPoset.py:371-376 | one step keeps that invariant |
| Poset.FindTrivialSpec | TametsiSolver_withPoset.py:367-378 | find_trivial returns trivial inequalities of the store, larger first, none inside an earlier one, and every trivial inequality of the store lies inside one of them |
| Poset.FindTrivial | TametsiSolver_withPoset.py:367-378 | find_trivial; its contract is `Poset.FindTrivialSpec` |
| Poset.FindTrivialAntichain | TametsiSolver_withPoset.py:367-378 | no chosen inequality lies inside another |
| Poset.MarksOf | TametsiSolver_withPoset.py:381-391 | a cell is revealed iff some trivial inequality with lower bound 0 holds it, flagged iff one with a positive lower bound does |
| Poset.TrivialMarksSound | TametsiSolver_withPoset.py:384-389 | marks from met trivial inequalities flag only mines and reveal none |
| Poset.ReduceOne | TametsiSolver_withPoset.py:398-415 | one pass, with `add` as written or corrected, keeps the stores keyed and valid and replaces the key by its unmarked part, or drops it when wholly marked |
| Poset.Reduce | TametsiSolver_withPoset.py:380-415 | reduce, with `add` as written or corrected, keeps both stores keyed and holding constructed inequalities |
| Poset.PermutedKeys | TametsiSolver_withPoset.py:398 | the sorted snapshot has the same keys and entries as the store |
| Poset.SortBySizeKeyed | TametsiSolver_withPoset.py:398 | the sorted snapshot is keyed |
| Poset.ReduceAllKeeps | TametsiSolver_withPoset.py:398-415 | the walk, with `add` as written or corrected, keeps every key outside the snapshot, and the unmarked part of every snapshot key not wholly marked |
| Poset.ReduceAllOnly | TametsiSolver_withPoset.py:398-415 | the walk, with `add` as written or corrected, leaves no other key |
| Poset.ReduceKeys | TametsiSolver_withPoset.py:380-415 | after reduce, with `add` as written or corrected, the keys are exactly the unmarked parts of the keys not wholly marked, and no key holds a marked cell |
| Poset.UnmarkedMines | TametsiSolver_withPoset.py:407-413 | the mines of an inequality split into its flagged cells and those of its unmarked part |
| Poset.ShrunkSound | TametsiSolver_withPoset.py:407-415 | the shifted bounds hold of the unmarked part whenever the inequality and the marks hold |
| Poset.Shrunk | TametsiSolver_withPoset.py:407-415 | the inequality reduce puts back for a partly marked one; its contract is `Poset.ShrunkSound` |
| Poset.ReduceOneSound | TametsiSolver_withPoset.py:398-415 | one pass on a met store with right marks, with `add` as written or corrected, never raises on the stores (the graph part of `remove` is not modelled) and keeps the store met |
| Poset.ReduceAllSound | TametsiSolver_withPoset.py:398-415 | the walk on a met store with right marks, with `add` as written or corrected, never raises on the stores (the graph part of `remove` is not modelled) and keeps it met |
| Poset.ReduceAll | TametsiSolver_withPoset.py:398-415 | the walk of reduce; it keeps the store good, and `Poset.ReduceAllKeeps`, `Poset.ReduceAllOnly` and `Poset.ReduceAllSound` state which keys it leaves and that it keeps a met store met |
| Poset.ReduceSound | TametsiSolver_withPoset.py:367-415 | find_trivial followed by reduce on a met store, with `add` as written or corrected, never raises on the stores (the graph part of `remove` is not modelled) and leaves a met store |
| Poset.TrivialMet | TametsiSolver_withPoset.py:367-378 | the trivial inequalities found are valid, trivial and met |
| Poset.SnapshotMet | TametsiSolver_withPoset.py:398 | every entry of the sorted snapshot of a met store is met |
| Puzzle.Gather | TametsiSolver_withPoset.py:447-452 | the loop raises iff an unresolved neighbour is past the board, and gathers exactly the neighbours not flagged or revealed |
| Puzzle.GatherDistinct | TametsiSolver_withPoset.py:447-449 | with no neighbour listed twice, no cell is gathered twice |
| Puzzle.GatherCounts | TametsiSolver_withPoset.py:447-452 | the count is the number of mines among the gathered cells |
| Puzzle.AddOneCell | TametsiSolver_withPoset.py:449-452 | one more gathered cell adds one to the count iff it is a mine |
| Puzzle.NewIneq | TametsiSolver_withPoset.py:442-455 | a contributed inequality is valid, non-empty, exact and avoids the known cells |
| Puzzle.NewIneqSound | TametsiSolver_withPoset.py:442-455 | on a well-formed board a changed cell never raises, and its inequality holds of the board's mines and covers exactly its unresolved neighbours; none comes iff the cell is not safe or all neighbours are resolved |
| Puzzle.AddAll | TametsiSolver_withPoset.py:442-455 | the loop, with `add` as written or corrected, keeps the stores keyed and valid and keeps every key |
| Puzzle.MakeNewInequalities | TametsiSolver_withPoset.py:441-457 | with `add` as written or corrected, the changed list is emptied, the board and marks kept, the stores kept keyed and every key kept |
| Puzzle.AddAllKeys | TametsiSolver_withPoset.py:442-455 | with `add` as written or corrected, the keys added are exactly the unresolved neighbourhoods the changed cells contribute |
| Puzzle.AddAllSound | TametsiSolver_withPoset.py:442-455 | on a well-formed board with a met store, the loop, with `add` as written or corrected, never raises and keeps the store met |
| Puzzle.MakeNewSound | TametsiSolver_withPoset.py:441-457 | make_new_inequalities on a met store, with `add` as written or corrected, never raises and leaves it met |

## Left out

- Rendering is not modelled: SVG drawing, `displayRegion`, `fixupRegions`, `setRegionLabel` (beyond the label's counts), colours, the debug panel, timers and `startRegionStepping`. They touch no solver state. `region.display` is reduced to a flag.
- `loadPuzzle` is not modelled. It parses the puzzle file; the model starts from the cells, neighbours, hints and mines it produces.
- The Python `print` calls, `print_progress`, `output_debug_graph` and the demos are not modelled: they only produce output.
- The `ipdb.set_trace()` traps are not modelled. They are debugger stops. After the stop in `reduce` when nothing is marked, the code goes on as modelled. After the stop in a strict `remove_ineq` (TametsiSolver_withPoset.py:90-92), the code raises `ValueError`. `IneqStore.RemoveIneq` models that raise for the stores; the parent and child stores are not modelled.
- Poset.ReduceSound, Poset.ReduceOneSound, Poset.ReduceAllSound: "never raises" holds of the stores only. The graph part of `remove` is not modelled (TametsiSolver_withPoset.py:314-318). It runs `child.remove_parent(ineq)` once per parent of the removed inequality, on strict parent stores. So removing an inequality with two or more parents and a child raises `ValueError` in the second round, even on true input. An example: mines {1}, inequalities {1,2,3}:(1,1), {1,2,4}:(1,1), {1,2}:(1,1), {1}:(1,1) and {2}:(0,0); `reduce(find_trivial())` raises while it removes {1,2}. The model's `Poset.Remove` updates only the stores and succeeds there.
- The parent/child/root graph of `InequalityPoset` is not modelled: the graph-building part of `add`, the graph part of `remove`, `cross_ineqs`, and `add_parent`/`add_child`/`replace_*`. Only the stores and the counter of additions are modelled, so `Poset.Add` and `Poset.Remove` state nothing about the graph.
- `CellSetDict.keys`, `values`, `isdisjoint`, `intersection`, `copy`, `__len__`, `__bool__` and the constructor are not modelled. They are plain dict views, used only by the graph code.
- `Puzzle.convert_constraints`, `solve_puzzle` and `extend_unique` are outside the modelled core: they are the driver loop and the column/colour hint conversion.
- The `strict` argument of `get_ineq`/`remove_ineq` is not modelled as three-valued. It arrives already resolved to a bool: the call's own argument, or the store's default when the call passes `None`.
- IneqStore.HasIneq: the inexact form returns Python's `None` for a present key. The model keeps it as `None` rather than a boolean.
- Poset.SortBySize: the sort is proved to be a permutation ordered by decreasing size, but not proved stable. Stability decides which of two equal-size trivial inequalities `find_trivial` meets first. The proved properties hold for any such order.
- SquareCounts.MaskOf: computes the bitmask without the 32-bit wrap of JavaScript's `1 << i`. The two differ only for more than 31 matched regions, and no rule has that many region patterns.
- RuleApply.ApplyProposal: a derived value that would be `NaN` (an apply variable left unbound) is an error here. `visualizer.js` would queue a region with value `NaN`.
- RuleApply.ApplyProposal: a mark that fails the mine check is queued before `visualizer.js` throws (lines 1111-1120). The model returns the error without the queued mark; in the page the mark stays queued.
- Executor.Step: a JavaScript throw is modelled as the end of the run (`Err`), but the page keeps stepping. `regionStep` runs under `setInterval` (visualizer.js:911-927), so the next tick steps again on the state the throw left behind. That state includes any mark queued before the throw and the cells a reveal or flag action marked before it threw (visualizer.js:877-891). The steps after a throw are not modelled. A Python `raise` does end the solver run.
- SquareCounts.Settle: takes the first remaining binding (`possibleVars[0]`), as the code does; the throw for several remaining bindings (visualizer.js:1037-1041) is commented out.
- RuleSearch.SearchComplete: is proved only for tuples that fit patterns without variables. For patterns with variables, soundness is proved (`RuleSearch.SearchSound`) but completeness is not.
- RegionStore.HideRegion: a region whose cells do not all refer back to it is an error. `visualizer.js` throws there when it sets a property of the missing entry.
- Slots.DecodeSlot, RuleTable.DecodeAll, RuleTable.LoadRule, RuleTable.LoadRules: a slot whose kind byte names no kind, or whose variable mask byte is 64 or more, is refused at load time (`Err`). `visualizer.js` loads such a rule anyway: `interpret_bombe_region` leaves `kind` or `vars` undefined (visualizer.js:747-754) and `loadRules` keeps the rule (visualizer.js:756-768); it can only throw later, when the rule runs. The model therefore never holds a rule with an undefined kind, and the "unsupported region kind" and "unexpected markKind" throws are reachable only through the action-kind square counts that `SquareCounts.CheckCounts` reports as errors.
- RegionStore.Adjustment: a revealed safe cell changes a region's value by 0 and any other resolved cell by −1 (visualizer.js:502).
- Clocks and randomness are not modelled. They appear only in `getRandomColor` and the step timer.

## Findings

| source | as written | input that shows it | evidently intended | confidence | as-written member | corrected member |
|---|---|---|---|---|---|---|
| visualizer.js:1017 | the fixing pass over the exact square counts runs only when several bindings remain or `square_counts_vars.isSubsetOf(new Set(Object.keys(possibleVars[0])))`; the variables are numbers and the keys are strings, so the subset test holds only for an empty set, and it also lacks a negation | a rule with a wildcard region pattern and square counts "any" for bucket 0 and "exactly `a`" for bucket 1, matched against a region of one cell: `a` stays unbound, the exact count is compared with NaN and the proposal is rejected | run the pass whenever several bindings remain or some square-count variable is unbound, which binds `a` to 1 and accepts the proposal | high (not executed) | SquareCounts.AsWrittenLeavesCountUnbound | SquareCounts.SettleBindsExactCounts |
| TametsiSolver_withPoset.py:198-215 | `is_new` calls `has_ineq` in its exact form, which is false for a known cell set under other bounds; such an inequality is then stored with its own bounds, and the max/min merge is reached only when the bounds are already equal, after the early return | with `{1, 2}` stored under bounds (1, 1), adding `{1, 2}` with (0, 2) replaces the exact bound by the looser one | merge the stored and the added bounds (larger lower bound, smaller upper bound) | high (not executed) | Poset.AddAsWrittenLoosens | Poset.AddLookup |

=== FILE: assignments.dfy ===
/** Brute-force enumeration of the non-negative variable assignments that let
    a pattern slot match a concrete count (enumerableVariableAssignments). */
module Assignments {
  import opened Wrappers
  import opened SeqUtil
  import opened Slots

  /** A partial binding of the named variables 0 to 5 to integers. */
  type Assignment = map<nat, int>

  /** The pattern variables `a` leaves unbound, in pattern order. */
  function Unbound(vars: seq<nat>, a: Assignment): (r: seq<nat>)
    ensures forall x :: x in r <==> x in vars && x !in a
    ensures |r| <= |vars|
  {
    if |vars| == 0 then []
    else if vars[0] in a then Unbound(vars[1..], a)
    else [vars[0]] + Unbound(vars[1..], a)
  }

  /** What the pattern variables already bound by `a` contribute. */
  function BoundSum(vars: seq<nat>, a: Assignment): int {
    if |vars| == 0 then 0
    else (if vars[0] in a then a[vars[0]] else 0) + BoundSum(vars[1..], a)
  }

  /** The total `b` gives to the variables of `vars` (all bound by `b`). */
  function SumOver(vars: seq<nat>, b: Assignment): int
    requires forall x :: x in vars ==> x in b
  {
    if |vars| == 0 then 0 else b[vars[0]] + SumOver(vars[1..], b)
  }

  /** `b` keeps every binding of `a`, additionally binds exactly the
      variables of `vars`, and binds them to naturals. */
  ghost predicate Extends(b: Assignment, a: Assignment, vars: seq<nat>) {
    && (forall k :: k in b <==> k in a || k in vars)
    && (forall k :: k in a ==> k in b && b[k] == a[k])
    && (forall x :: x in vars ==> x in b && b[x] >= 0)
  }

  /** The inner `withAllSumsTo`: every way of binding the variables of `rem`
      to naturals summing to `s`, the first variable varying slowest. */
  function WithAllSumsTo(a: Assignment, rem: seq<nat>, s: int): seq<Assignment>
    decreases |rem|, 1, 0
  {
    if |rem| == 0 && s == 0 then [a]
    else if s < 0 then []
    else if |rem| == 0 then []
    else Loop(a, rem, s, 0)
  }

  /** The `for (let i = 0; i <= s; i++)` loop of withAllSumsTo, from `i` on. */
  function Loop(a: Assignment, rem: seq<nat>, s: int, i: nat): seq<Assignment>
    requires |rem| > 0
    decreases |rem|, 0, if i <= s then s + 1 - i else 0
  {
    if i > s then []
    else WithAllSumsTo(a[rem[0] := i], rem[1..], s - i) + Loop(a, rem, s, i + 1)
  }

  /** The assignments one existing assignment `a` extends to. */
  function ForOne(matched: int, pattern: Slot, a: Assignment): seq<Assignment> {
    var rem := Unbound(pattern.vars, a);
    WithAllSumsTo(a, rem, matched - pattern.value - BoundSum(pattern.vars, a))
  }

  /** `existing.flatMap(...)` */
  function EnumerateFrom(matched: int, pattern: Slot, existing: seq<Assignment>): seq<Assignment> {
    if |existing| == 0 then []
    else ForOne(matched, pattern, existing[0]) + EnumerateFrom(matched, pattern, existing[1..])
  }

  /** enumerableVariableAssignments: `existing` is None when the caller passes
      no assignments yet, which stands for the single empty one. */
  function Enumerate(matched: int, pattern: Slot, existing: Option<seq<Assignment>>): seq<Assignment> {
    EnumerateFrom(matched, pattern, existing.GetOr([map[]]))
  }

  // ---------------------------------------------------------------------
  // Soundness

  lemma {:induction false} SumsToSound(a: Assignment, rem: seq<nat>, s: int)
    requires Distinct(rem) && forall x :: x in rem ==> x !in a
    ensures forall b :: b in WithAllSumsTo(a, rem, s) ==> Extends(b, a, rem) && SumOver(rem, b) == s
    decreases |rem|, 1, 0
  {
    if |rem| == 0 && s == 0 {
    } else if s >= 0 && |rem| > 0 {
      LoopSound(a, rem, s, 0);
    }
  }

  lemma {:induction false} LoopSound(a: Assignment, rem: seq<nat>, s: int, i: nat)
    requires |rem| > 0 && Distinct(rem) && forall x :: x in rem ==> x !in a
    ensures forall b :: b in Loop(a, rem, s, i) ==> Extends(b, a, rem) && SumOver(rem, b) == s
    decreases |rem|, 0, if i <= s then s + 1 - i else 0
  {
    if i <= s {
      var a' := a[rem[0] := i];
      var tail := rem[1..];
      assert Distinct(tail);
      assert forall x :: x in tail ==> x in rem && x != rem[0];
      SumsToSound(a', tail, s - i);
      LoopSound(a, rem, s, i + 1);
      forall b | b in WithAllSumsTo(a', tail, s - i)
        ensures Extends(b, a, rem) && SumOver(rem, b) == s
      {
        assert rem == [rem[0]] + tail;
        assert b[rem[0]] == i;
      }
    }
  }

  // ---------------------------------------------------------------------
  // Completeness

  lemma {:induction false} SumOverNonNegative(vars: seq<nat>, b: Assignment)
    requires forall x :: x in vars ==> x in b && b[x] >= 0
    ensures SumOver(vars, b) >= 0
  {
    if |vars| > 0 {
      assert forall x :: x in vars[1..] ==> x in vars;
      SumOverNonNegative(vars[1..], b);
    }
  }

  lemma {:induction false} SumsToComplete(a: Assignment, rem: seq<nat>, s: int, b: Assignment)
    requires Distinct(rem) && forall x :: x in rem ==> x !in a
    requires Extends(b, a, rem) && SumOver(rem, b) == s
    ensures b in WithAllSumsTo(a, rem, s)
    decreases |rem|
  {
    if |rem| == 0 {
      assert b == a;
    } else {
      var tail := rem[1..];
      assert forall x :: x in tail ==> x in rem && x != rem[0];
      SumOverNonNegative(tail, b);
      var i := b[rem[0]];
      var a' := a[rem[0] := i];
      assert rem == [rem[0]] + tail;
      assert Extends(b, a', tail);
      SumsToComplete(a', tail, s - i, b);
      LoopContains(a, rem, s, 0, i, b);
    }
  }

  lemma {:induction false} LoopContains(a: Assignment, rem: seq<nat>, s: int, j: nat, i: nat, b: Assignment)
    requires |rem| > 0 && j <= i <= s
    requires b in WithAllSumsTo(a[rem[0] := i], rem[1..], s - i)
    ensures b in Loop(a, rem, s, j)
    decreases i - j
  {
    if j < i {
      LoopContains(a, rem, s, j + 1, i, b);
    }
  }

  /** The enumeration is exact: it yields precisely the extensions of `a`
      binding `rem` to naturals that sum to `s`. */
  lemma SumsToExact(a: Assignment, rem: seq<nat>, s: int, b: Assignment)
    requires Distinct(rem) && forall x :: x in rem ==> x !in a
    ensures b in WithAllSumsTo(a, rem, s) <==> Extends(b, a, rem) && SumOver(rem, b) == s
  {
    SumsToSound(a, rem, s);
    if Extends(b, a, rem) && SumOver(rem, b) == s {
      SumsToComplete(a, rem, s, b);
    }
  }

  /** Sum 3 over two unbound variables yields (0,3), (1,2), (2,1), (3,0), in
      that order. */
  lemma SumThreeOverTwo()
    ensures WithAllSumsTo(map[], [0, 1], 3)
         == [map[0 := 0, 1 := 3], map[0 := 1, 1 := 2], map[0 := 2, 1 := 1], map[0 := 3, 1 := 0]]
  {
    var e: Assignment := map[];
    assert [0, 1][1..] == [1];
    OneVariable(e[0 := 0], 1, 3);
    OneVariable(e[0 := 1], 1, 2);
    OneVariable(e[0 := 2], 1, 1);
    OneVariable(e[0 := 3], 1, 0);
    assert Loop(e, [0, 1], 3, 4) == [];
  }

  /** With one variable left, exactly one assignment binds it to the whole
      remainder. */
  lemma OneVariable(a: Assignment, x: nat, t: int)
    requires 0 <= t
    ensures WithAllSumsTo(a, [x], t) == [a[x := t]]
  {
    OneVariableLoop(a, x, t, 0);
  }

  lemma {:induction false} OneVariableLoop(a: Assignment, x: nat, t: int, i: nat)
    requires i <= t + 1
    ensures Loop(a, [x], t, i) == if i <= t then [a[x := t]] else []
    decreases t + 1 - i
  {
    if i <= t {
      assert [x][1..] == [];
      OneVariableLoop(a, x, t, i + 1);
    }
  }

  // ---------------------------------------------------------------------
  // The whole enumeration

  lemma {:induction false} BoundSplit(vars: seq<nat>, a: Assignment, b: Assignment)
    requires forall x :: x in vars ==> x in b
    requires forall k :: k in a ==> k in b && b[k] == a[k]
    ensures SumOver(vars, b) == BoundSum(vars, a) + SumOver(Unbound(vars, a), b)
  {
    if |vars| > 0 {
      assert forall x :: x in vars[1..] ==> x in vars;
      BoundSplit(vars[1..], a, b);
    }
  }

  lemma {:induction false} UnboundDistinct(vars: seq<nat>, a: Assignment)
    requires Distinct(vars)
    ensures Distinct(Unbound(vars, a))
  {
    if |vars| > 0 {
      assert Distinct(vars[1..]);
      UnboundDistinct(vars[1..], a);
      if vars[0] !in a {
        assert vars[0] !in vars[1..];
        AppendDistinct([vars[0]], Unbound(vars[1..], a));
      }
    }
  }

  lemma {:induction false} EnumerateFromMembers(matched: int, pattern: Slot, existing: seq<Assignment>, b: Assignment)
    ensures b in EnumerateFrom(matched, pattern, existing)
        <==> exists e :: e in existing && b in ForOne(matched, pattern, e)
  {
    if |existing| > 0 {
      EnumerateFromMembers(matched, pattern, existing[1..], b);
      assert existing == [existing[0]] + existing[1..];
    }
  }

  /** A result of the enumeration extends one of the existing assignments by
      exactly the pattern variables it left unbound, with naturals, so that
      the pattern's value plus its variables equals the matched count; and
      every such extension is produced. */
  lemma EnumerateExact(matched: int, pattern: Slot, existing: Option<seq<Assignment>>, b: Assignment)
    requires Distinct(pattern.vars)
    ensures b in Enumerate(matched, pattern, existing)
        <==> exists e :: e in existing.GetOr([map[]])
               && Extends(b, e, Unbound(pattern.vars, e))
               && pattern.value + SumOver(pattern.vars, b) == matched
  {
    var es := existing.GetOr([map[]]);
    EnumerateFromMembers(matched, pattern, es, b);
    forall e | e in es
      ensures b in ForOne(matched, pattern, e)
          <==> Extends(b, e, Unbound(pattern.vars, e)) && pattern.value + SumOver(pattern.vars, b) == matched
    {
      ForOneExact(matched, pattern, e, b);
    }
  }

  /** The extensions one existing assignment yields. */
  lemma ForOneExact(matched: int, pattern: Slot, e: Assignment, b: Assignment)
    requires Distinct(pattern.vars)
    ensures b in ForOne(matched, pattern, e)
        <==> Extends(b, e, Unbound(pattern.vars, e)) && pattern.value + SumOver(pattern.vars, b) == matched
  {
    var rem := Unbound(pattern.vars, e);
    UnboundDistinct(pattern.vars, e);
    var s := matched - pattern.value - BoundSum(pattern.vars, e);
    SumsToExact(e, rem, s, b);
    if Extends(b, e, rem) {
      BoundSplit(pattern.vars, e, b);
    }
  }

  /** Nothing is produced from an existing assignment whose remainder is
      negative, or non-zero with every pattern variable already bound. */
  lemma {:induction false} EnumerateEmpty(matched: int, pattern: Slot, existing: seq<Assignment>)
    requires forall e :: e in existing ==>
      var r := matched - pattern.value - BoundSum(pattern.vars, e);
      r < 0 || (Unbound(pattern.vars, e) == [] && r != 0)
    ensures Enumerate(matched, pattern, Some(existing)) == []
  {
    if |existing| > 0 {
      assert existing[0] in existing;
      assert forall e :: e in existing[1..] ==> e in existing;
      EnumerateEmpty(matched, pattern, existing[1..]);
    }
  }
}

=== FILE: cell_actions.dfy ===
/** What happens when a cell is revealed or flagged (setRevealed,
    setFlagged), and the regions the puzzle's own numbers give: one per
    revealed numbered cell (generateRegionForNode), one per column or color
    hint (generateRegionForHint), all of them at start-up
    (initializeRegions). */
module CellActions {
  import opened Wrappers
  import opened SeqUtil
  import opened Kinds
  import opened EngineState
  import opened RegionStore
  import WorkQueue

  // ---------------------------------------------------------------------
  // Counts the puzzle shows

  /** The number of entries of `nodes` that are flagged. */
  function FlagCount(cells: map<CellId, Cell>, nodes: seq<CellId>): (n: nat)
    ensures n <= |nodes|
  {
    if |nodes| == 0 then 0
    else (if nodes[0] in cells && cells[nodes[0]].flagged then 1 else 0) + FlagCount(cells, nodes[1..])
  }

  /** No revealed cell holds a mine (the solver never reveals one). */
  predicate NoRevealedMines(cells: map<CellId, Cell>) {
    forall c :: c in cells && cells[c].revealed ==> !cells[c].hasMine
  }

  /** A cell is never both flagged and revealed. */
  predicate Exclusive(cells: map<CellId, Cell>) {
    forall c :: c in cells ==> !(cells[c].flagged && cells[c].revealed)
  }

  /** Every numbered cell shows the mines and flags among its neighbours. */
  predicate CellCountsAccurate(cells: map<CellId, Cell>) {
    forall c :: c in cells && !cells[c].hasMine && !cells[c].secret ==>
      && cells[c].mineCount == MineCount(cells, cells[c].edges)
      && cells[c].flaggedCount == FlagCount(cells, cells[c].edges)
  }

  /** Every hint lists distinct cells and shows the mines and flags among
      them. */
  predicate HintCountsAccurate(cells: map<CellId, Cell>, hints: seq<Hint>) {
    forall k :: 0 <= k < |hints| ==>
      && Distinct(hints[k].ids)
      && hints[k].mineCount == MineCount(cells, hints[k].ids)
      && hints[k].flaggedCount == FlagCount(cells, hints[k].ids)
  }

  /** The neighbour relation is symmetric, edge for edge. */
  predicate Symmetric(cells: map<CellId, Cell>) {
    forall a, b :: a in cells && b in cells ==> Occurrences(cells[a].edges, b) == Occurrences(cells[b].edges, a)
  }

  /** When flags are right and no mine is revealed, the resolved mines of a
      list are exactly its flags. */
  lemma {:induction false} ResolvedMinesAreFlags(cells: map<CellId, Cell>, nodes: seq<CellId>)
    requires FlagsCorrect(cells) && NoRevealedMines(cells)
    ensures ResolvedMines(cells, nodes) == FlagCount(cells, nodes)
  {
    if |nodes| > 0 {
      ResolvedMinesAreFlags(cells, nodes[1..]);
    }
  }

  /** A shown count turned into a region: "the mines still to find among
      the covered cells of `nodes` number `mineCount - flaggedCount`". */
  function CountRegion(cells: map<CellId, Cell>, nodes: seq<CellId>, mineCount: int, flaggedCount: int, visible: bool): (r: Option<Region>)
    ensures r.None? <==> forall n :: n in nodes ==> !Unresolved(cells, n)
    ensures r.Some? ==> r.value.id.None? && !r.value.displayed && r.value.kind == Exact && r.value.priority == BasePriority
    ensures r.Some? ==> r.value.visible == visible && |r.value.nodes| > 0
    ensures r.Some? ==> forall n :: n in r.value.nodes <==> n in nodes && Unresolved(cells, n)
  {
    var covered := KeepUnresolved(cells, nodes);
    if |covered| == 0 then None
    else
      assert covered[0] in covered;
      Some(NewRegion(mineCount - flaggedCount, Exact, covered, visible, BasePriority))
  }

  /** An accurate count yields a true region: flagged cells are mines that
      are taken off both sides, and no revealed cell hides one. */
  lemma CountRegionTruthful(cells: map<CellId, Cell>, nodes: seq<CellId>, mineCount: int, flaggedCount: int, visible: bool)
    requires FlagsCorrect(cells) && NoRevealedMines(cells)
    requires forall k :: 0 <= k < |nodes| ==> nodes[k] in cells
    requires mineCount == MineCount(cells, nodes) && flaggedCount == FlagCount(cells, nodes)
    requires CountRegion(cells, nodes, mineCount, flaggedCount, visible).Some?
    ensures Truthful(cells, CountRegion(cells, nodes, mineCount, flaggedCount, visible).value)
  {
    StripCountsMines(cells, nodes);
    ResolvedMinesAreFlags(cells, nodes);
  }

  /** generateRegionForNode's region: none for a cell that is not revealed,
      holds a mine or is a secret ("?") cell, or has no covered
      neighbour; otherwise the count of its covered neighbours, shown. */
  function RegionForNode(cells: map<CellId, Cell>, x: CellId): Option<Region>
    requires x in cells
  {
    var c := cells[x];
    if !c.revealed || c.hasMine || c.secret then None
    else CountRegion(cells, c.edges, c.mineCount, c.flaggedCount, true)
  }

  /** generateRegionForHint's region: the count of the hint's covered
      cells, hidden. */
  function RegionForHint(cells: map<CellId, Cell>, hint: Hint): Option<Region> {
    CountRegion(cells, hint.ids, hint.mineCount, hint.flaggedCount, false)
  }

  /** With accurate counts, correct flags and no revealed mine, every
      region a numbered cell or a hint yields is true. */
  lemma GeneratedRegionsTruthful(cells: map<CellId, Cell>, hints: seq<Hint>)
    requires FlagsCorrect(cells) && NoRevealedMines(cells)
    requires CellCountsAccurate(cells) && HintCountsAccurate(cells, hints)
    requires forall c :: c in cells ==> forall k :: 0 <= k < |cells[c].edges| ==> cells[c].edges[k] in cells
    requires forall j :: 0 <= j < |hints| ==> forall k :: 0 <= k < |hints[j].ids| ==> hints[j].ids[k] in cells
    ensures forall x :: x in cells && RegionForNode(cells, x).Some? ==> Truthful(cells, RegionForNode(cells, x).value)
    ensures forall j :: 0 <= j < |hints| && RegionForHint(cells, hints[j]).Some? ==> Truthful(cells, RegionForHint(cells, hints[j]).value)
  {
    forall x | x in cells && RegionForNode(cells, x).Some? ensures Truthful(cells, RegionForNode(cells, x).value) {
      var c := cells[x];
      CountRegionTruthful(cells, c.edges, c.mineCount, c.flaggedCount, true);
    }
    forall j | 0 <= j < |hints| && RegionForHint(cells, hints[j]).Some? ensures Truthful(cells, RegionForHint(cells, hints[j]).value) {
      var hint := hints[j];
      CountRegionTruthful(cells, hint.ids, hint.mineCount, hint.flaggedCount, false);
    }
  }

  // ---------------------------------------------------------------------
  // Queuing new regions

  /** A new region object is created and queued at its priority
      (enqueRegion on a fresh object). */
  function AddRegion(e: Engine, r: Region): (e': Engine)
    ensures e'.arena == e.arena + [r]
    ensures WorkQueue.Size(e'.queue) == WorkQueue.Size(e.queue) + 1
    ensures e'.cells == e.cells && e'.hints == e.hints && e'.live == e.live && e'.trashed == e.trashed && e'.nextId == e.nextId
  {
    e.(arena := e.arena + [r], queue := WorkQueue.Push(e.queue, r.priority, RegionWork(|e.arena|)))
  }

  lemma AddRegionWellFormed(e: Engine, r: Region)
    requires WellFormed(e) && CellsKnown(e, r.nodes)
    ensures WellFormed(AddRegion(e, r))
  {
    var e1 := e.(arena := e.arena + [r]);
    forall h | 0 <= h < |e1.arena| ensures CellsKnown(e1, e1.arena[h].nodes) {
      if h < |e.arena| { assert e1.arena[h] == e.arena[h]; }
    }
    forall k, w | 0 <= k < |e1.queue| && w in e1.queue[k].items ensures WorkOk(e1, w) {
      assert WorkOk(e, w);
    }
    PushRegionWellFormed(e1, |e.arena|, r.priority);
  }

  function AddIfSome(e: Engine, r: Option<Region>): Engine {
    match r
    case None => e
    case Some(reg) => AddRegion(e, reg)
  }

  /** What the generation steps keep: cells and lists untouched, the arena
      only grows, every region it gains is true and unregistered, and each
      one was queued. */
  predicate GeneratedFrom(e: Engine, e': Engine) {
    && e'.cells == e.cells && e'.hints == e.hints && e'.live == e.live && e'.trashed == e.trashed
    && |e'.arena| >= |e.arena| && e'.arena[..|e.arena|] == e.arena
    && (forall h :: |e.arena| <= h < |e'.arena| ==>
          e'.arena[h].id.None? && e'.arena[h].kind == Exact && Truthful(e.cells, e'.arena[h]))
    && WorkQueue.Size(e'.queue) == WorkQueue.Size(e.queue) + (|e'.arena| - |e.arena|)
  }

  lemma AddIfSomeGenerates(e: Engine, r: Option<Region>)
    requires r.Some? ==> r.value.id.None? && r.value.kind == Exact && Truthful(e.cells, r.value)
    ensures GeneratedFrom(e, AddIfSome(e, r))
  {
  }

  lemma GeneratedFromTrans(e: Engine, e1: Engine, e2: Engine)
    requires GeneratedFrom(e, e1) && GeneratedFrom(e1, e2)
    ensures GeneratedFrom(e, e2)
  {
    assert e2.arena[..|e.arena|] == e2.arena[..|e1.arena|][..|e.arena|];
    forall h | |e.arena| <= h < |e2.arena|
      ensures e2.arena[h].id.None? && e2.arena[h].kind == Exact && Truthful(e.cells, e2.arena[h])
    {
      if h < |e1.arena| {
        assert e2.arena[h] == e2.arena[..|e1.arena|][h];
      }
    }
  }

  /** hints.forEach(generateRegionForHint) */
  function GenerateHints(e: Engine, hs: seq<Hint>): Engine
    decreases |hs|
  {
    if |hs| == 0 then e
    else GenerateHints(AddIfSome(e, RegionForHint(e.cells, hs[0])), hs[1..])
  }

  /** generateRegionForNode for each cell of `ids`, in order. */
  function GenerateCells(e: Engine, ids: seq<CellId>): Engine
    requires forall k :: 0 <= k < |ids| ==> ids[k] in e.cells
    decreases |ids|
  {
    if |ids| == 0 then e
    else GenerateCells(AddIfSome(e, RegionForNode(e.cells, ids[0])), ids[1..])
  }

  lemma {:induction false} GenerateHintsSound(e: Engine, hs: seq<Hint>)
    requires forall j :: 0 <= j < |hs| && RegionForHint(e.cells, hs[j]).Some? ==> Truthful(e.cells, RegionForHint(e.cells, hs[j]).value)
    ensures GeneratedFrom(e, GenerateHints(e, hs))
    decreases |hs|
  {
    if |hs| > 0 {
      var e1 := AddIfSome(e, RegionForHint(e.cells, hs[0]));
      AddIfSomeGenerates(e, RegionForHint(e.cells, hs[0]));
      assert forall j :: 0 <= j < |hs[1..]| ==> hs[1..][j] == hs[j + 1];
      GenerateHintsSound(e1, hs[1..]);
      GeneratedFromTrans(e, e1, GenerateHints(e1, hs[1..]));
    }
  }

  lemma {:induction false} GenerateCellsSound(e: Engine, ids: seq<CellId>)
    requires forall k :: 0 <= k < |ids| ==> ids[k] in e.cells
    requires forall x :: x in e.cells && RegionForNode(e.cells, x).Some? ==> Truthful(e.cells, RegionForNode(e.cells, x).value)
    ensures GeneratedFrom(e, GenerateCells(e, ids))
    decreases |ids|
  {
    if |ids| > 0 {
      var e1 := AddIfSome(e, RegionForNode(e.cells, ids[0]));
      AddIfSomeGenerates(e, RegionForNode(e.cells, ids[0]));
      GenerateCellsSound(e1, ids[1..]);
      GeneratedFromTrans(e, e1, GenerateCells(e1, ids[1..]));
    }
  }

  lemma {:induction false} GenerateHintsWellFormed(e: Engine, hs: seq<Hint>)
    requires WellFormed(e)
    requires forall j :: 0 <= j < |hs| ==> CellsKnown(e, hs[j].ids)
    ensures WellFormed(GenerateHints(e, hs))
    decreases |hs|
  {
    if |hs| > 0 {
      var r := RegionForHint(e.cells, hs[0]);
      if r.Some? {
        assert forall k :: 0 <= k < |r.value.nodes| ==> r.value.nodes[k] in r.value.nodes;
        AddRegionWellFormed(e, r.value);
      }
      GenerateHintsWellFormed(AddIfSome(e, r), hs[1..]);
    }
  }

  lemma {:induction false} GenerateCellsWellFormed(e: Engine, ids: seq<CellId>)
    requires WellFormed(e)
    requires forall k :: 0 <= k < |ids| ==> ids[k] in e.cells
    ensures WellFormed(GenerateCells(e, ids))
    decreases |ids|
  {
    if |ids| > 0 {
      var r := RegionForNode(e.cells, ids[0]);
      if r.Some? {
        assert forall k :: 0 <= k < |r.value.nodes| ==> r.value.nodes[k] in r.value.nodes;
        assert CellsKnown(e, e.cells[ids[0]].edges);
        AddRegionWellFormed(e, r.value);
      }
      GenerateCellsWellFormed(AddIfSome(e, r), ids[1..]);
    }
  }

  // ---------------------------------------------------------------------
  // Start-up

  /** `m` is the least element of `s`. */
  predicate IsLeast(m: nat, s: set<nat>) {
    m in s && forall y :: y in s ==> m <= y
  }

  lemma {:induction false} MinExists(s: set<nat>)
    requires s != {}
    ensures exists m :: IsLeast(m, s)
  {
    var x :| x in s;
    if s == {x} {
      assert IsLeast(x, s);
    } else {
      var t := s - {x};
      MinExists(t);
      var m :| IsLeast(m, t);
      var least := if x < m then x else m;
      forall y | y in s ensures least <= y {
        if y != x { assert y in t; }
      }
      assert IsLeast(least, s);
    }
  }

  function MinOf(s: set<nat>): (m: nat)
    requires s != {}
    ensures IsLeast(m, s)
  {
    MinExists(s);
    var m :| IsLeast(m, s);
    m
  }

  /** The cell ids in ascending order: the order in which
      `Object.values(nodes)` lists cells keyed by integer-like strings. */
  function AscendingIds(s: set<nat>): (r: seq<nat>)
    ensures forall x :: x in r <==> x in s
    ensures forall i, j :: 0 <= i < j < |r| ==> r[i] < r[j]
    decreases |s|
  {
    if s == {} then []
    else
      var m := MinOf(s);
      var rest := AscendingIds(s - {m});
      assert forall j :: 0 <= j < |rest| ==> m < rest[j] by {
        forall j | 0 <= j < |rest| ensures m < rest[j] {
          assert rest[j] in s - {m};
        }
      }
      assert forall x :: x in [m] + rest <==> x == m || x in rest;
      [m] + rest
  }

  /** initializeRegions: the queue and both region lists start empty; the
      color hints, the column hints and then the cells in ascending id
      order each queue their region.  Region objects made earlier stay in
      the arena, unreferenced. */
  function InitializeRegions(e: Engine): (r: Engine)
    ensures r.live == [] && r.trashed == [] && r.cells == e.cells && r.hints == e.hints
    ensures |r.arena| >= |e.arena| && r.arena[..|e.arena|] == e.arena
  {
    var e0 := e.(queue := [], live := [], trashed := []);
    var ids := AscendingIds(e.cells.Keys);
    GenerateHintsFrame(e0, e.hints);
    var e1 := GenerateHints(e0, e.hints);
    GenerateCellsFrame(e1, ids);
    GenerateCells(e1, ids)
  }

  lemma {:induction false} GenerateHintsFrame(e: Engine, hs: seq<Hint>)
    ensures var r := GenerateHints(e, hs);
      r.cells == e.cells && r.hints == e.hints && r.live == e.live && r.trashed == e.trashed
      && |r.arena| >= |e.arena| && r.arena[..|e.arena|] == e.arena
    decreases |hs|
  {
    if |hs| > 0 {
      var e1 := AddIfSome(e, RegionForHint(e.cells, hs[0]));
      GenerateHintsFrame(e1, hs[1..]);
      var r := GenerateHints(e1, hs[1..]);
      assert r.arena[..|e.arena|] == r.arena[..|e1.arena|][..|e.arena|];
    }
  }

  lemma {:induction false} GenerateCellsFrame(e: Engine, ids: seq<CellId>)
    requires forall k :: 0 <= k < |ids| ==> ids[k] in e.cells
    ensures var r := GenerateCells(e, ids);
      r.cells == e.cells && r.hints == e.hints && r.live == e.live && r.trashed == e.trashed
      && |r.arena| >= |e.arena| && r.arena[..|e.arena|] == e.arena
    decreases |ids|
  {
    if |ids| > 0 {
      var e1 := AddIfSome(e, RegionForNode(e.cells, ids[0]));
      GenerateCellsFrame(e1, ids[1..]);
      var r := GenerateCells(e1, ids[1..]);
      assert r.arena[..|e.arena|] == r.arena[..|e1.arena|][..|e.arena|];
    }
  }

  /** Start-up is sound: with accurate counts, correct flags and no revealed
      mine, every region it queues is true, and the queue holds exactly one
      item per new region. */
  lemma InitializeRegionsSound(e: Engine)
    requires WellFormed(e)
    requires FlagsCorrect(e.cells) && NoRevealedMines(e.cells)
    requires CellCountsAccurate(e.cells) && HintCountsAccurate(e.cells, e.hints)
    ensures var r := InitializeRegions(e);
      && WellFormed(r)
      && WorkQueue.Size(r.queue) == |r.arena| - |e.arena|
      && forall h :: |e.arena| <= h < |r.arena| ==> r.arena[h].kind == Exact && Truthful(r.cells, r.arena[h])
  {
    var e0 := e.(queue := [], live := [], trashed := []);
    var ids := AscendingIds(e.cells.Keys);
    assert WellFormed(e0);
    GeneratedRegionsTruthful(e.cells, e.hints);
    GenerateHintsSound(e0, e.hints);
    var e1 := GenerateHints(e0, e.hints);
    GenerateCellsSound(e1, ids);
    GeneratedFromTrans(e0, e1, GenerateCells(e1, ids));
    GenerateHintsWellFormed(e0, e.hints);
    GenerateCellsWellFormed(e1, ids);
    assert InitializeRegions(e) == GenerateCells(e1, ids);
  }

  // ---------------------------------------------------------------------
  // Revealing and flagging

  /** Only the marks of `x` may differ between the two cell maps: every
      other cell keeps its marks, and every cell its mine, secrecy and
      neighbours. */
  predicate OnlyMarked(cells: map<CellId, Cell>, cells': map<CellId, Cell>, x: CellId) {
    && cells'.Keys == cells.Keys
    && (forall c :: c in cells ==>
          && cells'[c].hasMine == cells[c].hasMine && cells'[c].secret == cells[c].secret
          && cells'[c].edges == cells[c].edges)
    && (forall c :: c in cells && c != x ==>
          cells'[c].flagged == cells[c].flagged && cells'[c].revealed == cells[c].revealed)
  }

  /** Changing anything but the neighbours and back-references of cells
      keeps the engine well formed. */
  lemma CellsUpdateWellFormed(e: Engine, e': Engine)
    requires WellFormed(e)
    requires e'.cells.Keys == e.cells.Keys
    requires forall c :: c in e.cells ==> e'.cells[c].edges == e.cells[c].edges && e'.cells[c].refs == e.cells[c].refs
    requires e'.hints == e.hints || forall k :: 0 <= k < |e'.hints| ==> k < |e.hints| && e'.hints[k].ids == e.hints[k].ids
    requires |e'.hints| == |e.hints|
    requires e'.arena == e.arena && e'.live == e.live && e'.trashed == e.trashed && e'.queue == e.queue
    ensures WellFormed(e')
  {
    forall k, w | 0 <= k < |e'.queue| && w in e'.queue[k].items ensures WorkOk(e', w) {
      assert WorkOk(e, w);
    }
  }

  /** The flagged count of every cell moves by one per edge to `x`, up or
      down (the neighbour loop of setFlagged; steps on different cells do
      not interact). */
  function BumpNeighbours(cells: map<CellId, Cell>, edges: seq<CellId>, up: bool): (r: map<CellId, Cell>)
    ensures r.Keys == cells.Keys
    ensures forall c :: c in cells ==> r[c] == cells[c].(flaggedCount := r[c].flaggedCount)
    ensures forall c :: c in cells ==> var o: int := Occurrences(edges, c);
      r[c].flaggedCount == cells[c].flaggedCount + (if up then o else -o)
  {
    map c | c in cells ::
      var o: int := Occurrences(edges, c);
      cells[c].(flaggedCount := cells[c].flaggedCount + (if up then o else -o))
  }

  /** The hint loops of setFlagged: a hint listing `x` counts one flag more
      or fewer. */
  function BumpHints(hints: seq<Hint>, x: CellId, up: bool): (r: seq<Hint>)
    ensures |r| == |hints|
    ensures forall k :: 0 <= k < |hints| ==> r[k].ids == hints[k].ids && r[k].mineCount == hints[k].mineCount
    ensures forall k :: 0 <= k < |hints| ==>
      r[k].flaggedCount == hints[k].flaggedCount + (if x !in hints[k].ids then 0 else if up then 1 else -1)
  {
    if |hints| == 0 then []
    else
      var h := hints[0];
      [if x in h.ids then h.(flaggedCount := h.flaggedCount + (if up then 1 else -1)) else h] + BumpHints(hints[1..], x, up)
  }

  /** The cell `x` replaced by `c`. */
  function Mark(e: Engine, x: CellId, c: Cell): Engine {
    e.(cells := e.cells[x := c])
  }

  lemma MarkWellFormed(e: Engine, x: CellId, c: Cell)
    requires WellFormed(e) && x in e.cells
    requires c.edges == e.cells[x].edges && c.refs == e.cells[x].refs
    ensures WellFormed(Mark(e, x, c))
  {
    CellsUpdateWellFormed(e, Mark(e, x, c));
  }

  /** The counting part of setFlagged for a flag put on (`up`) or taken off
      `x`, whose neighbours are `edges`. */
  function Bump(e: Engine, x: CellId, edges: seq<CellId>, up: bool): Engine {
    e.(cells := BumpNeighbours(e.cells, edges, up), hints := BumpHints(e.hints, x, up))
  }

  lemma BumpWellFormed(e: Engine, x: CellId, edges: seq<CellId>, up: bool)
    requires WellFormed(e)
    ensures WellFormed(Bump(e, x, edges, up))
  {
    CellsUpdateWellFormed(e, Bump(e, x, edges, up));
  }

  /** setFlagged: nothing happens for a cell already in that state or
      revealed.  Otherwise the mark changes; a new flag resolves the cell in
      every region holding it; then every neighbour and every hint listing
      the cell count one flag more (or fewer).  Regions are not rebuilt
      when a flag is taken off. */
  function SetFlagged(e: Engine, x: CellId, flagged: bool): (r: Result<Engine>)
    requires WellFormed(e) && x in e.cells
    ensures r.Ok? ==> WellFormed(r.value)
    ensures r.Err? ==> flagged && !e.cells[x].flagged && !e.cells[x].revealed
  {
    var c := e.cells[x];
    if c.flagged == flagged || c.revealed then Ok(e)
    else
      var e1 := Mark(e, x, c.(flagged := flagged));
      MarkWellFormed(e, x, c.(flagged := flagged));
      var e2 :- if flagged then UpdateRegionsToRemove(e1, x) else Ok(e1);
      BumpWellFormed(e2, x, c.edges, flagged);
      Ok(Bump(e2, x, c.edges, flagged))
  }

  /** The steps setFlagged takes when the flag changes. */
  lemma SetFlaggedSteps(e: Engine, x: CellId, flagged: bool)
    requires WellFormed(e) && x in e.cells
    requires e.cells[x].flagged != flagged && !e.cells[x].revealed
    ensures var c := e.cells[x]; var e1 := Mark(e, x, c.(flagged := flagged));
      && WellFormed(e1)
      && (flagged ==> SetFlagged(e, x, flagged).Ok? == UpdateRegionsToRemove(e1, x).Ok?)
      && (SetFlagged(e, x, flagged).Ok? ==>
            var e2 := if flagged then UpdateRegionsToRemove(e1, x).value else e1;
            SetFlagged(e, x, flagged) == Ok(Bump(e2, x, c.edges, flagged)))
  {
    var c := e.cells[x];
    MarkWellFormed(e, x, c.(flagged := flagged));
  }

  /** After setFlagged only the flag of `x` may have changed, and it now
      has the requested state unless the cell is revealed. */
  lemma SetFlaggedMarks(e: Engine, x: CellId, flagged: bool)
    requires WellFormed(e) && x in e.cells && SetFlagged(e, x, flagged).Ok?
    ensures var e' := SetFlagged(e, x, flagged).value;
      && OnlyMarked(e.cells, e'.cells, x)
      && e'.cells[x].flagged == (if e.cells[x].revealed then e.cells[x].flagged else flagged)
      && e'.cells[x].revealed == e.cells[x].revealed
  {
    var c := e.cells[x];
    if c.flagged != flagged && !c.revealed {
      SetFlaggedSteps(e, x, flagged);
      var e1 := Mark(e, x, c.(flagged := flagged));
      var e2 := if flagged then UpdateRegionsToRemove(e1, x).value else e1;
      FlipCells(e.cells, e2.cells, x, flagged);
    }
  }

  /** The cell map after a flag flip on `x`, the resolving of `x` (which
      only touches back-references) and the neighbour bump. */
  lemma FlipCells(cells: map<CellId, Cell>, cells2: map<CellId, Cell>, x: CellId, flagged: bool)
    requires x in cells && cells[x].flagged != flagged
    requires SameMarks(cells[x := cells[x].(flagged := flagged)], cells2)
    ensures var cells3 := BumpNeighbours(cells2, cells[x].edges, flagged);
      && FlagFlipped(cells, cells3, x, flagged) && OnlyMarked(cells, cells3, x)
      && cells3[x].revealed == cells[x].revealed
  {
    var cells3 := BumpNeighbours(cells2, cells[x].edges, flagged);
    forall y | y in cells
      ensures cells3[y] == cells[y].(flagged := cells3[y].flagged, refs := cells3[y].refs, flaggedCount := cells3[y].flaggedCount)
      ensures cells3[y].flagged == if y == x then flagged else cells[y].flagged
      ensures var o: int := Occurrences(cells[x].edges, y);
        cells3[y].flaggedCount == cells[y].flaggedCount + (if flagged then o else -o)
    {
      FlipCell(cells, cells2, x, flagged, y);
    }
  }

  lemma FlipCell(cells: map<CellId, Cell>, cells2: map<CellId, Cell>, x: CellId, flagged: bool, y: CellId)
    requires x in cells && y in cells
    requires SameMarks(cells[x := cells[x].(flagged := flagged)], cells2)
    ensures var cells3 := BumpNeighbours(cells2, cells[x].edges, flagged);
      && cells3[y] == cells[y].(flagged := cells3[y].flagged, refs := cells3[y].refs, flaggedCount := cells3[y].flaggedCount)
      && cells3[y].flagged == (if y == x then flagged else cells[y].flagged)
      && var o: int := Occurrences(cells[x].edges, y);
         cells3[y].flaggedCount == cells[y].flaggedCount + (if flagged then o else -o)
  {
    var cells1 := cells[x := cells[x].(flagged := flagged)];
    assert cells2[y] == cells1[y].(refs := cells2[y].refs);
  }

  /** setRevealed: nothing happens for a cell already in that state or
      flagged.  Otherwise the mark changes; a newly revealed cell first
      queues the region its number gives, then is resolved in every region
      holding it.  Regions are not rebuilt when a cell is covered again. */
  function SetRevealed(e: Engine, x: CellId, revealed: bool): (r: Result<Engine>)
    requires WellFormed(e) && x in e.cells
    ensures r.Ok? ==> WellFormed(r.value)
    ensures r.Err? ==> revealed && !e.cells[x].revealed && !e.cells[x].flagged
  {
    var c := e.cells[x];
    if c.revealed == revealed || c.flagged then Ok(e)
    else
      var e1 := Mark(e, x, c.(revealed := revealed));
      MarkWellFormed(e, x, c.(revealed := revealed));
      if !revealed then Ok(e1)
      else
        var region := RegionForNode(e1.cells, x);
        RevealRegionWellFormed(e1, x);
        UpdateRegionsToRemove(AddIfSome(e1, region), x)
  }

  /** The steps setRevealed takes when the mark changes. */
  lemma SetRevealedSteps(e: Engine, x: CellId, revealed: bool)
    requires WellFormed(e) && x in e.cells
    requires e.cells[x].revealed != revealed && !e.cells[x].flagged
    ensures var e1 := Mark(e, x, e.cells[x].(revealed := revealed));
      && WellFormed(e1)
      && WellFormed(AddIfSome(e1, RegionForNode(e1.cells, x)))
      && SetRevealed(e, x, revealed)
         == if revealed then UpdateRegionsToRemove(AddIfSome(e1, RegionForNode(e1.cells, x)), x) else Ok(e1)
  {
    var c := e.cells[x];
    MarkWellFormed(e, x, c.(revealed := revealed));
    RevealRegionWellFormed(Mark(e, x, c.(revealed := revealed)), x);
  }

  lemma RevealRegionWellFormed(e: Engine, x: CellId)
    requires WellFormed(e) && x in e.cells
    ensures WellFormed(AddIfSome(e, RegionForNode(e.cells, x)))
  {
    var region := RegionForNode(e.cells, x);
    if region.Some? {
      assert forall k :: 0 <= k < |region.value.nodes| ==> region.value.nodes[k] in region.value.nodes;
      assert CellsKnown(e, e.cells[x].edges);
      AddRegionWellFormed(e, region.value);
    }
  }

  /** After setRevealed only the revealed mark of `x` may have changed, and
      it now has the requested state unless the cell is flagged. */
  lemma SetRevealedMarks(e: Engine, x: CellId, revealed: bool)
    requires WellFormed(e) && x in e.cells && SetRevealed(e, x, revealed).Ok?
    ensures var e' := SetRevealed(e, x, revealed).value;
      && OnlyMarked(e.cells, e'.cells, x)
      && SameCounts(e.cells, e'.cells)
      && e'.cells[x].revealed == (if e.cells[x].flagged then e.cells[x].revealed else revealed)
      && e'.cells[x].flagged == e.cells[x].flagged
      && e'.hints == e.hints
  {
    var c := e.cells[x];
    if c.revealed != revealed && !c.flagged {
      SetRevealedOnlyRefs(e, x, revealed);
      RevealCells(e.cells, SetRevealed(e, x, revealed).value.cells, x, revealed);
    } else {
      RevealCells(e.cells, e.cells, x, c.revealed);
    }
  }

  /** A change of the revealed mark of `x` changes nothing else of the
      cells but back-references, and leaves the hints alone. */
  lemma SetRevealedOnlyRefs(e: Engine, x: CellId, revealed: bool)
    requires WellFormed(e) && x in e.cells && SetRevealed(e, x, revealed).Ok?
    requires e.cells[x].revealed != revealed && !e.cells[x].flagged
    ensures SameMarks(e.cells[x := e.cells[x].(revealed := revealed)], SetRevealed(e, x, revealed).value.cells)
    ensures SetRevealed(e, x, revealed).value.hints == e.hints
  {
    var c := e.cells[x];
    SetRevealedSteps(e, x, revealed);
    var e1 := Mark(e, x, c.(revealed := revealed));
    if revealed {
      assert AddIfSome(e1, RegionForNode(e1.cells, x)).cells == e1.cells;
    } else {
      assert SameMarks(e1.cells, e1.cells);
    }
  }

  /** The cell map after a change of the revealed mark of `x` and the
      resolving of `x` (which only touches back-references). */
  lemma RevealCells(cells: map<CellId, Cell>, cells2: map<CellId, Cell>, x: CellId, revealed: bool)
    requires x in cells
    requires SameMarks(cells[x := cells[x].(revealed := revealed)], cells2)
    ensures OnlyMarked(cells, cells2, x) && SameCounts(cells, cells2)
    ensures cells2[x].revealed == revealed && cells2[x].flagged == cells[x].flagged
  {
    var cells1 := cells[x := cells[x].(revealed := revealed)];
    forall y | y in cells ensures cells2[y] == cells1[y].(refs := cells2[y].refs) {
    }
  }

  /** Flagging or unflagging twice in a row does nothing the second time. */
  lemma SetFlaggedIdempotent(e: Engine, x: CellId, flagged: bool)
    requires WellFormed(e) && x in e.cells && SetFlagged(e, x, flagged).Ok?
    ensures var e' := SetFlagged(e, x, flagged).value; SetFlagged(e', x, flagged) == Ok(e')
  {
  }

  /** Revealing or covering twice in a row does nothing the second time. */
  lemma SetRevealedIdempotent(e: Engine, x: CellId, revealed: bool)
    requires WellFormed(e) && x in e.cells && SetRevealed(e, x, revealed).Ok?
    ensures var e' := SetRevealed(e, x, revealed).value; SetRevealed(e', x, revealed) == Ok(e')
  {
  }

  /** Neither action ever leaves a cell both flagged and revealed. */
  lemma SetFlaggedKeepsExclusive(e: Engine, x: CellId, flagged: bool)
    requires WellFormed(e) && x in e.cells && Exclusive(e.cells) && SetFlagged(e, x, flagged).Ok?
    ensures Exclusive(SetFlagged(e, x, flagged).value.cells)
  {
    SetFlaggedMarks(e, x, flagged);
    var e' := SetFlagged(e, x, flagged).value;
    forall c | c in e'.cells ensures !(e'.cells[c].flagged && e'.cells[c].revealed) {
      assert c in e.cells;
    }
  }

  lemma SetRevealedKeepsExclusive(e: Engine, x: CellId, revealed: bool)
    requires WellFormed(e) && x in e.cells && Exclusive(e.cells) && SetRevealed(e, x, revealed).Ok?
    ensures Exclusive(SetRevealed(e, x, revealed).value.cells)
  {
    SetRevealedMarks(e, x, revealed);
    var e' := SetRevealed(e, x, revealed).value;
    forall c | c in e'.cells ensures !(e'.cells[c].flagged && e'.cells[c].revealed) {
      assert c in e.cells;
    }
  }

  /** Live regions stay true while no mine moves and the lists and regions
      stay as they are. */
  lemma TruthAcrossMines(e: Engine, e': Engine)
    requires LiveTruthful(e) && SameMines(e.cells, e'.cells)
    requires e'.live == e.live && e'.arena == e.arena
    ensures LiveTruthful(e')
  {
    forall k | 0 <= k < |e'.live| ensures Truthful(e'.cells, e'.arena[e'.live[k]]) {
      MineCountSameMines(e.cells, e'.cells, e.arena[e.live[k]].nodes);
    }
  }

  /** Flags stay on mines when only the marks of `x` changed and `x`, if
      flagged now, holds a mine. */
  lemma FlagsCorrectAcross(cells: map<CellId, Cell>, cells': map<CellId, Cell>, x: CellId)
    requires OnlyMarked(cells, cells', x) && FlagsCorrect(cells)
    requires x in cells' && cells'[x].flagged ==> cells'[x].hasMine
    ensures FlagsCorrect(cells')
  {
    forall y | y in cells' && cells'[y].flagged ensures cells'[y].hasMine {
      assert y in cells;
    }
  }

  /** Queuing a new region leaves the live regions alone. */
  lemma AddKeepsLiveTruth(e: Engine, r: Option<Region>)
    requires LiveTruthful(e) && HandlesOk(e, e.live)
    ensures LiveTruthful(AddIfSome(e, r))
  {
    var e2 := AddIfSome(e, r);
    forall k | 0 <= k < |e2.live| ensures Truthful(e2.cells, e2.arena[e2.live[k]]) {
      assert e2.arena[e2.live[k]] == e.arena[e.live[k]];
    }
  }

  /** Flagging a mine (or taking a flag off) keeps the flags right and every
      live region true. */
  lemma SetFlaggedKeepsTruth(e: Engine, x: CellId, flagged: bool)
    requires WellFormed(e) && x in e.cells && SetFlagged(e, x, flagged).Ok?
    requires LiveTruthful(e) && FlagsCorrect(e.cells)
    requires flagged ==> e.cells[x].hasMine
    ensures FlagsCorrect(SetFlagged(e, x, flagged).value.cells)
    ensures LiveTruthful(SetFlagged(e, x, flagged).value)
  {
    var c := e.cells[x];
    SetFlaggedMarks(e, x, flagged);
    var e' := SetFlagged(e, x, flagged).value;
    FlagsCorrectAcross(e.cells, e'.cells, x);
    if c.flagged != flagged && !c.revealed {
      SetFlaggedSteps(e, x, flagged);
      var e1 := Mark(e, x, c.(flagged := flagged));
      TruthAcrossMines(e, e1);
      var e2 := if flagged then UpdateRegionsToRemove(e1, x).value else e1;
      if flagged {
        FlagsCorrectAcross(e.cells, e1.cells, x);
        UpdateKeepsTruth(e1, x);
      }
      TruthAcrossMines(e2, e');
    }
  }

  /** Revealing a cell keeps the flags right and every live region true,
      whatever the cell holds: a region losing the cell loses its mine
      with it. */
  lemma SetRevealedKeepsTruth(e: Engine, x: CellId, revealed: bool)
    requires WellFormed(e) && x in e.cells && SetRevealed(e, x, revealed).Ok?
    requires LiveTruthful(e) && FlagsCorrect(e.cells)
    ensures FlagsCorrect(SetRevealed(e, x, revealed).value.cells)
    ensures LiveTruthful(SetRevealed(e, x, revealed).value)
  {
    var c := e.cells[x];
    SetRevealedMarks(e, x, revealed);
    var e' := SetRevealed(e, x, revealed).value;
    FlagsCorrectAcross(e.cells, e'.cells, x);
    if c.revealed != revealed && !c.flagged {
      SetRevealedSteps(e, x, revealed);
      var e1 := Mark(e, x, c.(revealed := revealed));
      TruthAcrossMines(e, e1);
      if revealed {
        var e2 := AddIfSome(e1, RegionForNode(e1.cells, x));
        AddKeepsLiveTruth(e1, RegionForNode(e1.cells, x));
        FlagsCorrectAcross(e.cells, e1.cells, x);
        UpdateKeepsTruth(e2, x);
      }
    }
  }

  // ---------------------------------------------------------------------
  // The shown counts stay accurate

  lemma {:induction false} FlagCountSameFlags(cells: map<CellId, Cell>, cells': map<CellId, Cell>, nodes: seq<CellId>)
    requires cells'.Keys == cells.Keys
    requires forall c :: c in cells ==> cells'[c].flagged == cells[c].flagged
    ensures FlagCount(cells', nodes) == FlagCount(cells, nodes)
  {
    if |nodes| > 0 {
      FlagCountSameFlags(cells, cells', nodes[1..]);
    }
  }

  /** Flipping the flag of `x` moves the flag count of a list by the number
      of times `x` occurs in it. */
  lemma {:induction false} FlagCountFlip(cells: map<CellId, Cell>, cells': map<CellId, Cell>, x: CellId, nodes: seq<CellId>)
    requires cells'.Keys == cells.Keys && x in cells
    requires forall c :: c in cells && c != x ==> cells'[c].flagged == cells[c].flagged
    requires cells'[x].flagged != cells[x].flagged
    ensures cells'[x].flagged ==> FlagCount(cells', nodes) == FlagCount(cells, nodes) + Occurrences(nodes, x)
    ensures cells[x].flagged ==> FlagCount(cells', nodes) + Occurrences(nodes, x) == FlagCount(cells, nodes)
  {
    if |nodes| > 0 {
      FlagCountFlip(cells, cells', x, nodes[1..]);
      assert nodes == [nodes[0]] + nodes[1..];
      assert multiset(nodes) == multiset{nodes[0]} + multiset(nodes[1..]);
    }
  }

  /** One numbered cell's counts after the flag of `x` flipped and its
      flagged count moved by its edges to `x`. */
  lemma CellCountStep(cells: map<CellId, Cell>, cells': map<CellId, Cell>, x: CellId, up: bool, c: CellId)
    requires cells'.Keys == cells.Keys && x in cells && c in cells
    requires forall y :: y in cells ==> cells'[y].hasMine == cells[y].hasMine
    requires forall y :: y in cells && y != x ==> cells'[y].flagged == cells[y].flagged
    requires cells'[x].flagged == up && cells[x].flagged == !up
    requires cells'[c].mineCount == cells[c].mineCount && cells'[c].edges == cells[c].edges
    requires cells'[c].flaggedCount == cells[c].flaggedCount
      + (if up then Occurrences(cells[c].edges, x) as int else -(Occurrences(cells[c].edges, x) as int))
    requires cells[c].mineCount == MineCount(cells, cells[c].edges)
    requires cells[c].flaggedCount == FlagCount(cells, cells[c].edges)
    ensures cells'[c].mineCount == MineCount(cells', cells'[c].edges)
    ensures cells'[c].flaggedCount == FlagCount(cells', cells'[c].edges)
  {
    MineCountSameMines(cells, cells', cells[c].edges);
    FlagCountFlip(cells, cells', x, cells[c].edges);
  }

  /** One hint's counts after the flag of `x` flipped. */
  lemma HintCountStep(cells: map<CellId, Cell>, cells': map<CellId, Cell>, x: CellId, up: bool, h: Hint, h': Hint)
    requires cells'.Keys == cells.Keys && x in cells
    requires forall y :: y in cells ==> cells'[y].hasMine == cells[y].hasMine
    requires forall y :: y in cells && y != x ==> cells'[y].flagged == cells[y].flagged
    requires cells'[x].flagged == up && cells[x].flagged == !up
    requires h'.ids == h.ids && h'.mineCount == h.mineCount
    requires h'.flaggedCount == h.flaggedCount + (if x !in h.ids then 0 else if up then 1 else -1)
    requires Distinct(h.ids) && h.mineCount == MineCount(cells, h.ids) && h.flaggedCount == FlagCount(cells, h.ids)
    ensures Distinct(h'.ids) && h'.mineCount == MineCount(cells', h'.ids) && h'.flaggedCount == FlagCount(cells', h'.ids)
  {
    MineCountSameMines(cells, cells', h.ids);
    FlagCountFlip(cells, cells', x, h.ids);
    DistinctCount(h.ids, x);
  }

  /** Between the two cell maps no count, mine, flag or neighbour changed
      (revealed marks and back-references may). */
  predicate SameCounts(cells: map<CellId, Cell>, cells': map<CellId, Cell>) {
    && cells'.Keys == cells.Keys
    && forall c :: c in cells ==>
         && cells'[c].hasMine == cells[c].hasMine && cells'[c].secret == cells[c].secret
         && cells'[c].edges == cells[c].edges && cells'[c].flagged == cells[c].flagged
         && cells'[c].mineCount == cells[c].mineCount && cells'[c].flaggedCount == cells[c].flaggedCount
  }

  /** The flag of `x` flipped to `up`, and every cell's flagged count moved
      by the number of edges from `x` to it; nothing else that counts
      changed. */
  predicate FlagFlipped(cells: map<CellId, Cell>, cells': map<CellId, Cell>, x: CellId, up: bool) {
    && cells'.Keys == cells.Keys && x in cells
    && cells'[x].flagged == up && cells[x].flagged == !up
    && (forall c :: c in cells ==>
         && cells'[c].hasMine == cells[c].hasMine && cells'[c].secret == cells[c].secret
         && cells'[c].edges == cells[c].edges && cells'[c].mineCount == cells[c].mineCount
         && var o: int := Occurrences(cells[x].edges, c);
            cells'[c].flaggedCount == cells[c].flaggedCount + (if up then o else -o))
    && (forall c :: c in cells && c != x ==> cells'[c].flagged == cells[c].flagged)
  }

  lemma SameCountsKeepAccuracy(cells: map<CellId, Cell>, cells': map<CellId, Cell>, hints: seq<Hint>)
    requires SameCounts(cells, cells')
    requires Symmetric(cells) && CellCountsAccurate(cells) && HintCountsAccurate(cells, hints)
    ensures Symmetric(cells') && CellCountsAccurate(cells') && HintCountsAccurate(cells', hints)
  {
    forall a, b | a in cells' && b in cells' ensures Occurrences(cells'[a].edges, b) == Occurrences(cells'[b].edges, a) {
      assert a in cells && b in cells;
    }
    forall y | y in cells' && !cells'[y].hasMine && !cells'[y].secret
      ensures cells'[y].mineCount == MineCount(cells', cells'[y].edges) && cells'[y].flaggedCount == FlagCount(cells', cells'[y].edges)
    {
      assert y in cells;
      MineCountSameMines(cells, cells', cells[y].edges);
      FlagCountSameFlags(cells, cells', cells[y].edges);
    }
    forall k | 0 <= k < |hints|
      ensures MineCount(cells', hints[k].ids) == MineCount(cells, hints[k].ids)
      ensures FlagCount(cells', hints[k].ids) == FlagCount(cells, hints[k].ids)
    {
      MineCountSameMines(cells, cells', hints[k].ids);
      FlagCountSameFlags(cells, cells', hints[k].ids);
    }
  }

  lemma FlipKeepsAccuracy(cells: map<CellId, Cell>, cells': map<CellId, Cell>, hints: seq<Hint>, x: CellId, up: bool)
    requires FlagFlipped(cells, cells', x, up)
    requires Symmetric(cells) && CellCountsAccurate(cells) && HintCountsAccurate(cells, hints)
    ensures Symmetric(cells') && CellCountsAccurate(cells') && HintCountsAccurate(cells', BumpHints(hints, x, up))
  {
    forall a, b | a in cells' && b in cells' ensures Occurrences(cells'[a].edges, b) == Occurrences(cells'[b].edges, a) {
      assert a in cells && b in cells;
    }
    forall y | y in cells' && !cells'[y].hasMine && !cells'[y].secret
      ensures cells'[y].mineCount == MineCount(cells', cells'[y].edges) && cells'[y].flaggedCount == FlagCount(cells', cells'[y].edges)
    {
      assert y in cells;
      assert Occurrences(cells[x].edges, y) == Occurrences(cells[y].edges, x);
      CellCountStep(cells, cells', x, up, y);
    }
    var hints' := BumpHints(hints, x, up);
    forall k | 0 <= k < |hints'|
      ensures Distinct(hints'[k].ids) && hints'[k].mineCount == MineCount(cells', hints'[k].ids)
        && hints'[k].flaggedCount == FlagCount(cells', hints'[k].ids)
    {
      HintCountStep(cells, cells', x, up, hints[k], hints'[k]);
    }
  }

  /** What setFlagged does to the cells and hints when the flag changes. */
  lemma SetFlaggedFlips(e: Engine, x: CellId, flagged: bool)
    requires WellFormed(e) && x in e.cells && SetFlagged(e, x, flagged).Ok?
    requires e.cells[x].flagged != flagged && !e.cells[x].revealed
    ensures var e' := SetFlagged(e, x, flagged).value;
      FlagFlipped(e.cells, e'.cells, x, flagged) && e'.hints == BumpHints(e.hints, x, flagged)
  {
    var c0 := e.cells[x];
    SetFlaggedSteps(e, x, flagged);
    var e1 := Mark(e, x, c0.(flagged := flagged));
    var e2 := if flagged then UpdateRegionsToRemove(e1, x).value else e1;
    FlipCells(e.cells, e2.cells, x, flagged);
  }

  /** setFlagged keeps every shown count accurate, provided the neighbour
      relation is symmetric: each neighbour of `x` sees one flag more (or
      fewer) per edge, and so does each hint listing `x`. */
  lemma SetFlaggedKeepsCounts(e: Engine, x: CellId, flagged: bool)
    requires WellFormed(e) && x in e.cells && SetFlagged(e, x, flagged).Ok?
    requires Symmetric(e.cells) && CellCountsAccurate(e.cells) && HintCountsAccurate(e.cells, e.hints)
    ensures var e' := SetFlagged(e, x, flagged).value;
      Symmetric(e'.cells) && CellCountsAccurate(e'.cells) && HintCountsAccurate(e'.cells, e'.hints)
  {
    if e.cells[x].flagged != flagged && !e.cells[x].revealed {
      SetFlaggedFlips(e, x, flagged);
      FlipKeepsAccuracy(e.cells, SetFlagged(e, x, flagged).value.cells, e.hints, x, flagged);
    }
  }

  /** setRevealed changes no flag and moves no mine, so every shown count
      stays accurate. */
  lemma SetRevealedKeepsCounts(e: Engine, x: CellId, revealed: bool)
    requires WellFormed(e) && x in e.cells && SetRevealed(e, x, revealed).Ok?
    requires Symmetric(e.cells) && CellCountsAccurate(e.cells) && HintCountsAccurate(e.cells, e.hints)
    ensures var e' := SetRevealed(e, x, revealed).value;
      Symmetric(e'.cells) && CellCountsAccurate(e'.cells) && HintCountsAccurate(e'.cells, e'.hints)
  {
    SetRevealedMarks(e, x, revealed);
    SameCountsKeepAccuracy(e.cells, SetRevealed(e, x, revealed).value.cells, e.hints);
  }

  /** Revealing a safe cell with accurate counts queues a true region: the
      count its number gives, taken over its covered neighbours. */
  lemma RevealQueuesTruth(e: Engine, x: CellId)
    requires WellFormed(e) && x in e.cells && SetRevealed(e, x, true).Ok?
    requires !e.cells[x].hasMine && !e.cells[x].revealed && !e.cells[x].flagged
    requires FlagsCorrect(e.cells) && NoRevealedMines(e.cells) && CellCountsAccurate(e.cells)
    ensures var e' := SetRevealed(e, x, true).value;
      && NoRevealedMines(e'.cells)
      && |e'.arena| >= |e.arena|
      && forall h :: |e.arena| <= h < |e'.arena| ==> Truthful(e'.cells, e'.arena[h])
  {
    var e' := SetRevealed(e, x, true).value;
    SetRevealedMarks(e, x, true);
    SafeRevealKeepsNoMines(e.cells, e'.cells, x);
    RevealArena(e, x);
    forall h | |e.arena| <= h < |e'.arena| ensures Truthful(e'.cells, e'.arena[h]) {
      assert h == |e.arena|;
    }
  }

  /** The arena after revealing a safe cell holds at most one new region,
      and it is true. */
  lemma RevealArena(e: Engine, x: CellId)
    requires WellFormed(e) && x in e.cells && SetRevealed(e, x, true).Ok?
    requires !e.cells[x].hasMine && !e.cells[x].revealed && !e.cells[x].flagged
    requires FlagsCorrect(e.cells) && NoRevealedMines(e.cells) && CellCountsAccurate(e.cells)
    ensures var e' := SetRevealed(e, x, true).value;
      && |e.arena| <= |e'.arena| <= |e.arena| + 1
      && (|e'.arena| > |e.arena| ==> Truthful(e'.cells, e'.arena[|e.arena|]))
  {
    var c0 := e.cells[x];
    SetRevealedSteps(e, x, true);
    var e' := SetRevealed(e, x, true).value;
    var e1 := Mark(e, x, c0.(revealed := true));
    var region := RegionForNode(e1.cells, x);
    var e2 := AddIfSome(e1, region);
    if region.Some? {
      var h := |e.arena|;
      RevealedRegionTruthful(e.cells, x);
      assert h !in e2.cells[x].refs by {
        assert HandlesOk(e1, e1.cells[x].refs);
      }
      UpdateFrame(e2, x, h);
      TruthfulSameMines(e2.cells, e'.cells, e2.arena[h]);
    }
  }

  lemma SafeRevealKeepsNoMines(cells: map<CellId, Cell>, cells': map<CellId, Cell>, x: CellId)
    requires OnlyMarked(cells, cells', x) && NoRevealedMines(cells)
    requires x in cells && !cells[x].hasMine
    ensures NoRevealedMines(cells')
  {
    forall y | y in cells' && cells'[y].revealed ensures !cells'[y].hasMine {
      assert y in cells;
    }
  }

  /** The region a safe cell's number gives once it is revealed is true when
      the counts were accurate. */
  lemma RevealedRegionTruthful(cells: map<CellId, Cell>, x: CellId)
    requires x in cells && !cells[x].hasMine && !cells[x].flagged
    requires forall k :: 0 <= k < |cells[x].edges| ==> cells[x].edges[k] in cells
    requires FlagsCorrect(cells) && NoRevealedMines(cells) && CellCountsAccurate(cells)
    ensures var cells1 := cells[x := cells[x].(revealed := true)];
      RegionForNode(cells1, x).Some? ==> Truthful(cells1, RegionForNode(cells1, x).value)
  {
    var c0 := cells[x];
    var cells1 := cells[x := c0.(revealed := true)];
    if RegionForNode(cells1, x).Some? {
      assert !c0.secret;
      RevealCells(cells, cells1, x, true);
      FlagCountSameFlags(cells, cells1, c0.edges);
      MineCountSameMines(cells, cells1, c0.edges);
      SafeRevealKeepsNoMines(cells, cells1, x);
      CountRegionTruthful(cells1, c0.edges, c0.mineCount, c0.flaggedCount, true);
    }
  }
}

=== FILE: engine_state.dfy ===
/** The state the region engine works on: the cells of the puzzle, the count
    hints, every region object ever created, the live and trashed region
    lists, and the work queue.

    visualizer.js relies on object identity (a queued region is the same object
    that is later registered, trimmed or trashed).  The model keeps every
    region in an arena, a sequence indexed by `Handle`, and lists, queue
    items and cell back-references refer to regions by handle, so a change
    to a region is seen through every reference to it, as in visualizer.js. */
module EngineState {
  import opened Wrappers
  import opened SeqUtil
  import opened Kinds
  import WorkQueue

  type CellId = nat
  type Handle = nat

  /** A puzzle cell.  `refs` lists the regions holding a back-reference to
      the cell (the `regions` array of a node), one entry per
      registration. */
  datatype Cell = Cell(
    edges: seq<CellId>,
    hasMine: bool,
    secret: bool,
    revealed: bool,
    flagged: bool,
    mineCount: int,
    flaggedCount: int,
    refs: seq<Handle>)

  /** A column or color hint: how many mines lie among `ids`, and how many
      of those cells are flagged so far. */
  datatype Hint = Hint(ids: seq<CellId>, mineCount: int, flaggedCount: int)

  /** A region: "the number of mines among `nodes` satisfies `kind` for
      `value`".  `id` is set on the first registration attempt; `displayed`
      records whether the region currently has a drawing (`display`). */
  datatype Region = Region(
    id: Option<nat>,
    value: int,
    kind: RegionKind,
    nodes: seq<CellId>,
    visible: bool,
    displayed: bool,
    priority: int)

  /** What the work queue holds: a region, or one of the two pending actions
      a rule can produce (which always carry priority 4). */
  datatype Work =
    | RegionWork(h: Handle)
    | MarkWork(uncover: bool, cells: seq<CellId>)
    | VisibilityWork(hide: bool, targets: seq<Handle>)

  const ActionPriority: int := 4

  /** The priority level used for hint, cell and action-rule regions. */
  const BasePriority: int := 3

  /** The engine's state.  `hints` holds the colour hints followed by the
      column hints, the order in which initializeRegions visits them.
      setFlagged visits the column hints first, but it moves each hint's
      count independently, so that order makes no difference there. */
  datatype Engine = Engine(
    cells: map<CellId, Cell>,
    hints: seq<Hint>,
    arena: seq<Region>,
    live: seq<Handle>,
    trashed: seq<Handle>,
    nextId: nat,
    queue: WorkQueue.Queue<Work>)

  /** A new region built from scratch: not yet registered, no drawing. */
  function NewRegion(value: int, kind: RegionKind, nodes: seq<CellId>, visible: bool, priority: int): Region {
    Region(None, value, kind, nodes, visible, false, priority)
  }

  predicate HandlesOk(e: Engine, hs: seq<Handle>) {
    forall k :: 0 <= k < |hs| ==> hs[k] < |e.arena|
  }

  predicate CellsKnown(e: Engine, ids: seq<CellId>) {
    forall k :: 0 <= k < |ids| ==> ids[k] in e.cells
  }

  predicate WorkOk(e: Engine, w: Work) {
    match w
    case RegionWork(h) => h < |e.arena|
    case MarkWork(_, cs) => CellsKnown(e, cs)
    case VisibilityWork(_, ts) => HandlesOk(e, ts)
  }

  /** The references visualizer.js holds as object pointers all resolve: every
      cell named by an edge, a hint, a region or a queued action exists, and
      every handle names a region of the arena. */
  predicate WellFormed(e: Engine) {
    && (forall c :: c in e.cells ==> CellsKnown(e, e.cells[c].edges) && HandlesOk(e, e.cells[c].refs))
    && (forall k :: 0 <= k < |e.hints| ==> CellsKnown(e, e.hints[k].ids))
    && (forall h :: 0 <= h < |e.arena| ==> CellsKnown(e, e.arena[h].nodes))
    && HandlesOk(e, e.live) && HandlesOk(e, e.trashed)
    && (forall k, w :: 0 <= k < |e.queue| && w in e.queue[k].items ==> WorkOk(e, w))
  }

  /** Growing the arena and changing region fields keeps all references
      resolvable, as long as the cells and the lists are unchanged. */
  lemma WellFormedArenaGrows(e: Engine, e': Engine)
    requires WellFormed(e)
    requires e'.cells.Keys == e.cells.Keys
    requires forall c :: c in e.cells ==> e'.cells[c].edges == e.cells[c].edges && e'.cells[c].refs == e.cells[c].refs
    requires e'.hints == e.hints && e'.live == e.live && e'.trashed == e.trashed && e'.queue == e.queue
    requires |e'.arena| >= |e.arena|
    requires forall h :: 0 <= h < |e'.arena| ==> CellsKnown(e', e'.arena[h].nodes)
    ensures WellFormed(e')
  {
    forall k, w | 0 <= k < |e'.queue| && w in e'.queue[k].items ensures WorkOk(e', w) {
      assert WorkOk(e, w);
    }
  }
}

=== FILE: executor.dfy ===
/** One step of the region engine (_oneRegionStep): take queued items
    until one does something.  An action (priority 4) is carried out and
    ends the step; a region is registered, and the first one accepted has
    every rule applied to it. */
module Executor {
  import opened Wrappers
  import opened SeqUtil
  import opened EngineState
  import opened RegionStore
  import opened CellActions
  import opened QueueEffects
  import opened RuleTable
  import opened RuleApply
  import WorkQueue

  datatype Outcome =
    | Exhausted       // the queue gave up nothing
    | Acted           // an action was carried out
    | Applied(h: Handle) // a region was accepted and the rules applied to it

  datatype Stepped = Stepped(outcome: Outcome, engine: Engine)

  /** What the solver keeps true of the board: flags only on mines, no
      revealed mine, no cell both flagged and revealed, every shown count
      accurate, and every queued mark right. */
  predicate Safe(e: Engine) {
    && FlagsCorrect(e.cells) && NoRevealedMines(e.cells) && Exclusive(e.cells)
    && Symmetric(e.cells) && CellCountsAccurate(e.cells) && HintCountsAccurate(e.cells, e.hints)
    && MarksTruthful(e)
  }

  // ---------------------------------------------------------------------
  // Taking an item off the queue

  /** The item taken is from the first sub-queue, and the rest of the queue
      holds nothing new. */
  lemma DequeueAdds(q: WorkQueue.Queue<Work>)
    requires WorkQueue.Dequeue(q).Some?
    ensures Queued(q, WorkQueue.Dequeue(q).value.0)
    ensures RegionsOnlyAdded(q, WorkQueue.Dequeue(q).value.1)
  {
    var (w, rest) := WorkQueue.Dequeue(q).value;
    assert w in q[0].items;
    forall k, v | 0 <= k < |rest| && v in rest[k].items ensures Queued(q, v) {
      if |q[0].items| == 1 {
        assert rest[k] == q[k + 1];
      } else if k == 0 {
        assert v in q[0].items;
      } else {
        assert rest[k] == q[k];
      }
    }
  }

  /** Queued marks stay right while the queue gains only regions and no
      mine moves. */
  lemma MarksAcross(e: Engine, e': Engine)
    requires MarksTruthful(e) && SameMines(e.cells, e'.cells)
    requires RegionsOnlyAdded(e.queue, e'.queue)
    ensures MarksTruthful(e')
  {
    forall k, w | 0 <= k < |e'.queue| && w in e'.queue[k].items ensures MarkRight(e'.cells, w) {
      if !w.RegionWork? {
        var k0 :| 0 <= k0 < |e.queue| && w in e.queue[k0].items;
        assert MarkRight(e.cells, w);
      }
    }
  }

  /** The engine once the item is off the queue. */
  lemma DequeueKeeps(e: Engine)
    requires WellFormed(e) && WorkQueue.Dequeue(e.queue).Some?
    ensures var (w, rest) := WorkQueue.Dequeue(e.queue).value;
      && WorkOk(e, w)
      && WellFormed(e.(queue := rest))
      && RegionsOnlyAdded(e.queue, rest)
  {
    var (w, rest) := WorkQueue.Dequeue(e.queue).value;
    DequeueAdds(e.queue);
    var e1 := e.(queue := rest);
    forall k, v | 0 <= k < |rest| && v in rest[k].items ensures WorkOk(e1, v) {
      var k0 :| 0 <= k0 < |e.queue| && v in e.queue[k0].items;
      assert WorkOk(e, v);
    }
  }

  /** Taking an item off keeps the board safe, and a mark taken off is
      right. */
  lemma DequeueSafe(e: Engine)
    requires Safe(e) && WorkQueue.Dequeue(e.queue).Some?
    ensures var (w, rest) := WorkQueue.Dequeue(e.queue).value;
      MarkRight(e.cells, w) && Safe(e.(queue := rest))
  {
    var (w, rest) := WorkQueue.Dequeue(e.queue).value;
    DequeueAdds(e.queue);
    MarksAcross(e, e.(queue := rest));
  }

  // ---------------------------------------------------------------------
  // Hiding

  lemma HideWellFormed(e: Engine, h: Handle)
    requires WellFormed(e) && h < |e.arena| && HideRegion(e, h).Ok?
    ensures WellFormed(HideRegion(e, h).value.engine)
  {
    var e' := HideRegion(e, h).value.engine;
    if HideRegion(e, h).value.changed {
      forall g | 0 <= g < |e'.arena| ensures CellsKnown(e', e'.arena[g].nodes) {
        assert e'.arena[g].nodes == e.arena[g].nodes;
      }
      WellFormedArenaGrows(e, e');
    }
  }

  /** The hide action: hide_region on every target in order (all of them,
      whatever the earlier ones reported); the step counts only if some
      target was actually hidden. */
  function HideAll(e: Engine, ts: seq<Handle>, i: nat): (r: Result<Hidden>)
    requires WellFormed(e) && HandlesOk(e, ts) && i <= |ts|
    ensures r.Ok? ==> WellFormed(r.value.engine) && r.value.engine == e.(arena := r.value.engine.arena)
    ensures r.Ok? ==> |r.value.engine.arena| == |e.arena|
    ensures r.Ok? ==> forall g :: 0 <= g < |e.arena| && g !in ts[i..] ==> r.value.engine.arena[g] == e.arena[g]
    ensures r.Ok? ==> forall j :: i <= j < |ts| && ts[j] in e.live ==> !r.value.engine.arena[ts[j]].displayed
    ensures r.Ok? ==> forall g :: 0 <= g < |e.arena| ==>
      r.value.engine.arena[g].displayed ==> e.arena[g].displayed
    ensures r.Ok? ==> (r.value.changed <==> exists j :: i <= j < |ts| && ts[j] in e.live && e.arena[ts[j]].displayed)
    ensures r.Ok? && !r.value.changed ==> r.value.engine == e
    decreases |ts| - i
  {
    if i == |ts| then Ok(Hidden(false, e))
    else
      var first :- HideRegion(e, ts[i]);
      HideWellFormed(e, ts[i]);
      var e1 := first.engine;
      var rest :- HideAll(e1, ts, i + 1);
      SuffixStep(ts, i);
      assert forall j :: i < j < |ts| ==> ts[j] in ts[i + 1..];
      Ok(Hidden(first.changed || rest.changed, rest.engine))
  }

  // ---------------------------------------------------------------------
  // Trashing

  /** The trash action: trash_region on every target in order. */
  function TrashAll(e: Engine, ts: seq<Handle>): (r: Engine)
    requires HandlesOk(e, ts)
    ensures r.trashed == e.trashed + ts
    ensures r.arena == e.arena && r.queue == e.queue && r.hints == e.hints && r.nextId == e.nextId
    ensures SameMarks(e.cells, r.cells)
    decreases |ts|
  {
    if |ts| == 0 then e
    else
      var e1 := TrashRegion(e, ts[0]);
      var r := TrashAll(e1, ts[1..]);
      SameMarksTrans(e.cells, e1.cells, r.cells);
      AppendHeadTail(e.trashed, ts);
      r
  }

  lemma {:induction false} TrashAllWellFormed(e: Engine, ts: seq<Handle>)
    requires WellFormed(e) && HandlesOk(e, ts)
    ensures WellFormed(TrashAll(e, ts))
    decreases |ts|
  {
    if |ts| > 0 {
      var e1 := TrashRegion(e, ts[0]);
      TrashWellFormed(e, ts[0]);
      TrashAllWellFormed(e1, ts[1..]);
    }
  }

  lemma SameMarksTrans(c1: map<CellId, Cell>, c2: map<CellId, Cell>, c3: map<CellId, Cell>)
    requires SameMarks(c1, c2) && SameMarks(c2, c3)
    ensures SameMarks(c1, c3)
  {
  }

  lemma MinusTwice<T>(m: multiset<T>, a: T, b: multiset<T>)
    ensures (m - multiset{a}) - b == m - (multiset{a} + b)
  {
    forall x ensures ((m - multiset{a}) - b)[x] == (m - (multiset{a} + b))[x] {
      if x == a { assert multiset{a}[x] == 1; } else { assert multiset{a}[x] == 0; }
    }
  }

  /** Each target leaves the live list once per time it is named. */
  lemma {:induction false} TrashAllLive(e: Engine, ts: seq<Handle>)
    requires HandlesOk(e, ts)
    ensures multiset(TrashAll(e, ts).live) == multiset(e.live) - multiset(ts)
    decreases |ts|
  {
    if |ts| > 0 {
      var e1 := TrashRegion(e, ts[0]);
      TrashAllLive(e1, ts[1..]);
      assert TrashAll(e, ts).live == TrashAll(e1, ts[1..]).live;
      HeadTail(ts);
      MinusTwice(multiset(e.live), ts[0], multiset(ts[1..]));
    }
  }

  /** When no region is live twice, none of the targets is live after the
      trash action, and still none is live twice. */
  lemma TrashAllLeavesLive(e: Engine, ts: seq<Handle>)
    requires HandlesOk(e, ts) && Distinct(e.live)
    ensures Distinct(TrashAll(e, ts).live)
    ensures forall t :: t in ts ==> t !in TrashAll(e, ts).live
  {
    var r := TrashAll(e, ts);
    TrashAllLive(e, ts);
    DistinctShrinks(e.live, r.live);
    forall t | t in ts ensures t !in r.live {
      DistinctCount(e.live, t);
      assert t in multiset(ts);
    }
  }

  // ---------------------------------------------------------------------
  // Marking

  /** The cell is revealed (for `uncover`) or flagged. */
  predicate Marked(cells: map<CellId, Cell>, x: CellId, uncover: bool) {
    x in cells && (if uncover then cells[x].revealed else cells[x].flagged)
  }

  /** One cell of a mark action: a reveal that would uncover a mine, or a
      flag on a safe cell, stops the run; otherwise setRevealed or
      setFlagged. */
  function MarkOne(e: Engine, uncover: bool, x: CellId): (r: Result<Engine>)
    requires WellFormed(e) && x in e.cells
    ensures e.cells[x].hasMine == uncover ==>
      r == Err(if uncover then "Regions revealed a mine!" else "Regions flagged a non-mine!")
    ensures r.Ok? ==> WellFormed(r.value) && OnlyMarked(e.cells, r.value.cells, x)
    ensures r.Ok? ==> RegionsOnlyAdded(e.queue, r.value.queue)
  {
    if e.cells[x].hasMine == uncover then
      Err(if uncover then "Regions revealed a mine!" else "Regions flagged a non-mine!")
    else if uncover then
      var r := SetRevealed(e, x, true);
      if r.Ok? then
        SetRevealedMarks(e, x, true);
        SetRevealedAdds(e, x, true);
        r
      else r
    else
      var r := SetFlagged(e, x, true);
      if r.Ok? then
        SetFlaggedMarks(e, x, true);
        SetFlaggedAdds(e, x, true);
        r
      else r
  }

  /** A revealed mine is one visualizer.js let through only if it was
      revealed before `x` was touched. */
  lemma NoMinesAcross(cells: map<CellId, Cell>, cells': map<CellId, Cell>, x: CellId)
    requires OnlyMarked(cells, cells', x) && NoRevealedMines(cells)
    requires x in cells' && cells'[x].revealed ==> !cells'[x].hasMine
    ensures NoRevealedMines(cells')
  {
    forall y | y in cells' && cells'[y].revealed ensures !cells'[y].hasMine {
      assert y in cells;
    }
  }

  /** A mark that passes the check keeps the board safe. */
  lemma MarkOneSafe(e: Engine, uncover: bool, x: CellId)
    requires WellFormed(e) && x in e.cells && Safe(e) && MarkOne(e, uncover, x).Ok?
    ensures Safe(MarkOne(e, uncover, x).value)
  {
    var e' := MarkOne(e, uncover, x).value;
    MarkOneMarks(e, uncover, x);
    if uncover {
      SetRevealedKeepsExclusive(e, x, true);
      SetRevealedKeepsCounts(e, x, true);
    } else {
      SetFlaggedKeepsExclusive(e, x, true);
      SetFlaggedKeepsCounts(e, x, true);
    }
    MarksAcross(e, e');
  }

  /** With flags on mines and no mine revealed, a mark that passes the check
      leaves the cell marked as asked and keeps both facts. */
  lemma MarkOneMarks(e: Engine, uncover: bool, x: CellId)
    requires WellFormed(e) && x in e.cells && MarkOne(e, uncover, x).Ok?
    requires FlagsCorrect(e.cells) && NoRevealedMines(e.cells)
    ensures var e' := MarkOne(e, uncover, x).value;
      && Marked(e'.cells, x, uncover)
      && FlagsCorrect(e'.cells) && NoRevealedMines(e'.cells)
  {
    var e' := MarkOne(e, uncover, x).value;
    if uncover {
      SetRevealedMarks(e, x, true);
      SafeRevealKeepsNoMines(e.cells, e'.cells, x);
    } else {
      SetFlaggedMarks(e, x, true);
      NoMinesAcross(e.cells, e'.cells, x);
    }
    FlagsCorrectAcross(e.cells, e'.cells, x);
  }

  /** The marks of every cell outside `cs` are the same in both maps. */
  predicate MarksKeptOutside(cells: map<CellId, Cell>, cells': map<CellId, Cell>, cs: seq<CellId>) {
    forall c :: c in cells && c !in cs ==>
      c in cells' && cells'[c].flagged == cells[c].flagged && cells'[c].revealed == cells[c].revealed
  }

  /** The mark action: every cell in order, the first failing check ending
      the run. */
  function MarkAll(e: Engine, uncover: bool, cs: seq<CellId>): (r: Result<Engine>)
    requires WellFormed(e) && CellsKnown(e, cs)
    ensures r.Ok? ==> forall x :: x in cs ==> e.cells[x].hasMine != uncover
    ensures r.Ok? ==> WellFormed(r.value) && SameMines(e.cells, r.value.cells)
    ensures r.Ok? ==> RegionsOnlyAdded(e.queue, r.value.queue)
    decreases |cs|
  {
    if |cs| == 0 then Ok(e)
    else
      var e1 :- MarkOne(e, uncover, cs[0]);
      assert CellsKnown(e1, cs[1..]);
      var r :- MarkAll(e1, uncover, cs[1..]);
      RegionsOnlyAddedTrans(e.queue, e1.queue, r.queue);
      assert forall x :: x in cs ==> x == cs[0] || x in cs[1..];
      Ok(r)
  }

  /** The run touches the marks of its own cells only. */
  lemma {:induction false} MarkAllKeepsOthers(e: Engine, uncover: bool, cs: seq<CellId>)
    requires WellFormed(e) && CellsKnown(e, cs) && MarkAll(e, uncover, cs).Ok?
    ensures MarksKeptOutside(e.cells, MarkAll(e, uncover, cs).value.cells, cs)
    decreases |cs|
  {
    if |cs| > 0 {
      var e1 := MarkOne(e, uncover, cs[0]).value;
      assert CellsKnown(e1, cs[1..]);
      MarkAllKeepsOthers(e1, uncover, cs[1..]);
      assert MarkAll(e, uncover, cs) == MarkAll(e1, uncover, cs[1..]);
      assert forall c :: c !in cs ==> c != cs[0] && c !in cs[1..];
    }
  }

  /** A mark action that runs through keeps the board safe. */
  lemma {:induction false} MarkAllSafe(e: Engine, uncover: bool, cs: seq<CellId>)
    requires WellFormed(e) && CellsKnown(e, cs) && Safe(e)
    requires MarkAll(e, uncover, cs).Ok?
    ensures Safe(MarkAll(e, uncover, cs).value)
    decreases |cs|
  {
    if |cs| > 0 {
      var e1 := MarkOne(e, uncover, cs[0]).value;
      assert CellsKnown(e1, cs[1..]);
      MarkOneSafe(e, uncover, cs[0]);
      MarkAllSafe(e1, uncover, cs[1..]);
      assert MarkAll(e, uncover, cs) == MarkAll(e1, uncover, cs[1..]);
    }
  }

  /** ... and leaves every one of its cells marked.  Only the flags being
      on mines and no mine being revealed matter for that. */
  lemma {:induction false} MarkAllMarks(e: Engine, uncover: bool, cs: seq<CellId>)
    requires WellFormed(e) && CellsKnown(e, cs)
    requires FlagsCorrect(e.cells) && NoRevealedMines(e.cells)
    requires MarkAll(e, uncover, cs).Ok?
    ensures var r := MarkAll(e, uncover, cs).value;
      && FlagsCorrect(r.cells) && NoRevealedMines(r.cells)
      && forall x :: x in cs ==> Marked(r.cells, x, uncover)
    decreases |cs|
  {
    if |cs| > 0 {
      var e1 := MarkOne(e, uncover, cs[0]).value;
      assert CellsKnown(e1, cs[1..]);
      MarkOneMarks(e, uncover, cs[0]);
      MarkAllMarks(e1, uncover, cs[1..]);
      MarkAllKeepsOthers(e1, uncover, cs[1..]);
      var r := MarkAll(e1, uncover, cs[1..]).value;
      assert MarkAll(e, uncover, cs) == Ok(r);
      assert forall x :: x in cs ==> x == cs[0] || x in cs[1..];
    }
  }

  // ---------------------------------------------------------------------
  // Registration

  lemma RegisterWellFormed(e: Engine, h: Handle)
    requires WellFormed(e) && h < |e.arena|
    ensures WellFormed(RegisterRegion(e, h).engine)
  {
    var e' := RegisterRegion(e, h).engine;
    assert CellsKnown(e, e.arena[h].nodes);
    if e.arena[h].id.None? {
      forall g | 0 <= g < |e'.arena| ensures CellsKnown(e', e'.arena[g].nodes) {
        if g == h {
          forall k | 0 <= k < |e'.arena[h].nodes| ensures e'.arena[h].nodes[k] in e'.cells {
            assert e'.arena[h].nodes[k] in e.arena[h].nodes;
          }
        } else {
          assert CellsKnown(e, e.arena[g].nodes);
        }
      }
      forall c | c in e'.cells ensures HandlesOk(e', e'.cells[c].refs) {
        forall k | 0 <= k < |e'.cells[c].refs| ensures e'.cells[c].refs[k] < |e'.arena| {
          var g := e'.cells[c].refs[k];
          assert Occurrences(e'.cells[c].refs, g) > 0;
          if g != h {
            assert HandlesOk(e, e.cells[c].refs);
            assert g in multiset(e.cells[c].refs);
          }
        }
      }
      forall k, w | 0 <= k < |e'.queue| && w in e'.queue[k].items ensures WorkOk(e', w) {
        assert WorkOk(e, w);
      }
    }
  }

  /** Registration keeps the board safe: it moves no mark and queues
      nothing. */
  lemma RegisterSafe(e: Engine, h: Handle)
    requires WellFormed(e) && h < |e.arena| && Safe(e)
    ensures Safe(RegisterRegion(e, h).engine)
  {
    assert CellsKnown(e, e.arena[h].nodes);
    var e' := RegisterRegion(e, h).engine;
    SameCountsKeepAccuracy(e.cells, e'.cells, e.hints);
    RegionsOnlyAddedRefl(e.queue);
    MarksAcross(e, e');
  }

  // ---------------------------------------------------------------------
  // The step

  /** _oneRegionStep.  Items are taken off the queue until one does
      something: an action (always carried out, and the step ends), a
      region whose priority is 4 (it is taken for an action of no known
      kind and dropped, which also ends the step), or a region that
      registration accepts (every rule is applied to it).  A hide action
      that hid nothing and a rejected region are passed over.  `asWritten`
      picks the square-count check of visualizer.js or the corrected one. */
  function Step(e: Engine, rules: seq<Rule>, asWritten: bool): (r: Result<Stepped>)
    requires WellFormed(e) && forall k :: 0 <= k < |rules| ==> RuleOk(rules[k])
    ensures |e.queue| == 0 ==> r == Ok(Stepped(Exhausted, e))
    ensures r.Ok? ==> WellFormed(r.value.engine)
    ensures r.Ok? && WorkQueue.Valid(e.queue) ==> WorkQueue.Valid(r.value.engine.queue)
    ensures r.Ok? && r.value.outcome.Exhausted? && WorkQueue.Valid(e.queue) ==> r.value.engine.queue == []
    decreases WorkQueue.Size(e.queue)
  {
    match WorkQueue.Dequeue(e.queue)
    case None => Ok(Stepped(Exhausted, e))
    case Some((w, rest)) =>
      DequeueKeeps(e);
      var e1 := e.(queue := rest);
      match w
      case VisibilityWork(hiding, ts) =>
        if hiding then
          var hidden :- HideAll(e1, ts, 0);
          if hidden.changed then Ok(Stepped(Acted, hidden.engine))
          else Step(e1, rules, asWritten)
        else
          TrashAllWellFormed(e1, ts);
          Ok(Stepped(Acted, TrashAll(e1, ts)))
      case MarkWork(uncover, cs) =>
        var e2 :- MarkAll(e1, uncover, cs);
        Ok(Stepped(Acted, e2))
      case RegionWork(h) =>
        if e1.arena[h].priority == ActionPriority then Ok(Stepped(Acted, e1))
        else
          RegisterWellFormed(e1, h);
          var reg := RegisterRegion(e1, h);
          if reg.accepted then
            var e2 :- ApplyRegionRules(reg.engine, rules, h, asWritten);
            Ok(Stepped(Applied(h), e2))
          else Step(reg.engine, rules, asWritten)
  }

  /** The hide action keeps the board safe: it touches regions only. */
  lemma HideSafe(e: Engine, ts: seq<Handle>)
    requires WellFormed(e) && HandlesOk(e, ts) && Safe(e) && HideAll(e, ts, 0).Ok?
    ensures Safe(HideAll(e, ts, 0).value.engine)
  {
    var e' := HideAll(e, ts, 0).value.engine;
    RegionsOnlyAddedRefl(e.queue);
    MarksAcross(e, e');
  }

  /** The trash action keeps the board safe: it touches back-references
      and region lists only. */
  lemma TrashSafe(e: Engine, ts: seq<Handle>)
    requires HandlesOk(e, ts) && Safe(e)
    ensures Safe(TrashAll(e, ts))
  {
    var e' := TrashAll(e, ts);
    SameCountsKeepAccuracy(e.cells, e'.cells, e.hints);
    RegionsOnlyAddedRefl(e.queue);
    MarksAcross(e, e');
  }

  /** Every step keeps the board safe: no mine is revealed, no safe cell is
      flagged, no count goes wrong, and every mark left in the queue is
      still right. */
  lemma {:induction false} StepKeepsSafe(e: Engine, rules: seq<Rule>, asWritten: bool)
    requires WellFormed(e) && forall k :: 0 <= k < |rules| ==> RuleOk(rules[k])
    requires Safe(e) && Step(e, rules, asWritten).Ok?
    ensures Safe(Step(e, rules, asWritten).value.engine)
    decreases WorkQueue.Size(e.queue)
  {
    match WorkQueue.Dequeue(e.queue)
    case None =>
    case Some((w, rest)) =>
      DequeueKeeps(e);
      DequeueSafe(e);
      var e1 := e.(queue := rest);
      match w
      case VisibilityWork(hiding, ts) =>
        if hiding {
          if !HideAll(e1, ts, 0).value.changed {
            StepKeepsSafe(e1, rules, asWritten);
          } else {
            HideSafe(e1, ts);
          }
        } else {
          TrashSafe(e1, ts);
        }
      case MarkWork(uncover, cs) =>
        MarkAllSafe(e1, uncover, cs);
      case RegionWork(h) =>
        if e1.arena[h].priority != ActionPriority {
          RegisterWellFormed(e1, h);
          RegisterSafe(e1, h);
          var reg := RegisterRegion(e1, h);
          if !reg.accepted {
            StepKeepsSafe(reg.engine, rules, asWritten);
          }
        }
  }
}

=== FILE: ineq_store.dfy ===
/** `CellSetDict`: inequalities keyed by their cell set.  A Python dict keeps
    insertion order, and the solver iterates over it, so the store is a
    sequence of inequalities with pairwise different cell sets, in the
    order their keys were first added. */
module IneqStore {
  import opened Wrappers
  import opened SeqUtil
  import opened Inequalities

  type Store = seq<Ineq>

  /** No two entries share a cell set. */
  predicate Keyed(st: Store) {
    forall i, j :: 0 <= i < j < |st| ==> st[i].cells != st[j].cells
  }

  /** Every entry went through the constructor. */
  predicate AllValid(st: Store) {
    forall i :: 0 <= i < |st| ==> Valid(st[i])
  }

  function Keys(st: Store): set<set<CellId>> {
    set i | 0 <= i < |st| :: st[i].cells
  }

  /** The position of the entry for `cells`. */
  function Find(st: Store, cells: set<CellId>): (r: Option<nat>)
    ensures r.Some? ==> r.value < |st| && st[r.value].cells == cells
    ensures r.None? <==> cells !in Keys(st)
  {
    if |st| == 0 then None
    else if st[|st| - 1].cells == cells then Some(|st| - 1)
    else
      var r := Find(st[..|st| - 1], cells);
      assert forall i :: 0 <= i < |st| - 1 ==> st[..|st| - 1][i] == st[i];
      r
  }

  /** In a keyed store the entry for a key is the only one. */
  lemma FindUnique(st: Store, cells: set<CellId>, i: nat)
    requires Keyed(st) && i < |st| && st[i].cells == cells
    ensures Find(st, cells) == Some(i)
  {
  }

  /** `cell_set_map.get(cells)`. */
  function Lookup(st: Store, cells: set<CellId>): (r: Option<Ineq>)
    ensures r.Some? <==> cells in Keys(st)
    ensures r.Some? ==> r.value in st && r.value.cells == cells
  {
    match Find(st, cells)
    case None => None
    case Some(i) => Some(st[i])
  }

  // ---------------------------------------------------------------------
  // add_ineq

  /** `add_ineq`: a new key is appended; an existing entry keeps its place
      and takes the new bounds through set_bounds. */
  function AddIneq(st: Store, q: Ineq): (r: Store)
    requires Valid(q)
    ensures Keyed(st) ==> Keyed(r)
    ensures AllValid(st) ==> AllValid(r)
    ensures Keys(r) == Keys(st) + {q.cells}
    ensures q.cells in Keys(st) ==> |r| == |st| && forall i :: 0 <= i < |st| ==> r[i].cells == st[i].cells
    ensures q.cells !in Keys(st) ==> r == st + [q]
  {
    match Find(st, q.cells)
    case None =>
      AppendKeys(st, q);
      st + [q]
    case Some(i) =>
      var r := st[i := SetBounds(st[i].cells, q.lo, q.hi).value];
      assert forall k :: 0 <= k < |st| ==> r[k].cells == st[k].cells;
      assert Keys(r) == Keys(st);
      r
  }

  lemma AppendKeys(st: Store, q: Ineq)
    requires q.cells !in Keys(st)
    ensures Keys(st + [q]) == Keys(st) + {q.cells}
    ensures Keyed(st) ==> Keyed(st + [q])
  {
    var r := st + [q];
    assert forall i :: 0 <= i < |st| ==> r[i] == st[i];
    assert r[|st|] == q;
    forall c | c in Keys(st) ensures c in Keys(r) {
      var k :| 0 <= k < |st| && st[k].cells == c;
      assert r[k].cells == c;
    }
  }

  /** After `add_ineq` the key holds exactly the added inequality, and every
      other key what it held before. */
  lemma AddIneqLookup(st: Store, q: Ineq, cells: set<CellId>)
    requires Keyed(st) && Valid(q)
    ensures Lookup(AddIneq(st, q), cells) == if cells == q.cells then Some(q) else Lookup(st, cells)
  {
    var r := AddIneq(st, q);
    if cells in Keys(st) {
      var i := Find(st, cells).value;
      FindUnique(r, cells, i);
    } else if cells == q.cells {
      FindUnique(r, cells, |st|);
    }
  }

  /** Adding the same inequality twice is adding it once. */
  lemma AddIneqTwice(st: Store, q: Ineq)
    requires Keyed(st) && Valid(q)
    ensures AddIneq(AddIneq(st, q), q) == AddIneq(st, q)
  {
    var r := AddIneq(st, q);
    AddIneqLookup(st, q, q.cells);
    var i := Find(r, q.cells).value;
    assert r[i] == q;
  }

  // ---------------------------------------------------------------------
  // get_ineq, has_ineq

  /** `get_ineq`, with `strict` the strictness the call resolves to (its
      own argument, or the store's default when it passes none). */
  function GetIneq(st: Store, cells: set<CellId>, strict: bool): (r: Result<Option<Ineq>>)
    ensures r.Err? <==> strict && cells !in Keys(st)
    ensures r.Ok? ==> r.value == Lookup(st, cells)
  {
    match Lookup(st, cells)
    case Some(q) => Ok(Some(q))
    case None => if strict then Err("No inequality found for cell set") else Ok(None)
  }

  /** `has_ineq`: false for a missing key; with `exact`, whether the stored
      bounds are the given ones.  The inexact form falls off the end of the
      function for a present key and returns Python's `None`, written
      `None` here as well. */
  function HasIneq(st: Store, q: Ineq, exact: bool): (r: Option<bool>)
    ensures r == Some(true) <==> exact && Lookup(st, q.cells) == Some(q)
    ensures r == None <==> !exact && q.cells in Keys(st)
  {
    match Lookup(st, q.cells)
    case None => Some(false)
    case Some(stored) => if exact then Some(stored.lo == q.lo && stored.hi == q.hi) else None
  }

  /** So the inexact form is never true: a caller that tests it for a
      present key sees a false value. */
  lemma HasIneqInexactFalsy(st: Store, q: Ineq)
    ensures HasIneq(st, q, false) != Some(true)
  {
  }

  // ---------------------------------------------------------------------
  // remove_ineq

  datatype Removed = Removed(store: Store, removed: Option<Ineq>)

  /** `remove_ineq`: pops the entry under the given inequality's cells and
      returns it (the stored object, with the stored bounds).  A missing
      inequality or key raises when strict and is ignored otherwise. */
  function RemoveIneq(st: Store, q: Option<Ineq>, strict: bool): (r: Result<Removed>)
    ensures r.Err? <==> strict && (q.None? || q.value.cells !in Keys(st))
    ensures r.Ok? && (q.None? || q.value.cells !in Keys(st)) ==> r.value == Removed(st, None)
    ensures r.Ok? && q.Some? && q.value.cells in Keys(st) ==>
      && r.value.removed == Lookup(st, q.value.cells)
      && (Keyed(st) ==> Keyed(r.value.store) && Keys(r.value.store) == Keys(st) - {q.value.cells})
      && (AllValid(st) ==> AllValid(r.value.store))
  {
    match q
    case None => if strict then Err("Ineq must not be None if strict.") else Ok(Removed(st, None))
    case Some(ineq) =>
      match Find(st, ineq.cells)
      case Some(i) =>
        var rest := RemoveAt(st, i);
        RemoveAtKeys(st, i);
        Ok(Removed(rest, Some(st[i])))
      case None => if strict then Err("Cell set not found.") else Ok(Removed(st, None))
  }

  lemma RemoveAtKeys(st: Store, i: nat)
    requires i < |st|
    ensures var rest := RemoveAt(st, i);
      && (Keyed(st) ==> Keyed(rest) && Keys(rest) == Keys(st) - {st[i].cells})
      && (AllValid(st) ==> AllValid(rest))
      && (forall k :: 0 <= k < |rest| ==> rest[k] in st)
  {
    var rest := RemoveAt(st, i);
    assert forall k :: 0 <= k < |rest| ==> rest[k] == if k < i then st[k] else st[k + 1];
    if Keyed(st) {
      forall c | c in Keys(st) - {st[i].cells} ensures c in Keys(rest) {
        var k :| 0 <= k < |st| && st[k].cells == c;
        if k < i { assert rest[k] == st[k]; } else { assert rest[k - 1] == st[k]; }
      }
    }
  }

  /** After removal the key is gone and every other key keeps its entry. */
  lemma RemoveIneqLookup(st: Store, q: Ineq, strict: bool, cells: set<CellId>)
    requires Keyed(st) && RemoveIneq(st, Some(q), strict).Ok?
    ensures Lookup(RemoveIneq(st, Some(q), strict).value.store, cells) ==
      if cells == q.cells then None else Lookup(st, cells)
  {
    var rest := RemoveIneq(st, Some(q), strict).value.store;
    if q.cells in Keys(st) && cells != q.cells && cells in Keys(st) {
      var i := Find(st, q.cells).value;
      var k := Find(st, cells).value;
      RemoveAtKeys(st, i);
      var k' := if k < i then k else k - 1;
      assert rest[k'] == st[k];
      FindUnique(rest, cells, k');
    }
  }

  /** Removing an inequality just added under a new key gives the store
      back, together with that inequality. */
  lemma AddThenRemove(st: Store, q: Ineq, strict: bool)
    requires Valid(q) && q.cells !in Keys(st)
    ensures RemoveIneq(AddIneq(st, q), Some(q), strict) == Ok(Removed(st, Some(q)))
  {
    var r := AddIneq(st, q);
    assert Find(r, q.cells) == Some(|st|);
    assert RemoveAt(r, |st|) == st;
  }
}

=== FILE: inequality.dfy ===
/** The bounded-count inequality of the poset solver: a set of cells holding
    between `lo` and `hi` mines.  Bounds are checked when they are set, a
    trivial inequality decides all its cells, and crossing two overlapping
    inequalities splits them into the shared part and the two remainders
    with bounds every mine placement satisfying both inputs also meets. */
module Inequalities {
  import opened Wrappers

  type CellId = nat

  /** `CellInequality`: a frozen set of cells and a `(lo, hi)` bound on the
      number of mines among them.  The graph links of the poset are not part
      of the model. */
  datatype Ineq = Ineq(cells: set<CellId>, lo: nat, hi: nat)

  /** The bounds every constructed inequality has. */
  predicate Valid(q: Ineq) {
    q.lo <= q.hi
  }

  /** The placement of mines `mines` meets the bound of `q`. */
  predicate Satisfies(mines: set<CellId>, q: Ineq) {
    q.lo <= |q.cells * mines| <= q.hi
  }

  // ---------------------------------------------------------------------
  // Construction (set_bounds)

  /** The constructor, through set_bounds: a negative bound raises first,
      then a lower bound above the upper one. */
  function SetBounds(cells: set<CellId>, lo: int, hi: int): (r: Result<Ineq>)
    ensures r.Ok? <==> 0 <= lo <= hi
    ensures r.Ok? ==> r.value.cells == cells && r.value.lo == lo && r.value.hi == hi && Valid(r.value)
    ensures lo < 0 || hi < 0 ==> r == Err("Cannot have negative bounds")
    ensures 0 <= hi < lo ==> r == Err("Cannot have min greater than max")
  {
    if lo < 0 || hi < 0 then Err("Cannot have negative bounds")
    else if lo > hi then Err("Cannot have min greater than max")
    else Ok(Ineq(cells, lo, hi))
  }

  /** Setting the bounds an inequality already has gives it back. */
  lemma SetBoundsOwn(q: Ineq)
    requires Valid(q)
    ensures SetBounds(q.cells, q.lo, q.hi) == Ok(q)
  {
  }

  /** Any bound a placement of mines meets can be set. */
  lemma SetBoundsMet(cells: set<CellId>, lo: int, hi: int, mines: set<CellId>)
    requires lo <= |cells * mines| <= hi && 0 <= hi
    ensures SetBounds(cells, if lo < 0 then 0 else lo, hi).Ok?
  {
  }

  // ---------------------------------------------------------------------
  // Triviality

  /** `trivial`: every cell is a mine (`lo` is the size) or none is (`hi` is
      zero). */
  predicate Trivial(q: Ineq) {
    |q.cells| == q.lo || q.hi == 0
  }

  /** A trivial inequality decides its cells: with a zero lower bound no
      cell is a mine, with a positive one every cell is. */
  lemma TrivialDecides(q: Ineq, mines: set<CellId>)
    requires Valid(q) && Trivial(q) && Satisfies(mines, q)
    ensures q.lo == 0 ==> q.cells * mines == {}
    ensures q.lo > 0 ==> q.cells <= mines
  {
    if q.lo > 0 {
      CardSubset(q.cells * mines, q.cells);
      SubsetOfSameSize(q.cells * mines, q.cells);
    }
  }

  /** Conversely, an inequality that is not trivial decides nothing about its
      cells: whenever its bound can be met at all, it can be met both by a
      placement that leaves a cell free and by one that mines a cell. */
  lemma NonTrivialUndecided(q: Ineq)
    requires Valid(q) && !Trivial(q) && q.lo <= |q.cells|
    ensures exists mines :: Satisfies(mines, q) && q.cells * mines != q.cells
    ensures exists mines :: Satisfies(mines, q) && q.cells * mines != {}
  {
    var low := SubsetOfSize(q.cells, q.lo);
    assert low * q.cells == low;
    assert q.cells * low == low;
    assert Satisfies(low, q);
    assert |low| < |q.cells|;
    var high := SubsetOfSize(q.cells, if q.lo == 0 then 1 else q.lo);
    assert q.cells * high == high;
    assert Satisfies(high, q);
  }

  // ---------------------------------------------------------------------
  // Cardinality helpers

  /** `a` splits into the part inside `b` and the part outside. */
  lemma CardSplit<T>(a: set<T>, b: set<T>)
    ensures |a| == |a * b| + |a - b|
  {
    assert a == (a * b) + (a - b);
    assert (a * b) * (a - b) == {};
  }

  lemma CardSubset<T>(a: set<T>, b: set<T>)
    requires a <= b
    ensures |a| <= |b|
  {
    CardSplit(b, a);
    assert b * a == a;
  }

  lemma SubsetOfSameSize<T>(a: set<T>, b: set<T>)
    requires a <= b && |a| == |b|
    ensures a == b
  {
    CardSplit(b, a);
    assert b * a == a;
    assert |b - a| == 0;
    assert b - a == {};
  }

  /** Some subset of `s` has `k` elements, for any `k` up to `|s|`. */
  lemma SubsetOfSize<T>(s: set<T>, k: nat) returns (r: set<T>)
    requires k <= |s|
    ensures r <= s && |r| == k
  {
    if k == 0 {
      r := {};
    } else {
      var x :| x in s;
      var rest := SubsetOfSize(s - {x}, k - 1);
      r := rest + {x};
    }
  }

  // ---------------------------------------------------------------------
  // Crossing

  function Max(a: int, b: int): int { if a >= b then a else b }
  function Min(a: int, b: int): int { if a <= b then a else b }

  /** The bound `cross` gives the shared cells `s`: each input's lower
      bound less the cells of that input outside `s`, and the least of the
      upper bounds and the size of `s`. */
  function SharedLo(a: Ineq, b: Ineq, s: set<CellId>): int {
    Max(Max(0, a.lo - |a.cells| + |s|), b.lo - |b.cells| + |s|)
  }

  function SharedHi(a: Ineq, b: Ineq, s: set<CellId>): int {
    Min(Min(|s|, a.hi), b.hi)
  }

  /** The bound of the cells of `a` outside the shared part, given the
      shared part's bounds. */
  function RestLo(a: Ineq, sHi: int): int {
    Max(0, a.lo - sHi)
  }

  function RestHi(a: Ineq, s: set<CellId>, sLo: int): int {
    Min(|a.cells| - |s|, Max(0, a.hi - sLo))
  }

  /** The remainder of `a` outside `s`, or nothing when `a` lies inside
      `s`. */
  function Rest(a: Ineq, s: set<CellId>, sLo: int, sHi: int): (r: Result<seq<Ineq>>)
    ensures r.Ok? ==> |r.value| <= 1 && (|r.value| == 1 <==> a.cells - s != {})
    ensures r.Ok? && |r.value| == 1 ==> r.value[0].cells == a.cells - s
  {
    if a.cells - s == {} then Ok([])
    else
      var q :- SetBounds(a.cells - s, RestLo(a, sHi), RestHi(a, s, sLo));
      Ok([q])
  }

  /** `cross`: equal cell sets give nothing, disjoint ones give the inputs
      back; otherwise the shared cells, then the rest of `a`, then the rest
      of `b`, each only when non-empty.  Bounds that cannot be met raise in
      the constructor. */
  function Cross(a: Ineq, b: Ineq): (r: Result<seq<Ineq>>)
    ensures a.cells == b.cells ==> r == Ok([])
    ensures a.cells != b.cells && a.cells !! b.cells ==> r == Ok([a, b])
    ensures r.Ok? && a.cells != b.cells && !(a.cells !! b.cells) ==>
      1 <= |r.value| <= 3 && r.value[0].cells == a.cells * b.cells
  {
    if a.cells == b.cells then Ok([])
    else if a.cells !! b.cells then Ok([a, b])
    else
      var s := a.cells * b.cells;
      var sLo := SharedLo(a, b, s);
      var sHi := SharedHi(a, b, s);
      var shared :- SetBounds(s, sLo, sHi);
      var left :- Rest(a, s, sLo, sHi);
      var right :- Rest(b, s, sLo, sHi);
      Ok([shared] + left + right)
  }

  /** The outputs of crossing overlapping `a` and `b` split their cells:
      the shared part and each remainder are disjoint and non-empty, lie in
      one of the inputs and together cover both; no upper bound exceeds its
      part's size, and every output is a valid inequality. */
  lemma CrossPartition(a: Ineq, b: Ineq)
    requires a.cells != b.cells && !(a.cells !! b.cells) && Cross(a, b).Ok?
    ensures var out := Cross(a, b).value;
      && (forall i :: 0 <= i < |out| ==>
            out[i].cells != {} && (out[i].cells <= a.cells || out[i].cells <= b.cells)
            && out[i].hi <= |out[i].cells| && Valid(out[i]))
      && (forall i, j :: 0 <= i < j < |out| ==> out[i].cells !! out[j].cells)
      && (forall x :: (x in a.cells || x in b.cells) <==> exists i :: 0 <= i < |out| && x in out[i].cells)
  {
    var shared, left, right := CrossParts(a, b);
    PartsSplit(a.cells, b.cells, shared, left, right);
  }

  /** The three pieces crossing overlapping `a` and `b` puts together. */
  lemma CrossParts(a: Ineq, b: Ineq) returns (shared: Ineq, left: seq<Ineq>, right: seq<Ineq>)
    requires a.cells != b.cells && !(a.cells !! b.cells) && Cross(a, b).Ok?
    ensures Cross(a, b).value == [shared] + left + right
    ensures Parts(a.cells, b.cells, shared, left, right)
  {
    var s := a.cells * b.cells;
    var sLo := SharedLo(a, b, s);
    var sHi := SharedHi(a, b, s);
    assert SetBounds(s, sLo, sHi).Ok? && Rest(a, s, sLo, sHi).Ok? && Rest(b, s, sLo, sHi).Ok?;
    shared := SetBounds(s, sLo, sHi).value;
    left := Rest(a, s, sLo, sHi).value;
    right := Rest(b, s, sLo, sHi).value;
    RestFits(a, b, sLo, sHi);
    assert b.cells * a.cells == s;
    RestFits(b, a, sLo, sHi);
  }

  /** The remainder of `a` outside its overlap with `b` is a valid
      inequality on those cells, bounded by their number. */
  lemma RestFits(a: Ineq, b: Ineq, sLo: int, sHi: int)
    requires Rest(a, a.cells * b.cells, sLo, sHi).Ok?
    ensures forall q :: q in Rest(a, a.cells * b.cells, sLo, sHi).value ==>
      q.cells == a.cells - b.cells && q.hi <= |q.cells| && Valid(q)
  {
    var s := a.cells * b.cells;
    CardSplit(a.cells, b.cells);
    assert a.cells - s == a.cells - b.cells;
  }

  /** The parts `cross` builds from overlapping cell sets `a` and `b`: the
      shared part, then the rest of `a` and the rest of `b` when non-empty. */
  predicate Parts(a: set<CellId>, b: set<CellId>, shared: Ineq, left: seq<Ineq>, right: seq<Ineq>) {
    && shared.cells == a * b != {} && shared.hi <= |shared.cells| && Valid(shared)
    && |left| <= 1 && (|left| == 1 <==> a - b != {})
    && (forall q :: q in left ==> q.cells == a - b && q.hi <= |q.cells| && Valid(q))
    && |right| <= 1 && (|right| == 1 <==> b - a != {})
    && (forall q :: q in right ==> q.cells == b - a && q.hi <= |q.cells| && Valid(q))
  }

  /** The shared part followed by the remainders partitions `a + b`. */
  lemma PartsSplit(a: set<CellId>, b: set<CellId>, shared: Ineq, left: seq<Ineq>, right: seq<Ineq>)
    requires Parts(a, b, shared, left, right)
    ensures var out := [shared] + left + right;
      && (forall i :: 0 <= i < |out| ==>
            out[i].cells != {} && (out[i].cells <= a || out[i].cells <= b)
            && out[i].hi <= |out[i].cells| && Valid(out[i]))
      && (forall i, j :: 0 <= i < j < |out| ==> out[i].cells !! out[j].cells)
      && (forall x :: (x in a || x in b) <==> exists i :: 0 <= i < |out| && x in out[i].cells)
  {
    PartsEach(a, b, shared, left, right);
    PartsDisjoint(a, b, shared, left, right);
    PartsCover(a, b, shared, left, right);
  }

  lemma PartsEach(a: set<CellId>, b: set<CellId>, shared: Ineq, left: seq<Ineq>, right: seq<Ineq>)
    requires Parts(a, b, shared, left, right)
    ensures var out := [shared] + left + right;
      forall i :: 0 <= i < |out| ==>
        out[i].cells != {} && (out[i].cells <= a || out[i].cells <= b)
        && out[i].hi <= |out[i].cells| && Valid(out[i])
  {
    var out := [shared] + left + right;
    forall i | 0 <= i < |out|
      ensures out[i].cells != {} && (out[i].cells <= a || out[i].cells <= b)
      ensures out[i].hi <= |out[i].cells| && Valid(out[i])
    {
      if i == 0 {
        assert out[i] == shared;
      } else if i <= |left| {
        assert out[i] == left[0];
      } else {
        assert out[i] == right[0];
      }
    }
  }

  lemma PartsDisjoint(a: set<CellId>, b: set<CellId>, shared: Ineq, left: seq<Ineq>, right: seq<Ineq>)
    requires Parts(a, b, shared, left, right)
    ensures var out := [shared] + left + right;
      forall i, j :: 0 <= i < j < |out| ==> out[i].cells !! out[j].cells
  {
    var out := [shared] + left + right;
    forall i, j | 0 <= i < j < |out| ensures out[i].cells !! out[j].cells {
      var ci := if i == 0 then a * b else if i <= |left| then a - b else b - a;
      var cj := if j <= |left| then a - b else b - a;
      assert out[i].cells == ci && out[j].cells == cj;
    }
  }

  lemma PartsCover(a: set<CellId>, b: set<CellId>, shared: Ineq, left: seq<Ineq>, right: seq<Ineq>)
    requires Parts(a, b, shared, left, right)
    ensures var out := [shared] + left + right;
      forall x :: x in a || x in b ==> exists i :: 0 <= i < |out| && x in out[i].cells
  {
    var out := [shared] + left + right;
    forall x | x in a || x in b
      ensures exists i :: 0 <= i < |out| && x in out[i].cells
    {
      if x in a * b {
        assert x in out[0].cells;
      } else if x in a {
        assert x in a - b;
        assert x in left[0].cells && out[1] == left[0];
      } else {
        assert x in b - a;
        assert x in right[0].cells && out[|out| - 1] == right[0];
      }
    }
  }

  /** Soundness of `cross`: a placement of mines meeting both inputs meets
      every output, so crossing such inputs never raises. */
  lemma CrossSound(a: Ineq, b: Ineq, mines: set<CellId>)
    requires Satisfies(mines, a) && Satisfies(mines, b)
    ensures Cross(a, b).Ok?
    ensures forall q :: q in Cross(a, b).value ==> Satisfies(mines, q)
  {
    if a.cells != b.cells && !(a.cells !! b.cells) {
      var s := a.cells * b.cells;
      var ks := |s * mines|;
      var sLo := SharedLo(a, b, s);
      var sHi := SharedHi(a, b, s);
      SharedMet(a, b, mines);
      SharedMet(b, a, mines);
      assert b.cells * a.cells == s;
      assert sLo <= ks <= sHi;
      RestMet(a, s, sLo, sHi, mines);
      RestMet(b, s, sLo, sHi, mines);
      var shared := SetBounds(s, sLo, sHi).value;
      var out := Cross(a, b).value;
      assert out == [shared] + Rest(a, s, sLo, sHi).value + Rest(b, s, sLo, sHi).value;
    }
  }

  /** The mines of `a` split between its cells inside `s` and outside. */
  lemma MinesSplit(a: set<CellId>, s: set<CellId>, mines: set<CellId>)
    requires s <= a
    ensures |a * mines| == |s * mines| + |(a - s) * mines|
    ensures |(a - s) * mines| <= |a| - |s|
    ensures |s * mines| <= |s|
  {
    CardSplit(a * mines, s);
    assert (a * mines) * s == s * mines;
    assert (a * mines) - s == (a - s) * mines;
    CardSplit(a, s);
    assert a * s == s;
    CardSubset((a - s) * mines, a - s);
    CardSubset(s * mines, s);
  }

  /** The shared part meets the lower bound `a` forces on it, and every
      upper bound. */
  lemma SharedMet(a: Ineq, b: Ineq, mines: set<CellId>)
    requires Satisfies(mines, a)
    ensures var s := a.cells * b.cells;
      && a.lo - |a.cells| + |s| <= |s * mines| <= a.hi
      && |s * mines| <= |s|
  {
    var s := a.cells * b.cells;
    MinesSplit(a.cells, s, mines);
  }

  /** The remainder of `a` meets its bound whenever the shared part meets
      its own. */
  lemma RestMet(a: Ineq, s: set<CellId>, sLo: int, sHi: int, mines: set<CellId>)
    requires s <= a.cells && Satisfies(mines, a) && sLo <= |s * mines| <= sHi
    ensures Rest(a, s, sLo, sHi).Ok?
    ensures forall q :: q in Rest(a, s, sLo, sHi).value ==> Satisfies(mines, q)
  {
    MinesSplit(a.cells, s, mines);
    if a.cells - s != {} {
      var k := |(a.cells - s) * mines|;
      assert RestLo(a, sHi) <= k <= RestHi(a, s, sLo);
    }
  }
}

=== FILE: kinds.dfy ===
/** The closed set of region kinds, the table that numbers them inside packed
    rule slots, the count each constraint kind admits, the square-count check
    of the rule engine, and the label a region displays. */
module Kinds {
  import opened Wrappers

  datatype RegionKind =
    | Wild
    | Exact
    | AtMost
    | AtLeast
    | OrPlus2
    | OrPlus3
    | OrPlus2_4
    | OrPlus2_4_6
    | Not
    | OrPlus2Multiple
    | OrPlus1
    | OrPlus1_2
    | MarkCell
    | ChangeVisibility

  /** The two kinds that denote pending actions rather than constraints. */
  predicate IsAction(k: RegionKind) {
    k.MarkCell? || k.ChangeVisibility?
  }

  /** The kind table used by slot decoding: indices 0 to 11 name the
      constraint kinds, 100 and 101 the two action kinds, and every other
      index names nothing. */
  function KindAt(index: int): (r: Option<RegionKind>)
    ensures r.Some? <==> 0 <= index < 12 || index == 100 || index == 101
    ensures r.Some? ==> (IsAction(r.value) <==> index >= 100)
  {
    if index == 0 then Some(Wild)
    else if index == 1 then Some(Exact)
    else if index == 2 then Some(AtMost)
    else if index == 3 then Some(AtLeast)
    else if index == 4 then Some(OrPlus2)
    else if index == 5 then Some(OrPlus3)
    else if index == 6 then Some(OrPlus2_4)
    else if index == 7 then Some(OrPlus2_4_6)
    else if index == 8 then Some(Not)
    else if index == 9 then Some(OrPlus2Multiple)
    else if index == 10 then Some(OrPlus1)
    else if index == 11 then Some(OrPlus1_2)
    else if index == 100 then Some(MarkCell)
    else if index == 101 then Some(ChangeVisibility)
    else None
  }

  /** The table position of a kind: the inverse of KindAt. */
  function IndexOfKind(k: RegionKind): (i: nat)
    ensures KindAt(i) == Some(k)
    ensures i < 256
  {
    match k
    case Wild => 0
    case Exact => 1
    case AtMost => 2
    case AtLeast => 3
    case OrPlus2 => 4
    case OrPlus3 => 5
    case OrPlus2_4 => 6
    case OrPlus2_4_6 => 7
    case Not => 8
    case OrPlus2Multiple => 9
    case OrPlus1 => 10
    case OrPlus1_2 => 11
    case MarkCell => 100
    case ChangeVisibility => 101
  }

  /** Every index the table names is the position of its kind, so the table
      has no two entries for one kind. */
  lemma KindTableInjective(i: int)
    requires KindAt(i).Some?
    ensures IndexOfKind(KindAt(i).value) == i
  {
  }

  /** The finite offsets above `value` that a count may take under one of the
      "or plus" kinds. */
  function Offsets(k: RegionKind): set<int>
    requires k.OrPlus1? || k.OrPlus1_2? || k.OrPlus2? || k.OrPlus3? || k.OrPlus2_4? || k.OrPlus2_4_6?
  {
    match k
    case OrPlus1 => {0, 1}
    case OrPlus1_2 => {0, 1, 2}
    case OrPlus2 => {0, 2}
    case OrPlus3 => {0, 3}
    case OrPlus2_4 => {0, 2, 4}
    case OrPlus2_4_6 => {0, 2, 4, 6}
  }

  predicate HasOffsets(k: RegionKind) {
    k.OrPlus1? || k.OrPlus1_2? || k.OrPlus2? || k.OrPlus3? || k.OrPlus2_4? || k.OrPlus2_4_6?
  }

  /** What a constraint of kind `k` and value `v` says about the number `n`
      of mines (or, in a square-count pattern, of cells) it covers. */
  predicate Admits(k: RegionKind, v: int, n: int)
    requires !IsAction(k)
  {
    match k
    case Wild => true
    case Exact => n == v
    case Not => n != v
    case AtMost => n <= v
    case AtLeast => n >= v
    case OrPlus2Multiple => n >= v && (n - v) % 2 == 0
    case OrPlus1 => n - v in Offsets(k)
    case OrPlus1_2 => n - v in Offsets(k)
    case OrPlus2 => n - v in Offsets(k)
    case OrPlus3 => n - v in Offsets(k)
    case OrPlus2_4 => n - v in Offsets(k)
    case OrPlus2_4_6 => n - v in Offsets(k)
  }

  /** A constraint only relates the count to the value: lowering both by
      the same amount (taking resolved mines out of a region) keeps it. */
  lemma AdmitsShift(k: RegionKind, v: int, n: int, v': int, n': int)
    requires !IsAction(k) && v' - v == n' - n
    ensures Admits(k, v', n') == Admits(k, v, n)
  {
  }

  /** The square-count check of the rule engine: does a bucket of `n` cells
      pass a pattern of kind `k` whose value is `sv`?  `sv` is None when the
      pattern's value is NaN in visualizer.js (a variable left unbound); the
      comparisons then behave as JavaScript's do with NaN.  Action kinds are
      not square-count kinds and raise. */
  function CheckSquareCount(k: RegionKind, n: int, sv: Option<int>): (r: Result<bool>)
    ensures r.Err? <==> IsAction(k)
    ensures !IsAction(k) && sv.Some? ==> r == Ok(Admits(k, sv.value, n))
    ensures !IsAction(k) && sv.None? ==> r == Ok(k.Wild? || k.Not? || k.AtMost? || k.AtLeast?)
  {
    var eq := (d: int) => sv.Some? && n == sv.value + d;
    if k.Wild? then Ok(true)
    else if k.Exact? then Ok(eq(0))
    else if k.Not? then Ok(!eq(0))
    else if k.AtMost? then Ok(!(sv.Some? && n > sv.value))
    else if k.AtLeast? then Ok(!(sv.Some? && n < sv.value))
    else if k.OrPlus1? then Ok(eq(0) || eq(1))
    else if k.OrPlus1_2? then Ok(eq(0) || eq(1) || eq(2))
    else if k.OrPlus2_4? then Ok(eq(0) || eq(2) || eq(4))
    else if k.OrPlus2_4_6? then Ok(eq(0) || eq(2) || eq(4) || eq(6))
    else if k.OrPlus2Multiple? then Ok(sv.Some? && !(n < sv.value) && (n - sv.value) % 2 == 0)
    else if k.OrPlus2? then Ok(eq(0) || eq(2))
    else if k.OrPlus3? then Ok(eq(0) || eq(3))
    else Err("Unsupported region kind")
  }

  // ---------------------------------------------------------------------
  // Labels

  function DigitChar(d: nat): char
    requires d < 10
  {
    "0123456789"[d]
  }

  predicate IsDigit(c: char) {
    '0' <= c <= '9'
  }

  /** Decimal notation of a natural number, as `Number.prototype.toString`. */
  function NatToString(n: nat): (s: string)
    ensures |s| > 0
    ensures forall i :: 0 <= i < |s| ==> IsDigit(s[i])
    decreases n
  {
    if n < 10 then [DigitChar(n)] else NatToString(n / 10) + [DigitChar(n % 10)]
  }

  function IntToString(x: int): string {
    if x < 0 then "-" + NatToString(-x) else NatToString(x)
  }

  /** Reads a string of decimal digits back into the number it denotes. */
  function ParseDigits(s: string): int
    requires forall i :: 0 <= i < |s| ==> IsDigit(s[i])
  {
    if |s| == 0 then 0
    else ParseDigits(s[..|s| - 1]) * 10 + (s[|s| - 1] as int - '0' as int)
  }

  /** Decimal notation loses nothing: reading it back gives the number. */
  lemma {:induction false} NatToStringRoundTrip(n: nat)
    ensures ParseDigits(NatToString(n)) == n
    decreases n
  {
    var s := NatToString(n);
    if n < 10 {
      assert s[..|s| - 1] == [];
    } else {
      NatToStringRoundTrip(n / 10);
      assert s[..|s| - 1] == NatToString(n / 10);
    }
  }

  /** setRegionLabel: the text shown for a region of kind `k` and value `x`.
      For the finite alternatives kinds it lists every admitted count; the
      others substitute the value for the `X` of the kind's description. */
  function Label(k: RegionKind, x: int): string {
    match k
    case Exact => IntToString(x)
    case OrPlus1 => IntToString(x) + "/" + IntToString(x + 1)
    case OrPlus1_2 => IntToString(x) + "/" + IntToString(x + 1) + "/" + IntToString(x + 2)
    case OrPlus2 => IntToString(x) + "/" + IntToString(x + 2)
    case OrPlus2_4 => IntToString(x) + "/" + IntToString(x + 2) + "/" + IntToString(x + 4)
    case OrPlus2_4_6 => IntToString(x) + "/" + IntToString(x + 2) + "/" + IntToString(x + 4) + "/" + IntToString(x + 6)
    case OrPlus2Multiple => if x == 0 then "2*" else IntToString(x) + "+2*"
    case OrPlus3 => IntToString(x) + "/" + IntToString(x + 3)
    case Wild => "?"
    case AtMost => IntToString(x) + "-"
    case AtLeast => IntToString(x) + "+"
    case Not => "!" + IntToString(x)
    case MarkCell => "MARK_CELL"
    case ChangeVisibility => "CHANGE_VISIBILITY"
  }

  /** The counts a label spells out for the kinds with finitely many
      alternatives (Exact and the "or plus" kinds), in increasing order. */
  function LabelCounts(k: RegionKind, x: int): seq<int>
    requires k.Exact? || HasOffsets(k)
  {
    match k
    case Exact => [x]
    case OrPlus1 => [x, x + 1]
    case OrPlus1_2 => [x, x + 1, x + 2]
    case OrPlus2 => [x, x + 2]
    case OrPlus3 => [x, x + 3]
    case OrPlus2_4 => [x, x + 2, x + 4]
    case OrPlus2_4_6 => [x, x + 2, x + 4, x + 6]
  }

  function JoinSlash(xs: seq<int>): string
    requires |xs| > 0
  {
    if |xs| == 1 then IntToString(xs[0])
    else JoinSlash(xs[..|xs| - 1]) + "/" + IntToString(xs[|xs| - 1])
  }

  /** For the finite kinds the label is the slash-separated list of the
      counts in LabelCounts. */
  lemma LabelSpellsCounts(k: RegionKind, x: int)
    requires k.Exact? || HasOffsets(k)
    ensures Label(k, x) == JoinSlash(LabelCounts(k, x))
  {
    match k
    case Exact =>
    case OrPlus1 => JoinTwo(x, x + 1);
    case OrPlus2 => JoinTwo(x, x + 2);
    case OrPlus3 => JoinTwo(x, x + 3);
    case OrPlus1_2 => JoinThree(x, x + 1, x + 2);
    case OrPlus2_4 => JoinThree(x, x + 2, x + 4);
    case OrPlus2_4_6 => JoinFour(x, x + 2, x + 4, x + 6);
  }

  lemma JoinTwo(a: int, b: int)
    ensures JoinSlash([a, b]) == IntToString(a) + "/" + IntToString(b)
  {
    assert [a, b][..1] == [a];
  }

  lemma JoinThree(a: int, b: int, c: int)
    ensures JoinSlash([a, b, c]) == IntToString(a) + "/" + IntToString(b) + "/" + IntToString(c)
  {
    assert [a, b, c][..2] == [a, b];
    JoinTwo(a, b);
  }

  lemma JoinFour(a: int, b: int, c: int, d: int)
    ensures JoinSlash([a, b, c, d]) == IntToString(a) + "/" + IntToString(b) + "/" + IntToString(c) + "/" + IntToString(d)
  {
    assert [a, b, c, d][..3] == [a, b, c];
    JoinThree(a, b, c);
  }

  /** The counts a finite kind's label spells out are exactly the counts the
      region admits. */
  lemma LabelCountsAreAdmitted(k: RegionKind, x: int, n: int)
    requires k.Exact? || HasOffsets(k)
    ensures n in LabelCounts(k, x) <==> Admits(k, x, n)
  {
  }
}

=== FILE: poset.dfy ===
/** The store side of `InequalityPoset`: the known inequalities and the
    fresh ones (both keyed stores) and the count of additions.  The
    parent/child/root graph is not part of the model. */
module Poset {
  import opened Wrappers
  import opened Inequalities
  import opened IneqStore

  datatype Poset = Poset(ineqs: Store, freshIneqs: Store, numAdded: int)

  /** Both stores are keyed by cell set and hold constructed inequalities. */
  predicate Good(p: Poset) {
    Keyed(p.ineqs) && AllValid(p.ineqs) && Keyed(p.freshIneqs) && AllValid(p.freshIneqs)
  }

  /** Every inequality of `st` holds for the placement of mines `mines`. */
  predicate Consistent(mines: set<CellId>, st: Store) {
    forall i :: 0 <= i < |st| ==> Satisfies(mines, st[i])
  }

  lemma ConsistentLookup(mines: set<CellId>, st: Store, cells: set<CellId>)
    requires Consistent(mines, st) && cells in Keys(st)
    ensures Satisfies(mines, Lookup(st, cells).value)
  {
  }

  // ---------------------------------------------------------------------
  // add

  /** `add` as the Python solver has it.  `is_new` asks the exact form of
      has_ineq, which is false for a known cell set under other bounds, so
      such an inequality is taken as new and its bounds overwrite the stored
      ones; the branch that would merge the two bounds is reached only when
      they are equal, and then the early return comes first. */
  function AddAsWritten(p: Poset, q: Ineq): (r: Result<Poset>)
    requires Good(p) && Valid(q)
    ensures r.Ok? && Good(r.value)
    ensures Keys(r.value.ineqs) == Keys(p.ineqs) + {q.cells}
    ensures Lookup(r.value.ineqs, q.cells) == Some(q)
  {
    var isNew := HasIneq(p.ineqs, q, true) != Some(true);
    if !isNew then
      var known := Lookup(p.ineqs, q.cells).value;
      if known.lo == q.lo && known.hi == q.hi then Ok(p)
      else
        // The Python solver merges the two bounds here, but has_ineq has just
        // found them equal: the branch is dead.
        assert false; Ok(p)
    else
      Ok(Poset(AddIneq(p.ineqs, q), AddIneq(p.freshIneqs, q), p.numAdded + 1))
  }

  /** As written, adding never merges: a known inequality is returned
      untouched and anything else is stored as given. */
  lemma AddAsWrittenStores(p: Poset, q: Ineq)
    requires Good(p) && Valid(q)
    ensures AddAsWritten(p, q) == Ok(
      if Lookup(p.ineqs, q.cells) == Some(q) then p
      else Poset(AddIneq(p.ineqs, q), AddIneq(p.freshIneqs, q), p.numAdded + 1))
  {
  }

  /** So adding a looser bound for a known cell set loses the tighter one:
      with `{1, 2}` known to hold exactly one mine, adding "between none and
      two" leaves only the looser bound behind. */
  lemma AddAsWrittenLoosens()
    ensures var p := Poset([Ineq({1, 2}, 1, 1)], [], 0);
      && Good(p)
      && AddAsWritten(p, Ineq({1, 2}, 0, 2)).Ok?
      && Lookup(AddAsWritten(p, Ineq({1, 2}, 0, 2)).value.ineqs, {1, 2}) == Some(Ineq({1, 2}, 0, 2))
      && Add(p, Ineq({1, 2}, 0, 2)).Ok?
      && Lookup(Add(p, Ineq({1, 2}, 0, 2)).value.ineqs, {1, 2}) == Some(Ineq({1, 2}, 1, 1))
  {
    var p := Poset([Ineq({1, 2}, 1, 1)], [], 0);
    var q := Ineq({1, 2}, 0, 2);
    assert Find(p.ineqs, q.cells) == Some(0);
    AddAsWrittenStores(p, q);
    AddIneqLookup(p.ineqs, q, q.cells);
    AddIneqLookup(p.ineqs, Ineq({1, 2}, 1, 1), q.cells);
  }

  /** The bounds `add` means to keep for a known cell set: the larger lower
      bound and the smaller upper bound. */
  function Merge(known: Ineq, q: Ineq): (r: Result<Ineq>)
    requires known.cells == q.cells
    ensures r.Ok? ==> Valid(r.value) && r.value.cells == q.cells
    ensures forall mines :: Satisfies(mines, known) && Satisfies(mines, q) ==> r.Ok?
    ensures r.Ok? ==> forall mines :: Satisfies(mines, r.value) <==> Satisfies(mines, known) && Satisfies(mines, q)
  {
    SetBounds(q.cells, Max(known.lo, q.lo), Min(known.hi, q.hi))
  }

  /** `add` as evidently intended: a new cell set is stored as given, a
      known one under the same bounds changes nothing, and a known one under
      other bounds gets the merged bounds, which raise when they cannot both
      hold. */
  function Add(p: Poset, q: Ineq): (r: Result<Poset>)
    requires Good(p) && Valid(q)
    ensures r.Ok? ==> Good(r.value)
    ensures r.Ok? ==> Keys(r.value.ineqs) == Keys(p.ineqs) + {q.cells}
  {
    match Lookup(p.ineqs, q.cells)
    case Some(known) =>
      if known.lo == q.lo && known.hi == q.hi then Ok(p)
      else
        var merged :- Merge(known, q);
        Ok(Poset(AddIneq(p.ineqs, merged), AddIneq(p.freshIneqs, merged), p.numAdded + 1))
    case None =>
      Ok(Poset(AddIneq(p.ineqs, q), AddIneq(p.freshIneqs, q), p.numAdded + 1))
  }

  /** `add` as the Python solver has it when `asWritten` holds, and as
      evidently intended otherwise (see Findings). */
  function AddVariant(p: Poset, q: Ineq, asWritten: bool): (r: Result<Poset>)
    requires Good(p) && Valid(q)
    ensures r.Ok? ==> Good(r.value)
    ensures r.Ok? ==> Keys(r.value.ineqs) == Keys(p.ineqs) + {q.cells}
  {
    if asWritten then AddAsWritten(p, q) else Add(p, q)
  }

  /** After adding, the entry for the added cells is met by exactly the
      placements meeting both the old entry (if any) and the added one; every
      other entry is unchanged. */
  lemma AddLookup(p: Poset, q: Ineq, cells: set<CellId>)
    requires Good(p) && Valid(q) && Add(p, q).Ok?
    ensures var r := Add(p, q).value;
      && (cells != q.cells ==> Lookup(r.ineqs, cells) == Lookup(p.ineqs, cells))
      && (cells == q.cells ==>
            && Lookup(r.ineqs, cells).Some?
            && forall mines :: Satisfies(mines, Lookup(r.ineqs, cells).value) <==>
                 Satisfies(mines, q) && (cells in Keys(p.ineqs) ==> Satisfies(mines, Lookup(p.ineqs, cells).value)))
  {
    match Lookup(p.ineqs, q.cells)
    case Some(known) =>
      if !(known.lo == q.lo && known.hi == q.hi) {
        AddIneqLookup(p.ineqs, Merge(known, q).value, cells);
      }
    case None =>
      AddIneqLookup(p.ineqs, q, cells);
  }

  /** Adding an inequality that a placement meets, to a store it meets,
      never raises and keeps the store met. */
  lemma AddSound(p: Poset, q: Ineq, mines: set<CellId>)
    requires Good(p) && Valid(q) && Consistent(mines, p.ineqs) && Satisfies(mines, q)
    ensures Add(p, q).Ok? && Consistent(mines, Add(p, q).value.ineqs)
  {
    var r := Add(p, q);
    match Lookup(p.ineqs, q.cells)
    case Some(known) =>
      assert Satisfies(mines, known);
      if !(known.lo == q.lo && known.hi == q.hi) {
        StoreAddSound(p.ineqs, Merge(known, q).value, mines);
      }
    case None =>
      StoreAddSound(p.ineqs, q, mines);
  }

  /** The same holds of `add` as written, which stores the added
      inequality as given. */
  lemma AddVariantSound(p: Poset, q: Ineq, mines: set<CellId>, asWritten: bool)
    requires Good(p) && Valid(q) && Consistent(mines, p.ineqs) && Satisfies(mines, q)
    ensures AddVariant(p, q, asWritten).Ok? && Consistent(mines, AddVariant(p, q, asWritten).value.ineqs)
  {
    if asWritten {
      AddAsWrittenStores(p, q);
      StoreAddSound(p.ineqs, q, mines);
    } else {
      AddSound(p, q, mines);
    }
  }

  lemma StoreAddSound(st: Store, q: Ineq, mines: set<CellId>)
    requires Valid(q) && Consistent(mines, st) && Satisfies(mines, q)
    ensures Consistent(mines, AddIneq(st, q))
  {
    var r := AddIneq(st, q);
    match Find(st, q.cells)
    case None =>
    case Some(i) =>
      assert r == st[i := q];
  }

  // ---------------------------------------------------------------------
  // remove (store part)

  /** The store part of `remove`: the entry goes from the known and the
      fresh inequalities alike; a missing one is ignored. */
  function Remove(p: Poset, q: Ineq): (r: Poset)
    requires Good(p)
    ensures Good(r) && r.numAdded == p.numAdded
    ensures Keys(r.ineqs) == Keys(p.ineqs) - {q.cells}
    ensures forall i :: 0 <= i < |r.ineqs| ==> r.ineqs[i] in p.ineqs
  {
    var gone := RemoveIneq(p.ineqs, Some(q), false).value;
    match gone.removed
    case None => p
    case Some(removed) =>
      var freshGone := RemoveIneq(p.freshIneqs, Some(removed), false).value;
      RemoveAtKeys(p.ineqs, Find(p.ineqs, q.cells).value);
      Poset(gone.store, freshGone.store, p.numAdded)
  }

  lemma RemoveSound(p: Poset, q: Ineq, mines: set<CellId>)
    requires Good(p) && Consistent(mines, p.ineqs)
    ensures Consistent(mines, Remove(p, q).ineqs)
  {
    var r := Remove(p, q);
    forall i | 0 <= i < |r.ineqs| ensures Satisfies(mines, r.ineqs[i]) {
      assert r.ineqs[i] in p.ineqs;
    }
  }

  // ---------------------------------------------------------------------
  // Ordering by size (`sorted(..., key=len, reverse=True)`)

  /** Larger cell sets first. */
  predicate SortedBySize(s: seq<Ineq>) {
    forall i, j :: 0 <= i < j < |s| ==> |s[i].cells| >= |s[j].cells|
  }

  /** Puts `x` after every entry at least as large, so equal sizes keep the
      order they came in. */
  function InsertBySize(s: seq<Ineq>, x: Ineq): (r: seq<Ineq>)
    ensures multiset(r) == multiset(s) + multiset{x}
  {
    if |s| == 0 || |s[|s| - 1].cells| >= |x.cells| then s + [x]
    else
      var init := s[..|s| - 1];
      assert s == init + [s[|s| - 1]];
      InsertBySize(init, x) + [s[|s| - 1]]
  }

  lemma {:induction false} InsertBySizeSorted(s: seq<Ineq>, x: Ineq)
    requires SortedBySize(s)
    ensures SortedBySize(InsertBySize(s, x))
  {
    if |s| > 0 && |s[|s| - 1].cells| < |x.cells| {
      var init := s[..|s| - 1];
      var last := s[|s| - 1];
      var r := InsertBySize(init, x);
      InsertBySizeSorted(init, x);
      var t := r + [last];
      assert InsertBySize(s, x) == t;
      forall i, j | 0 <= i < j < |t| ensures |t[i].cells| >= |t[j].cells| {
        assert t[i] == r[i];
        if j == |r| {
          LargerThanLast(s, x, r[i]);
        } else {
          assert t[j] == r[j];
        }
      }
    } else {
      var t := s + [x];
      assert InsertBySize(s, x) == t;
      forall i, j | 0 <= i < j < |t| ensures |t[i].cells| >= |t[j].cells| {
        assert t[i] == s[i];
        if j < |s| {
          assert t[j] == s[j];
        } else {
          assert |s[i].cells| >= |s[|s| - 1].cells|;
        }
      }
    }
  }

  lemma LargerThanLast(s: seq<Ineq>, x: Ineq, y: Ineq)
    requires SortedBySize(s) && |s| > 0 && |s[|s| - 1].cells| < |x.cells|
    requires y in multiset(InsertBySize(s[..|s| - 1], x))
    ensures |y.cells| >= |s[|s| - 1].cells|
  {
    if y != x {
      assert y in multiset(s[..|s| - 1]);
      var k :| 0 <= k < |s| - 1 && s[..|s| - 1][k] == y;
      assert s[k] == y;
    }
  }

  /** The stable sort by decreasing size of `find_trivial` and `reduce`. */
  function SortBySize(s: seq<Ineq>): (r: seq<Ineq>)
    ensures multiset(r) == multiset(s)
  {
    if |s| == 0 then []
    else
      var init := s[..|s| - 1];
      assert s == init + [s[|s| - 1]];
      InsertBySize(SortBySize(init), s[|s| - 1])
  }

  lemma {:induction false} SortBySizeSorted(s: seq<Ineq>)
    ensures SortedBySize(SortBySize(s))
  {
    if |s| > 0 {
      SortBySizeSorted(s[..|s| - 1]);
      InsertBySizeSorted(SortBySize(s[..|s| - 1]), s[|s| - 1]);
    }
  }

  // ---------------------------------------------------------------------
  // find_trivial

  /** Some entry of `chosen` holds all of `cells`. */
  predicate Covered(chosen: seq<Ineq>, cells: set<CellId>) {
    exists i :: 0 <= i < |chosen| && cells <= chosen[i].cells
  }

  /** The loop of `find_trivial` from the `k`-th sorted entry on: a trivial
      entry is kept unless an entry kept earlier holds all its cells. */
  function Choose(s: seq<Ineq>, chosen: seq<Ineq>): seq<Ineq>
    decreases |s|
  {
    if |s| == 0 then chosen
    else Choose(s[1..], if Trivial(s[0]) && !Covered(chosen, s[0].cells) then chosen + [s[0]] else chosen)
  }

  /** `find_trivial`: the trivial inequalities, largest first, skipping any
      inside one already chosen. */
  function FindTrivial(p: Poset): seq<Ineq> {
    Choose(SortBySize(p.ineqs), [])
  }

  /** What `find_trivial` keeps true of what it has chosen: only trivial
      entries, in decreasing size, none inside an earlier one. */
  predicate ChosenOk(chosen: seq<Ineq>) {
    && SortedBySize(chosen)
    && (forall i :: 0 <= i < |chosen| ==> Trivial(chosen[i]))
    && (forall i, j :: 0 <= i < j < |chosen| ==> !(chosen[j].cells <= chosen[i].cells))
  }

  /** The loop only appends, and only entries it was given. */
  lemma {:induction false} ChooseKeeps(s: seq<Ineq>, chosen: seq<Ineq>)
    ensures var r := Choose(s, chosen);
      && |chosen| <= |r| && r[..|chosen|] == chosen
      && (forall i :: 0 <= i < |r| ==> r[i] in chosen || r[i] in s)
    decreases |s|
  {
    if |s| > 0 {
      var x := s[0];
      var next := if Trivial(x) && !Covered(chosen, x.cells) then chosen + [x] else chosen;
      ChooseKeeps(s[1..], next);
      var r := Choose(s[1..], next);
      assert r[..|chosen|] == r[..|next|][..|chosen|];
      forall i | 0 <= i < |r| ensures r[i] in chosen || r[i] in s {
        if r[i] in s[1..] {
          var k :| 0 <= k < |s[1..]| && s[1..][k] == r[i];
          assert s[k + 1] == r[i];
        } else if r[i] in next && r[i] !in chosen {
          assert r[i] == s[0];
        }
      }
    }
  }

  /** Whatever an earlier choice covers stays covered. */
  lemma CoveredKept(chosen: seq<Ineq>, r: seq<Ineq>, cells: set<CellId>)
    requires |chosen| <= |r| && r[..|chosen|] == chosen && Covered(chosen, cells)
    ensures Covered(r, cells)
  {
    var i :| 0 <= i < |chosen| && cells <= chosen[i].cells;
    assert r[..|chosen|][i] == r[i];
  }

  /** Every trivial entry the loop passes ends up covered. */
  lemma {:induction false} ChooseCovers(s: seq<Ineq>, chosen: seq<Ineq>, j: nat)
    requires j < |s| && Trivial(s[j])
    ensures Covered(Choose(s, chosen), s[j].cells)
    decreases |s|
  {
    var x := s[0];
    var next := if Trivial(x) && !Covered(chosen, x.cells) then chosen + [x] else chosen;
    if j == 0 {
      assert Covered(next, x.cells) by {
        if !Covered(chosen, x.cells) {
          assert next[|chosen|] == x;
        }
      }
      ChooseKeeps(s[1..], next);
      CoveredKept(next, Choose(s[1..], next), x.cells);
    } else {
      assert s[1..][j - 1] == s[j];
      ChooseCovers(s[1..], next, j - 1);
    }
  }

  /** The loop invariant: what is chosen stays trivial, ordered by size and
      free of entries inside earlier ones. */
  lemma {:induction false} ChooseOk(s: seq<Ineq>, chosen: seq<Ineq>)
    requires SortedBySize(s) && ChosenOk(chosen)
    requires forall i, j :: 0 <= i < |chosen| && 0 <= j < |s| ==> |chosen[i].cells| >= |s[j].cells|
    ensures ChosenOk(Choose(s, chosen))
    decreases |s|
  {
    if |s| > 0 {
      ChooseStep(s, chosen);
      var next := if Trivial(s[0]) && !Covered(chosen, s[0].cells) then chosen + [s[0]] else chosen;
      assert forall j :: 0 <= j < |s[1..]| ==> s[1..][j] == s[j + 1];
      ChooseOk(s[1..], next);
    }
  }

  /** One step of the loop keeps its invariant. */
  lemma ChooseStep(s: seq<Ineq>, chosen: seq<Ineq>)
    requires |s| > 0 && SortedBySize(s) && ChosenOk(chosen)
    requires forall i, j :: 0 <= i < |chosen| && 0 <= j < |s| ==> |chosen[i].cells| >= |s[j].cells|
    ensures var next := if Trivial(s[0]) && !Covered(chosen, s[0].cells) then chosen + [s[0]] else chosen;
      && ChosenOk(next)
      && (forall i, j :: 0 <= i < |next| && 1 <= j < |s| ==> |next[i].cells| >= |s[j].cells|)
  {
    var x := s[0];
    if Trivial(x) && !Covered(chosen, x.cells) {
      var next := chosen + [x];
      assert next[|chosen|] == x;
      assert forall i :: 0 <= i < |chosen| ==> !(x.cells <= chosen[i].cells);
    }
  }

  /** What `find_trivial` returns: trivial inequalities of the store, larger
      ones first, none inside an earlier one, and every trivial inequality
      of the store inside one of them. */
  lemma FindTrivialSpec(p: Poset)
    ensures var r := FindTrivial(p);
      && SortedBySize(r)
      && (forall i :: 0 <= i < |r| ==> Trivial(r[i]) && r[i] in p.ineqs)
      && (forall i, j :: 0 <= i < j < |r| ==> !(r[j].cells <= r[i].cells))
      && (forall q :: q in p.ineqs && Trivial(q) ==> Covered(r, q.cells))
  {
    var s := SortBySize(p.ineqs);
    SortBySizeSorted(p.ineqs);
    ChooseOk(s, []);
    ChooseKeeps(s, []);
    var r := FindTrivial(p);
    forall i | 0 <= i < |r| ensures r[i] in p.ineqs {
      assert r[i] in multiset(s);
    }
    forall q | q in p.ineqs && Trivial(q) ensures Covered(r, q.cells) {
      assert q in multiset(s);
      var j :| 0 <= j < |s| && s[j] == q;
      ChooseCovers(s, [], j);
    }
  }

  /** Hence no chosen inequality lies inside another one: sizes only fall,
      so a later one inside an earlier one is ruled out by the loop, and an
      earlier one inside a later one would be the same set. */
  lemma FindTrivialAntichain(p: Poset, i: nat, j: nat)
    requires i < |FindTrivial(p)| && j < |FindTrivial(p)| && i != j
    ensures !(FindTrivial(p)[i].cells <= FindTrivial(p)[j].cells)
  {
    var r := FindTrivial(p);
    FindTrivialSpec(p);
    if i < j && r[i].cells <= r[j].cells {
      CardSubset(r[i].cells, r[j].cells);
      SubsetOfSameSize(r[i].cells, r[j].cells);
    }
  }

  // ---------------------------------------------------------------------
  // reduce

  /** Cells the chosen trivial inequalities decide: an empty one (lower
      bound zero) reveals its cells, a full one flags them. */
  datatype Marks = Marks(revealed: set<CellId>, flagged: set<CellId>)

  function MarksOf(ts: seq<Ineq>): (r: Marks)
    ensures forall c :: c in r.revealed <==> exists i :: 0 <= i < |ts| && ts[i].lo == 0 && c in ts[i].cells
    ensures forall c :: c in r.flagged <==> exists i :: 0 <= i < |ts| && ts[i].lo > 0 && c in ts[i].cells
    decreases |ts|
  {
    if |ts| == 0 then Marks({}, {})
    else
      var m := MarksOf(ts[1..]);
      assert forall i :: 0 <= i < |ts| - 1 ==> ts[1..][i] == ts[i + 1];
      if ts[0].lo == 0 then Marks(m.revealed + ts[0].cells, m.flagged)
      else Marks(m.revealed, m.flagged + ts[0].cells)
  }

  /** Marks taken from trivial inequalities a placement meets are right
      about it: every flagged cell holds a mine, no revealed cell does. */
  lemma TrivialMarksSound(ts: seq<Ineq>, mines: set<CellId>)
    requires forall i :: 0 <= i < |ts| ==> Valid(ts[i]) && Trivial(ts[i]) && Satisfies(mines, ts[i])
    ensures MarksOf(ts).flagged <= mines
    ensures MarksOf(ts).revealed * mines == {}
  {
    var m := MarksOf(ts);
    forall c | c in m.flagged ensures c in mines {
      var i :| 0 <= i < |ts| && ts[i].lo > 0 && c in ts[i].cells;
      TrivialDecides(ts[i], mines);
    }
    forall c | c in m.revealed ensures c !in mines {
      var i :| 0 <= i < |ts| && ts[i].lo == 0 && c in ts[i].cells;
      TrivialDecides(ts[i], mines);
    }
  }

  /** The bounds left for the unmarked part of an inequality once `f` of
      its cells are known mines. */
  function Shrunk(q: Ineq, marked: set<CellId>, f: int): Result<Ineq> {
    var rest := q.cells - marked;
    SetBounds(rest, Min(Max(q.lo - f, 0), |rest|), Min(q.hi - f, |rest|))
  }

  /** One pass of the loop of `reduce` over inequality `q`: one inside the
      marked cells goes, one that meets them is replaced by its unmarked
      part under shifted bounds, and any other stays.  `asWritten` picks
      `add` as the Python solver has it or as corrected. */
  function ReduceOne(p: Poset, q: Ineq, m: Marks, asWritten: bool): (r: Result<Poset>)
    requires Good(p)
    ensures r.Ok? ==> Good(r.value)
    ensures r.Ok? && q.cells in Keys(p.ineqs) ==>
      var marked := m.revealed + m.flagged;
      Keys(r.value.ineqs) == Keys(p.ineqs) - {q.cells} + (if q.cells <= marked then {} else {q.cells - marked})
  {
    var marked := m.revealed + m.flagged;
    if q.cells <= marked then Ok(Remove(p, q))
    else if q.cells * marked != {} then
      var nq :- Shrunk(q, marked, |m.flagged * q.cells|);
      AddVariant(Remove(p, q), nq, asWritten)
    else
      assert q.cells - marked == q.cells by {
        forall c | c in q.cells ensures c !in marked {
          assert c in q.cells * marked || c !in marked;
        }
      }
      Ok(p)
  }

  /** The loop of `reduce` over a snapshot of the inequalities. */
  function ReduceAll(p: Poset, s: seq<Ineq>, m: Marks, asWritten: bool): (r: Result<Poset>)
    requires Good(p)
    ensures r.Ok? ==> Good(r.value)
    decreases |s|
  {
    if |s| == 0 then Ok(p)
    else
      var p1 :- ReduceOne(p, s[0], m, asWritten);
      ReduceAll(p1, s[1..], m, asWritten)
  }

  /** `reduce`: mark the cells the trivial inequalities decide, then walk
      the inequalities from the largest down. */
  function Reduce(p: Poset, ts: seq<Ineq>, asWritten: bool): (r: Result<Poset>)
    requires Good(p)
    ensures r.Ok? ==> Good(r.value)
  {
    ReduceAll(p, SortBySize(p.ineqs), MarksOf(ts), asWritten)
  }

  // ---------------------------------------------------------------------
  // What reduce does to the keys

  /** A reordering of a store has the same keys and the same entries. */
  lemma PermutedKeys(a: seq<Ineq>, b: seq<Ineq>)
    requires multiset(a) == multiset(b)
    ensures Keys(a) == Keys(b)
    ensures forall i :: 0 <= i < |b| ==> b[i] in a
  {
    forall i | 0 <= i < |b| ensures b[i] in a {
      assert b[i] in multiset(b);
    }
    forall c | c in Keys(a) ensures c in Keys(b) {
      var i :| 0 <= i < |a| && a[i].cells == c;
      assert a[i] in multiset(a);
      var j :| 0 <= j < |b| && b[j] == a[i];
    }
  }

  lemma {:induction false} InsertBySizeKeyed(s: seq<Ineq>, x: Ineq)
    requires Keyed(s) && x.cells !in Keys(s)
    ensures Keyed(InsertBySize(s, x))
  {
    if |s| == 0 || |s[|s| - 1].cells| >= |x.cells| {
      AppendKeys(s, x);
    } else {
      var init := s[..|s| - 1];
      var last := s[|s| - 1];
      assert forall k :: 0 <= k < |init| ==> init[k] == s[k];
      InsertBySizeKeyed(init, x);
      var r := InsertBySize(init, x);
      forall k | 0 <= k < |r| ensures r[k].cells != last.cells {
        assert r[k] in multiset(r);
        if r[k] != x {
          assert r[k] in multiset(init);
          var j :| 0 <= j < |init| && init[j] == r[k];
          assert s[j] == r[k];
        } else {
          assert last.cells in Keys(s);
        }
      }
      assert last.cells !in Keys(r);
      AppendKeys(r, last);
    }
  }

  /** Sorting a keyed store leaves it keyed. */
  lemma {:induction false} SortBySizeKeyed(s: seq<Ineq>)
    requires Keyed(s)
    ensures Keyed(SortBySize(s))
  {
    if |s| > 0 {
      var init := s[..|s| - 1];
      var last := s[|s| - 1];
      assert forall k :: 0 <= k < |init| ==> init[k] == s[k];
      SortBySizeKeyed(init);
      var sorted := SortBySize(init);
      PermutedKeys(init, sorted);
      InsertBySizeKeyed(sorted, last);
    }
  }

  /** The keys of a snapshot: its first entry's and those of the rest. */
  lemma KeysTail(s: seq<Ineq>)
    requires |s| > 0 && Keyed(s)
    ensures Keyed(s[1..]) && s[0].cells !in Keys(s[1..])
    ensures Keys(s) == {s[0].cells} + Keys(s[1..])
  {
    assert forall k :: 0 <= k < |s| - 1 ==> s[1..][k] == s[k + 1];
    forall c | c in Keys(s) ensures c in {s[0].cells} + Keys(s[1..]) {
      var k :| 0 <= k < |s| && s[k].cells == c;
      if k > 0 { assert s[1..][k - 1].cells == c; }
    }
  }

  /** Cells outside `marked` stay where they are. */
  lemma DisjointUnmarked(c: set<CellId>, marked: set<CellId>)
    requires c * marked == {}
    ensures c - marked == c
  {
    forall x | x in c ensures x !in marked {
      assert x in c * marked || x !in marked;
    }
  }

  /** Walking a snapshot keeps every key it does not hold, and leaves the
      unmarked part of every key it holds that is not wholly marked. */
  lemma {:induction false} ReduceAllKeeps(p: Poset, s: seq<Ineq>, m: Marks, asWritten: bool)
    requires Good(p) && Keyed(s) && Keys(s) <= Keys(p.ineqs) && ReduceAll(p, s, m, asWritten).Ok?
    ensures var keys := Keys(ReduceAll(p, s, m, asWritten).value.ineqs);
      && (forall c :: c in Keys(p.ineqs) && c !in Keys(s) ==> c in keys)
      && (forall j :: 0 <= j < |s| && !(s[j].cells <= m.revealed + m.flagged) ==>
            s[j].cells - (m.revealed + m.flagged) in keys)
    decreases |s|
  {
    if |s| > 0 {
      var marked := m.revealed + m.flagged;
      var p1 := ReduceOne(p, s[0], m, asWritten).value;
      var s1 := s[1..];
      KeysTail(s);
      ReduceAllKeeps(p1, s1, m, asWritten);
      var keys := Keys(ReduceAll(p, s, m, asWritten).value.ineqs);
      forall j | 0 <= j < |s| && !(s[j].cells <= marked) ensures s[j].cells - marked in keys {
        if j == 0 {
          var c := s[0].cells - marked;
          if c in Keys(s1) {
            var k :| 0 <= k < |s1| && s1[k].cells == c;
            DisjointUnmarked(c, marked);
          }
        } else {
          assert s1[j - 1] == s[j];
        }
      }
    }
  }

  /** And it leaves nothing else. */
  lemma {:induction false} ReduceAllOnly(p: Poset, s: seq<Ineq>, m: Marks, asWritten: bool)
    requires Good(p) && Keyed(s) && Keys(s) <= Keys(p.ineqs) && ReduceAll(p, s, m, asWritten).Ok?
    ensures forall k :: k in Keys(ReduceAll(p, s, m, asWritten).value.ineqs) ==>
      || (k in Keys(p.ineqs) && k !in Keys(s))
      || exists j :: 0 <= j < |s| && !(s[j].cells <= m.revealed + m.flagged) && k == s[j].cells - (m.revealed + m.flagged)
    decreases |s|
  {
    if |s| > 0 {
      var marked := m.revealed + m.flagged;
      var p1 := ReduceOne(p, s[0], m, asWritten).value;
      var s1 := s[1..];
      KeysTail(s);
      ReduceAllOnly(p1, s1, m, asWritten);
      forall k | k in Keys(ReduceAll(p, s, m, asWritten).value.ineqs)
        ensures || (k in Keys(p.ineqs) && k !in Keys(s))
                || exists j :: 0 <= j < |s| && !(s[j].cells <= marked) && k == s[j].cells - marked
      {
        if k in Keys(p1.ineqs) && k !in Keys(s1) {
          if !(s[0].cells <= marked) && k == s[0].cells - marked {
          }
        } else {
          var j :| 0 <= j < |s1| && !(s1[j].cells <= marked) && k == s1[j].cells - marked;
          assert s[j + 1] == s1[j];
        }
      }
    }
  }

  /** After `reduce` the keys are exactly the unmarked parts of the keys
      before it, for those keys not wholly marked; in particular no key
      holds a marked cell. */
  lemma ReduceKeys(p: Poset, ts: seq<Ineq>, asWritten: bool)
    requires Good(p) && Reduce(p, ts, asWritten).Ok?
    ensures var marked := MarksOf(ts).revealed + MarksOf(ts).flagged;
      var keys := Keys(Reduce(p, ts, asWritten).value.ineqs);
      && (forall c :: c in Keys(p.ineqs) && !(c <= marked) ==> c - marked in keys)
      && (forall k :: k in keys ==> exists c :: c in Keys(p.ineqs) && !(c <= marked) && k == c - marked)
      && (forall k :: k in keys ==> k * marked == {})
  {
    var m := MarksOf(ts);
    var marked := m.revealed + m.flagged;
    var s := SortBySize(p.ineqs);
    PermutedKeys(p.ineqs, s);
    SortBySizeKeyed(p.ineqs);
    ReduceAllKeeps(p, s, m, asWritten);
    ReduceAllOnly(p, s, m, asWritten);
    var keys := Keys(Reduce(p, ts, asWritten).value.ineqs);
    forall c | c in Keys(p.ineqs) && !(c <= marked) ensures c - marked in keys {
      var j :| 0 <= j < |s| && s[j].cells == c;
    }
    forall k | k in keys ensures exists c :: c in Keys(p.ineqs) && !(c <= marked) && k == c - marked {
      var j :| 0 <= j < |s| && !(s[j].cells <= marked) && k == s[j].cells - marked;
      assert s[j].cells in Keys(s);
    }
  }

  // ---------------------------------------------------------------------
  // reduce is sound

  /** Marks that are right about a placement. */
  predicate MarksMet(m: Marks, mines: set<CellId>) {
    m.flagged <= mines && m.revealed * mines == {}
  }

  /** Among the cells of `q`, the mines split into the flagged ones and
      those of the unmarked part. */
  lemma UnmarkedMines(q: Ineq, m: Marks, mines: set<CellId>)
    requires MarksMet(m, mines)
    ensures |q.cells * mines| == |m.flagged * q.cells| + |(q.cells - (m.revealed + m.flagged)) * mines|
  {
    var a := q.cells * mines;
    var rest := q.cells - (m.revealed + m.flagged);
    CardSplit(a, m.flagged);
    assert a * m.flagged == m.flagged * q.cells;
    assert a - m.flagged == rest * mines by {
      forall x | x in a - m.flagged ensures x in rest * mines {
        assert x !in m.revealed * mines;
      }
    }
  }

  /** The shifted bounds hold of the unmarked part whenever the original
      inequality and the marks hold. */
  lemma ShrunkSound(q: Ineq, m: Marks, mines: set<CellId>)
    requires Satisfies(mines, q) && MarksMet(m, mines)
    ensures var marked := m.revealed + m.flagged;
      var r := Shrunk(q, marked, |m.flagged * q.cells|);
      r.Ok? && Satisfies(mines, r.value)
  {
    var marked := m.revealed + m.flagged;
    var rest := q.cells - marked;
    UnmarkedMines(q, m, mines);
    CardSubset(rest * mines, rest);
  }

  lemma ReduceOneSound(p: Poset, q: Ineq, m: Marks, mines: set<CellId>, asWritten: bool)
    requires Good(p) && Consistent(mines, p.ineqs) && Satisfies(mines, q) && MarksMet(m, mines)
    ensures ReduceOne(p, q, m, asWritten).Ok? && Consistent(mines, ReduceOne(p, q, m, asWritten).value.ineqs)
  {
    var marked := m.revealed + m.flagged;
    RemoveSound(p, q, mines);
    if !(q.cells <= marked) && q.cells * marked != {} {
      ShrunkSound(q, m, mines);
      AddVariantSound(Remove(p, q), Shrunk(q, marked, |m.flagged * q.cells|).value, mines, asWritten);
    }
  }

  lemma {:induction false} ReduceAllSound(p: Poset, s: seq<Ineq>, m: Marks, mines: set<CellId>, asWritten: bool)
    requires Good(p) && Consistent(mines, p.ineqs) && MarksMet(m, mines)
    requires forall j :: 0 <= j < |s| ==> Satisfies(mines, s[j])
    ensures ReduceAll(p, s, m, asWritten).Ok? && Consistent(mines, ReduceAll(p, s, m, asWritten).value.ineqs)
    decreases |s|
  {
    if |s| > 0 {
      ReduceOneSound(p, s[0], m, mines, asWritten);
      assert forall j :: 0 <= j < |s| - 1 ==> s[1..][j] == s[j + 1];
      ReduceAllSound(ReduceOne(p, s[0], m, asWritten).value, s[1..], m, mines, asWritten);
    }
  }

  /** One round of `find_trivial` and `reduce` on inequalities a placement
      of mines meets leaves inequalities it still meets, and its work on
      the stores never raises.  The graph part of `remove`, not modelled
      here, can raise on such input. */
  lemma ReduceSound(p: Poset, mines: set<CellId>, asWritten: bool)
    requires Good(p) && Consistent(mines, p.ineqs)
    ensures Reduce(p, FindTrivial(p), asWritten).Ok?
    ensures Consistent(mines, Reduce(p, FindTrivial(p), asWritten).value.ineqs)
  {
    var ts := FindTrivial(p);
    TrivialMet(p, mines);
    TrivialMarksSound(ts, mines);
    SnapshotMet(p.ineqs, mines);
    ReduceAllSound(p, SortBySize(p.ineqs), MarksOf(ts), mines, asWritten);
  }

  lemma TrivialMet(p: Poset, mines: set<CellId>)
    requires Good(p) && Consistent(mines, p.ineqs)
    ensures forall i :: 0 <= i < |FindTrivial(p)| ==>
      Valid(FindTrivial(p)[i]) && Trivial(FindTrivial(p)[i]) && Satisfies(mines, FindTrivial(p)[i])
  {
    var ts := FindTrivial(p);
    FindTrivialSpec(p);
    forall i | 0 <= i < |ts| ensures Valid(ts[i]) && Satisfies(mines, ts[i]) {
      var k :| 0 <= k < |p.ineqs| && p.ineqs[k] == ts[i];
    }
  }

  lemma SnapshotMet(st: Store, mines: set<CellId>)
    requires Consistent(mines, st)
    ensures forall j :: 0 <= j < |SortBySize(st)| ==> Satisfies(mines, SortBySize(st)[j])
  {
    var s := SortBySize(st);
    PermutedKeys(st, s);
    forall j | 0 <= j < |s| ensures Satisfies(mines, s[j]) {
      var k :| 0 <= k < |st| && st[k] == s[j];
    }
  }
}

=== FILE: puzzle.dfy ===
/** The part of `Puzzle` that turns revealed cells into inequalities.  The
    board is the solved puzzle: each entry carries the cell's mark (`*` for
    a mine, `.` for a safe cell) and its neighbours. */
module Puzzle {
  import opened Wrappers
  import opened SeqUtil
  import opened Inequalities
  import opened IneqStore
  import opened Poset

  datatype Cell = Cell(mark: char, neighbours: seq<CellId>)

  datatype Puzzle = Puzzle(
    board: seq<Cell>,
    revealed: seq<CellId>,
    flagged: seq<CellId>,
    changed: seq<CellId>,
    poset: Poset)

  /** The cells the board says hold a mine. */
  function Mines(board: seq<Cell>): set<CellId> {
    set i | 0 <= i < |board| && board[i].mark == '*'
  }

  function Elements(s: seq<CellId>): set<CellId> {
    set x | x in s
  }

  /** The neighbours of a revealed cell that are neither flagged nor
      revealed, and how many of them hold a mine. */
  datatype Gathered = Gathered(cells: seq<CellId>, count: nat)

  /** The inner loop of `make_new_inequalities`: the unresolved neighbours
      in order, counting the mines among them.  Looking up a neighbour past
      the end of the board raises. */
  function Gather(board: seq<Cell>, known: seq<CellId>, ns: seq<CellId>): (r: Result<Gathered>)
    ensures r.Ok? <==> forall k :: 0 <= k < |ns| && ns[k] !in known ==> ns[k] < |board|
    ensures r.Ok? ==> forall x :: x in r.value.cells <==> x in ns && x !in known
    decreases |ns|
  {
    if |ns| == 0 then Ok(Gathered([], 0))
    else
      var i := ns[0];
      assert forall k :: 0 <= k < |ns| - 1 ==> ns[1..][k] == ns[k + 1];
      assert forall x :: x in ns <==> x == i || x in ns[1..];
      if i in known then Gather(board, known, ns[1..])
      else if i >= |board| then Err("list index out of range")
      else
        var rest :- Gather(board, known, ns[1..]);
        Ok(Gathered([i] + rest.cells, rest.count + if board[i].mark == '*' then 1 else 0))
  }

  /** With no neighbour listed twice, no cell is gathered twice. */
  lemma {:induction false} GatherDistinct(board: seq<Cell>, known: seq<CellId>, ns: seq<CellId>)
    requires Distinct(ns) && Gather(board, known, ns).Ok?
    ensures Distinct(Gather(board, known, ns).value.cells)
    decreases |ns|
  {
    if |ns| > 0 {
      assert forall k :: 0 <= k < |ns| - 1 ==> ns[1..][k] == ns[k + 1];
      GatherDistinct(board, known, ns[1..]);
      if ns[0] !in known {
        var rest := Gather(board, known, ns[1..]).value.cells;
        assert ns[0] !in rest;
        var g := [ns[0]] + rest;
        forall j, k | 0 <= j < k < |g| ensures g[j] != g[k] {
          assert g[k] == rest[k - 1];
          if j > 0 { assert g[j] == rest[j - 1]; }
        }
      }
    }
  }

  /** And the count is the number of mines among the gathered cells. */
  lemma {:induction false} GatherCounts(board: seq<Cell>, known: seq<CellId>, ns: seq<CellId>)
    requires Distinct(ns) && Gather(board, known, ns).Ok?
    ensures var g := Gather(board, known, ns).value;
      g.count == |Elements(g.cells) * Mines(board)|
    decreases |ns|
  {
    if |ns| > 0 {
      var i := ns[0];
      assert forall k :: 0 <= k < |ns| - 1 ==> ns[1..][k] == ns[k + 1];
      GatherCounts(board, known, ns[1..]);
      if i !in known {
        var rest := Gather(board, known, ns[1..]).value;
        assert i !in rest.cells;
        AddOneCell(i, rest.cells, board);
      }
    }
  }

  lemma AddOneCell(i: CellId, cells: seq<CellId>, board: seq<Cell>)
    requires i !in cells && i < |board|
    ensures |Elements([i] + cells) * Mines(board)| ==
      |Elements(cells) * Mines(board)| + if board[i].mark == '*' then 1 else 0
  {
    var s := Elements(cells) * Mines(board);
    if board[i].mark == '*' {
      assert Elements([i] + cells) * Mines(board) == s + {i};
    } else {
      assert Elements([i] + cells) * Mines(board) == s;
    }
  }

  /** What one changed cell contributes: for a safe cell with unresolved
      neighbours, their set with the number of mines among them as both
      bounds. */
  function NewIneq(board: seq<Cell>, known: seq<CellId>, c: CellId): (r: Result<Option<Ineq>>)
    ensures r.Ok? ==> r.value.Some? ==>
      && Valid(r.value.value)
      && r.value.value.cells != {}
      && r.value.value.lo == r.value.value.hi
      && r.value.value.cells * Elements(known) == {}
  {
    if c >= |board| then Err("list index out of range")
    else if board[c].mark != '.' then Ok(None)
    else
      var g :- Gather(board, known, board[c].neighbours);
      if |g.cells| == 0 then Ok(None)
      else
        assert g.cells[0] in Elements(g.cells);
        Ok(Some(Ineq(Elements(g.cells), g.count, g.count)))
  }

  /** The board is well formed: every neighbour is a cell of the board and
      none is listed twice. */
  predicate BoardOk(board: seq<Cell>) {
    forall c :: 0 <= c < |board| ==>
      Distinct(board[c].neighbours) && forall k :: 0 <= k < |board[c].neighbours| ==> board[c].neighbours[k] < |board|
  }

  /** On a well-formed board, a changed cell of the board never raises,
      and the inequality it gives holds of the board's mines and covers
      exactly its unresolved neighbours. */
  lemma NewIneqSound(board: seq<Cell>, known: seq<CellId>, c: CellId)
    requires BoardOk(board) && c < |board|
    ensures NewIneq(board, known, c).Ok?
    ensures NewIneq(board, known, c).value.Some? ==>
      && Satisfies(Mines(board), NewIneq(board, known, c).value.value)
      && forall x :: x in NewIneq(board, known, c).value.value.cells <==> x in board[c].neighbours && x !in known
    ensures NewIneq(board, known, c).value.None? ==>
      board[c].mark != '.' || forall x :: x in board[c].neighbours ==> x in known
  {
    if board[c].mark == '.' {
      GatherCounts(board, known, board[c].neighbours);
    }
  }

  /** Changed cell `c` gives an inequality over `cells`. */
  predicate Contributes(board: seq<Cell>, known: seq<CellId>, c: CellId, cells: set<CellId>) {
    NewIneq(board, known, c).Ok? && NewIneq(board, known, c).value.Some? &&
    NewIneq(board, known, c).value.value.cells == cells
  }

  /** The outer loop over the changed cells, adding each new inequality
      to the poset, with `add` as written or as corrected. */
  function AddAll(p: Poset, board: seq<Cell>, known: seq<CellId>, cs: seq<CellId>, asWritten: bool): (r: Result<Poset>)
    requires Good(p)
    ensures r.Ok? ==> Good(r.value) && Keys(p.ineqs) <= Keys(r.value.ineqs)
    decreases |cs|
  {
    if |cs| == 0 then Ok(p)
    else
      var q :- NewIneq(board, known, cs[0]);
      match q
      case None => AddAll(p, board, known, cs[1..], asWritten)
      case Some(ineq) =>
        var p1 :- AddVariant(p, ineq, asWritten);
        AddAll(p1, board, known, cs[1..], asWritten)
  }

  /** `make_new_inequalities`: every changed cell is looked at once, and the
      changed list is emptied. */
  function MakeNewInequalities(pz: Puzzle, asWritten: bool): (r: Result<Puzzle>)
    requires Good(pz.poset)
    ensures r.Ok? ==>
      && r.value.changed == []
      && r.value.board == pz.board && r.value.revealed == pz.revealed && r.value.flagged == pz.flagged
      && Good(r.value.poset)
      && Keys(pz.poset.ineqs) <= Keys(r.value.poset.ineqs)
  {
    var p :- AddAll(pz.poset, pz.board, pz.flagged + pz.revealed, pz.changed, asWritten);
    Ok(pz.(changed := [], poset := p))
  }

  /** The keys added are exactly the unresolved neighbourhoods of the
      changed safe cells that have any. */
  lemma {:induction false} AddAllKeys(p: Poset, board: seq<Cell>, known: seq<CellId>, cs: seq<CellId>, asWritten: bool)
    requires Good(p) && AddAll(p, board, known, cs, asWritten).Ok?
    ensures forall k :: k in Keys(AddAll(p, board, known, cs, asWritten).value.ineqs) ==>
      k in Keys(p.ineqs) || exists j :: 0 <= j < |cs| && Contributes(board, known, cs[j], k)
    ensures forall j, k :: 0 <= j < |cs| && Contributes(board, known, cs[j], k) ==>
      k in Keys(AddAll(p, board, known, cs, asWritten).value.ineqs)
    decreases |cs|
  {
    if |cs| > 0 {
      var q := NewIneq(board, known, cs[0]).value;
      var p1 := if q.Some? then AddVariant(p, q.value, asWritten).value else p;
      AddAllKeys(p1, board, known, cs[1..], asWritten);
      var r := AddAll(p, board, known, cs, asWritten).value;
      assert r == AddAll(p1, board, known, cs[1..], asWritten).value;
      forall k | k in Keys(r.ineqs)
        ensures k in Keys(p.ineqs) || exists j :: 0 <= j < |cs| && Contributes(board, known, cs[j], k)
      {
        if k !in Keys(p1.ineqs) {
          var j :| 0 <= j < |cs| - 1 && Contributes(board, known, cs[1..][j], k);
          assert cs[1..][j] == cs[j + 1];
        } else if k !in Keys(p.ineqs) {
          assert Contributes(board, known, cs[0], k);
        }
      }
      forall j, k | 0 <= j < |cs| && Contributes(board, known, cs[j], k)
        ensures k in Keys(r.ineqs)
      {
        if j > 0 {
          assert cs[1..][j - 1] == cs[j];
        }
      }
    }
  }

  /** On a well-formed board, with the changed cells on the board and the
      poset true of the board's mines, `make_new_inequalities` never raises
      and the poset stays true of the board's mines. */
  lemma {:induction false} AddAllSound(p: Poset, board: seq<Cell>, known: seq<CellId>, cs: seq<CellId>, asWritten: bool)
    requires Good(p) && BoardOk(board) && Consistent(Mines(board), p.ineqs)
    requires forall j :: 0 <= j < |cs| ==> cs[j] < |board|
    ensures AddAll(p, board, known, cs, asWritten).Ok?
    ensures Consistent(Mines(board), AddAll(p, board, known, cs, asWritten).value.ineqs)
    decreases |cs|
  {
    if |cs| > 0 {
      NewIneqSound(board, known, cs[0]);
      var q := NewIneq(board, known, cs[0]).value;
      if q.Some? {
        AddVariantSound(p, q.value, Mines(board), asWritten);
      }
      var p1 := if q.Some? then AddVariant(p, q.value, asWritten).value else p;
      assert forall j :: 0 <= j < |cs| - 1 ==> cs[1..][j] == cs[j + 1];
      AddAllSound(p1, board, known, cs[1..], asWritten);
    }
  }

  lemma MakeNewSound(pz: Puzzle, asWritten: bool)
    requires Good(pz.poset) && BoardOk(pz.board) && Consistent(Mines(pz.board), pz.poset.ineqs)
    requires forall j :: 0 <= j < |pz.changed| ==> pz.changed[j] < |pz.board|
    ensures MakeNewInequalities(pz, asWritten).Ok?
    ensures Consistent(Mines(pz.board), MakeNewInequalities(pz, asWritten).value.poset.ineqs)
  {
    AddAllSound(pz.poset, pz.board, pz.flagged + pz.revealed, pz.changed, asWritten);
  }
}

=== FILE: queue_effects.dfy ===
/** What the cell and region operations do to the work queue: they only
    ever add region items (a re-queued or newly built region), never an
    action, and they keep the queue's shape. */
module QueueEffects {
  import opened Wrappers
  import opened SeqUtil
  import opened EngineState
  import opened RegionStore
  import opened CellActions
  import WorkQueue

  /** `w` waits somewhere in `q`. */
  predicate Queued(q: WorkQueue.Queue<Work>, w: Work) {
    exists k :: 0 <= k < |q| && w in q[k].items
  }

  /** Everything `q'` holds was in `q` or is a region item, and a well
      shaped `q` gives a well shaped `q'`. */
  predicate RegionsOnlyAdded(q: WorkQueue.Queue<Work>, q': WorkQueue.Queue<Work>) {
    && (forall k, w :: 0 <= k < |q'| && w in q'[k].items ==> w.RegionWork? || Queued(q, w))
    && (WorkQueue.Valid(q) ==> WorkQueue.Valid(q'))
  }

  lemma RegionsOnlyAddedRefl(q: WorkQueue.Queue<Work>)
    ensures RegionsOnlyAdded(q, q)
  {
  }

  lemma RegionsOnlyAddedTrans(q1: WorkQueue.Queue<Work>, q2: WorkQueue.Queue<Work>, q3: WorkQueue.Queue<Work>)
    requires RegionsOnlyAdded(q1, q2) && RegionsOnlyAdded(q2, q3)
    ensures RegionsOnlyAdded(q1, q3)
  {
    forall k, w | 0 <= k < |q3| && w in q3[k].items && !w.RegionWork? ensures Queued(q1, w) {
      assert Queued(q2, w);
      var k2 :| 0 <= k2 < |q2| && w in q2[k2].items;
    }
  }

  lemma PushRegionAdds(q: WorkQueue.Queue<Work>, p: int, h: Handle)
    ensures RegionsOnlyAdded(q, WorkQueue.Push(q, p, RegionWork(h)))
  {
    var q' := WorkQueue.Push(q, p, RegionWork(h));
    forall k, w | 0 <= k < |q'| && w in q'[k].items && !w.RegionWork? ensures Queued(q, w) {
      PushedItems(q, p, RegionWork(h), k, w);
    }
    if WorkQueue.Valid(q) { WorkQueue.PushKeepsValid(q, p, RegionWork(h)); }
  }

  lemma AddIfSomeAdds(e: Engine, r: Option<Region>)
    ensures RegionsOnlyAdded(e.queue, AddIfSome(e, r).queue)
  {
    if r.Some? { PushRegionAdds(e.queue, r.value.priority, |e.arena|); }
  }

  lemma ResolveInAdds(e: Engine, x: CellId, adj: int, h: Handle)
    requires h < |e.arena| && ResolveIn(e, x, adj, h).Ok?
    ensures RegionsOnlyAdded(e.queue, ResolveIn(e, x, adj, h).value.queue)
  {
    var reg := e.arena[h];
    var i := IndexOf(reg.nodes, x).value;
    var nodes := RemoveAt(reg.nodes, i);
    if |nodes| > 0 && !(adj != 0 && reg.value + adj < 0) {
      PushRegionAdds(e.(arena := e.arena[h := reg.(nodes := nodes, value := reg.value + adj)]).queue, reg.priority, h);
    }
  }

  lemma {:induction false} ResolveAllAdds(e: Engine, x: CellId, adj: int, k: nat)
    requires WellFormed(e) && x in e.cells
    requires ResolveAll(e, x, adj, k).Ok?
    ensures RegionsOnlyAdded(e.queue, ResolveAll(e, x, adj, k).value.queue)
    decreases |e.cells[x].refs| - k
  {
    var refs := e.cells[x].refs;
    if k < |refs| {
      var e' := ResolveIn(e, x, adj, refs[k]).value;
      ResolveInKeeps(e, x, adj, refs[k]);
      ResolveInRefs(e, x, adj, refs[k]);
      ResolveInAdds(e, x, adj, refs[k]);
      ResolveAllAdds(e', x, adj, k + 1);
      RegionsOnlyAddedTrans(e.queue, e'.queue, ResolveAll(e', x, adj, k + 1).value.queue);
    }
  }

  lemma UpdateAdds(e: Engine, x: CellId)
    requires WellFormed(e) && x in e.cells && UpdateRegionsToRemove(e, x).Ok?
    ensures RegionsOnlyAdded(e.queue, UpdateRegionsToRemove(e, x).value.queue)
  {
    ResolveAllAdds(e, x, Adjustment(e.cells[x]), 0);
  }

  /** setRevealed queues at most the region the cell's number gives, and
      the regions it re-queues while resolving the cell. */
  lemma SetRevealedAdds(e: Engine, x: CellId, revealed: bool)
    requires WellFormed(e) && x in e.cells && SetRevealed(e, x, revealed).Ok?
    ensures RegionsOnlyAdded(e.queue, SetRevealed(e, x, revealed).value.queue)
  {
    var c := e.cells[x];
    if c.revealed != revealed && !c.flagged && revealed {
      SetRevealedSteps(e, x, revealed);
      var e1 := Mark(e, x, c.(revealed := revealed));
      var e2 := AddIfSome(e1, RegionForNode(e1.cells, x));
      AddIfSomeAdds(e1, RegionForNode(e1.cells, x));
      UpdateAdds(e2, x);
      RegionsOnlyAddedTrans(e.queue, e2.queue, SetRevealed(e, x, revealed).value.queue);
    }
  }

  /** setFlagged re-queues only the regions it resolves the cell in. */
  lemma SetFlaggedAdds(e: Engine, x: CellId, flagged: bool)
    requires WellFormed(e) && x in e.cells && SetFlagged(e, x, flagged).Ok?
    ensures RegionsOnlyAdded(e.queue, SetFlagged(e, x, flagged).value.queue)
  {
    var c := e.cells[x];
    if c.flagged != flagged && !c.revealed && flagged {
      SetFlaggedSteps(e, x, flagged);
      var e1 := Mark(e, x, c.(flagged := flagged));
      UpdateAdds(e1, x);
    }
  }

  lemma {:induction false} GenerateHintsAdds(e: Engine, hs: seq<Hint>)
    ensures RegionsOnlyAdded(e.queue, GenerateHints(e, hs).queue)
    decreases |hs|
  {
    if |hs| > 0 {
      var e1 := AddIfSome(e, RegionForHint(e.cells, hs[0]));
      AddIfSomeAdds(e, RegionForHint(e.cells, hs[0]));
      GenerateHintsAdds(e1, hs[1..]);
      RegionsOnlyAddedTrans(e.queue, e1.queue, GenerateHints(e1, hs[1..]).queue);
    }
  }

  lemma {:induction false} GenerateCellsAdds(e: Engine, ids: seq<CellId>)
    requires forall k :: 0 <= k < |ids| ==> ids[k] in e.cells
    ensures RegionsOnlyAdded(e.queue, GenerateCells(e, ids).queue)
    decreases |ids|
  {
    if |ids| > 0 {
      var e1 := AddIfSome(e, RegionForNode(e.cells, ids[0]));
      AddIfSomeAdds(e, RegionForNode(e.cells, ids[0]));
      GenerateCellsAdds(e1, ids[1..]);
      RegionsOnlyAddedTrans(e.queue, e1.queue, GenerateCells(e1, ids[1..]).queue);
    }
  }

  /** After initializeRegions the queue is well shaped and holds region
      items only. */
  lemma InitialQueue(e: Engine)
    requires WellFormed(e)
    ensures WorkQueue.Valid(InitializeRegions(e).queue)
    ensures forall k, w :: 0 <= k < |InitializeRegions(e).queue| && w in InitializeRegions(e).queue[k].items ==> w.RegionWork?
  {
    var e0 := e.(queue := [], live := [], trashed := []);
    var ids := AscendingIds(e.cells.Keys);
    GenerateHintsAdds(e0, e.hints);
    var e1 := GenerateHints(e0, e.hints);
    GenerateHintsFrame(e0, e.hints);
    GenerateCellsAdds(e1, ids);
    RegionsOnlyAddedTrans(e0.queue, e1.queue, GenerateCells(e1, ids).queue);
    FromEmpty(GenerateCells(e1, ids).queue);
  }

  /** A queue grown from the empty queue holds region items only. */
  lemma FromEmpty(q: WorkQueue.Queue<Work>)
    requires RegionsOnlyAdded([], q)
    ensures WorkQueue.Valid(q)
    ensures forall k, w :: 0 <= k < |q| && w in q[k].items ==> w.RegionWork?
  {
  }
}

=== FILE: region_store.dfy ===
/** The region store: registration of queued regions (registerRegion), the
    duplicate check (isExistingRegion), trashing and hiding, and the
    adjustment of every region touching a cell once that cell is resolved
    (updateRegionsToRemove). */
module RegionStore {
  import opened Wrappers
  import opened SeqUtil
  import opened Kinds
  import opened EngineState
  import WorkQueue

  // ---------------------------------------------------------------------
  // Mine counts and the truth of a region

  /** The number of entries of `nodes` that hold a mine. */
  function MineCount(cells: map<CellId, Cell>, nodes: seq<CellId>): (n: nat)
    ensures n <= |nodes|
  {
    if |nodes| == 0 then 0
    else (if nodes[0] in cells && cells[nodes[0]].hasMine then 1 else 0) + MineCount(cells, nodes[1..])
  }

  /** A region tells the truth about the hidden mines. */
  predicate Truthful(cells: map<CellId, Cell>, r: Region) {
    !IsAction(r.kind) && Admits(r.kind, r.value, MineCount(cells, r.nodes))
  }

  /** Every flag sits on a mine. */
  predicate FlagsCorrect(cells: map<CellId, Cell>) {
    forall c :: c in cells && cells[c].flagged ==> cells[c].hasMine
  }

  predicate SameMines(cells: map<CellId, Cell>, cells': map<CellId, Cell>) {
    && cells'.Keys == cells.Keys
    && forall c :: c in cells ==> cells'[c].hasMine == cells[c].hasMine
  }

  lemma {:induction false} MineCountSameMines(cells: map<CellId, Cell>, cells': map<CellId, Cell>, nodes: seq<CellId>)
    requires SameMines(cells, cells')
    ensures MineCount(cells', nodes) == MineCount(cells, nodes)
  {
    if |nodes| > 0 {
      MineCountSameMines(cells, cells', nodes[1..]);
    }
  }

  lemma {:induction false} MineCountRemoveAt(cells: map<CellId, Cell>, nodes: seq<CellId>, i: nat)
    requires i < |nodes|
    ensures MineCount(cells, RemoveAt(nodes, i))
         == MineCount(cells, nodes) - (if nodes[i] in cells && cells[nodes[i]].hasMine then 1 else 0)
  {
    if i > 0 {
      MineCountRemoveAt(cells, nodes[1..], i - 1);
      assert RemoveAt(nodes, i)[1..] == RemoveAt(nodes[1..], i - 1);
    } else {
      assert RemoveAt(nodes, 0) == nodes[1..];
    }
  }

  // ---------------------------------------------------------------------
  // Stripping resolved cells

  /** A cell that is neither flagged nor revealed. */
  predicate Unresolved(cells: map<CellId, Cell>, n: CellId) {
    n in cells && !cells[n].flagged && !cells[n].revealed
  }

  /** A cell whose mine is already accounted for: flagged, or revealed with
      a mine under it. */
  predicate ResolvedMine(cells: map<CellId, Cell>, n: CellId) {
    n in cells && (cells[n].flagged || (cells[n].revealed && cells[n].hasMine))
  }

  function KeepUnresolved(cells: map<CellId, Cell>, nodes: seq<CellId>): (r: seq<CellId>)
    ensures forall n :: n in r <==> n in nodes && Unresolved(cells, n)
    ensures |r| <= |nodes|
  {
    if |nodes| == 0 then []
    else (if Unresolved(cells, nodes[0]) then [nodes[0]] else []) + KeepUnresolved(cells, nodes[1..])
  }

  function ResolvedMines(cells: map<CellId, Cell>, nodes: seq<CellId>): nat {
    if |nodes| == 0 then 0
    else (if ResolvedMine(cells, nodes[0]) then 1 else 0) + ResolvedMines(cells, nodes[1..])
  }

  /** The `filter` pass of registerRegion: drop every flagged or revealed
      cell, and lower the value once per flagged or revealed-mine cell. */
  function Strip(cells: map<CellId, Cell>, r: Region): Region {
    r.(nodes := KeepUnresolved(cells, r.nodes), value := r.value - ResolvedMines(cells, r.nodes))
  }

  /** With correct flags and every cell known, stripping takes out exactly
      the mines it subtracts: the unresolved cells hold the remaining ones. */
  lemma {:induction false} StripCountsMines(cells: map<CellId, Cell>, nodes: seq<CellId>)
    requires FlagsCorrect(cells)
    requires forall k :: 0 <= k < |nodes| ==> nodes[k] in cells
    ensures MineCount(cells, KeepUnresolved(cells, nodes)) == MineCount(cells, nodes) - ResolvedMines(cells, nodes)
  {
    if |nodes| > 0 {
      StripCountsMines(cells, nodes[1..]);
      var n := nodes[0];
      var tail := KeepUnresolved(cells, nodes[1..]);
      if Unresolved(cells, n) {
        assert ([n] + tail)[1..] == tail;
      } else {
        assert [] + tail == tail;
      }
    }
  }

  /** Stripping keeps a true region true, provided every flag is on a mine. */
  lemma StripKeepsTruth(cells: map<CellId, Cell>, r: Region)
    requires FlagsCorrect(cells) && Truthful(cells, r)
    requires forall k :: 0 <= k < |r.nodes| ==> r.nodes[k] in cells
    ensures Truthful(cells, Strip(cells, r))
  {
    StripCountsMines(cells, r.nodes);
    var r' := Strip(cells, r);
    AdmitsShift(r.kind, r.value, MineCount(cells, r.nodes), r'.value, MineCount(cells, r'.nodes));
  }

  // ---------------------------------------------------------------------
  // Duplicate check

  /** The clause of isExistingRegion for one listed region `listed`. */
  predicate SameRegion(listed: Region, r: Region) {
    && listed.value == r.value
    && listed.kind == r.kind
    && |listed.nodes| == |r.nodes|
    && (forall n :: n in r.nodes ==> n in listed.nodes)
  }

  /** `list.findIndex(...) !== -1` */
  function InList(arena: seq<Region>, hs: seq<Handle>, r: Region): (b: bool)
    ensures b <==> exists k :: 0 <= k < |hs| && hs[k] < |arena| && SameRegion(arena[hs[k]], r)
  {
    if |hs| == 0 then false
    else (hs[0] < |arena| && SameRegion(arena[hs[0]], r)) || InList(arena, hs[1..], r)
  }

  /** isExistingRegion: some live or trashed region has the same value, the
      same kind, as many cells, and every cell of `r`. */
  function IsExistingRegion(e: Engine, r: Region): (b: bool)
    ensures b <==> exists h :: (h in e.live || h in e.trashed) && h < |e.arena| && SameRegion(e.arena[h], r)
  {
    InList(e.arena, e.live, r) || InList(e.arena, e.trashed, r)
  }

  // ---------------------------------------------------------------------
  // Back-references

  /** The number of times `x` occurs in `s`. */
  function Occurrences(s: seq<nat>, x: nat): nat {
    multiset(s)[x]
  }

  /** `n` copies of `x`. */
  function Repeat(x: nat, n: nat): (r: seq<nat>)
    ensures forall g :: multiset(r)[g] == if g == x then n else 0
  {
    if n == 0 then [] else [x] + Repeat(x, n - 1)
  }

  /** Pushes one back-reference to `h` onto each cell of `nodes`, once per
      occurrence.  Only references to `h` are pushed, so each cell simply
      gains as many of them as it occurs in `nodes`. */
  function AddRefs(cells: map<CellId, Cell>, nodes: seq<CellId>, h: Handle): (r: map<CellId, Cell>)
    ensures SameMarks(cells, r)
    ensures forall c, g :: c in cells ==>
      Occurrences(r[c].refs, g) == Occurrences(cells[c].refs, g) + (if g == h then Occurrences(nodes, c) else 0)
  {
    map c | c in cells :: cells[c].(refs := cells[c].refs + Repeat(h, Occurrences(nodes, c)))
  }

  /** Only the back-references differ between the two cell maps. */
  predicate SameMarks(cells: map<CellId, Cell>, cells': map<CellId, Cell>) {
    && cells'.Keys == cells.Keys
    && forall c :: c in cells ==> cells'[c] == cells[c].(refs := cells'[c].refs)
  }

  /** Takes out the first `n` back-references to `h`: removing the first
      one `n` times over, where a missing one is skipped, as trash_region
      does. */
  function RemoveCopies(refs: seq<Handle>, h: Handle, n: nat): seq<Handle>
    decreases |refs|
  {
    if |refs| == 0 then []
    else if refs[0] == h && n > 0 then RemoveCopies(refs[1..], h, n - 1)
    else [refs[0]] + RemoveCopies(refs[1..], h, n)
  }

  /** `n` removals take out `n` references to `h`, or all there are, and no
      other reference. */
  lemma {:induction false} RemoveCopiesCount(refs: seq<Handle>, h: Handle, n: nat, g: Handle)
    ensures Occurrences(RemoveCopies(refs, h, n), g)
      == if g != h then Occurrences(refs, g)
         else if n >= Occurrences(refs, h) then 0
         else Occurrences(refs, h) - n
    decreases |refs|
  {
    if |refs| > 0 {
      assert refs == [refs[0]] + refs[1..];
      var n' := if refs[0] == h && n > 0 then n - 1 else n;
      RemoveCopiesCount(refs[1..], h, n', g);
      if !(refs[0] == h && n > 0) {
        assert RemoveCopies(refs, h, n) == [refs[0]] + RemoveCopies(refs[1..], h, n);
      }
    }
  }

  /** The loop of trash_region: for each entry of `nodes`, the cell loses one
      back-reference to `h`.  Steps on different cells do not interact, so
      each cell loses one reference per occurrence of it in `nodes`. */
  function RemoveRefs(cells: map<CellId, Cell>, nodes: seq<CellId>, h: Handle): (r: map<CellId, Cell>)
    ensures SameMarks(cells, r)
  {
    map c | c in cells :: cells[c].(refs := RemoveCopies(cells[c].refs, h, Occurrences(nodes, c)))
  }

  /** After trashing, a cell holds one reference fewer to the region per
      occurrence of it in the region's cells (down to none), and keeps all
      its other references. */
  lemma RemoveRefsCounts(cells: map<CellId, Cell>, nodes: seq<CellId>, h: Handle, c: CellId, g: Handle)
    requires c in cells
    ensures Occurrences(RemoveRefs(cells, nodes, h)[c].refs, g)
      == if g != h then Occurrences(cells[c].refs, g)
         else if Occurrences(nodes, c) >= Occurrences(cells[c].refs, h) then 0
         else Occurrences(cells[c].refs, h) - Occurrences(nodes, c)
  {
    RemoveCopiesCount(cells[c].refs, h, Occurrences(nodes, c), g);
  }

  // ---------------------------------------------------------------------
  // Registration

  datatype Registered = Registered(accepted: bool, engine: Engine)

  /** registerRegion for the region at handle `h`.  A region that already
      carries an id was registered before and is accepted untouched;
      otherwise it gets the next id, is stripped of resolved cells, and is
      rejected when no cell remains, when its value went negative (which is
      reset to 0), or when an equal region is already live or trashed.  An
      accepted region becomes live, gets a drawing if it is visible, and
      every one of its cells gets a back-reference. */
  function RegisterRegion(e: Engine, h: Handle): (res: Registered)
    requires h < |e.arena| && CellsKnown(e, e.arena[h].nodes)
    ensures |res.engine.arena| == |e.arena|
    ensures e.arena[h].id.Some? ==> res.accepted && res.engine == e
    ensures e.arena[h].id.None? ==>
      var s := Strip(e.cells, e.arena[h]);
      && res.engine.nextId == e.nextId + 1
      && res.engine.arena[h].id == Some(e.nextId)
      && res.engine.arena[h].nodes == s.nodes
      && res.engine.arena[h].value == (if |s.nodes| > 0 && s.value < 0 then 0 else s.value)
      && (res.accepted <==> |s.nodes| > 0 && s.value >= 0 && !IsExistingRegion(e, s))
      && res.engine.live == (if res.accepted then e.live + [h] else e.live)
    ensures forall g :: 0 <= g < |e.arena| && g != h ==> res.engine.arena[g] == e.arena[g]
    ensures res.engine.queue == e.queue && res.engine.trashed == e.trashed && res.engine.hints == e.hints
    ensures SameMarks(e.cells, res.engine.cells)
    ensures !res.accepted ==> res.engine.cells == e.cells
  {
    var r := e.arena[h];
    if r.id.Some? then Registered(true, e)
    else
      var stripped := Strip(e.cells, r);
      var s := stripped.(id := Some(e.nextId));
      // An empty region is dropped, a negative one is set to zero and
      // dropped, and a duplicate is dropped; any other is accepted.
      var accepted := |s.nodes| > 0 && s.value >= 0 && !IsExistingRegion(e, stripped);
      var kept :=
        if accepted then s.(displayed := s.visible)
        else if |s.nodes| > 0 && s.value < 0 then s.(value := 0)
        else s;
      var e1 := e.(nextId := e.nextId + 1, arena := e.arena[h := kept]);
      if accepted then Registered(true, e1.(cells := AddRefs(e.cells, s.nodes, h), live := e.live + [h]))
      else Registered(false, e1)
  }

  /** An accepted registration leaves a clean region: no flagged or revealed
      cell and a non-negative value; each of its cells gained exactly one
      back-reference to it per occurrence. */
  lemma RegisteredRegionIsClean(e: Engine, h: Handle)
    requires h < |e.arena| && CellsKnown(e, e.arena[h].nodes) && e.arena[h].id.None?
    requires RegisterRegion(e, h).accepted
    ensures var e' := RegisterRegion(e, h).engine;
      && |e'.arena[h].nodes| > 0
      && e'.arena[h].value >= 0
      && (forall n :: n in e'.arena[h].nodes ==> Unresolved(e.cells, n))
      && (forall n :: n in e'.arena[h].nodes ==> h in e'.cells[n].refs)
  {
    var e' := RegisterRegion(e, h).engine;
    forall n | n in e'.arena[h].nodes ensures h in e'.cells[n].refs {
      assert Occurrences(e'.arena[h].nodes, n) > 0;
      assert Occurrences(e'.cells[n].refs, h) > 0;
    }
  }

  /** Registration keeps a true region true when every flag is on a mine. */
  lemma RegisterKeepsTruth(e: Engine, h: Handle)
    requires h < |e.arena| && CellsKnown(e, e.arena[h].nodes) && e.arena[h].id.None?
    requires FlagsCorrect(e.cells) && Truthful(e.cells, e.arena[h])
    requires RegisterRegion(e, h).accepted
    ensures var e' := RegisterRegion(e, h).engine; Truthful(e'.cells, e'.arena[h])
  {
    var e' := RegisterRegion(e, h).engine;
    StripKeepsTruth(e.cells, e.arena[h]);
    MineCountSameMines(e.cells, e'.cells, e'.arena[h].nodes);
  }

  /** Two unregistered regions with equal contents are never both accepted:
      once the first is live, the second is found to exist. */
  lemma RegisterTwiceOneCopy(e: Engine, h1: Handle, h2: Handle)
    requires h1 < |e.arena| && h2 < |e.arena| && h1 != h2
    requires CellsKnown(e, e.arena[h1].nodes)
    requires e.arena[h1].id.None? && e.arena[h2] == e.arena[h1]
    ensures var e1 := RegisterRegion(e, h1).engine;
      !(RegisterRegion(e, h1).accepted && RegisterRegion(e1, h2).accepted)
  {
    var e1 := RegisterRegion(e, h1).engine;
    if RegisterRegion(e, h1).accepted {
      assert CellsKnown(e1, e1.arena[h2].nodes);
      var s := Strip(e1.cells, e1.arena[h2]);
      StripSameMarks(e.cells, e1.cells, e.arena[h1].nodes);
      assert s.nodes == e1.arena[h1].nodes && s.value == e1.arena[h1].value;
      assert h1 in e1.live;
      assert SameRegion(e1.arena[h1], s);
      assert IsExistingRegion(e1, s);
    }
  }

  /** Stripping only looks at the flagged, revealed and mine marks. */
  lemma {:induction false} StripSameMarks(cells: map<CellId, Cell>, cells': map<CellId, Cell>, nodes: seq<CellId>)
    requires cells'.Keys == cells.Keys
    requires forall c :: c in cells ==>
      (cells'[c].hasMine == cells[c].hasMine && cells'[c].flagged == cells[c].flagged && cells'[c].revealed == cells[c].revealed)
    ensures KeepUnresolved(cells', nodes) == KeepUnresolved(cells, nodes)
    ensures ResolvedMines(cells', nodes) == ResolvedMines(cells, nodes)
  {
    if |nodes| > 0 {
      StripSameMarks(cells, cells', nodes[1..]);
    }
  }

  // ---------------------------------------------------------------------
  // Trash and hide

  /** trash_region: every cell of the region loses a back-reference to it,
      it leaves the live list (if it is there) and is appended to the
      trashed list.  Its drawing is taken off the board but stays attached,
      so `displayed` is unchanged. */
  function TrashRegion(e: Engine, h: Handle): (e': Engine)
    requires h < |e.arena|
    ensures e'.trashed == e.trashed + [h]
    ensures multiset(e'.live) == multiset(e.live) - multiset{h}
    ensures e'.arena == e.arena && e'.queue == e.queue && e'.hints == e.hints && e'.nextId == e.nextId
    ensures SameMarks(e.cells, e'.cells)
  {
    e.(cells := RemoveRefs(e.cells, e.arena[h].nodes, h), live := RemoveFirst(e.live, h), trashed := e.trashed + [h])
  }

  /** A trashed region is no longer live when the live list has no repeats. */
  lemma TrashLeavesLive(e: Engine, h: Handle)
    requires h < |e.arena| && Distinct(e.live)
    ensures Distinct(TrashRegion(e, h).live) && h !in TrashRegion(e, h).live
  {
    RemoveFirstOfDistinct(e.live, h);
  }

  datatype Hidden = Hidden(changed: bool, engine: Engine)

  /** hide_region: a live region with a drawing loses it and becomes
      invisible; anything else is left alone and reported unchanged.  Each
      cell of the region must hold a back-reference to it (visualizer.js writes
      to a property of the missing entry otherwise, which raises). */
  function HideRegion(e: Engine, h: Handle): (r: Result<Hidden>)
    requires h < |e.arena| && CellsKnown(e, e.arena[h].nodes)
    ensures r.Ok? && r.value.changed <==> h in e.live && e.arena[h].displayed && AllRefer(e, e.arena[h].nodes, h)
    ensures r.Ok? && !r.value.changed ==> r.value.engine == e
    ensures r.Ok? && r.value.changed ==> r.value.engine == e.(arena := e.arena[h := e.arena[h].(displayed := false, visible := false)])
    ensures r.Err? <==> h in e.live && e.arena[h].displayed && !AllRefer(e, e.arena[h].nodes, h)
  {
    var r := e.arena[h];
    if h !in e.live || !r.displayed then Ok(Hidden(false, e))
    else if !AllRefer(e, r.nodes, h) then Err("Cannot set properties of undefined (setting 'pos')")
    else Ok(Hidden(true, e.(arena := e.arena[h := r.(displayed := false, visible := false)])))
  }

  predicate AllRefer(e: Engine, nodes: seq<CellId>, h: Handle)
    requires CellsKnown(e, nodes)
  {
    forall k :: 0 <= k < |nodes| ==> h in e.cells[nodes[k]].refs
  }

  /** Hiding twice changes nothing the second time. */
  lemma HideIdempotent(e: Engine, h: Handle)
    requires h < |e.arena| && CellsKnown(e, e.arena[h].nodes)
    requires HideRegion(e, h).Ok?
    ensures var e' := HideRegion(e, h).value.engine;
      HideRegion(e', h) == Ok(Hidden(false, e'))
  {
  }

  // ---------------------------------------------------------------------
  // Resolving a cell

  /** The value change a resolved cell causes in the regions holding it:
      none for a revealed safe cell, minus one for anything else. */
  function Adjustment(c: Cell): int {
    if c.revealed && !c.hasMine then 0 else -1
  }

  /** The step of updateRegionsToRemove for a region that lost its last
      cell: it leaves the live list, which must hold it. */
  function DropEmpty(e: Engine, h: Handle): (r: Result<Engine>)
    requires h < |e.arena|
    ensures r.Err? <==> h !in e.live
    ensures r.Ok? ==> multiset(r.value.live) == multiset(e.live) - multiset{h}
    ensures r.Ok? ==> r.value.arena == e.arena[h := e.arena[h].(nodes := [])]
    ensures r.Ok? ==> r.value.cells == e.cells && r.value.queue == e.queue && r.value.trashed == e.trashed && r.value.hints == e.hints
  {
    match IndexOf(e.live, h)
    case None => Err("Empty region not in regions?")
    case Some(j) => Ok(e.(arena := e.arena[h := e.arena[h].(nodes := [])], live := RemoveAt(e.live, j)))
  }

  /** The step of updateRegionsToRemove for a region that keeps some cells:
      its value moves by `adj`; if that makes it negative it is trashed,
      otherwise it is queued again at its own priority. */
  function Shrink(e: Engine, h: Handle, nodes: seq<CellId>, adj: int): (e': Engine)
    requires h < |e.arena|
    ensures |e'.arena| == |e.arena|
    ensures e'.arena[h] == e.arena[h].(nodes := nodes, value := e.arena[h].value + adj)
    ensures forall g :: 0 <= g < |e.arena| && g != h ==> e'.arena[g] == e.arena[g]
    ensures SameMarks(e.cells, e'.cells) && e'.hints == e.hints
    ensures multiset(e'.live) <= multiset(e.live)
    ensures adj != 0 && e.arena[h].value + adj < 0 ==>
      e'.trashed == e.trashed + [h] && e'.queue == e.queue && multiset(e'.live) == multiset(e.live) - multiset{h}
    ensures !(adj != 0 && e.arena[h].value + adj < 0) ==>
      e'.live == e.live && e'.cells == e.cells && e'.queue == WorkQueue.Push(e.queue, e.arena[h].priority, RegionWork(h))
  {
    var reg := e.arena[h].(nodes := nodes, value := e.arena[h].value + adj);
    var e1 := e.(arena := e.arena[h := reg]);
    if adj != 0 && reg.value < 0 then TrashRegion(e1, h)
    else e1.(queue := WorkQueue.Push(e1.queue, reg.priority, RegionWork(h)))
  }

  /** One iteration of updateRegionsToRemove, for the region at `h`: it
      loses the first occurrence of `x` (which must be there), and is then
      dropped, trashed or queued again. */
  function ResolveIn(e: Engine, x: CellId, adj: int, h: Handle): (r: Result<Engine>)
    requires h < |e.arena|
    ensures r.Err? <==> x !in e.arena[h].nodes || (e.arena[h].nodes == [x] && h !in e.live)
    ensures r.Ok? ==> |r.value.arena| == |e.arena| && |r.value.arena[h].nodes| + 1 == |e.arena[h].nodes|
    ensures r.Ok? ==> r.value.hints == e.hints
  {
    var reg := e.arena[h];
    match IndexOf(reg.nodes, x)
    case None => Err("Node to remove not found?")
    case Some(i) =>
      var nodes := RemoveAt(reg.nodes, i);
      if |nodes| == 0 then
        assert reg.nodes == [x];
        DropEmpty(e, h)
      else
        Ok(Shrink(e, h, nodes, adj))
  }

  /** ResolveIn keeps the engine well formed, leaves every other region as
      it was, touches only back-references among the cells, and never adds
      a live region. */
  lemma ResolveInKeeps(e: Engine, x: CellId, adj: int, h: Handle)
    requires WellFormed(e) && h < |e.arena| && ResolveIn(e, x, adj, h).Ok?
    ensures var e' := ResolveIn(e, x, adj, h).value;
      && WellFormed(e')
      && SameMarks(e.cells, e'.cells)
      && multiset(e'.live) <= multiset(e.live)
      && (forall g :: 0 <= g < |e.arena| && g != h ==> e'.arena[g] == e.arena[g])
  {
    ResolveInWellFormed(e, x, adj, h);
    ResolveInCases(e, x, adj, h);
  }

  lemma ResolveInCases(e: Engine, x: CellId, adj: int, h: Handle)
    requires h < |e.arena| && ResolveIn(e, x, adj, h).Ok?
    ensures var nodes := RemoveAt(e.arena[h].nodes, IndexOf(e.arena[h].nodes, x).value);
      if |nodes| == 0 then DropEmpty(e, h).Ok? && ResolveIn(e, x, adj, h).value == DropEmpty(e, h).value
      else ResolveIn(e, x, adj, h).value == Shrink(e, h, nodes, adj)
  {
  }

  lemma ResolveInWellFormed(e: Engine, x: CellId, adj: int, h: Handle)
    requires WellFormed(e) && h < |e.arena| && ResolveIn(e, x, adj, h).Ok?
    ensures WellFormed(ResolveIn(e, x, adj, h).value)
  {
    var reg := e.arena[h];
    var nodes := RemoveAt(reg.nodes, IndexOf(reg.nodes, x).value);
    if |nodes| == 0 {
      DropEmptyWellFormed(e, h);
    } else {
      ShrinkWellFormed(e, h, nodes, adj);
    }
  }

  lemma DropEmptyWellFormed(e: Engine, h: Handle)
    requires WellFormed(e) && h < |e.arena| && DropEmpty(e, h).Ok?
    ensures WellFormed(DropEmpty(e, h).value)
  {
    ArenaUpdateWellFormed(e, DropEmpty(e, h).value, h);
  }

  lemma ShrinkWellFormed(e: Engine, h: Handle, nodes: seq<CellId>, adj: int)
    requires WellFormed(e) && h < |e.arena|
    requires multiset(nodes) <= multiset(e.arena[h].nodes)
    ensures WellFormed(Shrink(e, h, nodes, adj))
  {
    var reg := e.arena[h].(nodes := nodes, value := e.arena[h].value + adj);
    var e1 := e.(arena := e.arena[h := reg]);
    ReshapeWellFormed(e, h, nodes, adj);
    if adj != 0 && reg.value < 0 {
      TrashWellFormed(e1, h);
    } else {
      PushRegionWellFormed(e1, h, reg.priority);
    }
  }

  /** Giving a region a sub-multiset of its cells and a new value keeps the
      engine well formed. */
  lemma ReshapeWellFormed(e: Engine, h: Handle, nodes: seq<CellId>, adj: int)
    requires WellFormed(e) && h < |e.arena|
    requires multiset(nodes) <= multiset(e.arena[h].nodes)
    ensures WellFormed(e.(arena := e.arena[h := e.arena[h].(nodes := nodes, value := e.arena[h].value + adj)]))
  {
    var reg := e.arena[h];
    var e1 := e.(arena := e.arena[h := reg.(nodes := nodes, value := reg.value + adj)]);
    forall k | 0 <= k < |nodes| ensures nodes[k] in e.cells {
      assert nodes[k] in multiset(nodes);
      assert nodes[k] in reg.nodes;
    }
    assert CellsKnown(e1, e1.arena[h].nodes);
    WellFormedArenaGrows(e, e1);
  }

  lemma ArenaUpdateWellFormed(e: Engine, e': Engine, h: Handle)
    requires WellFormed(e) && h < |e.arena|
    requires e'.cells == e.cells && e'.hints == e.hints && e'.queue == e.queue && e'.trashed == e.trashed
    requires multiset(e'.live) <= multiset(e.live)
    requires |e'.arena| == |e.arena| && forall g :: 0 <= g < |e.arena| && g != h ==> e'.arena[g] == e.arena[g]
    requires forall k :: 0 <= k < |e'.arena[h].nodes| ==> e'.arena[h].nodes[k] in multiset(e.arena[h].nodes)
    ensures WellFormed(e')
  {
    forall g | 0 <= g < |e'.arena| ensures CellsKnown(e', e'.arena[g].nodes) {
      if g == h {
        forall k | 0 <= k < |e'.arena[h].nodes| ensures e'.arena[h].nodes[k] in e'.cells {
          var n := e'.arena[h].nodes[k];
          assert n in e.arena[h].nodes;
          var k' :| 0 <= k' < |e.arena[h].nodes| && e.arena[h].nodes[k'] == n;
        }
      }
    }
    forall k | 0 <= k < |e'.live| ensures e'.live[k] < |e'.arena| {
      assert e'.live[k] in multiset(e'.live);
      assert e'.live[k] in e.live;
    }
    forall k, w | 0 <= k < |e'.queue| && w in e'.queue[k].items ensures WorkOk(e', w) {
      assert WorkOk(e, w);
    }
  }

  lemma TrashWellFormed(e: Engine, h: Handle)
    requires WellFormed(e) && h < |e.arena|
    ensures WellFormed(TrashRegion(e, h))
  {
    var e' := TrashRegion(e, h);
    forall c | c in e'.cells ensures CellsKnown(e', e'.cells[c].edges) && HandlesOk(e', e'.cells[c].refs) {
      forall k | 0 <= k < |e'.cells[c].refs| ensures e'.cells[c].refs[k] < |e'.arena| {
        var g := e'.cells[c].refs[k];
        RemoveRefsCounts(e.cells, e.arena[h].nodes, h, c, g);
        assert g in multiset(e'.cells[c].refs);
        assert g in multiset(e.cells[c].refs);
      }
    }
    forall k | 0 <= k < |e'.live| ensures e'.live[k] < |e'.arena| {
      assert e'.live[k] in multiset(e'.live);
      assert e'.live[k] in e.live;
    }
    forall k, w | 0 <= k < |e'.queue| && w in e'.queue[k].items ensures WorkOk(e', w) {
      assert WorkOk(e, w);
    }
  }

  lemma PushRegionWellFormed(e: Engine, h: Handle, p: int)
    requires WellFormed(e) && h < |e.arena|
    ensures WellFormed(e.(queue := WorkQueue.Push(e.queue, p, RegionWork(h))))
  {
    var e' := e.(queue := WorkQueue.Push(e.queue, p, RegionWork(h)));
    forall k, w | 0 <= k < |e'.queue| && w in e'.queue[k].items ensures WorkOk(e', w) {
      PushedItems(e.queue, p, RegionWork(h), k, w);
      if w != RegionWork(h) {
        var k' :| 0 <= k' < |e.queue| && w in e.queue[k'].items;
        assert WorkOk(e, w);
      }
    }
  }

  /** Every item of a pushed queue is the new one or was already queued. */
  lemma {:induction false} PushedItems<T>(q: WorkQueue.Queue<T>, p: int, x: T, k: nat, w: T)
    requires k < |WorkQueue.Push(q, p, x)| && w in WorkQueue.Push(q, p, x)[k].items
    ensures w == x || exists k' :: 0 <= k' < |q| && w in q[k'].items
  {
    var r := WorkQueue.Push(q, p, x);
    if |q| == 0 {
    } else if q[0].priority == p {
      if k == 0 {
        if w != x { assert w in q[0].items; }
      } else {
        assert r[k] == q[k];
      }
    } else if q[0].priority < p && !WorkQueue.HasPriority(q, p) {
      if k > 0 { assert r[k] == q[k - 1]; }
    } else {
      if k == 0 {
        assert r[0] == q[0];
      } else {
        assert r[k] == WorkQueue.Push(q[1..], p, x)[k - 1];
        PushedItems(q[1..], p, x, k - 1, w);
        if w != x {
          var k' :| 0 <= k' < |q[1..]| && w in q[1..][k'].items;
          assert q[1..][k'] == q[k' + 1];
        }
      }
    }
  }

  /** Taking out references to `h` only ever shortens a list and adds no
      reference to it. */
  lemma {:induction false} RemoveCopiesShrinks(refs: seq<Handle>, h: Handle, n: nat)
    ensures |RemoveCopies(refs, h, n)| <= |refs|
    ensures forall g :: g in RemoveCopies(refs, h, n) ==> g in refs
    decreases |refs|
  {
    if |refs| > 0 {
      RemoveCopiesShrinks(refs[1..], h, if refs[0] == h && n > 0 then n - 1 else n);
    }
  }

  /** One iteration can only take back-references away from the resolved
      cell: trash_region may splice the cell's own list when the region
      still holds the cell. */
  lemma ResolveInRefs(e: Engine, x: CellId, adj: int, h: Handle)
    requires h < |e.arena| && x in e.cells && ResolveIn(e, x, adj, h).Ok?
    ensures var e' := ResolveIn(e, x, adj, h).value;
      && x in e'.cells
      && |e'.cells[x].refs| <= |e.cells[x].refs|
      && forall g :: g in e'.cells[x].refs ==> g in e.cells[x].refs
  {
    var reg := e.arena[h];
    var i := IndexOf(reg.nodes, x).value;
    var nodes := RemoveAt(reg.nodes, i);
    if |nodes| > 0 && adj != 0 && reg.value + adj < 0 {
      RemoveCopiesShrinks(e.cells[x].refs, h, Occurrences(nodes, x));
    }
  }

  /** The loop of updateRegionsToRemove, `for (const r of node.regions)`,
      from position `k` on.  It reads the cell's live list of
      back-references at every turn, as the array iterator does; when
      trash_region splices that list, the entries behind the splice move up
      one place and the next one is passed over. */
  function ResolveAll(e: Engine, x: CellId, adj: int, k: nat): (r: Result<Engine>)
    requires WellFormed(e) && x in e.cells
    ensures r.Ok? ==> WellFormed(r.value) && |r.value.arena| == |e.arena|
    ensures r.Ok? ==> SameMarks(e.cells, r.value.cells) && multiset(r.value.live) <= multiset(e.live)
    ensures r.Ok? ==> r.value.hints == e.hints
    decreases |e.cells[x].refs| - k
  {
    var refs := e.cells[x].refs;
    if k >= |refs| then Ok(e)
    else
      var e' :- ResolveIn(e, x, adj, refs[k]);
      ResolveInKeeps(e, x, adj, refs[k]);
      ResolveInRefs(e, x, adj, refs[k]);
      ResolveAll(e', x, adj, k + 1)
  }

  /** The loop changes only the regions the cell refers to. */
  lemma {:induction false} ResolveAllFrame(e: Engine, x: CellId, adj: int, k: nat, g: Handle)
    requires WellFormed(e) && x in e.cells
    requires ResolveAll(e, x, adj, k).Ok?
    requires g < |e.arena| && g !in e.cells[x].refs
    ensures ResolveAll(e, x, adj, k).value.arena[g] == e.arena[g]
    decreases |e.cells[x].refs| - k
  {
    var refs := e.cells[x].refs;
    if k < |refs| {
      ResolveInKeeps(e, x, adj, refs[k]);
      ResolveInRefs(e, x, adj, refs[k]);
      ResolveAllFrame(ResolveIn(e, x, adj, refs[k]).value, x, adj, k + 1, g);
    }
  }

  /** Regions the cell does not refer to are left alone. */
  lemma UpdateFrame(e: Engine, x: CellId, g: Handle)
    requires WellFormed(e) && x in e.cells && UpdateRegionsToRemove(e, x).Ok?
    requires g < |e.arena| && g !in e.cells[x].refs
    ensures UpdateRegionsToRemove(e, x).value.arena[g] == e.arena[g]
  {
    ResolveAllFrame(e, x, Adjustment(e.cells[x]), 0, g);
  }

  /** updateRegionsToRemove: every region the cell refers to loses the cell
      and is dropped, trashed or re-queued; the cell's back-references are
      cleared afterwards. */
  function UpdateRegionsToRemove(e: Engine, x: CellId): (r: Result<Engine>)
    requires WellFormed(e) && x in e.cells
    ensures r.Ok? ==> WellFormed(r.value) && x in r.value.cells && r.value.cells[x].refs == []
    ensures r.Ok? ==> SameMarks(e.cells, r.value.cells) && |r.value.arena| == |e.arena|
    ensures r.Ok? ==> multiset(r.value.live) <= multiset(e.live) && r.value.hints == e.hints
  {
    var cell := e.cells[x];
    var e' :- ResolveAll(e, x, Adjustment(cell), 0);
    var e'' := e'.(cells := e'.cells[x := e'.cells[x].(refs := [])]);
    ClearRefsWellFormed(e', x);
    Ok(e'')
  }

  /** A cell listed twice by one region, with the region's value 0 and the
      cell a flagged mine.  The first turn takes one copy out and the value
      goes negative, so the region is trashed, and trash_region takes the
      cell's first reference to it out of the list being walked.  The second
      reference moves up to the place already visited and is passed over,
      so nothing throws. */
  function DoubleListed(): Engine {
    Engine(
      map[0 := Cell([], true, false, false, true, 0, 0, [0, 0])],
      [],
      [Region(Some(0), 0, Exact, [0, 0], false, false, 3)],
      [0], [], 1, [])
  }

  /** After the first turn: the region keeps one copy, its value is -1, it
      is trashed, and the cell keeps one reference. */
  function DoubleListedAfterFirst(): Engine {
    Engine(
      map[0 := Cell([], true, false, false, true, 0, 0, [0])],
      [],
      [Region(Some(0), -1, Exact, [0], false, false, 3)],
      [], [0], 1, [])
  }

  /** The region with one copy gone and its value moved by -1. */
  function DoubleListedShrunk(): Engine {
    DoubleListed().(arena := [Region(Some(0), -1, Exact, [0], false, false, 3)])
  }

  lemma DoubleListedTakesOneCopy()
    ensures ResolveIn(DoubleListed(), 0, -1, 0) == Ok(TrashRegion(DoubleListedShrunk(), 0))
  {
    var e := DoubleListed();
    assert IndexOf(e.arena[0].nodes, 0) == Some(0);
    assert RemoveAt(e.arena[0].nodes, 0) == [0];
    assert e.arena[0 := e.arena[0].(nodes := [0], value := -1)] == DoubleListedShrunk().arena;
  }

  lemma DoubleListedTrashed()
    ensures TrashRegion(DoubleListedShrunk(), 0) == DoubleListedAfterFirst()
  {
    var e1 := DoubleListedShrunk();
    var after := DoubleListedAfterFirst();
    assert Occurrences([0], 0) == 1;
    assert RemoveCopies([0, 0], 0, 1) == [0];
    var cells := RemoveRefs(e1.cells, [0], 0);
    assert cells.Keys == {0};
    assert cells[0] == after.cells[0];
    assert cells == after.cells;
    assert IndexOf(e1.live, 0) == Some(0);
    assert RemoveFirst(e1.live, 0) == [];
  }

  lemma DoubleListedFirstTurn()
    ensures ResolveIn(DoubleListed(), 0, -1, 0) == Ok(DoubleListedAfterFirst())
  {
    DoubleListedTakesOneCopy();
    DoubleListedTrashed();
  }

  lemma DoubleListedWellFormed()
    ensures WellFormed(DoubleListed()) && WellFormed(DoubleListedAfterFirst())
  {
  }

  lemma DoubleListedLoop()
    ensures WellFormed(DoubleListed())
    ensures ResolveAll(DoubleListed(), 0, -1, 0) == Ok(DoubleListedAfterFirst())
  {
    DoubleListedWellFormed();
    DoubleListedFirstTurn();
    var e1 := DoubleListedAfterFirst();
    assert ResolveAll(e1, 0, -1, 1) == Ok(e1);
  }

  lemma DoubleListedPassedOver()
    ensures WellFormed(DoubleListed())
    ensures UpdateRegionsToRemove(DoubleListed(), 0).Ok?
    ensures var e' := UpdateRegionsToRemove(DoubleListed(), 0).value;
      e'.live == [] && e'.trashed == [0] && e'.arena[0].nodes == [0] && e'.arena[0].value == -1
  {
    assert Adjustment(DoubleListed().cells[0]) == -1;
    DoubleListedLoop();
  }

  lemma ClearRefsWellFormed(e: Engine, x: CellId)
    requires WellFormed(e) && x in e.cells
    ensures WellFormed(e.(cells := e.cells[x := e.cells[x].(refs := [])]))
  {
    var e' := e.(cells := e.cells[x := e.cells[x].(refs := [])]);
    forall k, w | 0 <= k < |e'.queue| && w in e'.queue[k].items ensures WorkOk(e', w) {
      assert WorkOk(e, w);
    }
  }

  // ---------------------------------------------------------------------
  // Resolving keeps the live regions true

  /** Truth only depends on where the mines are. */
  lemma TruthfulSameMines(cells: map<CellId, Cell>, cells': map<CellId, Cell>, r: Region)
    requires SameMarks(cells, cells')
    ensures Truthful(cells', r) == Truthful(cells, r)
  {
    MineCountSameMines(cells, cells', r.nodes);
  }

  /** All live regions tell the truth, and none is listed twice. */
  predicate LiveTruthful(e: Engine) {
    && Distinct(e.live)
    && forall k :: 0 <= k < |e.live| ==> e.live[k] < |e.arena| && Truthful(e.cells, e.arena[e.live[k]])
  }

  /** The cell is resolved and `adj` takes out exactly the mine it holds. */
  predicate ResolvedWith(cells: map<CellId, Cell>, x: CellId, adj: int) {
    x in cells && (cells[x].revealed || cells[x].flagged)
    && adj == (if cells[x].hasMine then -1 else 0)
  }

  /** A step that only drops live entries, changes only the region at `h`
      and only back-references among the cells keeps the live regions
      true, provided `h` is true afterwards if it is still live. */
  lemma LiveTruthfulAfter(e: Engine, e': Engine, h: Handle)
    requires LiveTruthful(e) && SameMarks(e.cells, e'.cells)
    requires multiset(e'.live) <= multiset(e.live)
    requires |e'.arena| == |e.arena| && forall g :: 0 <= g < |e.arena| && g != h ==> e'.arena[g] == e.arena[g]
    requires h in e'.live ==> h < |e'.arena| && Truthful(e.cells, e'.arena[h])
    ensures LiveTruthful(e')
  {
    DistinctShrinks(e.live, e'.live);
    forall k | 0 <= k < |e'.live| ensures e'.live[k] < |e'.arena| && Truthful(e'.cells, e'.arena[e'.live[k]]) {
      var g := e'.live[k];
      assert g in multiset(e'.live);
      assert g in e.live;
      var k' :| 0 <= k' < |e.live| && e.live[k'] == g;
      TruthfulSameMines(e.cells, e'.cells, e'.arena[g]);
    }
  }

  /** Taking a resolved cell out of a true region and moving its value by
      the cell's mine leaves it true. */
  lemma RemoveResolvedKeepsTruth(cells: map<CellId, Cell>, reg: Region, i: nat, adj: int)
    requires i < |reg.nodes| && Truthful(cells, reg) && ResolvedWith(cells, reg.nodes[i], adj)
    ensures Truthful(cells, reg.(nodes := RemoveAt(reg.nodes, i), value := reg.value + adj))
  {
    var n := MineCount(cells, reg.nodes);
    MineCountRemoveAt(cells, reg.nodes, i);
    AdmitsShift(reg.kind, reg.value, n, reg.value + adj, MineCount(cells, RemoveAt(reg.nodes, i)));
  }

  /** Taking one copy of `h` out of a list that held it once leaves no
      copy behind. */
  lemma TakenOut(live: seq<Handle>, live': seq<Handle>, h: Handle)
    requires Distinct(live) && multiset(live') == multiset(live) - multiset{h}
    ensures h !in live'
  {
    DistinctCount(live, h);
    assert multiset(live')[h] == 0;
  }

  lemma DropEmptyGone(e: Engine, h: Handle)
    requires Distinct(e.live) && h < |e.arena| && DropEmpty(e, h).Ok?
    ensures h !in DropEmpty(e, h).value.live
  {
    TakenOut(e.live, DropEmpty(e, h).value.live, h);
  }

  /** A shrunk region that stays live is still true, once the value has
      moved by the mine of the cell taken out. */
  lemma ShrinkHeadTruth(e: Engine, h: Handle, i: nat, adj: int)
    requires LiveTruthful(e) && h < |e.arena| && i < |e.arena[h].nodes|
    requires ResolvedWith(e.cells, e.arena[h].nodes[i], adj)
    ensures var e' := Shrink(e, h, RemoveAt(e.arena[h].nodes, i), adj);
      h in e'.live ==> Truthful(e.cells, e'.arena[h])
  {
    var reg := e.arena[h];
    var e' := Shrink(e, h, RemoveAt(reg.nodes, i), adj);
    if adj != 0 && reg.value + adj < 0 {
      TakenOut(e.live, e'.live, h);
    } else if h in e.live {
      var k :| 0 <= k < |e.live| && e.live[k] == h;
      RemoveResolvedKeepsTruth(e.cells, reg, i, adj);
    }
  }

  /** After ResolveIn, the region at `h` is true if it is still live. */
  lemma ResolveInHeadTruth(e: Engine, x: CellId, adj: int, h: Handle)
    requires WellFormed(e) && h < |e.arena| && ResolveIn(e, x, adj, h).Ok?
    requires LiveTruthful(e) && ResolvedWith(e.cells, x, adj)
    ensures var e' := ResolveIn(e, x, adj, h).value;
      h in e'.live ==> Truthful(e.cells, e'.arena[h])
  {
    var i := IndexOf(e.arena[h].nodes, x).value;
    if |RemoveAt(e.arena[h].nodes, i)| == 0 {
      DropEmptyGone(e, h);
    } else {
      ShrinkHeadTruth(e, h, i, adj);
    }
  }

  /** Once `x` is resolved, taking it out of one region and moving the
      value by its mine keeps every live region true: the shrunk region
      counts one mine fewer exactly when `x` held one, and a region
      emptied or trashed is no longer live. */
  lemma ResolveInKeepsTruth(e: Engine, x: CellId, adj: int, h: Handle)
    requires WellFormed(e) && h < |e.arena| && ResolveIn(e, x, adj, h).Ok?
    requires LiveTruthful(e) && ResolvedWith(e.cells, x, adj)
    ensures LiveTruthful(ResolveIn(e, x, adj, h).value)
  {
    ResolveInKeeps(e, x, adj, h);
    ResolveInHeadTruth(e, x, adj, h);
    LiveTruthfulAfter(e, ResolveIn(e, x, adj, h).value, h);
  }

  lemma {:induction false} ResolveAllKeepsTruth(e: Engine, x: CellId, adj: int, k: nat)
    requires WellFormed(e) && x in e.cells
    requires LiveTruthful(e) && ResolvedWith(e.cells, x, adj)
    requires ResolveAll(e, x, adj, k).Ok?
    ensures LiveTruthful(ResolveAll(e, x, adj, k).value)
    decreases |e.cells[x].refs| - k
  {
    var refs := e.cells[x].refs;
    if k < |refs| {
      var e' := ResolveIn(e, x, adj, refs[k]).value;
      ResolveInKeeps(e, x, adj, refs[k]);
      ResolveInKeepsTruth(e, x, adj, refs[k]);
      ResolveInRefs(e, x, adj, refs[k]);
      assert ResolvedWith(e'.cells, x, adj);
      ResolveAllKeepsTruth(e', x, adj, k + 1);
    }
  }

  /** Resolving a cell (revealing it, or flagging it when every flag is on a
      mine) keeps every live region true. */
  lemma UpdateKeepsTruth(e: Engine, x: CellId)
    requires WellFormed(e) && x in e.cells && FlagsCorrect(e.cells)
    requires e.cells[x].revealed || e.cells[x].flagged
    requires LiveTruthful(e)
    requires UpdateRegionsToRemove(e, x).Ok?
    ensures LiveTruthful(UpdateRegionsToRemove(e, x).value)
  {
    var cell := e.cells[x];
    ResolveAllKeepsTruth(e, x, Adjustment(cell), 0);
    var e' := ResolveAll(e, x, Adjustment(cell), 0).value;
    var e'' := UpdateRegionsToRemove(e, x).value;
    forall k | 0 <= k < |e''.live| ensures Truthful(e''.cells, e''.arena[e''.live[k]]) {
      TruthfulSameMines(e'.cells, e''.cells, e'.arena[e''.live[k]]);
    }
  }
}

=== FILE: rule_apply.dfy ===
/** The second half of applyRegionRules: the proposals the search found are
    filtered by their square counts, and every proposal that passes
    produces what the rule applies -- a queued visibility change, a queued
    mark, or a new derived region.  The rules are applied one after another
    to the engine the previous one left. */
module RuleApply {
  import opened Wrappers
  import opened SeqUtil
  import opened Kinds
  import opened Slots
  import opened Assignments
  import opened EngineState
  import opened RegionStore
  import opened CellActions
  import WorkQueue
  import opened RuleTable
  import opened RuleSearch
  import opened SquareCounts

  // ---------------------------------------------------------------------
  // Selecting by bitmap

  /** `bitmap & (1 << i)` is non-zero.  Both operands of `&` are taken to
      32 bits, and the shift count modulo 32. */
  predicate Selected(bitmap: int, i: nat) {
    Bit(ToInt32(bitmap), i % 32)
  }

  /** The matched regions a visibility rule changes: those whose position
      the bitmap selects, in order. */
  function PickRegions(regions: seq<Handle>, bitmap: int): (r: seq<Handle>)
    ensures |r| <= |regions|
    ensures forall g :: g in r <==> exists i :: 0 <= i < |regions| && Selected(bitmap, i) && regions[i] == g
  {
    if |regions| == 0 then []
    else
      var init := regions[..|regions| - 1];
      assert forall i :: 0 <= i < |init| ==> init[i] == regions[i];
      PickRegions(init, bitmap) + (if Selected(bitmap, |regions| - 1) then [regions[|regions| - 1]] else [])
  }

  /** The cells a rule applies to: the buckets whose position the bitmap
      selects, concatenated in order. */
  function PickNodes(buckets: seq<seq<CellId>>, bitmap: int): (r: seq<CellId>)
    ensures forall n :: n in r <==> exists i :: 0 <= i < |buckets| && Selected(bitmap, i) && n in buckets[i]
  {
    if |buckets| == 0 then []
    else
      var init := buckets[..|buckets| - 1];
      assert forall i :: 0 <= i < |init| ==> init[i] == buckets[i];
      PickNodes(init, bitmap) + (if Selected(bitmap, |buckets| - 1) then buckets[|buckets| - 1] else [])
  }

  /** Buckets that are duplicate-free and pairwise disjoint give a cell
      list that names every cell once. */
  lemma {:induction false} PickNodesDistinct(buckets: seq<seq<CellId>>, bitmap: int)
    requires forall i :: 0 <= i < |buckets| ==> Distinct(buckets[i])
    requires forall i, j, n :: 0 <= i < j < |buckets| && n in buckets[i] ==> n !in buckets[j]
    ensures Distinct(PickNodes(buckets, bitmap))
  {
    if |buckets| > 0 {
      var init := buckets[..|buckets| - 1];
      var last := buckets[|buckets| - 1];
      assert forall i :: 0 <= i < |init| ==> init[i] == buckets[i];
      PickNodesDistinct(init, bitmap);
      var front := PickNodes(init, bitmap);
      var back := if Selected(bitmap, |buckets| - 1) then last else [];
      forall n | n in front ensures n !in back {
        var i :| 0 <= i < |init| && Selected(bitmap, i) && n in init[i];
      }
      AppendDistinct(front, back);
    }
  }

  // ---------------------------------------------------------------------
  // Filtering the proposals

  predicate RegionsIn(arena: seq<Region>, regions: seq<Handle>) {
    forall k :: 0 <= k < |regions| ==> regions[k] < |arena|
  }

  /** The square-count check of one proposal.  With `asWritten` the
      variable fixing pass runs under the condition visualizer.js has,
      which never holds while a square-count variable is unbound; without
      it the pass runs whenever one is (see Findings). */
  function Checked(rule: Rule, arena: seq<Region>, p: Proposal, asWritten: bool): (r: Result<Option<Accepted>>)
    requires RegionsIn(arena, p.regions)
    ensures r.Ok? && r.value.Some? ==>
      var a := r.value.value;
      && a.regions == p.regions
      && |a.buckets| == |rule.squareCounts|
      && forall k :: 0 <= k < |rule.squareCounts| ==> CountHolds(rule.squareCounts[k], |a.buckets[k]|, a.vars)
  {
    CheckProposal(rule, arena, p.regions, p.possibleVars, asWritten)
  }

  /** The `filter` over the proposals: it raises as soon as one check
      raises, and otherwise keeps exactly the proposals that pass. */
  function FilterProposals(rule: Rule, arena: seq<Region>, props: seq<Proposal>, asWritten: bool): (r: Result<seq<Accepted>>)
    requires forall p :: p in props ==> RegionsIn(arena, p.regions)
    ensures r.Ok? <==> forall p :: p in props ==> Checked(rule, arena, p, asWritten).Ok?
    ensures r.Ok? ==> forall a :: a in r.value <==> exists p :: p in props && Checked(rule, arena, p, asWritten) == Ok(Some(a))
  {
    if |props| == 0 then Ok([])
    else
      var p := props[0];
      assert forall q :: q in props <==> q == p || q in props[1..];
      var c :- Checked(rule, arena, p, asWritten);
      var rest :- FilterProposals(rule, arena, props[1..], asWritten);
      Ok((if c.Some? then [c.value] else []) + rest)
  }

  /** What a passing proposal gives the application step: regions of the
      arena, one bucket per square count, and buckets of known cells. */
  predicate AcceptedOk(e: Engine, rule: Rule, a: Accepted) {
    && HandlesOk(e, a.regions)
    && |a.buckets| == |rule.squareCounts|
    && forall m :: 0 <= m < |a.buckets| ==> CellsKnown(e, a.buckets[m])
  }

  /** The buckets of a passing proposal hold only cells of its regions, so
      they name known cells. */
  lemma CheckedAcceptedOk(e: Engine, rule: Rule, p: Proposal, asWritten: bool)
    requires WellFormed(e) && RegionsIn(e.arena, p.regions)
    requires Checked(rule, e.arena, p, asWritten).Ok? && Checked(rule, e.arena, p, asWritten).value.Some?
    ensures AcceptedOk(e, rule, Checked(rule, e.arena, p, asWritten).value.value)
  {
    var a := Checked(rule, e.arena, p, asWritten).value.value;
    var count := |rule.squareCounts|;
    forall m, k | 0 <= m < |a.buckets| && 0 <= k < |a.buckets[m]| ensures a.buckets[m][k] in e.cells {
      var n := a.buckets[m][k];
      BucketMembers(e.arena, p.regions, count, m, n);
      var i :| 0 <= i < |p.regions| && n in e.arena[p.regions[i]].nodes;
      var nodes := e.arena[p.regions[i]].nodes;
      var j :| 0 <= j < |nodes| && nodes[j] == n;
      assert CellsKnown(e, nodes);
    }
  }

  /** The buckets of a passing proposal are duplicate-free and pairwise
      disjoint, so the cells a rule applies to are named once each. */
  lemma AppliedNodesDistinct(e: Engine, rule: Rule, p: Proposal, asWritten: bool)
    requires RegionsIn(e.arena, p.regions)
    requires Checked(rule, e.arena, p, asWritten).Ok? && Checked(rule, e.arena, p, asWritten).value.Some?
    ensures Distinct(PickNodes(Checked(rule, e.arena, p, asWritten).value.value.buckets, rule.applyBitmap))
  {
    var a := Checked(rule, e.arena, p, asWritten).value.value;
    var count := |rule.squareCounts|;
    forall i | 0 <= i < |a.buckets| ensures Distinct(a.buckets[i]) {
      BucketMembers(e.arena, p.regions, count, i, 0);
    }
    forall i, j, n | 0 <= i < j < |a.buckets| && n in a.buckets[i] ensures n !in a.buckets[j] {
      BucketMembers(e.arena, p.regions, count, i, n);
      BucketMembers(e.arena, p.regions, count, j, n);
    }
    PickNodesDistinct(a.buckets, rule.applyBitmap);
  }

  // ---------------------------------------------------------------------
  // Applying one proposal

  /** What applying a rule leaves alone: the cells, the hints, the live and
      trashed lists and the id counter; the arena only grows. */
  predicate Grown(e: Engine, e': Engine) {
    && e'.cells == e.cells && e'.hints == e.hints && e'.live == e.live && e'.trashed == e.trashed
    && e'.nextId == e.nextId
    && |e'.arena| >= |e.arena| && e'.arena[..|e.arena|] == e.arena
  }

  lemma GrownTrans(e: Engine, e1: Engine, e2: Engine)
    requires Grown(e, e1) && Grown(e1, e2)
    ensures Grown(e, e2)
  {
    assert e2.arena[..|e.arena|] == e2.arena[..|e1.arena|][..|e.arena|];
  }

  /** A queued mark is right: a reveal names only safe cells, a flag only
      mines. */
  predicate MarkRight(cells: map<CellId, Cell>, w: Work) {
    w.MarkWork? ==> forall j :: 0 <= j < |w.cells| ==> w.cells[j] in cells && cells[w.cells[j]].hasMine == !w.uncover
  }

  /** Every mark waiting in the queue is right. */
  predicate MarksTruthful(e: Engine) {
    forall k, w :: 0 <= k < |e.queue| && w in e.queue[k].items ==> MarkRight(e.cells, w)
  }

  /** Some cell of `nodes` holds a mine (or, for `mine` false, none): the
      `find` of the mark checks. */
  predicate AnyWithMine(cells: map<CellId, Cell>, nodes: seq<CellId>, mine: bool) {
    exists k :: 0 <= k < |nodes| && nodes[k] in cells && cells[nodes[k]].hasMine == mine
  }

  /** Some variable of the pattern has no value: the proposal has no
      bindings at all, or none for that variable. */
  predicate MissingBinding(slot: Slot, vars: Option<Assignment>) {
    exists x :: x in slot.vars && (vars.None? || x !in vars.value)
  }

  lemma PushWellFormed(e: Engine, p: int, w: Work)
    requires WellFormed(e) && WorkOk(e, w)
    ensures WellFormed(e.(queue := WorkQueue.Push(e.queue, p, w)))
  {
    var e' := e.(queue := WorkQueue.Push(e.queue, p, w));
    forall k, x | 0 <= k < |e'.queue| && x in e'.queue[k].items ensures WorkOk(e', x) {
      PushedItems(e.queue, p, w, k, x);
      if x != w {
        var k' :| 0 <= k' < |e.queue| && x in e.queue[k'].items;
        assert WorkOk(e, x);
      }
    }
  }

  lemma PushKeepsMarks(e: Engine, p: int, w: Work)
    requires MarksTruthful(e) && MarkRight(e.cells, w)
    ensures MarksTruthful(e.(queue := WorkQueue.Push(e.queue, p, w)))
  {
    var q := WorkQueue.Push(e.queue, p, w);
    forall k, x | 0 <= k < |q| && x in q[k].items ensures MarkRight(e.cells, x) {
      PushedItems(e.queue, p, w, k, x);
    }
  }

  /** Queuing an item that names known cells and regions, and is right if
      it is a mark, keeps what applying a rule must keep. */
  lemma PushKeeps(e: Engine, p: int, w: Work)
    requires WellFormed(e) && WorkOk(e, w) && MarkRight(e.cells, w)
    ensures var e' := e.(queue := WorkQueue.Push(e.queue, p, w));
      && WellFormed(e') && Grown(e, e')
      && (MarksTruthful(e) ==> MarksTruthful(e'))
      && (WorkQueue.Valid(e.queue) ==> WorkQueue.Valid(e'.queue))
  {
    PushWellFormed(e, p, w);
    assert e.(queue := WorkQueue.Push(e.queue, p, w)).arena[..|e.arena|] == e.arena;
    if MarksTruthful(e) { PushKeepsMarks(e, p, w); }
    if WorkQueue.Valid(e.queue) { WorkQueue.PushKeepsValid(e.queue, p, w); }
  }

  lemma AddRegionKeeps(e: Engine, g: Region)
    requires WellFormed(e) && CellsKnown(e, g.nodes)
    ensures WellFormed(AddRegion(e, g)) && Grown(e, AddRegion(e, g))
    ensures MarksTruthful(e) ==> MarksTruthful(AddRegion(e, g))
    ensures WorkQueue.Valid(e.queue) ==> WorkQueue.Valid(AddRegion(e, g).queue)
  {
    AddRegionWellFormed(e, g);
    if WorkQueue.Valid(e.queue) { WorkQueue.PushKeepsValid(e.queue, g.priority, RegionWork(|e.arena|)); }
    assert AddRegion(e, g).arena[..|e.arena|] == e.arena;
    if MarksTruthful(e) {
      PushKeepsMarks(e.(arena := e.arena + [g]), g.priority, RegionWork(|e.arena|));
    }
  }

  lemma PickRegionsKnown(e: Engine, regions: seq<Handle>, bitmap: int)
    requires HandlesOk(e, regions)
    ensures HandlesOk(e, PickRegions(regions, bitmap))
  {
    var picked := PickRegions(regions, bitmap);
    forall k | 0 <= k < |picked| ensures picked[k] < |e.arena| {
      assert picked[k] in picked;
      var i :| 0 <= i < |regions| && Selected(bitmap, i) && regions[i] == picked[k];
    }
  }

  lemma GrownKeepsAccepted(e: Engine, e': Engine, rule: Rule, a: Accepted)
    requires Grown(e, e') && AcceptedOk(e, rule, a)
    ensures AcceptedOk(e', rule, a)
  {
    forall m | 0 <= m < |a.buckets| ensures CellsKnown(e', a.buckets[m]) {
      assert CellsKnown(e, a.buckets[m]);
    }
  }

  /** A pattern's value is a number exactly when none of its variables
      misses a binding. */
  lemma PatternValueBound(slot: Slot, vars: Option<Assignment>)
    ensures PatternValue(slot, vars).Ok? && PatternValue(slot, vars).value.Some? <==> !MissingBinding(slot, vars)
  {
    if PatternValue(slot, vars).Err? {
      assert slot.vars[0] in slot.vars;
    }
  }

  lemma PickNodesKnown(e: Engine, rule: Rule, a: Accepted)
    requires AcceptedOk(e, rule, a)
    ensures CellsKnown(e, PickNodes(a.buckets, rule.applyBitmap))
  {
    var nodes := PickNodes(a.buckets, rule.applyBitmap);
    forall k | 0 <= k < |nodes| ensures nodes[k] in e.cells {
      assert nodes[k] in nodes;
      var i :| 0 <= i < |a.buckets| && Selected(rule.applyBitmap, i) && nodes[k] in a.buckets[i];
      var j :| 0 <= j < |a.buckets[i]| && a.buckets[i][j] == nodes[k];
    }
  }

  /** The region a rule derives from a proposal, once its value is known. */
  function Derived(rule: Rule, a: Accepted, value: int): Region {
    NewRegion(value, rule.apply.kind, PickNodes(a.buckets, rule.applyBitmap), true, rule.priority)
  }

  /** The body of the application loop for one passing proposal.  A
      visibility rule queues the change of the selected regions even when
      none is selected; the other rules do nothing when the selected
      buckets are empty.  A mark rule checks the cells against the mines
      and queues the mark; a constraint rule builds the derived region and
      queues it unless an equal region is live or trashed.  A derived value
      that would be NaN in visualizer.js is an error here. */
  function ApplyProposal(e: Engine, rule: Rule, a: Accepted): (r: Result<Engine>)
    requires WellFormed(e) && AcceptedOk(e, rule, a)
    ensures r.Ok? ==> WellFormed(r.value) && Grown(e, r.value)
    ensures r.Ok? && MarksTruthful(e) ==> MarksTruthful(r.value)
    ensures r.Ok? && WorkQueue.Valid(e.queue) ==> WorkQueue.Valid(r.value.queue)
    ensures var nodes := PickNodes(a.buckets, rule.applyBitmap);
      r.Err? <==>
        !rule.apply.kind.ChangeVisibility? && |nodes| > 0 &&
        (if rule.apply.kind.MarkCell?
         then AnyWithMine(e.cells, nodes, rule.apply.value == 0)
         else MissingBinding(rule.apply, a.vars))
  {
    var kind := rule.apply.kind;
    if kind == ChangeVisibility then (
      var w := VisibilityWork(rule.apply.value == 1, PickRegions(a.regions, rule.applyBitmap));
      PickRegionsKnown(e, a.regions, rule.applyBitmap);
      PushKeeps(e, ActionPriority, w);
      Ok(e.(queue := WorkQueue.Push(e.queue, ActionPriority, w))))
    else
      var nodes := PickNodes(a.buckets, rule.applyBitmap);
      PickNodesKnown(e, rule, a);
      assert e.arena[..|e.arena|] == e.arena;
      if |nodes| == 0 then Ok(e)
      else if kind == MarkCell then (
        var uncover := rule.apply.value == 0;
        if AnyWithMine(e.cells, nodes, uncover) then
          Err(if uncover then "Reveal request for node with mine." else "Flag request for node without mine.")
        else
          var w := MarkWork(uncover, nodes);
          PushKeeps(e, ActionPriority, w);
          Ok(e.(queue := WorkQueue.Push(e.queue, ActionPriority, w))))
      else
        var v := PatternValue(rule.apply, a.vars);
        PatternValueBound(rule.apply, a.vars);
        if v.Err? then Err(v.msg)
        else if v.value.None? then Err("Derived region value is NaN")
        else
          var g := Derived(rule, a, v.value.value);
          AddRegionKeeps(e, g);
          if IsExistingRegion(e, g) then Ok(e) else Ok(AddRegion(e, g))
  }

  /** An action rule adds its one item to the back of the action queue
      (a mark only when it selects some cell) and touches nothing else. */
  lemma ActionQueued(e: Engine, rule: Rule, a: Accepted, p: int)
    requires WellFormed(e) && AcceptedOk(e, rule, a) && WorkQueue.Valid(e.queue)
    requires IsAction(rule.apply.kind) && ApplyProposal(e, rule, a).Ok?
    ensures var e' := ApplyProposal(e, rule, a).value;
      var nodes := PickNodes(a.buckets, rule.applyBitmap);
      var added :=
        if rule.apply.kind.ChangeVisibility? then [VisibilityWork(rule.apply.value == 1, PickRegions(a.regions, rule.applyBitmap))]
        else if |nodes| == 0 then []
        else [MarkWork(rule.apply.value == 0, nodes)];
      && e'.arena == e.arena
      && WorkQueue.ItemsAt(e'.queue, p) == WorkQueue.ItemsAt(e.queue, p) + (if p == ActionPriority then added else [])
  {
    var nodes := PickNodes(a.buckets, rule.applyBitmap);
    if rule.apply.kind.ChangeVisibility? {
      WorkQueue.PushFifo(e.queue, ActionPriority, VisibilityWork(rule.apply.value == 1, PickRegions(a.regions, rule.applyBitmap)), p);
    } else if |nodes| > 0 {
      WorkQueue.PushFifo(e.queue, ActionPriority, MarkWork(rule.apply.value == 0, nodes), p);
    }
  }

  /** A constraint rule adds a region exactly when it selects some cell and
      no equal region is live or trashed; the region added holds the
      selected cells, the rule's kind and priority, and the apply
      pattern's value under the proposal's bindings, and it is queued at
      its priority. */
  lemma DerivedQueued(e: Engine, rule: Rule, a: Accepted)
    requires WellFormed(e) && AcceptedOk(e, rule, a) && WorkQueue.Valid(e.queue)
    requires !IsAction(rule.apply.kind) && ApplyProposal(e, rule, a).Ok?
    ensures var e' := ApplyProposal(e, rule, a).value;
      var nodes := PickNodes(a.buckets, rule.applyBitmap);
      && (|e'.arena| > |e.arena| <==>
            |nodes| > 0 && !IsExistingRegion(e, Derived(rule, a, PatternValue(rule.apply, a.vars).value.value)))
      && (|e'.arena| > |e.arena| ==>
            && |e'.arena| == |e.arena| + 1
            && e'.arena[|e.arena|] == Derived(rule, a, PatternValue(rule.apply, a.vars).value.value)
            && WorkQueue.ItemsAt(e'.queue, rule.priority) == WorkQueue.ItemsAt(e.queue, rule.priority) + [RegionWork(|e.arena|)])
      && (|e'.arena| == |e.arena| ==> e' == e)
  {
    var nodes := PickNodes(a.buckets, rule.applyBitmap);
    if |nodes| > 0 {
      var g := Derived(rule, a, PatternValue(rule.apply, a.vars).value.value);
      WorkQueue.PushFifo(e.queue, rule.priority, RegionWork(|e.arena|), rule.priority);
    }
  }

  // ---------------------------------------------------------------------
  // Applying a rule, and every rule

  /** The application loop over the passing proposals, in order. */
  function ApplyAccepted(e: Engine, rule: Rule, acc: seq<Accepted>): (r: Result<Engine>)
    requires WellFormed(e) && forall a :: a in acc ==> AcceptedOk(e, rule, a)
    ensures r.Ok? ==> WellFormed(r.value) && Grown(e, r.value)
    ensures r.Ok? && MarksTruthful(e) ==> MarksTruthful(r.value)
    ensures r.Ok? && WorkQueue.Valid(e.queue) ==> WorkQueue.Valid(r.value.queue)
    decreases |acc|
  {
    if |acc| == 0 then
      assert e.arena[..|e.arena|] == e.arena;
      Ok(e)
    else
      var e1 :- ApplyProposal(e, rule, acc[0]);
      assert forall a :: a in acc[1..] ==> AcceptedOk(e1, rule, a) by {
        forall a | a in acc[1..] ensures AcceptedOk(e1, rule, a) {
          assert a in acc;
          GrownKeepsAccepted(e, e1, rule, a);
        }
      }
      var r := ApplyAccepted(e1, rule, acc[1..]);
      assert r.Ok? ==> Grown(e, r.value) by {
        if r.Ok? { GrownTrans(e, e1, r.value); }
      }
      r
  }

  /** Every proposal of a search over live regions names regions of the
      arena. */
  lemma SearchRegionsIn(e: Engine, rule: Rule, h: Handle)
    requires WellFormed(e) && RuleOk(rule)
    ensures LiveOk(e.arena, e.live)
    ensures forall p :: p in Search(rule, e.arena, e.live, h) ==> RegionsIn(e.arena, p.regions)
  {
    assert LiveOk(e.arena, e.live);
    SearchSound(rule, e.arena, e.live, h);
    forall p, k | p in Search(rule, e.arena, e.live, h) && 0 <= k < |p.regions| ensures p.regions[k] < |e.arena| {
      var i :| 0 <= i < |e.live| && e.live[i] == p.regions[k];
    }
  }

  /** One rule of applyRegionRules for the region `h`: search, filter,
      apply. */
  function ApplyRule(e: Engine, rule: Rule, h: Handle, asWritten: bool): (r: Result<Engine>)
    requires WellFormed(e) && RuleOk(rule)
    ensures r.Ok? ==> WellFormed(r.value) && Grown(e, r.value)
    ensures r.Ok? && MarksTruthful(e) ==> MarksTruthful(r.value)
    ensures r.Ok? && WorkQueue.Valid(e.queue) ==> WorkQueue.Valid(r.value.queue)
  {
    SearchRegionsIn(e, rule, h);
    var props := Search(rule, e.arena, e.live, h);
    var acc :- FilterProposals(rule, e.arena, props, asWritten);
    assert forall a :: a in acc ==> AcceptedOk(e, rule, a) by {
      forall a | a in acc ensures AcceptedOk(e, rule, a) {
        var p :| p in props && Checked(rule, e.arena, p, asWritten) == Ok(Some(a));
        CheckedAcceptedOk(e, rule, p, asWritten);
      }
    }
    ApplyAccepted(e, rule, acc)
  }

  /** A rule with region patterns only fires on proposals holding the
      triggering region, so only a live region triggers anything. */
  lemma ProposalsNeedLive(e: Engine, rule: Rule, h: Handle)
    requires WellFormed(e) && RuleOk(rule) && |rule.regionTypes| > 0
    ensures forall p :: p in Search(rule, e.arena, e.live, h) ==> h in e.live
  {
    SearchRegionsIn(e, rule, h);
    SearchSound(rule, e.arena, e.live, h);
    forall p | p in Search(rule, e.arena, e.live, h) ensures h in e.live {
      var k :| 0 <= k < |p.regions| && p.regions[k] == h;
    }
  }

  /** applyRegionRules: every loaded rule in turn, each on the engine the
      previous one left. */
  function ApplyRegionRules(e: Engine, rules: seq<Rule>, h: Handle, asWritten: bool): (r: Result<Engine>)
    requires WellFormed(e) && forall k :: 0 <= k < |rules| ==> RuleOk(rules[k])
    ensures r.Ok? ==> WellFormed(r.value) && Grown(e, r.value)
    ensures r.Ok? && MarksTruthful(e) ==> MarksTruthful(r.value)
    ensures r.Ok? && WorkQueue.Valid(e.queue) ==> WorkQueue.Valid(r.value.queue)
    decreases |rules|
  {
    if |rules| == 0 then
      assert e.arena[..|e.arena|] == e.arena;
      Ok(e)
    else
      var e1 :- ApplyRule(e, rules[0], h, asWritten);
      assert forall k :: 0 <= k < |rules[1..]| ==> RuleOk(rules[1..][k]) by {
        forall k | 0 <= k < |rules[1..]| ensures RuleOk(rules[1..][k]) { assert rules[1..][k] == rules[k + 1]; }
      }
      var r := ApplyRegionRules(e1, rules[1..], h, asWritten);
      assert r.Ok? ==> Grown(e, r.value) by {
        if r.Ok? { GrownTrans(e, e1, r.value); }
      }
      r
  }
}

=== FILE: rule_search.dfy ===
/** The first half of applyRegionRules: the search for tuples of live regions
    that fit a rule's region patterns, one pattern after the other, each
    tuple carrying the variable bindings its regions leave possible. */
module RuleSearch {
  import opened Wrappers
  import opened SeqUtil
  import opened Kinds
  import opened Slots
  import opened Assignments
  import opened EngineState
  import opened RuleTable

  /** A partial or complete match: the matched regions in pattern order, and
      the variable bindings still possible (None while no pattern with
      variables has been matched). */
  datatype Proposal = Proposal(regions: seq<Handle>, possibleVars: Option<seq<Assignment>>)

  predicate LiveOk(arena: seq<Region>, live: seq<Handle>) {
    forall k :: 0 <= k < |live| ==> live[k] < |arena|
  }

  /** What the candidate region `g` adds to `prefix` for the pattern `slot`.
      `n` is the number of region patterns of the rule and `h` the region
      that triggered the search, which the last pattern insists on.  A
      wildcard pattern takes any region; a pattern of another kind takes a
      region of its kind whose value it matches, through its variables if
      it has any.  A wildcard region under a wildcard pattern passes both
      tests and is proposed twice, as in visualizer.js. */
  function ExtendBy(arena: seq<Region>, h: Handle, n: nat, slot: Slot, prefix: Proposal, g: Handle): seq<Proposal>
    requires g < |arena|
  {
    if g in prefix.regions then []
    else if |prefix.regions| == n - 1 && !(g == h || h in prefix.regions) then []
    else
      var region := arena[g];
      var grown := prefix.(regions := prefix.regions + [g]);
      var wild := if slot.kind == Wild then [grown] else [];
      if region.kind != slot.kind then wild
      else if |slot.vars| > 0 then
        var nv := Enumerate(region.value, slot, prefix.possibleVars);
        wild + (if |nv| > 0 then [grown.(possibleVars := Some(nv))] else [])
      else if slot.value == region.value then wild + [grown]
      else wild
  }

  /** The loop over the live regions, from position `i`. */
  function Candidates(arena: seq<Region>, live: seq<Handle>, h: Handle, n: nat, slot: Slot, prefix: Proposal, i: nat): seq<Proposal>
    requires LiveOk(arena, live)
    decreases |live| - i
  {
    if i >= |live| then []
    else ExtendBy(arena, h, n, slot, prefix, live[i]) + Candidates(arena, live, h, n, slot, prefix, i + 1)
  }

  /** The loop over the proposals of the previous pattern, from position
      `j`. */
  function ExtendAll(arena: seq<Region>, live: seq<Handle>, h: Handle, n: nat, slot: Slot, prefixes: seq<Proposal>, j: nat): seq<Proposal>
    requires LiveOk(arena, live)
    decreases |prefixes| - j
  {
    if j >= |prefixes| then []
    else Candidates(arena, live, h, n, slot, prefixes[j], 0) + ExtendAll(arena, live, h, n, slot, prefixes, j + 1)
  }

  /** The proposals once the first `j` region patterns are matched. */
  function Layer(rule: Rule, arena: seq<Region>, live: seq<Handle>, h: Handle, j: nat): seq<Proposal>
    requires LiveOk(arena, live) && j <= |rule.regionTypes|
  {
    if j == 0 then [Proposal([], None)]
    else ExtendAll(arena, live, h, |rule.regionTypes|, rule.regionTypes[j - 1], Layer(rule, arena, live, h, j - 1), 0)
  }

  /** All proposals for `rule` triggered by the region `h`. */
  function Search(rule: Rule, arena: seq<Region>, live: seq<Handle>, h: Handle): seq<Proposal>
    requires LiveOk(arena, live)
  {
    Layer(rule, arena, live, h, |rule.regionTypes|)
  }

  // ---------------------------------------------------------------------
  // Soundness

  /** Every binding in `pv` gives the variables of `slot` values that, added
      to the slot's own value, make `value`. */
  predicate VarsFit(slot: Slot, value: int, pv: Option<seq<Assignment>>) {
    pv.Some? && forall b :: b in pv.value ==>
      (forall x :: x in slot.vars ==> x in b) && slot.value + SumOver(slot.vars, b) == value
  }

  /** The region fits the pattern under every binding of `pv`. */
  predicate Fits(region: Region, slot: Slot, pv: Option<seq<Assignment>>) {
    || slot.kind == Wild
    || (region.kind == slot.kind &&
        if |slot.vars| > 0 then VarsFit(slot, region.value, pv) else region.value == slot.value)
  }

  /** A proposal the search may hold: distinct live regions, each fitting
      its pattern under every possible binding, at least one binding when
      any is recorded, and the triggering region among them once every
      pattern is matched. */
  predicate Sound(rule: Rule, arena: seq<Region>, live: seq<Handle>, h: Handle, p: Proposal) {
    && |p.regions| <= |rule.regionTypes|
    && Distinct(p.regions)
    && (forall k :: 0 <= k < |p.regions| ==>
          p.regions[k] in live && p.regions[k] < |arena| &&
          Fits(arena[p.regions[k]], rule.regionTypes[k], p.possibleVars))
    && (p.possibleVars.Some? ==> |p.possibleVars.value| > 0)
    && (|p.regions| == |rule.regionTypes| && |p.regions| > 0 ==> h in p.regions)
  }

  /** Two bindings that agree on the variables of `vars` give them the same
      total. */
  lemma {:induction false} SumOverAgree(vars: seq<nat>, e: Assignment, b: Assignment)
    requires forall x :: x in vars ==> x in e
    requires forall k :: k in e ==> k in b && b[k] == e[k]
    ensures forall x :: x in vars ==> x in b
    ensures SumOver(vars, b) == SumOver(vars, e)
  {
    if |vars| > 0 {
      assert forall x :: x in vars[1..] ==> x in vars;
      SumOverAgree(vars[1..], e, b);
    }
  }

  /** Narrowing the bindings by matching another pattern keeps every earlier
      fit, and makes the newly matched pattern fit. */
  lemma EnumerateKeepsFit(slot: Slot, value: int, pv: Option<seq<Assignment>>, s: Slot, v: int)
    requires Distinct(slot.vars)
    ensures VarsFit(slot, value, Some(Enumerate(value, slot, pv)))
    ensures VarsFit(s, v, pv) ==> VarsFit(s, v, Some(Enumerate(value, slot, pv)))
  {
    var nv := Enumerate(value, slot, pv);
    forall b | b in nv
      ensures (forall x :: x in slot.vars ==> x in b) && slot.value + SumOver(slot.vars, b) == value
      ensures VarsFit(s, v, pv) ==> (forall x :: x in s.vars ==> x in b) && s.value + SumOver(s.vars, b) == v
    {
      EnumerateExact(value, slot, pv, b);
      var e :| e in pv.GetOr([map[]]) && Extends(b, e, Unbound(slot.vars, e))
        && slot.value + SumOver(slot.vars, b) == value;
      if VarsFit(s, v, pv) {
        SumOverAgree(s.vars, e, b);
      }
    }
  }

  /** Appending a region that fits the next pattern under the bindings
      already recorded keeps the proposal sound. */
  lemma GrownSound(rule: Rule, arena: seq<Region>, live: seq<Handle>, h: Handle, prefix: Proposal, g: Handle)
    requires |prefix.regions| < |rule.regionTypes| && Sound(rule, arena, live, h, prefix)
    requires g in live && g < |arena| && g !in prefix.regions
    requires Fits(arena[g], rule.regionTypes[|prefix.regions|], prefix.possibleVars)
    requires |prefix.regions| + 1 == |rule.regionTypes| ==> g == h || h in prefix.regions
    ensures Sound(rule, arena, live, h, prefix.(regions := prefix.regions + [g]))
  {
    AppendDistinct(prefix.regions, [g]);
    var grown := prefix.(regions := prefix.regions + [g]);
    assert forall k :: 0 <= k < |prefix.regions| ==> grown.regions[k] == prefix.regions[k];
  }

  /** Appending a region matched through the pattern's variables, with the
      bindings narrowed to those it admits, keeps the proposal sound. */
  lemma NarrowedSound(rule: Rule, arena: seq<Region>, live: seq<Handle>, h: Handle, prefix: Proposal, g: Handle)
    requires RuleOk(rule) && |prefix.regions| < |rule.regionTypes| && Sound(rule, arena, live, h, prefix)
    requires g in live && g < |arena| && g !in prefix.regions
    requires |prefix.regions| + 1 == |rule.regionTypes| ==> g == h || h in prefix.regions
    requires arena[g].kind == rule.regionTypes[|prefix.regions|].kind && |rule.regionTypes[|prefix.regions|].vars| > 0
    requires |Enumerate(arena[g].value, rule.regionTypes[|prefix.regions|], prefix.possibleVars)| > 0
    ensures var nv := Enumerate(arena[g].value, rule.regionTypes[|prefix.regions|], prefix.possibleVars);
      Sound(rule, arena, live, h, prefix.(regions := prefix.regions + [g], possibleVars := Some(nv)))
  {
    var j := |prefix.regions|;
    var slot := rule.regionTypes[j];
    AppendDistinct(prefix.regions, [g]);
    IncreasingDistinct(slot.vars);
    var nv := Enumerate(arena[g].value, slot, prefix.possibleVars);
    var q := prefix.(regions := prefix.regions + [g], possibleVars := Some(nv));
    assert forall k :: 0 <= k < j ==> q.regions[k] == prefix.regions[k];
    forall k | 0 <= k < j + 1
      ensures Fits(arena[q.regions[k]], rule.regionTypes[k], q.possibleVars)
    {
      EnumerateKeepsFit(slot, arena[g].value, prefix.possibleVars, rule.regionTypes[k], arena[q.regions[k]].value);
    }
  }

  lemma ExtendBySound(rule: Rule, arena: seq<Region>, live: seq<Handle>, h: Handle, j: nat, prefix: Proposal, g: Handle)
    requires RuleOk(rule) && j < |rule.regionTypes|
    requires Sound(rule, arena, live, h, prefix) && |prefix.regions| == j
    requires g in live && g < |arena|
    ensures forall p :: p in ExtendBy(arena, h, |rule.regionTypes|, rule.regionTypes[j], prefix, g) ==>
      Sound(rule, arena, live, h, p) && |p.regions| == j + 1
  {
    var slot := rule.regionTypes[j];
    var region := arena[g];
    if g !in prefix.regions && !(j == |rule.regionTypes| - 1 && !(g == h || h in prefix.regions)) {
      if slot.kind == Wild || (region.kind == slot.kind && |slot.vars| == 0 && slot.value == region.value) {
        GrownSound(rule, arena, live, h, prefix, g);
      }
      if region.kind == slot.kind && |slot.vars| > 0 {
        if |Enumerate(region.value, slot, prefix.possibleVars)| > 0 {
          NarrowedSound(rule, arena, live, h, prefix, g);
        }
      }
    }
  }

  lemma {:induction false} CandidatesSound(rule: Rule, arena: seq<Region>, live: seq<Handle>, h: Handle, j: nat, prefix: Proposal, i: nat)
    requires RuleOk(rule) && j < |rule.regionTypes| && LiveOk(arena, live)
    requires Sound(rule, arena, live, h, prefix) && |prefix.regions| == j
    ensures forall p :: p in Candidates(arena, live, h, |rule.regionTypes|, rule.regionTypes[j], prefix, i) ==>
      Sound(rule, arena, live, h, p) && |p.regions| == j + 1
    decreases |live| - i
  {
    if i < |live| {
      ExtendBySound(rule, arena, live, h, j, prefix, live[i]);
      CandidatesSound(rule, arena, live, h, j, prefix, i + 1);
    }
  }

  lemma {:induction false} ExtendAllSound(rule: Rule, arena: seq<Region>, live: seq<Handle>, h: Handle, j: nat, prefixes: seq<Proposal>, m: nat)
    requires RuleOk(rule) && j < |rule.regionTypes| && LiveOk(arena, live)
    requires forall p :: p in prefixes ==> Sound(rule, arena, live, h, p) && |p.regions| == j
    ensures forall p :: p in ExtendAll(arena, live, h, |rule.regionTypes|, rule.regionTypes[j], prefixes, m) ==>
      Sound(rule, arena, live, h, p) && |p.regions| == j + 1
    decreases |prefixes| - m
  {
    if m < |prefixes| {
      CandidatesSound(rule, arena, live, h, j, prefixes[m], 0);
      ExtendAllSound(rule, arena, live, h, j, prefixes, m + 1);
    }
  }

  lemma {:induction false} LayerSound(rule: Rule, arena: seq<Region>, live: seq<Handle>, h: Handle, j: nat)
    requires RuleOk(rule) && LiveOk(arena, live) && j <= |rule.regionTypes|
    ensures forall p :: p in Layer(rule, arena, live, h, j) ==> Sound(rule, arena, live, h, p) && |p.regions| == j
  {
    if j > 0 {
      var prev := Layer(rule, arena, live, h, j - 1);
      LayerSound(rule, arena, live, h, j - 1);
      var next := ExtendAll(arena, live, h, |rule.regionTypes|, rule.regionTypes[j - 1], prev, 0);
      ExtendAllSound(rule, arena, live, h, j - 1, prev, 0);
      assert Layer(rule, arena, live, h, j) == next;
    }
  }

  /** Every proposal the search returns matches every region pattern with a
      distinct live region, under every binding it keeps, and contains the
      triggering region. */
  lemma SearchSound(rule: Rule, arena: seq<Region>, live: seq<Handle>, h: Handle)
    requires RuleOk(rule) && LiveOk(arena, live)
    ensures forall p :: p in Search(rule, arena, live, h) ==>
      && |p.regions| == |rule.regionTypes|
      && Distinct(p.regions)
      && (|p.regions| > 0 ==> h in p.regions)
      && (forall k :: 0 <= k < |p.regions| ==>
            p.regions[k] in live && Fits(arena[p.regions[k]], rule.regionTypes[k], p.possibleVars))
  {
    LayerSound(rule, arena, live, h, |rule.regionTypes|);
  }

  // ---------------------------------------------------------------------
  // Completeness for patterns without variables

  /** The region fits the pattern without the help of variables. */
  predicate FitsPlain(region: Region, slot: Slot) {
    slot.kind == Wild || (region.kind == slot.kind && |slot.vars| == 0 && region.value == slot.value)
  }

  lemma {:induction false} CandidatesContain(arena: seq<Region>, live: seq<Handle>, h: Handle, n: nat, slot: Slot, prefix: Proposal, i0: nat, i: nat, q: Proposal)
    requires LiveOk(arena, live) && i0 <= i < |live|
    requires q in ExtendBy(arena, h, n, slot, prefix, live[i])
    ensures q in Candidates(arena, live, h, n, slot, prefix, i0)
    decreases i - i0
  {
    var here := ExtendBy(arena, h, n, slot, prefix, live[i0]);
    var later := Candidates(arena, live, h, n, slot, prefix, i0 + 1);
    assert Candidates(arena, live, h, n, slot, prefix, i0) == here + later;
    if i0 < i {
      CandidatesContain(arena, live, h, n, slot, prefix, i0 + 1, i, q);
    }
  }

  lemma {:induction false} ExtendAllContains(arena: seq<Region>, live: seq<Handle>, h: Handle, n: nat, slot: Slot, prefixes: seq<Proposal>, m: nat, j: nat, q: Proposal)
    requires LiveOk(arena, live) && m <= j < |prefixes|
    requires q in Candidates(arena, live, h, n, slot, prefixes[j], 0)
    ensures q in ExtendAll(arena, live, h, n, slot, prefixes, m)
    decreases j - m
  {
    var here := Candidates(arena, live, h, n, slot, prefixes[m], 0);
    var later := ExtendAll(arena, live, h, n, slot, prefixes, m + 1);
    assert ExtendAll(arena, live, h, n, slot, prefixes, m) == here + later;
    if m < j {
      ExtendAllContains(arena, live, h, n, slot, prefixes, m + 1, j, q);
    }
  }

  /** A region that is not yet in the prefix, fits the pattern plainly and
      satisfies the check on the triggering region extends the prefix. */
  lemma ExtendByGrows(arena: seq<Region>, h: Handle, n: nat, slot: Slot, prefix: Proposal, g: Handle)
    requires g < |arena| && g !in prefix.regions && FitsPlain(arena[g], slot)
    requires |prefix.regions| == n - 1 ==> g == h || h in prefix.regions
    ensures prefix.(regions := prefix.regions + [g]) in ExtendBy(arena, h, n, slot, prefix, g)
  {
  }

  /** In a tuple without repeats, the `j`-th entry is not among the ones
      before it. */
  lemma LastNotBefore(t: seq<Handle>, j: nat)
    requires Distinct(t) && 0 < j <= |t|
    ensures t[j - 1] !in t[..j - 1]
  {
    var pre := t[..j - 1];
    forall k | 0 <= k < j - 1 ensures pre[k] != t[j - 1] {
      assert pre[k] == t[k];
    }
  }

  lemma TakeOneMore(t: seq<Handle>, j: nat)
    requires 0 < j <= |t|
    ensures t[..j] == t[..j - 1] + [t[j - 1]]
  {
  }

  /** An element of a tuple is its last entry or among the ones before. */
  lemma LastOrBefore(t: seq<Handle>, h: Handle)
    requires h in t
    ensures t[|t| - 1] == h || h in t[..|t| - 1]
  {
    var kh :| 0 <= kh < |t| && t[kh] == h;
    if kh < |t| - 1 { assert t[..|t| - 1][kh] == h; }
  }

  /** A proposal of layer `j - 1` grown by a live region that fits the
      next pattern plainly is in layer `j`. */
  lemma GrownInNextLayer(rule: Rule, arena: seq<Region>, live: seq<Handle>, h: Handle, j: nat, p: Proposal, g: Handle)
    requires LiveOk(arena, live) && 0 < j <= |rule.regionTypes|
    requires p in Layer(rule, arena, live, h, j - 1)
    requires g in live && g < |arena| && g !in p.regions && FitsPlain(arena[g], rule.regionTypes[j - 1])
    requires |p.regions| == |rule.regionTypes| - 1 ==> g == h || h in p.regions
    ensures p.(regions := p.regions + [g]) in Layer(rule, arena, live, h, j)
  {
    var prev := Layer(rule, arena, live, h, j - 1);
    var pi :| 0 <= pi < |prev| && prev[pi] == p;
    var i :| 0 <= i < |live| && live[i] == g;
    var n := |rule.regionTypes|;
    var slot := rule.regionTypes[j - 1];
    var grown := p.(regions := p.regions + [g]);
    ExtendByGrows(arena, h, n, slot, p, g);
    CandidatesContain(arena, live, h, n, slot, p, 0, i, grown);
    ExtendAllContains(arena, live, h, n, slot, prev, 0, pi, grown);
  }

  /** One step of the induction below: a proposal for the first `j - 1`
      entries of the tuple grows into one for the first `j`. */
  lemma LayerStep(rule: Rule, arena: seq<Region>, live: seq<Handle>, h: Handle, t: seq<Handle>, j: nat, p: Proposal)
    requires LiveOk(arena, live) && 0 < j <= |rule.regionTypes| == |t| && Distinct(t)
    requires t[j - 1] in live && t[j - 1] < |arena| && FitsPlain(arena[t[j - 1]], rule.regionTypes[j - 1])
    requires |t| > 0 ==> h in t
    requires p in Layer(rule, arena, live, h, j - 1) && p.regions == t[..j - 1]
    ensures p.(regions := t[..j]) in Layer(rule, arena, live, h, j)
  {
    var g := t[j - 1];
    TakeOneMore(t, j);
    LastNotBefore(t, j);
    if j == |t| { LastOrBefore(t, h); }
    GrownInNextLayer(rule, arena, live, h, j, p, g);
  }

  lemma {:induction false} LayerComplete(rule: Rule, arena: seq<Region>, live: seq<Handle>, h: Handle, t: seq<Handle>, j: nat)
    requires LiveOk(arena, live) && j <= |rule.regionTypes| == |t| && Distinct(t)
    requires forall k :: 0 <= k < |t| ==> t[k] in live
    requires forall k :: 0 <= k < |t| ==> t[k] < |arena| && FitsPlain(arena[t[k]], rule.regionTypes[k])
    requires |t| > 0 ==> h in t
    ensures exists p :: p in Layer(rule, arena, live, h, j) && p.regions == t[..j]
  {
    if j == 0 {
      assert Proposal([], None) in Layer(rule, arena, live, h, 0);
    } else {
      LayerComplete(rule, arena, live, h, t, j - 1);
      var p :| p in Layer(rule, arena, live, h, j - 1) && p.regions == t[..j - 1];
      LayerStep(rule, arena, live, h, t, j, p);
    }
  }

  /** Conversely, every tuple of distinct live regions that contains the
      triggering region and fits patterns without variables is proposed. */
  lemma SearchComplete(rule: Rule, arena: seq<Region>, live: seq<Handle>, h: Handle, t: seq<Handle>)
    requires LiveOk(arena, live) && |t| == |rule.regionTypes| && Distinct(t)
    requires forall k :: 0 <= k < |t| ==> t[k] in live && FitsPlain(arena[t[k]], rule.regionTypes[k])
    requires |t| > 0 ==> h in t
    ensures exists p :: p in Search(rule, arena, live, h) && p.regions == t
  {
    LayerComplete(rule, arena, live, h, t, |t|);
    assert t[..|t|] == t;
  }
}

=== FILE: rule_table.dfy ===
/** The rule table as the engine loads it (loadRules): every packed slot of a
    rule decoded, the variables its square counts name collected, its
    priority settled, and paused rules dropped.  The table itself is an
    input. */
module RuleTable {
  import opened Wrappers
  import opened SeqUtil
  import opened Kinds
  import opened Slots

  /** A rule as the table stores it: every slot a packed number. */
  datatype BombeRule = BombeRule(
    regionType: seq<int>,
    squareCounts: seq<int>,
    applyRegionType: int,
    applyRegionBitmap: int,
    priority: int,
    paused: bool)

  /** A loaded rule.  `regionTypes` are the patterns the matched regions
      must fit, `squareCounts` the patterns for the cell buckets,
      `apply` what the rule produces, and `applyBitmap` which regions or
      buckets it produces it from. */
  datatype Rule = Rule(
    regionTypes: seq<Slot>,
    squareCounts: seq<Slot>,
    apply: Slot,
    applyBitmap: int,
    priority: int,
    squareCountVars: set<nat>)

  /** Decodes every slot of a list; fails on the first slot that names no
      kind or an out-of-table variable mask. */
  function DecodeAll(nums: seq<int>): (r: Result<seq<Slot>>)
    ensures r.Ok? <==> forall i :: 0 <= i < |nums| ==> DecodeSlot(nums[i]).Ok?
    ensures r.Ok? ==> |r.value| == |nums|
    ensures r.Ok? ==> forall i :: 0 <= i < |nums| ==> Ok(r.value[i]) == DecodeSlot(nums[i])
  {
    if |nums| == 0 then Ok([])
    else
      var s :- DecodeSlot(nums[0]);
      var rest :- DecodeAll(nums[1..]);
      assert forall i :: 1 <= i < |nums| ==> nums[1..][i - 1] == nums[i];
      Ok([s] + rest)
  }

  /** The union of the variables of a list of slots. */
  function VarsOf(slots: seq<Slot>): (r: set<nat>)
    ensures forall x :: x in r <==> exists i :: 0 <= i < |slots| && x in slots[i].vars
  {
    if |slots| == 0 then {}
    else
      var last := slots[|slots| - 1];
      var r := VarsOf(slots[..|slots| - 1]) + set x | x in last.vars;
      assert forall i :: 0 <= i < |slots| - 1 ==> slots[..|slots| - 1][i] == slots[i];
      r
  }

  /** Every slot of a loaded rule names its variables once each, in
      ascending order, and `squareCountVars` collects those of the square
      counts. */
  predicate RuleOk(rule: Rule) {
    && (forall i :: 0 <= i < |rule.regionTypes| ==> VarsOk(rule.regionTypes[i].vars))
    && (forall i :: 0 <= i < |rule.squareCounts| ==> VarsOk(rule.squareCounts[i].vars))
    && VarsOk(rule.apply.vars)
    && rule.squareCountVars == VarsOf(rule.squareCounts)
  }

  lemma IncreasingDistinct(s: seq<nat>)
    requires StrictlyIncreasing(s)
    ensures Distinct(s)
  {
    forall i, j | 0 <= i < |s| && 0 <= j < |s| && i != j ensures s[i] != s[j] {
      if i < j { assert s[i] < s[j]; } else { assert s[j] < s[i]; }
    }
  }

  lemma DecodedVarsOk(num: int)
    requires DecodeSlot(num).Ok?
    ensures VarsOk(DecodeSlot(num).value.vars)
  {
  }

  /** Loads one rule.  Action rules get the base priority 3; the others keep
      the table's.  A rule without square counts fails, as `reduce` without
      an initial value does on an empty list. */
  function LoadRule(b: BombeRule): (r: Result<Rule>)
    ensures r.Ok? <==>
      && |b.squareCounts| > 0
      && (forall i :: 0 <= i < |b.squareCounts| ==> DecodeSlot(b.squareCounts[i]).Ok?)
      && (forall i :: 0 <= i < |b.regionType| ==> DecodeSlot(b.regionType[i]).Ok?)
      && DecodeSlot(b.applyRegionType).Ok?
    ensures r.Ok? ==>
      var rule := r.value;
      && RuleOk(rule)
      && |rule.squareCounts| == |b.squareCounts| && |rule.regionTypes| == |b.regionType|
      && (forall i :: 0 <= i < |b.squareCounts| ==> Ok(rule.squareCounts[i]) == DecodeSlot(b.squareCounts[i]))
      && (forall i :: 0 <= i < |b.regionType| ==> Ok(rule.regionTypes[i]) == DecodeSlot(b.regionType[i]))
      && Ok(rule.apply) == DecodeSlot(b.applyRegionType)
      && rule.applyBitmap == b.applyRegionBitmap
      && rule.priority == (if IsAction(rule.apply.kind) then 3 else b.priority)
  {
    var squareCounts :- DecodeAll(b.squareCounts);
    var regionTypes :- DecodeAll(b.regionType);
    var apply :- DecodeSlot(b.applyRegionType);
    if |squareCounts| == 0 then Err("Reduce of empty array with no initial value")
    else
      var rule := Rule(regionTypes, squareCounts, apply, b.applyRegionBitmap,
        if apply.kind == MarkCell || apply.kind == ChangeVisibility then 3 else b.priority,
        VarsOf(squareCounts));
      assert RuleOk(rule) by {
        forall i | 0 <= i < |squareCounts| ensures VarsOk(squareCounts[i].vars) {
          DecodedVarsOk(b.squareCounts[i]);
        }
        forall i | 0 <= i < |regionTypes| ensures VarsOk(regionTypes[i].vars) {
          DecodedVarsOk(b.regionType[i]);
        }
        DecodedVarsOk(b.applyRegionType);
      }
      Ok(rule)
  }

  /** A paused rule is still decoded, so its square counts must not be
      empty either; only decoding errors of a paused rule are harmless,
      since visualizer.js never reads the slots it leaves undefined. */
  predicate Loadable(b: BombeRule) {
    |b.squareCounts| > 0 && (!b.paused ==> LoadRule(b).Ok?)
  }

  /** The unpaused entries of the table, in order (the `filter` of
      loadRules). */
  function Unpaused(bs: seq<BombeRule>): (r: seq<BombeRule>)
    ensures |r| <= |bs|
    ensures forall b :: b in r <==> b in bs && !b.paused
  {
    if |bs| == 0 then []
    else (if bs[0].paused then [] else [bs[0]]) + Unpaused(bs[1..])
  }

  /** loadRules: load every rule, then keep the unpaused ones in table
      order. */
  function LoadRules(bs: seq<BombeRule>): (r: Result<seq<Rule>>)
    ensures r.Ok? <==> forall i :: 0 <= i < |bs| ==> Loadable(bs[i])
    ensures r.Ok? ==> |r.value| == |Unpaused(bs)|
  {
    if |bs| == 0 then Ok([])
    else
      var b := bs[0];
      assert forall i :: 1 <= i < |bs| ==> bs[1..][i - 1] == bs[i];
      if |b.squareCounts| == 0 then Err("Reduce of empty array with no initial value")
      else
        var rest :- LoadRules(bs[1..]);
        if b.paused then Ok(rest)
        else
          var rule :- LoadRule(b);
          Ok([rule] + rest)
  }

  /** The loaded list is the unpaused part of the table, each rule loaded:
      the `i`-th loaded rule comes from the `i`-th unpaused table entry. */
  /** `ys` is `xs` mapped entry by entry through `f`, every entry a
      success. */
  ghost predicate Pointwise<A, B>(f: A -> Result<B>, xs: seq<A>, ys: seq<B>) {
    |xs| == |ys| && forall i :: 0 <= i < |xs| ==> f(xs[i]) == Ok(ys[i])
  }

  lemma PointwiseCons<A, B>(f: A -> Result<B>, x: A, xs: seq<A>, y: B, ys: seq<B>)
    requires f(x) == Ok(y) && Pointwise(f, xs, ys)
    ensures Pointwise(f, [x] + xs, [y] + ys)
  {
    forall i | 0 < i < |xs| + 1 ensures f(([x] + xs)[i]) == Ok(([y] + ys)[i]) {
      assert ([x] + xs)[i] == xs[i - 1] && ([y] + ys)[i] == ys[i - 1];
    }
  }

  lemma {:induction false} LoadRulesKeepsUnpaused(bs: seq<BombeRule>)
    requires LoadRules(bs).Ok?
    ensures Pointwise(LoadRule, Unpaused(bs), LoadRules(bs).value)
  {
    if |bs| > 0 {
      LoadRulesStep(bs);
      LoadRulesKeepsUnpaused(bs[1..]);
      if !bs[0].paused {
        assert Unpaused(bs) == [bs[0]] + Unpaused(bs[1..]);
        PointwiseCons(LoadRule, bs[0], Unpaused(bs[1..]), LoadRule(bs[0]).value, LoadRules(bs[1..]).value);
      } else {
        assert Unpaused(bs) == Unpaused(bs[1..]);
      }
    }
  }

  /** One entry of loadRules: the head is loaded, and kept unless paused. */
  lemma LoadRulesStep(bs: seq<BombeRule>)
    requires |bs| > 0 && LoadRules(bs).Ok?
    ensures LoadRules(bs[1..]).Ok?
    ensures !bs[0].paused ==> LoadRule(bs[0]).Ok? && LoadRules(bs).value == [LoadRule(bs[0]).value] + LoadRules(bs[1..]).value
    ensures bs[0].paused ==> LoadRules(bs).value == LoadRules(bs[1..]).value
  {
  }

  /** Every loaded rule is well formed. */
  lemma LoadedRulesOk(bs: seq<BombeRule>)
    requires LoadRules(bs).Ok?
    ensures forall i :: 0 <= i < |LoadRules(bs).value| ==> RuleOk(LoadRules(bs).value[i])
  {
    LoadRulesKeepsUnpaused(bs);
  }
}

=== FILE: seqs.dfy ===
/** Small sequence utilities mirroring the JavaScript array operations the
    engine relies on (`indexOf`, `splice`, `filter`, insertion-ordered `Set`). */
module SeqUtil {
  import opened Wrappers

  predicate Distinct<T(==)>(s: seq<T>) {
    forall i, j :: 0 <= i < j < |s| ==> s[i] != s[j]
  }

  /** `s.indexOf(x)`: the first position holding `x`, or None for -1. */
  function IndexOf<T(==)>(s: seq<T>, x: T): (r: Option<nat>)
    ensures r.None? <==> x !in s
    ensures r.Some? ==> r.value < |s| && s[r.value] == x && x !in s[..r.value]
  {
    if |s| == 0 then None
    else if s[0] == x then Some(0)
    else
      match IndexOf(s[1..], x)
      case None => None
      case Some(k) =>
        assert s[..k + 1] == [s[0]] + s[1..][..k];
        Some(k + 1)
  }

  /** `s.splice(i, 1)` */
  function RemoveAt<T>(s: seq<T>, i: nat): (r: seq<T>)
    requires i < |s|
    ensures |r| == |s| - 1
    ensures multiset(r) == multiset(s) - multiset{s[i]}
    ensures forall k :: 0 <= k < i ==> r[k] == s[k]
    ensures forall k :: i <= k < |r| ==> r[k] == s[k + 1]
  {
    assert s == s[..i] + [s[i]] + s[i + 1..];
    s[..i] + s[i + 1..]
  }

  /** `const k = s.indexOf(x); if (k !== -1) s.splice(k, 1)` */
  function RemoveFirst<T(==)>(s: seq<T>, x: T): (r: seq<T>)
    ensures x !in s ==> r == s
    ensures x in s ==> |r| == |s| - 1
    ensures multiset(r) == multiset(s) - multiset{x}
  {
    match IndexOf(s, x)
    case None => s
    case Some(k) => RemoveAt(s, k)
  }

  lemma RemoveFirstOfDistinct<T(!new)>(s: seq<T>, x: T)
    requires Distinct(s)
    ensures Distinct(RemoveFirst(s, x))
    ensures forall y :: y in RemoveFirst(s, x) <==> y in s && y != x
  {
    var r := RemoveFirst(s, x);
    if x in s {
      var k := IndexOf(s, x).value;
      forall y ensures y in r <==> y in s && y != x {
        if y in r {
          var j :| 0 <= j < |r| && r[j] == y;
          if j < k { assert y == s[j]; } else { assert y == s[j + 1]; }
        }
        if y in s && y != x {
          var j :| 0 <= j < |s| && s[j] == y;
          if j < k { assert r[j] == y; } else { assert j != k; assert r[j - 1] == y; }
        }
      }
    }
  }

  /** The elements of `s` that satisfy `p`, in order (`Array.prototype.filter`). */
  function Filter<T(!new)>(s: seq<T>, p: T -> bool): (r: seq<T>)
    ensures |r| <= |s|
    ensures forall x :: x in r <==> x in s && p(x)
    ensures forall x :: multiset(r)[x] == if p(x) then multiset(s)[x] else 0
  {
    if |s| == 0 then []
    else
      assert s == [s[0]] + s[1..];
      (if p(s[0]) then [s[0]] else []) + Filter(s[1..], p)
  }

  lemma FilterDistinct<T(!new)>(s: seq<T>, p: T -> bool)
    requires Distinct(s)
    ensures Distinct(Filter(s, p))
  {
    var r := Filter(s, p);
    forall x | x in r ensures multiset(r)[x] == 1 {
      DistinctCount(s, x);
    }
    CountOneDistinct(r);
  }

  /** How many elements of `s` satisfy `p`. */
  function CountWhere<T(!new)>(s: seq<T>, p: T -> bool): (n: nat)
    ensures n <= |s|
    ensures n == |Filter(s, p)|
  {
    if |s| == 0 then 0
    else (if p(s[0]) then 1 else 0) + CountWhere(s[1..], p)
  }

  lemma DistinctCount<T>(s: seq<T>, x: T)
    requires Distinct(s)
    ensures multiset(s)[x] == if x in s then 1 else 0
  {
    if |s| > 0 {
      assert s == [s[0]] + s[1..];
      assert s[0] !in s[1..];
      DistinctCount(s[1..], x);
    }
  }

  lemma CountOneDistinct<T(!new)>(s: seq<T>)
    requires forall x | x in s :: multiset(s)[x] == 1
    ensures Distinct(s)
  {
    if |s| > 0 {
      assert s == [s[0]] + s[1..];
      forall x | x in s[1..] ensures multiset(s[1..])[x] == 1 {
        assert multiset(s)[x] == multiset([s[0]])[x] + multiset(s[1..])[x];
      }
      CountOneDistinct(s[1..]);
      assert multiset(s)[s[0]] == 1 + multiset(s[1..])[s[0]];
    }
  }

  /** A sub-multiset of a repetition-free sequence is repetition-free, and
      an element taken out entirely is gone. */
  lemma DistinctShrinks<T(!new)>(s: seq<T>, r: seq<T>)
    requires Distinct(s) && multiset(r) <= multiset(s)
    ensures Distinct(r)
  {
    forall y | y in r ensures multiset(r)[y] == 1 {
      DistinctCount(s, y);
    }
    CountOneDistinct(r);
  }

  /** The elements of `s` in first-occurrence order, as `new Set(s)` iterates them. */
  function Dedup<T(==,!new)>(s: seq<T>): (r: seq<T>)
    ensures forall x :: x in r <==> x in s
    ensures Distinct(r)
    decreases |s|
  {
    DedupAfter(s, [])
  }

  /** Appends to `seen` the elements of `s` not already in it, in order. */
  function DedupAfter<T(==,!new)>(s: seq<T>, seen: seq<T>): (r: seq<T>)
    requires Distinct(seen)
    ensures forall x :: x in seen + r <==> x in seen || x in s
    ensures Distinct(r) && forall x :: x in r ==> x !in seen
    decreases |s|
  {
    if |s| == 0 then []
    else if s[0] in seen then DedupAfter(s[1..], seen)
    else
      AppendDistinct(seen, [s[0]]);
      var rest := DedupAfter(s[1..], seen + [s[0]]);
      assert seen + ([s[0]] + rest) == (seen + [s[0]]) + rest;
      AppendDistinct([s[0]], rest);
      [s[0]] + rest
  }

  /** `new Set(a).union(new Set(b))` iterated in insertion order. */
  function Union<T(==,!new)>(a: seq<T>, b: seq<T>): (r: seq<T>)
    requires Distinct(a)
    ensures Distinct(r)
    ensures forall x :: x in r <==> x in a || x in b
  {
    var tail := DedupAfter(b, a);
    AppendDistinct(a, tail);
    a + tail
  }

  lemma AppendDistinct<T>(a: seq<T>, b: seq<T>)
    requires Distinct(a) && Distinct(b)
    requires forall x :: x in b ==> x !in a
    ensures Distinct(a + b)
  {
    forall i, j | 0 <= i < j < |a + b| ensures (a + b)[i] != (a + b)[j] {
      if j < |a| {
        assert (a + b)[i] == a[i] && (a + b)[j] == a[j];
      } else if i >= |a| {
        assert (a + b)[i] == b[i - |a|];
        assert (a + b)[j] == b[j - |a|];
      } else {
        assert (a + b)[i] == a[i];
        assert (a + b)[j] == b[j - |a|];
        assert b[j - |a|] in b;
      }
    }
  }

  /** A non-empty sequence is its head followed by its tail. */
  lemma HeadTail<T>(s: seq<T>)
    requires |s| > 0
    ensures s == [s[0]] + s[1..]
    ensures multiset(s) == multiset{s[0]} + multiset(s[1..])
  {
  }

  /** Appending a non-empty sequence is appending its head, then its tail. */
  lemma AppendHeadTail<T>(a: seq<T>, s: seq<T>)
    requires |s| > 0
    ensures a + s == (a + [s[0]]) + s[1..]
  {
    assert s == [s[0]] + s[1..];
  }

  /** An element of a suffix is its first entry or in the suffix after. */
  lemma SuffixStep<T>(s: seq<T>, i: nat)
    requires i < |s|
    ensures forall x :: x in s[i..] <==> x == s[i] || x in s[i + 1..]
  {
    assert s[i..] == [s[i]] + s[i + 1..];
  }

  function Sum(s: seq<int>): int {
    if |s| == 0 then 0 else s[0] + Sum(s[1..])
  }

  lemma SumAppend(a: seq<int>, b: seq<int>)
    ensures Sum(a + b) == Sum(a) + Sum(b)
  {
    if |a| == 0 {
      assert a + b == b;
    } else {
      assert (a + b)[1..] == a[1..] + b;
      assert (a + b)[0] == a[0];
      SumAppend(a[1..], b);
    }
  }
}

=== FILE: slots.dfy ===
/** Decoding of the bit-packed slots of the rule table: each slot packs a
    value (bits 0-7), a kind index (bits 8-15) and a variable bitmask
    (bits 16-23) over at most six named variables. */
module Slots {
  import opened Wrappers
  import opened Kinds

  /** A decoded slot: a value, a kind and the ascending list of the named
      variables (0 to 5) it refers to. */
  datatype Slot = Slot(value: int, kind: RegionKind, vars: seq<nat>)

  /** The number of named variables a bitmask can refer to. */
  const VarCount: nat := 6

  function Pow2(n: nat): (r: nat)
    ensures r >= 1
  {
    if n == 0 then 1 else 2 * Pow2(n - 1)
  }

  /** Bit `i` of `x` in two's complement, i.e. `(x & (1 << i)) != 0`. */
  predicate Bit(x: int, i: nat)
    decreases i
  {
    if i == 0 then x % 2 == 1 else Bit(x / 2, i - 1)
  }

  /** JavaScript's ToInt32, which every bitwise operator applies first. */
  function ToInt32(x: int): (r: int)
    ensures -0x8000_0000 <= r < 0x8000_0000
    ensures (x - r) % 0x1_0000_0000 == 0
  {
    var m := x % 0x1_0000_0000;
    if m >= 0x8000_0000 then m - 0x1_0000_0000 else m
  }

  predicate StrictlyIncreasing(s: seq<nat>) {
    forall i, j :: 0 <= i < j < |s| ==> s[i] < s[j]
  }

  /** The variables named by bits `i` to 5 of `mask`, ascending: the inner
      loop that fills `varBitmasks`. */
  function VarsFrom(mask: int, i: nat): (r: seq<nat>)
    requires i <= VarCount
    ensures StrictlyIncreasing(r)
    ensures forall x: nat :: x in r <==> i <= x < VarCount && Bit(mask, x)
    decreases VarCount - i
  {
    if i == VarCount then []
    else
      var rest := VarsFrom(mask, i + 1);
      if Bit(mask, i) then
        PrependIncreasing(i, rest);
        [i] + rest
      else rest
  }

  lemma PrependIncreasing(i: nat, rest: seq<nat>)
    requires StrictlyIncreasing(rest)
    requires forall x :: x in rest ==> x > i
    ensures StrictlyIncreasing([i] + rest)
  {
    forall a, b | 0 <= a < b < |[i] + rest| ensures ([i] + rest)[a] < ([i] + rest)[b] {
      assert ([i] + rest)[b] == rest[b - 1];
      assert rest[b - 1] in rest;
      if a > 0 { assert ([i] + rest)[a] == rest[a - 1]; }
    }
  }

  /** `varBitmasks[mask]`: the ascending list of the set bits of `mask`. */
  function VarsOfMask(mask: int): (r: seq<nat>)
    ensures StrictlyIncreasing(r)
    ensures forall x: nat :: x in r <==> x < VarCount && Bit(mask, x)
  {
    VarsFrom(mask, 0)
  }

  /** The three fields of a packed number, as the decoder reads them: the
      bytes of `ToInt32(num)` at bits 0, 8 and 16. */
  function ValueField(num: int): int { ToInt32(num) % 256 }
  function KindField(num: int): int { (ToInt32(num) / 256) % 256 }
  function MaskField(num: int): int { (ToInt32(num) / 256 / 256) % 256 }

  /** interpret_bombe_region.  visualizer.js leaves `kind` undefined for an index
      the kind table does not name and `vars` undefined for a mask of 64 or
      more; the model rejects such a slot when it is decoded. */
  function DecodeSlot(num: int): (r: Result<Slot>)
    ensures r.Ok? <==> KindAt(KindField(num)).Some? && MaskField(num) < 64
    ensures r.Ok? ==> 0 <= r.value.value < 256
    ensures r.Ok? ==> Some(r.value.kind) == KindAt(KindField(num))
    ensures r.Ok? ==> StrictlyIncreasing(r.value.vars)
    ensures r.Ok? ==> forall x: nat :: x in r.value.vars <==> x < VarCount && Bit(MaskField(num), x)
  {
    var value := ValueField(num);
    match KindAt(KindField(num))
    case None => Err("unknown region kind index")
    case Some(kind) =>
      if MaskField(num) >= 64 then Err("variable bitmask outside the table")
      else Ok(Slot(value, kind, VarsOfMask(MaskField(num))))
  }

  /** The slot fields only depend on the low 24 bits of the number, so the
      32-bit wrap of ToInt32 never changes a decoded slot. */
  lemma FieldsReadLow24Bits(num: int)
    ensures ValueField(num) == num % 256
    ensures KindField(num) == (num / 256) % 256
    ensures MaskField(num) == (num / 256 / 256) % 256
  {
    var t := ToInt32(num);
    var k := (num - t) / 0x1_0000_0000;
    assert num == t + 256 * (k * 0x100_0000);
    ShiftByte(t, k * 0x100_0000);
    assert num / 256 == t / 256 + 256 * (k * 0x1_0000);
    ShiftByte(t / 256, k * 0x1_0000);
    assert num / 256 / 256 == t / 256 / 256 + 256 * (k * 0x100);
    ShiftByte(t / 256 / 256, k * 0x100);
  }

  /** Adding a multiple of 256 leaves the low byte alone and shifts into
      the higher ones. */
  lemma ShiftByte(a: int, q: int)
    ensures (a + 256 * q) % 256 == a % 256
    ensures (a + 256 * q) / 256 == a / 256 + q
  {
    var r := a % 256;
    var d := a / 256;
    assert a == 256 * d + r;
    assert a + 256 * q == 256 * (d + q) + r;
  }

  // ---------------------------------------------------------------------
  // Packing, the inverse of decoding

  predicate VarsOk(vars: seq<nat>) {
    StrictlyIncreasing(vars) && forall x :: x in vars ==> x < VarCount
  }

  /** The bitmask with bit `j` set exactly when `i + j` is in `vars` (all of
      whose elements are at least `i`). */
  function MaskFrom(vars: seq<nat>, i: nat): nat
    requires StrictlyIncreasing(vars)
    requires forall x :: x in vars ==> x >= i
    decreases |vars|, if |vars| == 0 then 0 else vars[0] - i
  {
    if |vars| == 0 then 0
    else
      assert vars[0] in vars;
      if vars[0] == i then
        assert forall x :: x in vars[1..] ==> x > vars[0];
        1 + 2 * MaskFrom(vars[1..], i + 1)
      else
        assert forall x :: x in vars ==> x >= vars[0];
        2 * MaskFrom(vars, i + 1)
  }

  function MaskOfVars(vars: seq<nat>): nat
    requires StrictlyIncreasing(vars)
  {
    MaskFrom(vars, 0)
  }

  lemma {:induction false} MaskFromBits(vars: seq<nat>, i: nat, j: nat)
    requires StrictlyIncreasing(vars)
    requires forall x :: x in vars ==> x >= i
    ensures Bit(MaskFrom(vars, i), j) <==> i + j in vars
    decreases |vars|, if |vars| == 0 then 0 else vars[0] - i, j
  {
    var m := MaskFrom(vars, i);
    if |vars| == 0 {
      ZeroHasNoBits(j);
    } else if vars[0] == i {
      var m' := MaskFrom(vars[1..], i + 1);
      assert m == 1 + 2 * m';
      if j > 0 {
        assert m / 2 == m';
        MaskFromBits(vars[1..], i + 1, j - 1);
        assert vars == [vars[0]] + vars[1..];
      }
    } else {
      assert vars[0] in vars;
      assert forall x :: x in vars ==> x >= vars[0] > i;
      var m' := MaskFrom(vars, i + 1);
      assert m == 2 * m';
      if j == 0 {
        assert i !in vars by {
          forall k | 0 <= k < |vars| ensures vars[k] != i {
            if k > 0 { assert vars[0] < vars[k]; }
          }
        }
      } else {
        assert m / 2 == m';
        MaskFromBits(vars, i + 1, j - 1);
      }
    }
  }

  lemma {:induction false} ZeroHasNoBits(j: nat)
    ensures !Bit(0, j)
  {
    if j > 0 { ZeroHasNoBits(j - 1); }
  }

  lemma {:induction false} MaskFromBound(vars: seq<nat>, i: nat)
    requires StrictlyIncreasing(vars) && i <= VarCount
    requires forall x :: x in vars ==> i <= x < VarCount
    ensures MaskFrom(vars, i) < Pow2(VarCount - i)
    decreases |vars|, if |vars| == 0 then 0 else vars[0] - i
  {
    if |vars| > 0 {
      assert vars[0] in vars;
      if vars[0] == i {
        assert forall x :: x in vars[1..] ==> x in vars && x > i;
        MaskFromBound(vars[1..], i + 1);
      } else {
        MaskFromBound(vars, i + 1);
      }
    }
  }

  /** Two ascending lists with the same elements are equal. */
  lemma {:induction false} IncreasingSameElements(a: seq<nat>, b: seq<nat>)
    requires StrictlyIncreasing(a) && StrictlyIncreasing(b)
    requires forall x :: x in a <==> x in b
    ensures a == b
    decreases |a|
  {
    if |a| > 0 && |b| > 0 {
      assert a[0] in b && b[0] in a;
      HeadIsLeast(a);
      HeadIsLeast(b);
      assert a[0] == b[0];
      forall x ensures x in a[1..] <==> x in b[1..] {
        if x in a[1..] {
          var k :| 1 <= k < |a| && a[k] == x;
          assert a[0] < x && x in b;
          var l :| 0 <= l < |b| && b[l] == x;
          assert l != 0 && b[1..][l - 1] == x;
        }
        if x in b[1..] {
          var k :| 1 <= k < |b| && b[k] == x;
          assert b[0] < x && x in a;
          var l :| 0 <= l < |a| && a[l] == x;
          assert l != 0 && a[1..][l - 1] == x;
        }
      }
      IncreasingSameElements(a[1..], b[1..]);
      assert a == [a[0]] + a[1..];
      assert b == [b[0]] + b[1..];
    } else if |a| == 0 {
      NothingIn(b);
    } else {
      NothingIn(a);
    }
  }

  lemma NothingIn(s: seq<nat>)
    requires forall x :: x !in s
    ensures |s| == 0
  {
    if |s| > 0 {
      HeadIsElement(s);
      assert false;
    }
  }

  lemma HeadIsElement(s: seq<nat>)
    requires |s| > 0
    ensures s[0] in s
  {
  }

  lemma HeadIsLeast(a: seq<nat>)
    requires StrictlyIncreasing(a) && |a| > 0
    ensures forall x :: x in a ==> a[0] <= x
  {
    forall x | x in a ensures a[0] <= x {
      var k :| 0 <= k < |a| && a[k] == x;
      if k > 0 { assert a[0] < a[k]; }
    }
  }

  /** Decoding the variable list of a packed mask gives back the list. */
  lemma VarsOfMaskOfVars(vars: seq<nat>)
    requires VarsOk(vars)
    ensures MaskOfVars(vars) < 64
    ensures VarsOfMask(MaskOfVars(vars)) == vars
  {
    MaskFromBound(vars, 0);
    assert Pow2(VarCount) == 64;
    var m := MaskOfVars(vars);
    forall x ensures x in VarsOfMask(m) <==> x in vars {
      MaskFromBits(vars, 0, x);
    }
    IncreasingSameElements(VarsOfMask(m), vars);
  }

  /** Two numbers below 2^k with the same low k bits are equal. */
  lemma {:induction false} BitsDetermine(a: int, b: int, k: nat)
    requires 0 <= a < Pow2(k) && 0 <= b < Pow2(k)
    requires forall i :: 0 <= i < k ==> (Bit(a, i) <==> Bit(b, i))
    ensures a == b
  {
    if k > 0 {
      assert Bit(a, 0) <==> Bit(b, 0);
      forall i | 0 <= i < k - 1 ensures Bit(a / 2, i) <==> Bit(b / 2, i) {
        assert Bit(a, i + 1) <==> Bit(b, i + 1);
      }
      BitsDetermine(a / 2, b / 2, k - 1);
    }
  }

  /** Packing the variable list of a mask below 64 gives back the mask. */
  lemma MaskOfVarsOfMask(mask: int)
    requires 0 <= mask < 64
    ensures MaskOfVars(VarsOfMask(mask)) == mask
  {
    var vars := VarsOfMask(mask);
    MaskFromBound(vars, 0);
    assert Pow2(VarCount) == 64;
    forall i | 0 <= i < VarCount ensures Bit(MaskOfVars(vars), i) <==> Bit(mask, i) {
      MaskFromBits(vars, 0, i);
    }
    BitsDetermine(MaskOfVars(vars), mask, VarCount);
  }

  predicate Packable(s: Slot) {
    0 <= s.value < 256 && VarsOk(s.vars)
  }

  /** Packs a slot the way the rule table stores it. */
  function EncodeSlot(s: Slot): (num: nat)
    requires Packable(s)
    ensures num < 0x100_0000
  {
    VarsOfMaskOfVars(s.vars);
    s.value + 256 * IndexOfKind(s.kind) + 65536 * MaskOfVars(s.vars)
  }

  /** Packing then decoding recovers the slot. */
  lemma DecodeEncode(s: Slot)
    requires Packable(s)
    ensures DecodeSlot(EncodeSlot(s)) == Ok(s)
  {
    var m := MaskOfVars(s.vars);
    EncodedFields(s);
    VarsOfMaskOfVars(s.vars);
    DecodeFields(EncodeSlot(s), s.value, s.kind, m);
    assert Slot(s.value, s.kind, VarsOfMask(m)) == s;
  }

  /** The field readers find the slot's value, kind position and mask in
      its packed number. */
  lemma EncodedFields(s: Slot)
    requires Packable(s)
    ensures ValueField(EncodeSlot(s)) == s.value
    ensures KindField(EncodeSlot(s)) == IndexOfKind(s.kind)
    ensures MaskField(EncodeSlot(s)) == MaskOfVars(s.vars)
  {
    var k := IndexOfKind(s.kind);
    var m := MaskOfVars(s.vars);
    VarsOfMaskOfVars(s.vars);
    PackedFields(EncodeSlot(s), s.value, k, m);
  }

  /** A number whose three fields read `v`, the position of `kind`, and a
      mask below 64 decodes to the slot they describe. */
  lemma DecodeFields(num: int, v: int, kind: RegionKind, m: int)
    requires ValueField(num) == v && KindField(num) == IndexOfKind(kind) && MaskField(num) == m && 0 <= m < 64
    ensures DecodeSlot(num) == Ok(Slot(v, kind, VarsOfMask(m)))
  {
  }

  /** The three bytes of a packed number are read back by the field readers. */
  lemma PackedFields(num: int, v: int, k: int, m: int)
    requires 0 <= v < 256 && 0 <= k < 256 && 0 <= m < 256
    requires num == v + 256 * k + 65536 * m
    ensures ValueField(num) == v && KindField(num) == k && MaskField(num) == m
  {
    var q := k + 256 * m;
    FieldsReadLow24Bits(num);
    assert num == v + 256 * q;
    ShiftByte(v, q);
    assert num % 256 == v && num / 256 == q;
    ShiftByte(k, m);
    assert q % 256 == k && q / 256 == m;
  }

  /** Decoding then packing recovers any number below 2^24 that decodes. */
  lemma EncodeDecode(num: int)
    requires 0 <= num < 0x100_0000
    requires DecodeSlot(num).Ok?
    ensures Packable(DecodeSlot(num).value)
    ensures EncodeSlot(DecodeSlot(num).value) == num
  {
    var s := DecodeSlot(num).value;
    var v, q := num % 256, num / 256;
    var k, m := q % 256, q / 256;
    assert num == v + 256 * q && q == k + 256 * m;
    assert num == v + 256 * k + 65536 * m;
    PackedFields(num, v, k, m);
    MaskOfVarsOfMask(m);
    KindTableInjective(k);
    assert IndexOfKind(s.kind) == k;
    assert MaskOfVars(s.vars) == m;
  }
}

=== FILE: square_counts.dfy ===
/** The square-count filter of applyRegionRules: the cells of a proposal's
    regions are split into buckets by which regions hold them
    (selectNodes), the rule's variables are settled, and every bucket's
    size is checked against its square-count pattern. */
module SquareCounts {
  import opened Wrappers
  import opened SeqUtil
  import opened Kinds
  import opened Slots
  import opened Assignments
  import opened EngineState
  import opened RuleTable

  // ---------------------------------------------------------------------
  // Buckets (selectNodes)

  /** `new Set(r.nodes)` for each matched region. */
  function NodeSets(arena: seq<Region>, regions: seq<Handle>): (r: seq<seq<CellId>>)
    requires forall k :: 0 <= k < |regions| ==> regions[k] < |arena|
    ensures |r| == |regions|
    ensures forall i :: 0 <= i < |r| ==> Distinct(r[i]) && forall n :: n in r[i] <==> n in arena[regions[i]].nodes
  {
    seq(|regions|, i requires 0 <= i < |regions| => Dedup(arena[regions[i]].nodes))
  }

  /** `reduce((a, b) => a.union(b))` over a non-empty list of sets. */
  function UnionAll(sets: seq<seq<CellId>>): (r: seq<CellId>)
    requires |sets| > 0 && forall i :: 0 <= i < |sets| ==> Distinct(sets[i])
    ensures Distinct(r)
    ensures forall n :: n in r <==> exists i :: 0 <= i < |sets| && n in sets[i]
  {
    if |sets| == 1 then sets[0]
    else
      var init := sets[..|sets| - 1];
      assert forall i :: 0 <= i < |init| ==> init[i] == sets[i];
      Union(UnionAll(init), sets[|sets| - 1])
  }

  /** The membership bitmask of `n`: bit `i` is set when the `i`-th set
      holds `n`. */
  function MaskOf(sets: seq<seq<CellId>>, n: CellId): (m: nat)
    ensures m < Pow2(|sets|)
  {
    if |sets| == 0 then 0
    else MaskOf(sets[..|sets| - 1], n) + (if n in sets[|sets| - 1] then Pow2(|sets| - 1) else 0)
  }

  /** Two cells get the same bitmask exactly when every set holds both or
      neither. */
  lemma {:induction false} MaskDetermines(sets: seq<seq<CellId>>, a: CellId, b: CellId)
    ensures MaskOf(sets, a) == MaskOf(sets, b) <==> forall i :: 0 <= i < |sets| ==> (a in sets[i] <==> b in sets[i])
  {
    if |sets| > 0 {
      var init := sets[..|sets| - 1];
      var last := |sets| - 1;
      MaskDetermines(init, a, b);
      assert forall i :: 0 <= i < last ==> init[i] == sets[i];
      assert MaskOf(init, a) < Pow2(last) && MaskOf(init, b) < Pow2(last);
    }
  }

  /** A cell some set holds has a non-zero bitmask. */
  lemma {:induction false} MaskPositive(sets: seq<seq<CellId>>, n: CellId, i: nat)
    requires i < |sets| && n in sets[i]
    ensures MaskOf(sets, n) > 0
  {
    if i < |sets| - 1 {
      assert sets[..|sets| - 1][i] == sets[i];
      MaskPositive(sets[..|sets| - 1], n, i);
    }
  }

  /** The cells of `nodes` whose bitmask is `m`, in order. */
  function WithMask(nodes: seq<CellId>, sets: seq<seq<CellId>>, m: int): (r: seq<CellId>)
    ensures forall n :: n in r <==> n in nodes && MaskOf(sets, n) == m
  {
    if |nodes| == 0 then []
    else (if MaskOf(sets, nodes[0]) == m then [nodes[0]] else []) + WithMask(nodes[1..], sets, m)
  }

  lemma {:induction false} WithMaskDistinct(nodes: seq<CellId>, sets: seq<seq<CellId>>, m: int)
    requires Distinct(nodes)
    ensures Distinct(WithMask(nodes, sets, m))
  {
    if |nodes| > 0 {
      var rest := WithMask(nodes[1..], sets, m);
      assert Distinct(nodes[1..]) by {
        forall i, j | 0 <= i < |nodes[1..]| && 0 <= j < |nodes[1..]| && i != j ensures nodes[1..][i] != nodes[1..][j] {
          assert nodes[1..][i] == nodes[i + 1] && nodes[1..][j] == nodes[j + 1];
        }
      }
      WithMaskDistinct(nodes[1..], sets, m);
      assert nodes[0] !in nodes[1..] by {
        forall k | 0 <= k < |nodes[1..]| ensures nodes[1..][k] != nodes[0] {
          assert nodes[1..][k] == nodes[k + 1];
        }
      }
      AppendDistinct([nodes[0]], rest);
    }
  }

  /** Every cell of `nodes` has a bitmask below `count`. */
  predicate MasksBelow(nodes: seq<CellId>, sets: seq<seq<CellId>>, count: int) {
    forall n :: n in nodes ==> MaskOf(sets, n) < count
  }

  /** Pushes each cell onto the bucket its bitmask indexes; a bitmask past
      the last bucket reads an undefined bucket and raises. */
  function Distribute(nodes: seq<CellId>, sets: seq<seq<CellId>>, buckets: seq<seq<CellId>>): (r: Result<seq<seq<CellId>>>)
    ensures r.Ok? <==> MasksBelow(nodes, sets, |buckets|)
    ensures r.Ok? ==> |r.value| == |buckets|
  {
    if |nodes| == 0 then Ok(buckets)
    else
      var m := MaskOf(sets, nodes[0]);
      assert forall n :: n in nodes <==> n == nodes[0] || n in nodes[1..];
      if m >= |buckets| then
        assert nodes[0] in nodes;
        Err("Cannot read properties of undefined (reading 'push')")
      else Distribute(nodes[1..], sets, buckets[m := buckets[m] + [nodes[0]]])
  }

  /** Bucket `m` ends up with the cells of bitmask `m` appended, in order. */
  lemma {:induction false} DistributeBuckets(nodes: seq<CellId>, sets: seq<seq<CellId>>, buckets: seq<seq<CellId>>)
    requires Distribute(nodes, sets, buckets).Ok?
    ensures forall m :: 0 <= m < |buckets| ==>
      Distribute(nodes, sets, buckets).value[m] == buckets[m] + WithMask(nodes, sets, m)
  {
    if |nodes| > 0 {
      var m := MaskOf(sets, nodes[0]);
      var next := buckets[m := buckets[m] + [nodes[0]]];
      DistributeBuckets(nodes[1..], sets, next);
      var r := Distribute(nodes, sets, buckets).value;
      assert r == Distribute(nodes[1..], sets, next).value;
      forall k | 0 <= k < |buckets| ensures r[k] == buckets[k] + WithMask(nodes, sets, k) {
        BucketStep(nodes, sets, buckets, next, r[k], k);
      }
    }
  }

  /** One step of the distribution, seen from bucket `k`: it gains the
      head cell exactly when `k` is the head's bitmask. */
  lemma BucketStep(nodes: seq<CellId>, sets: seq<seq<CellId>>, buckets: seq<seq<CellId>>, next: seq<seq<CellId>>, bucket: seq<CellId>, k: nat)
    requires |nodes| > 0 && MaskOf(sets, nodes[0]) < |buckets| && k < |buckets|
    requires next == buckets[MaskOf(sets, nodes[0]) := buckets[MaskOf(sets, nodes[0])] + [nodes[0]]]
    requires bucket == next[k] + WithMask(nodes[1..], sets, k)
    ensures bucket == buckets[k] + WithMask(nodes, sets, k)
  {
    var m := MaskOf(sets, nodes[0]);
    if k == m {
      BucketHit(nodes, sets, buckets[k], WithMask(nodes[1..], sets, k), k);
    } else {
      BucketMiss(nodes, sets, k);
    }
  }

  lemma BucketMiss(nodes: seq<CellId>, sets: seq<seq<CellId>>, k: nat)
    requires |nodes| > 0 && MaskOf(sets, nodes[0]) != k
    ensures WithMask(nodes, sets, k) == WithMask(nodes[1..], sets, k)
  {
    assert WithMask(nodes, sets, k) == [] + WithMask(nodes[1..], sets, k);
  }

  lemma BucketHit(nodes: seq<CellId>, sets: seq<seq<CellId>>, old_: seq<CellId>, tail: seq<CellId>, k: nat)
    requires |nodes| > 0 && MaskOf(sets, nodes[0]) == k && tail == WithMask(nodes[1..], sets, k)
    ensures (old_ + [nodes[0]]) + tail == old_ + WithMask(nodes, sets, k)
  {
    assert WithMask(nodes, sets, k) == [nodes[0]] + tail;
  }

  /** `count` empty buckets. */
  function Empties(count: nat): (r: seq<seq<CellId>>)
    ensures |r| == count && forall m :: 0 <= m < count ==> r[m] == []
  {
    seq(count, _ => [])
  }

  /** selectNodes: one bucket per square count.  A proposal without regions
      makes `reduce` raise. */
  function SelectNodes(arena: seq<Region>, regions: seq<Handle>, count: nat): (r: Result<seq<seq<CellId>>>)
    requires forall k :: 0 <= k < |regions| ==> regions[k] < |arena|
    ensures |regions| == 0 ==> r.Err?
    ensures |regions| > 0 ==>
      var sets := NodeSets(arena, regions);
      && (r.Ok? <==> MasksBelow(UnionAll(sets), sets, count))
      && (r.Ok? ==> |r.value| == count)
  {
    if |regions| == 0 then Err("Reduce of empty array with no initial value")
    else
      var sets := NodeSets(arena, regions);
      var empties := Empties(count);
      assert |empties| == count;
      Distribute(UnionAll(sets), sets, empties)
  }

  /** Bucket `m` holds the cells of the matched regions whose bitmask is
      `m`, in the order the union lists them. */
  lemma SelectNodesBuckets(arena: seq<Region>, regions: seq<Handle>, count: nat)
    requires forall k :: 0 <= k < |regions| ==> regions[k] < |arena|
    requires SelectNodes(arena, regions, count).Ok?
    ensures forall m :: 0 <= m < count ==>
      SelectNodes(arena, regions, count).value[m] == WithMask(UnionAll(NodeSets(arena, regions)), NodeSets(arena, regions), m)
  {
    var sets := NodeSets(arena, regions);
    DistributeBuckets(UnionAll(sets), sets, Empties(count));
    forall m | 0 <= m < count ensures Empties(count)[m] + WithMask(UnionAll(sets), sets, m) == WithMask(UnionAll(sets), sets, m) {
      assert Empties(count)[m] == [];
    }
  }

  /** A cell is in bucket `m` exactly when some matched region holds it and
      `m` is its bitmask; no bucket repeats a cell. */
  lemma BucketMembers(arena: seq<Region>, regions: seq<Handle>, count: nat, m: nat, n: CellId)
    requires forall k :: 0 <= k < |regions| ==> regions[k] < |arena|
    requires SelectNodes(arena, regions, count).Ok? && m < count
    ensures var buckets := SelectNodes(arena, regions, count).value;
      && (n in buckets[m] <==> (exists i :: 0 <= i < |regions| && n in arena[regions[i]].nodes)
                               && MaskOf(NodeSets(arena, regions), n) == m)
      && Distinct(buckets[m])
  {
    var sets := NodeSets(arena, regions);
    SelectNodesBuckets(arena, regions, count);
    WithMaskDistinct(UnionAll(sets), sets, m);
    if n in UnionAll(sets) {
      var i :| 0 <= i < |sets| && n in sets[i];
    }
    if exists i :: 0 <= i < |regions| && n in arena[regions[i]].nodes {
      var i :| 0 <= i < |regions| && n in arena[regions[i]].nodes;
      assert n in sets[i];
    }
  }

  /** No cell has the empty bitmask, so bucket 0 stays empty. */
  lemma BucketZeroEmpty(arena: seq<Region>, regions: seq<Handle>, count: nat)
    requires forall k :: 0 <= k < |regions| ==> regions[k] < |arena|
    requires SelectNodes(arena, regions, count).Ok? && count > 0
    ensures SelectNodes(arena, regions, count).value[0] == []
  {
    var buckets := SelectNodes(arena, regions, count).value;
    var sets := NodeSets(arena, regions);
    SelectNodesBuckets(arena, regions, count);
    if buckets[0] != [] {
      var n := buckets[0][0];
      assert n in UnionAll(sets) && MaskOf(sets, n) == 0;
      var i :| 0 <= i < |sets| && n in sets[i];
      MaskPositive(sets, n, i);
    }
  }

  /** Two cells of the matched regions share a bucket exactly when the same
      matched regions hold them. */
  lemma SameBucket(arena: seq<Region>, regions: seq<Handle>, count: nat, m: nat, a: CellId, b: CellId)
    requires forall k :: 0 <= k < |regions| ==> regions[k] < |arena|
    requires SelectNodes(arena, regions, count).Ok? && m < count
    requires a in SelectNodes(arena, regions, count).value[m]
    ensures b in SelectNodes(arena, regions, count).value[m] <==>
      && (exists i :: 0 <= i < |regions| && b in arena[regions[i]].nodes)
      && forall i :: 0 <= i < |regions| ==> (a in arena[regions[i]].nodes <==> b in arena[regions[i]].nodes)
  {
    var sets := NodeSets(arena, regions);
    BucketMembers(arena, regions, count, m, a);
    BucketMembers(arena, regions, count, m, b);
    MaskDetermines(sets, a, b);
    assert forall i :: 0 <= i < |regions| ==> (a in sets[i] <==> a in arena[regions[i]].nodes);
    assert forall i :: 0 <= i < |regions| ==> (b in sets[i] <==> b in arena[regions[i]].nodes);
  }

  /** Every cell of the matched regions lands in exactly one bucket. */
  lemma BucketsCover(arena: seq<Region>, regions: seq<Handle>, count: nat, n: CellId, i: nat)
    requires forall k :: 0 <= k < |regions| ==> regions[k] < |arena|
    requires SelectNodes(arena, regions, count).Ok?
    requires i < |regions| && n in arena[regions[i]].nodes
    ensures var buckets := SelectNodes(arena, regions, count).value;
      exists m :: 0 <= m < count && n in buckets[m] && forall m' :: 0 <= m' < count && n in buckets[m'] ==> m' == m
  {
    var sets := NodeSets(arena, regions);
    assert n in sets[i];
    var m := MaskOf(sets, n);
    BucketMembers(arena, regions, count, m, n);
    forall m' | 0 <= m' < count && n in SelectNodes(arena, regions, count).value[m'] ensures m' == m {
      BucketMembers(arena, regions, count, m', n);
    }
  }

  // ---------------------------------------------------------------------
  // Settling the variables

  /** The values a JavaScript Set holds here: numbers (the rule's
      variables) and strings (the keys `Object.keys` returns). */
  datatype JsKey = Num(n: int) | Str(s: string)

  function NumberSet(xs: set<nat>): set<JsKey> {
    set x | x in xs :: Num(x)
  }

  function KeyStrings(a: Assignment): set<JsKey> {
    set k | k in a :: Str(NatToString(k))
  }

  /** `isSubsetOf` compares with SameValueZero, under which no number equals
      a string: the set of variables is a subset of the key strings only
      when it is empty. */
  lemma SubsetOfKeysOnlyWhenEmpty(xs: set<nat>, a: Assignment)
    ensures NumberSet(xs) <= KeyStrings(a) <==> xs == {}
  {
    if xs != {} {
      var x :| x in xs;
      assert Num(x) in NumberSet(xs);
    }
  }

  /** The loop that fixes variables through the exact square counts with
      variables, from position `i`: the bindings are narrowed to those that
      make each such count match its bucket's size; None when none is
      left. */
  function FixVars(counts: seq<Slot>, buckets: seq<seq<CellId>>, i: nat, pv: seq<Assignment>): (r: Option<seq<Assignment>>)
    requires |buckets| == |counts|
    ensures r.Some? && |pv| > 0 ==> |r.value| > 0
    decreases |counts| - i
  {
    if i >= |counts| then Some(pv)
    else
      var sc := counts[i];
      if |sc.vars| == 0 || sc.kind != Exact then FixVars(counts, buckets, i + 1, pv)
      else
        var nv := Enumerate(|buckets[i]|, sc, Some(pv));
        if |nv| == 0 then None else FixVars(counts, buckets, i + 1, nv)
  }

  /** The condition under which visualizer.js runs the fixing loop, as
      written: several bindings remain, or the rule's variables are a
      subset of the key strings of the first binding. */
  predicate FixAsWritten(vars: set<nat>, pv: seq<Assignment>)
    requires |pv| > 0
  {
    |pv| > 1 || NumberSet(vars) <= KeyStrings(pv[0])
  }

  /** The condition the fixing loop is meant for: several bindings remain,
      or some variable of the rule is still unbound. */
  predicate FixIntended(vars: set<nat>, pv: seq<Assignment>)
    requires |pv| > 0
  {
    |pv| > 1 || !(vars <= pv[0].Keys)
  }

  /** The bindings a proposal is checked under.  None: the proposal is
      rejected.  Some(None): it has no bindings (`proposed.vars` stays
      undefined).  Some(Some(v)): the first remaining binding.  A rule whose
      square counts name variables starts from the single empty binding
      when the region patterns bound none.  `asWritten` selects visualizer.js's
      condition for running the fixing loop instead of the intended one. */
  function Settle(rule: Rule, buckets: seq<seq<CellId>>, pv: Option<seq<Assignment>>, asWritten: bool): (r: Option<Option<Assignment>>)
    requires |buckets| == |rule.squareCounts|
    ensures pv.None? && rule.squareCountVars == {} ==> r == Some(None)
  {
    var pv1 := if |rule.squareCountVars| > 0 && pv.None? then Some([map[]]) else pv;
    if pv1.None? then Some(None)
    else if |pv1.value| == 0 then None
    else
      var fix := if asWritten then FixAsWritten(rule.squareCountVars, pv1.value)
                 else FixIntended(rule.squareCountVars, pv1.value);
      if !fix then Some(Some(pv1.value[0]))
      else
        match FixVars(rule.squareCounts, buckets, 0, pv1.value)
        case None => None
        case Some(pv2) => Some(Some(pv2[0]))
  }

  /** The fixing loop only narrows and extends: each result extends some
      input binding, and binds every variable of each exact square count it
      passed. */
  lemma {:induction false} FixVarsBinds(counts: seq<Slot>, buckets: seq<seq<CellId>>, i: nat, pv: seq<Assignment>)
    requires |buckets| == |counts|
    requires forall k :: 0 <= k < |counts| ==> VarsOk(counts[k].vars)
    requires FixVars(counts, buckets, i, pv).Some?
    ensures forall b :: b in FixVars(counts, buckets, i, pv).value ==>
      && (exists e :: e in pv && e.Keys <= b.Keys)
      && (forall k, x: nat :: i <= k < |counts| && counts[k].kind == Exact && x in counts[k].vars ==> x in b)
    decreases |counts| - i
  {
    if i < |counts| {
      var sc := counts[i];
      if |sc.vars| == 0 || sc.kind != Exact {
        FixVarsBinds(counts, buckets, i + 1, pv);
      } else {
        var nv := Enumerate(|buckets[i]|, sc, Some(pv));
        FixVarsBinds(counts, buckets, i + 1, nv);
        IncreasingDistinct(sc.vars);
        forall b | b in FixVars(counts, buckets, i, pv).value
          ensures (exists e :: e in pv && e.Keys <= b.Keys)
          ensures forall x :: x in sc.vars ==> x in b
        {
          var c :| c in nv && c.Keys <= b.Keys;
          EnumerateExact(|buckets[i]|, sc, Some(pv), c);
          var e :| e in pv && Extends(c, e, Unbound(sc.vars, e)) && sc.value + SumOver(sc.vars, c) == |buckets[i]|;
          assert e.Keys <= b.Keys;
        }
      }
    }
  }

  /** With the intended condition, the bindings a proposal is checked under
      give a value to every variable of every exact square count: an exact
      count is never compared with NaN. */
  lemma SettleBindsExactCounts(rule: Rule, buckets: seq<seq<CellId>>, pv: Option<seq<Assignment>>)
    requires RuleOk(rule) && |buckets| == |rule.squareCounts|
    requires Settle(rule, buckets, pv, false).Some?
    ensures var v := Settle(rule, buckets, pv, false).value;
      forall k :: 0 <= k < |rule.squareCounts| && rule.squareCounts[k].kind == Exact ==>
        forall x :: x in rule.squareCounts[k].vars ==> v.Some? && x in v.value
  {
    var v := Settle(rule, buckets, pv, false).value;
    forall k | 0 <= k < |rule.squareCounts| && rule.squareCounts[k].kind == Exact
      ensures forall x :: x in rule.squareCounts[k].vars ==> v.Some? && x in v.value
    {
      if |rule.squareCounts[k].vars| > 0 {
        var pv1 := if |rule.squareCountVars| > 0 && pv.None? then Some([map[]]) else pv;
        assert rule.squareCounts[k].vars[0] in rule.squareCountVars;
        assert pv1.Some? && |pv1.value| > 0;
        if FixIntended(rule.squareCountVars, pv1.value) {
          FixVarsBinds(rule.squareCounts, buckets, 0, pv1.value);
          var pv2 := FixVars(rule.squareCounts, buckets, 0, pv1.value).value;
          assert v == Some(pv2[0]);
          assert pv2[0] in pv2;
        } else {
          assert v == Some(pv1.value[0]);
          forall x | x in rule.squareCounts[k].vars ensures x in v.value {
            assert x in rule.squareCountVars;
          }
        }
      }
    }
  }

  // ---------------------------------------------------------------------
  // Checking the counts

  /** The value a square count stands for under the settled bindings: None
      when one of its variables is unbound (visualizer.js computes NaN); an
      error when it has variables but the proposal has no bindings at all
      (visualizer.js reads a property of undefined). */
  function PatternValue(sc: Slot, vars: Option<Assignment>): (r: Result<Option<int>>)
    ensures r.Err? <==> |sc.vars| > 0 && vars.None?
    ensures r.Ok? && r.value.Some? ==> forall x :: x in sc.vars ==> vars.Some? && x in vars.value
    ensures r.Ok? && r.value.None? ==> exists x :: x in sc.vars && x !in vars.value
  {
    if |sc.vars| == 0 then Ok(Some(sc.value))
    else if vars.None? then Err("Cannot read properties of undefined")
    else if forall x :: x in sc.vars ==> x in vars.value then Ok(Some(sc.value + SumOver(sc.vars, vars.value)))
    else Ok(None)
  }

  /** A bucket of `n` cells satisfies the square count `sc`: the count is a
      constraint kind and admits `n` for its value; a NaN value is admitted
      only by the kinds whose test a NaN comparison cannot fail. */
  predicate CountHolds(sc: Slot, n: int, vars: Option<Assignment>) {
    && PatternValue(sc, vars).Ok?
    && !IsAction(sc.kind)
    && match PatternValue(sc, vars).value
       case Some(v) => Admits(sc.kind, v, n)
       case None => sc.kind.Wild? || sc.kind.Not? || sc.kind.AtMost? || sc.kind.AtLeast?
  }

  /** The checking loop from position `i`: stops with false at the first
      count that fails; raises at a square count of an action kind. */
  function CheckCounts(counts: seq<Slot>, buckets: seq<seq<CellId>>, vars: Option<Assignment>, i: nat): (r: Result<bool>)
    requires |buckets| == |counts|
    ensures r == Ok(true) <==> forall k :: i <= k < |counts| ==> CountHolds(counts[k], |buckets[k]|, vars)
    decreases |counts| - i
  {
    if i >= |counts| then Ok(true)
    else
      var sv :- PatternValue(counts[i], vars);
      var ok :- CheckSquareCount(counts[i].kind, |buckets[i]|, sv);
      if !ok then Ok(false)
      else
        var rest := CheckCounts(counts, buckets, vars, i + 1);
        assert rest == Ok(true) ==> forall k :: i <= k < |counts| ==> CountHolds(counts[k], |buckets[k]|, vars) by {
          if rest == Ok(true) {
            forall k | i <= k < |counts| ensures CountHolds(counts[k], |buckets[k]|, vars) {
              if k > i { assert i + 1 <= k; }
            }
          }
        }
        rest
  }

  /** A proposal that passed the filter: its regions, their buckets and the
      bindings it was checked under. */
  datatype Accepted = Accepted(regions: seq<Handle>, buckets: seq<seq<CellId>>, vars: Option<Assignment>)

  /** The filter callback for one proposal: Ok(None) rejects it. */
  function CheckProposal(rule: Rule, arena: seq<Region>, regions: seq<Handle>, pv: Option<seq<Assignment>>, asWritten: bool): (r: Result<Option<Accepted>>)
    requires forall k :: 0 <= k < |regions| ==> regions[k] < |arena|
    ensures |regions| == 0 ==> r.Err?
    ensures r.Ok? && r.value.Some? ==>
      var a := r.value.value;
      && a.regions == regions
      && SelectNodes(arena, regions, |rule.squareCounts|) == Ok(a.buckets)
      && Settle(rule, a.buckets, pv, asWritten) == Some(a.vars)
      && forall k :: 0 <= k < |rule.squareCounts| ==> CountHolds(rule.squareCounts[k], |a.buckets[k]|, a.vars)
  {
    var buckets :- SelectNodes(arena, regions, |rule.squareCounts|);
    match Settle(rule, buckets, pv, asWritten)
    case None => Ok(None)
    case Some(vars) =>
      var ok :- CheckCounts(rule.squareCounts, buckets, vars, 0);
      Ok(if ok then Some(Accepted(regions, buckets, vars)) else None)
  }

  /** The rule of the counterexample below: one wildcard region pattern,
      a wildcard square count for bucket 0 and an exact square count
      "`a` cells" for bucket 1. */
  function ExampleRule(): Rule {
    Rule([Slot(0, Wild, [])], [Slot(0, Wild, []), Slot(0, Exact, [0])], Slot(0, MarkCell, []), 2, 3, {0})
  }

  function ExampleArena(): seq<Region> {
    [Region(Some(0), 1, Exact, [7], true, true, 3)]
  }

  lemma ExampleBuckets()
    ensures SelectNodes(ExampleArena(), [0], 2) == Ok([[], [7]])
  {
    var sets := NodeSets(ExampleArena(), [0]);
    assert DedupAfter([7], []) == [7] by {
      assert DedupAfter([7][1..], [] + [7]) == [];
    }
    assert sets == [[7]];
    assert UnionAll(sets) == [7];
    assert MaskOf(sets, 7) == 1;
    assert Empties(2) == [[], []];
    assert [7][1..] == [];
    assert Distribute([], sets, [[], [7]]) == Ok([[], [7]]);
    var next := Empties(2)[1 := Empties(2)[1] + [7]];
    assert |next| == 2 && next[0] == [] && next[1] == [7];
    assert next == [[], [7]];
    assert Distribute([7], sets, Empties(2)) == Ok([[], [7]]);
  }

  lemma ExampleEnumeration()
    ensures Enumerate(1, Slot(0, Exact, [0]), Some([map[]])) == [map[0 := 1]]
  {
    var sc := Slot(0, Exact, [0]);
    assert WithAllSumsTo(map[0 := 1], [], 0) == [map[0 := 1]];
    assert Loop(map[], [0], 1, 2) == [];
    assert Loop(map[], [0], 1, 1) == [map[0 := 1]];
    assert WithAllSumsTo(map[0 := 0], [], 1) == [];
    assert Loop(map[], [0], 1, 0) == [map[0 := 1]];
    assert Unbound([0], map[]) == [0];
    assert ForOne(1, sc, map[]) == [map[0 := 1]];
    assert EnumerateFrom(1, sc, [map[]][1..]) == [];
  }

  lemma ExampleSettle()
    ensures Settle(ExampleRule(), [[], [7]], None, true) == Some(Some(map[]))
    ensures Settle(ExampleRule(), [[], [7]], None, false) == Some(Some(map[0 := 1]))
  {
    var rule := ExampleRule();
    var buckets := [[], [7]];
    SubsetOfKeysOnlyWhenEmpty({0}, map[]);
    assert !FixAsWritten({0}, [map[]]);
    assert FixIntended({0}, [map[]]);
    ExampleEnumeration();
    assert FixVars(rule.squareCounts, buckets, 2, [map[0 := 1]]) == Some([map[0 := 1]]);
    assert FixVars(rule.squareCounts, buckets, 1, [map[]]) == Some([map[0 := 1]]);
    assert FixVars(rule.squareCounts, buckets, 0, [map[]]) == Some([map[0 := 1]]);
  }

  lemma ExampleCounts()
    ensures CheckCounts(ExampleRule().squareCounts, [[], [7]], Some(map[]), 0) == Ok(false)
    ensures CheckCounts(ExampleRule().squareCounts, [[], [7]], Some(map[0 := 1]), 0) == Ok(true)
  {
    var counts := ExampleRule().squareCounts;
    var buckets := [[], [7]];
    var sc := Slot(0, Exact, [0]);
    assert PatternValue(sc, Some(map[])) == Ok(None);
    assert CheckCounts(counts, buckets, Some(map[]), 1) == Ok(false);
    assert PatternValue(sc, Some(map[0 := 1])) == Ok(Some(1));
    assert CheckCounts(counts, buckets, Some(map[0 := 1]), 2) == Ok(true);
    assert CheckCounts(counts, buckets, Some(map[0 := 1]), 1) == Ok(true);
  }

  /** The counterexample to the condition of visualizer.js: bucket 1 holds the
      region's single cell.  As written, the fixing loop is skipped (one
      binding, and the numeric variable 0 is never among the string keys),
      variable 0 stays unbound, the exact count is compared with NaN and
      the proposal is rejected.  With the intended condition the loop binds
      `a` to 1 and the proposal is accepted. */
  lemma AsWrittenLeavesCountUnbound()
    ensures CheckProposal(ExampleRule(), ExampleArena(), [0], None, true) == Ok(None)
    ensures CheckProposal(ExampleRule(), ExampleArena(), [0], None, false) == Ok(Some(Accepted([0], [[], [7]], Some(map[0 := 1]))))
  {
    ExampleBuckets();
    ExampleSettle();
    ExampleCounts();
  }
}

=== FILE: workqueue.dfy ===
/** The engine's work queue: a list of FIFO sub-queues, one per priority,
    kept in strictly descending priority order (enqueRegion / dequeRegion). */
module WorkQueue {
  import opened Wrappers

  datatype SubQueue<T> = SubQueue(priority: int, items: seq<T>)

  type Queue<T> = seq<SubQueue<T>>

  /** The shape both operations keep: priorities strictly descending (hence
      distinct) and no sub-queue empty. */
  predicate Valid<T>(q: Queue<T>) {
    && (forall i, j :: 0 <= i < j < |q| ==> q[i].priority > q[j].priority)
    && (forall i :: 0 <= i < |q| ==> |q[i].items| > 0)
  }

  /** The items waiting at priority `p`, oldest first: those of the first
      sub-queue with that priority, as `regionQueue.find` locates it. */
  function ItemsAt<T>(q: Queue<T>, p: int): seq<T> {
    if |q| == 0 then []
    else if q[0].priority == p then q[0].items
    else ItemsAt(q[1..], p)
  }

  /** The number of waiting items. */
  function Size<T>(q: Queue<T>): nat {
    if |q| == 0 then 0 else |q[0].items| + Size(q[1..])
  }

  /** Appends `x` to the sub-queue of priority `p`, or, when there is none,
      adds a sub-queue holding just `x` at the place that keeps the list
      sorted by descending priority.  In visualizer.js the new sub-queue is
      pushed at the end and the list re-sorted; with distinct priorities the
      sorted order is unique, so both give this list. */
  function Push<T>(q: Queue<T>, p: int, x: T): (r: Queue<T>)
    ensures Size(r) == Size(q) + 1
    ensures |q| > 0 ==> |r| > 0 && (r[0].priority == q[0].priority || r[0].priority == p)
  {
    if |q| == 0 then [SubQueue(p, [x])]
    else if q[0].priority == p then [SubQueue(p, q[0].items + [x])] + q[1..]
    else if q[0].priority < p && !HasPriority(q, p) then [SubQueue(p, [x])] + q
    else
      var rest := Push(q[1..], p, x);
      [q[0]] + rest
  }

  predicate HasPriority<T>(q: Queue<T>, p: int) {
    exists i :: 0 <= i < |q| && q[i].priority == p
  }

  /** Pushing keeps the sub-queues sorted, distinct and non-empty. */
  lemma {:induction false} PushKeepsValid<T>(q: Queue<T>, p: int, x: T)
    requires Valid(q)
    ensures Valid(Push(q, p, x))
  {
    if |q| == 0 {
    } else if q[0].priority == p {
      ValidTail(q);
      ConsValid(SubQueue(p, q[0].items + [x]), q[1..]);
    } else if q[0].priority < p && !HasPriority(q, p) {
      ConsValid(SubQueue(p, [x]), q);
    } else {
      ValidTail(q);
      PushKeepsValid(q[1..], p, x);
      var rest := Push(q[1..], p, x);
      assert p < q[0].priority by {
        if HasPriority(q, p) {
          var i :| 0 <= i < |q| && q[i].priority == p;
          assert q[0].priority > q[i].priority;
        }
      }
      assert |q| > 1 ==> q[0].priority > q[1].priority;
      ConsValid(q[0], rest);
    }
  }

  lemma ValidTail<T>(q: Queue<T>)
    requires Valid(q) && |q| > 0
    ensures Valid(q[1..])
  {
    assert forall i :: 0 <= i < |q| - 1 ==> q[1..][i] == q[i + 1];
  }

  /** A non-empty sub-queue of higher priority than the first one of a
      valid queue may go in front of it. */
  lemma ConsValid<T>(s: SubQueue<T>, q: Queue<T>)
    requires Valid(q) && |s.items| > 0
    requires |q| > 0 ==> s.priority > q[0].priority
    ensures Valid([s] + q)
  {
    var r := [s] + q;
    forall i, j | 0 <= i < j < |r| ensures r[i].priority > r[j].priority {
      assert r[j] == q[j - 1];
      if i > 0 {
        assert r[i] == q[i - 1];
      } else if j > 1 {
        assert q[0].priority > q[j - 1].priority;
      }
    }
  }

  /** enqueRegion: an item whose priority is undefined (None) raises. */
  function Enqueue<T>(q: Queue<T>, priority: Option<int>, x: T): (r: Result<Queue<T>>)
    ensures r.Err? <==> priority.None?
    ensures r.Ok? ==> r.value == Push(q, priority.value, x)
  {
    match priority
    case None => Err("Region has no priority.")
    case Some(p) => Ok(Push(q, p, x))
  }

  /** dequeRegion: the first item of the first sub-queue, which is dropped
      once it has given up its last item; None (undefined) for an empty
      queue.  A sub-queue that is somehow empty yields undefined and stays. */
  function Dequeue<T>(q: Queue<T>): (r: Option<(T, Queue<T>)>)
    ensures Valid(q) ==> (r.None? <==> |q| == 0)
    ensures r.Some? ==> Size(r.value.1) + 1 == Size(q)
    ensures Valid(q) && r.Some? ==> Valid(r.value.1)
  {
    if |q| == 0 then None
    else if |q[0].items| == 0 then None
    else if |q[0].items| == 1 then Some((q[0].items[0], q[1..]))
    else Some((q[0].items[0], [SubQueue(q[0].priority, q[0].items[1..])] + q[1..]))
  }

  // ---------------------------------------------------------------------
  // Per-priority FIFO behaviour

  lemma {:induction false} ItemsAtAbsent<T>(q: Queue<T>, p: int)
    requires !HasPriority(q, p)
    ensures ItemsAt(q, p) == []
  {
    if |q| > 0 {
      assert forall i :: 0 <= i < |q[1..]| ==> q[1..][i] == q[i + 1];
      ItemsAtAbsent(q[1..], p);
    }
  }

  lemma {:induction false} ItemsAtBelow<T>(q: Queue<T>, p: int)
    requires Valid(q) && |q| > 0 && p > q[0].priority
    ensures !HasPriority(q, p)
  {
    forall i | 0 <= i < |q| ensures q[i].priority <= q[0].priority {
      if i > 0 { assert q[0].priority > q[i].priority; }
    }
  }

  /** Pushing `x` at priority `p` appends it to the items waiting at `p` and
      leaves every other priority alone. */
  lemma {:induction false} PushFifo<T>(q: Queue<T>, p: int, x: T, p': int)
    requires Valid(q)
    ensures ItemsAt(Push(q, p, x), p') == if p' == p then ItemsAt(q, p) + [x] else ItemsAt(q, p')
  {
    var r := Push(q, p, x);
    if |q| == 0 {
    } else if q[0].priority == p {
      assert r[1..] == q[1..];
    } else if q[0].priority < p && !HasPriority(q, p) {
      assert r[1..] == q;
      ItemsAtAbsent(q, p);
    } else {
      assert Valid(q[1..]);
      PushFifo(q[1..], p, x, p');
      assert r[1..] == Push(q[1..], p, x);
    }
  }

  /** Dequeue hands out the oldest item of the highest waiting priority and
      removes exactly that item. */
  lemma DequeueOldestOfHighest<T>(q: Queue<T>)
    requires Valid(q) && |q| > 0
    ensures var top := q[0].priority;
      && Dequeue(q).Some?
      && (forall p :: p > top ==> ItemsAt(q, p) == [])
      && Dequeue(q).value.0 == ItemsAt(q, top)[0]
      && ItemsAt(Dequeue(q).value.1, top) == ItemsAt(q, top)[1..]
      && (forall p :: p != top ==> ItemsAt(Dequeue(q).value.1, p) == ItemsAt(q, p))
  {
    var top := q[0].priority;
    forall p | p > top ensures ItemsAt(q, p) == [] {
      ItemsAtBelow(q, p);
      ItemsAtAbsent(q, p);
    }
    if |q[0].items| == 1 {
      assert Dequeue(q).value.1 == q[1..];
      ValidTail(q);
      if |q[1..]| > 0 {
        ItemsAtBelow(q[1..], top);
      }
      ItemsAtAbsent(q[1..], top);
    } else {
      var r := [SubQueue(top, q[0].items[1..])] + q[1..];
      assert Dequeue(q).value.1 == r;
      assert r[1..] == q[1..];
      forall p | p != top ensures ItemsAt(r, p) == ItemsAt(q, p) {
      }
    }
  }

  /** Dequeue then yields nothing exactly when no item is waiting. */
  lemma {:induction false} EmptyIffNoItems<T>(q: Queue<T>)
    requires Valid(q)
    ensures Dequeue(q).None? <==> Size(q) == 0
  {
    if |q| > 0 {
      assert |q[0].items| > 0;
    }
  }
}

=== FILE: wrappers.dfy ===
/** Failure-compatible result types shared by every module of the model.
    `Err` stands for a JavaScript `throw` or a Python `raise`: the operation is
    abandoned and the message says which guard fired.  The model does not go
    on past an error, although the page's step timer would. */
module Wrappers {

  datatype Option<+T> = None | Some(value: T) {
    function GetOr(default: T): T {
      match this
      case Some(v) => v
      case None => default
    }
  }

  datatype Result<+T> = Ok(value: T) | Err(msg: string) {
    predicate IsFailure() {
      Err?
    }

    function PropagateFailure<U>(): Result<U>
      requires Err?
    {
      Err(msg)
    }

    function Extract(): T
      requires Ok?
    {
      value
    }
  }
}
